=== FILE: README.md ===
# osu-wiki-tools, modelled in Dafny

This project models the core of osu-wiki-tools, the maintenance tooling of the osu! wiki, and proves properties of the model. The tooling does the following:

- it parses Markdown articles for links, comments, code blocks, reference definitions and identifiers;
- it checks that wiki links resolve, through the files of the repository, `wiki/redirect.yaml` and section identifiers;
- it classifies article, translation and news-post paths;
- it finds translations that must be marked outdated when their English original changes;
- it generates tables from templates and CSV data;
- it updates the "osu! originals" article;
- it lints front matter.

Every operation is a pure function over immutable data. Each operation that can raise in Python returns `Outcomes.Result`, and the error names the exception raised.

## Modules and source files

| Module | Source file |
|---|---|
| `Comments` | `wikitools/comment_parser.py` |
| `CodeBlocks` | `wikitools/code_block_parser.py` |
| `Links` | `wikitools/link_parser.py` |
| `References` | `wikitools/reference_parser.py` |
| `Redirects` | `wikitools/redirect_parser.py` |
| `Keyed` | the "numbered lines into a dictionary, last entry wins" shape the three loaders above share |
| `FrontMatter` | the front matter of `wikitools/article_parser.py` and `wikitools_cli/commands/check_yaml.py` |
| `Articles` | `wikitools/article_parser.py` (`parse`, identifier numbering, `Article.path`) |
| `LinkChecker` | `wikitools/link_checker.py` |
| `FileUtils` | `wikitools/file_utils.py` |
| `Templates` | `Format`, `Filter` and the converters of `wikitools/template_generator.py`; `TableRow` of `wikitools/table_row.py` |
| `Tables` | `Table` of `wikitools/table_generator.py` |
| `Descriptors` | `wikitools/template_descriptor.py` |
| `Generate` | `wikitools_cli/commands/generate_templates.py` |
| `YamlRules` | `wikitools/yaml_rules.py` |
| `OnlineData` | the row shaping of `wikitools/online_data.py` |
| `Outdated` | `wikitools_cli/commands/check_outdated_articles.py`, and its older copies `wikitools_cli/check_outdated_articles.py` and `wikitools_cli/check_expired_articles.py` |
| `Originals` | `wikitools_cli/commands/update_originals.py` |
| `CheckLinks` | `wikitools_cli/commands/check_links.py` |
| `Cli` | `wikitools_cli/osu_wiki_tools.py` |
| `BrokenLinks` | `find-broken-wikilinks.py` |

Some modules stand for Python library behaviour the tools rely on:

- `Text`: `str` methods;
- `Paths`: `posixpath`, `PurePosixPath`, `normpath`, `commonpath` and `relpath`;
- `Glob`: `fnmatch`;
- `Urls`: `urlparse`;
- `Sorting`: the stable `sorted`.

## Copies

The source repeats some code, so it is modelled once. Each copy's differences are stated where they exist.

- `find-broken-wikilinks.py:179-341` holds `find_comments`, `is_in_comment`, `Brackets`, `State`, `find_link` and `find_links`.
  - They are the same text as `comment_parser.py` and `link_parser.py`, and `load_redirects` (127-136) is the same as `redirect_parser.py`.
  - `BrokenLinks` therefore calls `Comments`, `Links` and `Redirects`.
  - `BrokenLinks.AfterIsNextState` shows that the script's own update of the comment state is `Comments.NextState`.
  - What is the script's own is modelled in `BrokenLinks`: `directory`, `check_redirect` (no note for a missing key), `check_link`, the file filter and the counts.
- `table_generator.py` repeats `template_generator.py`'s `Format` (121-284 there, 93-256 here) and `Filter` (289-396 there, 304-411 here) line for line.
  - `Templates` models them once.
  - Their descriptor `filter` accessors differ: `Descriptors.TableFilter` and `Descriptors.TemplateFilter` give both behaviours.
  - Both files also define their own `Alignment` and `SortOrder` enums (template_generator.py:69-108, table_generator.py:260-299). This difference matters, because Python compares Enum members by identity.
    - The descriptor hands template_generator's members to table_generator's `Table`.
    - `Tables.Origin` records which class a member belongs to. `Tables.MarkdownOf` and `Tables.Reverses` compare as the program does.
    - The consequences are two Findings below.
- The two older outdaters share `Outdated`'s listing and hash checks.
  - `Outdated.LegacyRun`, `Outdated.ExpirerNames` and their lemmas state where they differ: the hash fallback, the empty default hash, and the expirer's `??.md`/`??-??.md` filter.

## As written, and as intended

The Findings below are each modelled twice:

- a member that does what the code does, with a lemma that exhibits the input where it goes wrong;
- a corrected member, with the intended property proved about it.

Members that model a larger operation of the program call the as-written half, so they keep the program's behaviour. For example:

- `Articles.Analyze`, `References.ExtractAll` and `Links.FindReferences` raise on a bare `[a]:` line, as the program does;
- `Originals.Set` parses an assigned string with the parser as written;
- `BrokenLinks.Main` counts error files the way the script does;
- `Generate.Entry`, and with it `Generate.GenerateArticle`, makes each table with template_generator's enum members, as `make_table` receives them.

## Where the code, not the documentation, is followed

- `article_parser.parse` calls `comment_parser.CommentParser()` (article_parser.py:116) and `Link.start` (131-132), which the shipped `comment_parser.py` and `link_parser.py` do not define.
  - The model threads the "inside a comment" flag from line to line with `parse(line, in_multiline)`, as `find-broken-wikilinks.py:429-433` does.
  - It uses `link_start` for the link's start.
- The template modules have the same gap, and theirs is larger.
  - `template_generator.py:14`, `template_descriptor.py:9` and `table_generator.py:14` import `FrontMatterDetector` from `article_parser`, which does not define it.
  - `load_template_descriptors` (template_descriptor.py:143-144) and its copy in table_generator.py:542-543 call `comment_parser.CommentParser()` and `FrontMatterDetector()`.
  - As shipped, these modules, and with them `generate_templates.py`, fail when they are imported.
  - The model gives each line's comment flag and front-matter flag as an input that stands in for both readers: see `Descriptors.Step`, `Descriptors.RunPlaced`, `Descriptors.RunBlock`, `Descriptors.LoadBlock` and `Descriptors.LoadFound`.
  - Everything `Generate` states is therefore about the modules as they evidently would run once the two readers exist.
- `link_checker.check_link` resolves a reference-style link through `link_.resolve(references)` (link_checker.py:27), which the shipped `Link` lacks.
  - `LinkChecker.LinkRef` takes the resolved location and the location as written as its input.
- `check_link` parses a section file it has not seen with `article_parser.parse` (link_checker.py:72-74), and that parse can raise (IndexError on a bare `[name]:` line, see the Findings).
  - `LinkChecker.Site` records, for each file that can be opened, the parse's identifier names or its exception; `LinkChecker.SectionParsed` ties an entry to `Articles.Parse`.
- The test files exercise a later version of these modules: `Link.raw_location`, a `CommentParser` class and `CodeBlock.closed_at`.
  - Where they disagree with the shipped source, the source is modelled.
- `make_table` puts every row into the group opened last (generate_templates.py:162-201). `Generate` keeps this.
- `code_block_parser.is_in_code_block` compares against a block's `end` literally.
  - After a fence left open on the line, no position on the line counts as code.
  - `CodeBlocks.OpenFenceIgnored` states this.
  - `CodeBlocks.IsInCodeBlockIntended` states the evident intent, and `CodeBlocks.IntendedAgreesOnClosedBlocks` proves that the two agree whenever no fence is left open.
  - This is recorded as a note and not as a finding. `article_parser.parse` reads links only from lines that leave no fence open, so no caller sees the difference.

## Model

One row per member whose contract states something about the source. The source paths are relative to the repository root.

| member | source | states |
|---|---|---|
| Articles.SuffixedInjective | wikitools/article_parser.py:146-148 | for identifiers without `.`, different (name, occurrence) pairs are stored under different keys |
| Articles.DedupNames | wikitools/article_parser.py:143-148 | for identifiers without `.`, `cnt` counts every occurrence; the first occurrence is stored under its own name and the k-th repeat under `name.k`, each with its own line; no other key is stored |
| Articles.DedupStep | wikitools/article_parser.py:144-148 | one more identifier keeps the counts and keys described by `DedupNames` |
| Articles.AddIds | wikitools/article_parser.py:144-148 | finding a name the (c+1)-th time stores it under its c-th suffixed name |
| Articles.StoredIffSeen | wikitools/article_parser.py:146 | a name is already stored under itself exactly when it occurred before |
| Articles.DottedIdentifierOverwritten | wikitools/article_parser.py:146-148 | an identifier that looks like a suffixed name is overwritten: `a`, `a.1`, `a` leaves `a.1` at the third line |
| Articles.KeepLinks | wikitools/article_parser.py:128-135 | a link is kept exactly when it is not the sitemap and starts neither inside a comment nor inside code, and the filter never adds links |
| Articles.KeepLinksIncreasing | wikitools/article_parser.py:128-135 | filtering keeps the links in line order |
| Articles.FindLinksIncreasing | wikitools/link_parser.py:224-231 | `find_links` returns links in strictly increasing start order |
| Articles.Analyze | wikitools/article_parser.py:120-153 | per line: a definition read from a line carries its number and only lines starting with `[` are read; the only errors are `extract`'s ValueError and IndexError, and IndexError happens exactly when the stripped line trips the as-written guard |
| Articles.ReaderNumbered | wikitools/article_parser.py:150-151 | every definition the reader produces carries the number of the line it came from |
| Articles.ParseLinesModes | wikitools/article_parser.py:121-126 | the loop's comment and fence states after a prefix are those the line parsers compute on their own |
| Articles.ParseLinesCached | wikitools/article_parser.py:124-138 | a line is cached exactly when it is read (leaves no comment or fence open) and keeps a link, and the cache holds its text and those links |
| Articles.ParseLinesNames | wikitools/article_parser.py:140-148 | the identifiers counted are those of the read lines, in order, and the stored names are built from them |
| Articles.ParseLinesReferences | wikitools/article_parser.py:150-153 | every stored reference is keyed by its name and is the last definition of that name on a read line, and every definition on a read line has its name stored: the two directions describe the map exactly |
| Articles.Parse | wikitools/article_parser.py:102-155 | `parse` fails exactly when the loop does; the article's directory and file name come from the path and its front matter from `load_front_matter` |
| Articles.ParseIdentifiers | wikitools/article_parser.py:140-148 | the parsed article's identifiers: each first occurrence under its name, the k-th repeat as `name.k`, each with its line, and nothing else |
| Articles.ParseLinesKept | wikitools/article_parser.py:124-138 | the parsed article keeps exactly the read lines with a kept link, with their text and links |
| Articles.ReadLinks | wikitools/article_parser.py:121-135 | the links of a read line are those `find_links` finds outside the comments and code blocks that line's parsers report |
| Articles.ParseReferences | wikitools/article_parser.py:150-153 | a parsed article's references: each is the last definition of its name on a read line, and every definition on a read line is stored under its name |
| Articles.ArticlePath | wikitools/article_parser.py:49-58 | `Article.path` of an article built from a path of at least two plain components is that path in POSIX form |
| Articles.ArticlePathTopLevel | wikitools/article_parser.py:49-58 | a file in the working directory has `.` for directory, so its path reads `./name` |
| BrokenLinks.DirectoryOfArticle | find-broken-wikilinks.py:143-144 | for a file `wiki/<d>/<name>` the directory is `d`, however many levels `d` has |
| BrokenLinks.DirectoryWithoutSlash | find-broken-wikilinks.py:143-144 | a name without `/` loses its last character, because `rfind` gives -1 |
| BrokenLinks.CheckRedirect | find-broken-wikilinks.py:147-156 | the link is looked up in lower case; without a redirect it fails with no note; otherwise it agrees with the wikitools redirect check |
| BrokenLinks.CheckLink | find-broken-wikilinks.py:159-176 | an absolute wiki link passes when its file exists and otherwise falls back on the redirect of the path below `/wiki/`; a relative link likewise from the article's directory; `http://`, `https://` and `mailto:` links always pass |
| BrokenLinks.AbsoluteFallsBackOnPath | find-broken-wikilinks.py:139-166 | a missing absolute link is judged by the redirect of the path after `/wiki/` |
| BrokenLinks.Normalise | find-broken-wikilinks.py:416-418 | backslashes become slashes and one leading `./` is dropped, so the result holds no backslash |
| BrokenLinks.NormaliseExamples | find-broken-wikilinks.py:416-418 | `.\a` and `./b` become `a` and `b` |
| BrokenLinks.CheckedFiles | find-broken-wikilinks.py:415-427 | exactly the normalised names that end in `.md` and mention none of `TEMPLATE`, `README`, `Article_styling_criteria` |
| BrokenLinks.AfterIsNextState | find-broken-wikilinks.py:429-433 | the script's update of the multi-line comment state is the wikitools comment parser's |
| BrokenLinks.CheckLine | find-broken-wikilinks.py:435-449 | links starting in a comment are not counted; `/wiki/Sitemap` is counted but not checked; the bad links are exactly the counted ones that fail `check_link`, in order |
| BrokenLinks.CheckLines | find-broken-wikilinks.py:428-465 | each line is checked in the comment state the lines before it leave, starting outside a comment |
| BrokenLinks.Errors | find-broken-wikilinks.py:448 | the error count is zero exactly when no line has a bad link |
| BrokenLinks.BadLines | find-broken-wikilinks.py:459-460 | the lines with a bad link: no more than the lines nor the errors, and zero exactly when there are no errors |
| BrokenLinks.AnyBrokenSplit | find-broken-wikilinks.py:415-465 | some file has a bad link exactly when the first does or one of the rest does |
| BrokenLinks.Tally | find-broken-wikilinks.py:410-472 | the summary with error files counted once per file, as its wording means: never more than the files checked or the errors; exit code 1 exactly when some file has a bad link |
| BrokenLinks.TallyAsWritten | find-broken-wikilinks.py:410-472 | the counts as the script keeps them: the exit code is 1 exactly when some line has a bad link, and error files never exceed errors |
| BrokenLinks.AsWrittenOvercounts | find-broken-wikilinks.py:459-460 | the two tallies agree on everything but the error-file count, which the script never makes smaller than the per-file count |
| BrokenLinks.TwoBadLinesOneFile | find-broken-wikilinks.py:459-460 | one file with a bad link on each of two lines reports two error files out of one checked |
| BrokenLinks.Spans | find-broken-wikilinks.py:371-373 | one span per link, its position and its coloured form |
| BrokenLinks.FoundLinksVerbatim | find-broken-wikilinks.py:367-375 | the links `find_links` returns lie in order within the line, each covering its own text |
| BrokenLinks.HighlightFoundLinks | find-broken-wikilinks.py:367-375 | highlighting every link of a line with its own text gives the line back without its newline |
| BrokenLinks.Main | find-broken-wikilinks.py:397-473 | nothing to check without targets or `--all`; otherwise the files counted are the checked names, and the exit code is 1 exactly when some checked file has a bad link |
| BrokenLinks.Reports | find-broken-wikilinks.py:409-433 | each checked file's lines are checked with the redirects loaded once, in the file's own directory, starting outside a comment |
| CheckLinks.PluralReadsBack | wikitools_cli/commands/check_links.py:26-27 | `s(n, word)` begins with the count, which reads back from it, then a space and the word, with an `s` exactly when the count is not 1 |
| CheckLinks.PluralInjective | wikitools_cli/commands/check_links.py:26-31 | different counts give different phrases, so the summary line determines its counts |
| CheckLinks.PluralExamples | wikitools_cli/commands/check_links.py:26-27 | `1 error`, `0 files`, `2 links` |
| CheckLinks.HighlightStep | wikitools_cli/commands/check_links.py:37-40 | one step of `highlight_links`: the text up to the error's link, its pretty form, then the rest from just after the link |
| CheckLinks.HighlightIdentity | wikitools_cli/commands/check_links.py:34-42 | where each span is replaced by its own text, highlighting gives back the line without its last character |
| CheckLinks.HighlightOne | wikitools_cli/commands/check_links.py:34-42 | with one error (the `--separate` case): the text before the link, its pretty form, the text after it without the line's last character (see also line 154) |
| CheckLinks.HighlightNothing | wikitools_cli/commands/check_links.py:41 | `s[0:-1]`: with no errors the line loses only its last character, and an empty line stays empty |
| CheckLinks.Filter | wikitools_cli/commands/check_links.py:80-82 | the errors the predicate accepts, no more of them than there were |
| CheckLinks.FilterTwice | wikitools_cli/commands/check_links.py:126-130 | filtering with one predicate and then another is filtering once with both |
| CheckLinks.FilterErrors | wikitools_cli/commands/check_links.py:74-86 | `filter_errors`: a line stays exactly when some of its errors pass, and keeps exactly those, in order |
| CheckLinks.FilterErrorsMembers | wikitools_cli/commands/check_links.py:74-86 | a line stays exactly when one of its errors passes, and holds exactly the passing errors |
| CheckLinks.FilterErrorsTwice | wikitools_cli/commands/check_links.py:126-130 | the two filters of `main`, one after the other, are one filter by both conditions, so their order does not matter |
| CheckLinks.FilterErrorsShrinks | wikitools_cli/commands/check_links.py:74-86 | filtering keeps only lines that had errors and never adds an error to a line |
| CheckLinks.ByLineStrictWeakOrder | wikitools_cli/commands/check_links.py:69 | ordering identifiers by line number is a strict weak order, so sorting by it is well defined |
| CheckLinks.SuggestionLineReadsBack | wikitools_cli/commands/check_links.py:67 | a `line N: identifier` suggestion determines its identifier and its line number: two entries that print alike are the same entry |
| CheckLinks.SuggestionsOrdered | wikitools_cli/commands/check_links.py:65-71 | the suggestions list each identifier once, by ascending line number, identifiers on one line in their recorded order |
| CheckLinks.SuggestionsEmpty | wikitools_cli/commands/check_links.py:65-71 | the suggestions are empty, so not printed, exactly when the target has no identifiers (see also lines 147-149) |
| CheckLinks.KeptIsReported | wikitools_cli/commands/check_links.py:126-130 | the two filters keep exactly the errors whose kind's flag is given or that are of neither section kind, and the lines that keep some |
| CheckLinks.LeastKey | wikitools_cli/commands/check_links.py:140 | the first line number of the sorted error lines is the least one |
| CheckLinks.Count | wikitools_cli/commands/check_links.py:117-138 | one article's step: skipped outdated articles count nothing; a checked one adds a file and its links; it adds an error file and sets the exit code to 1 exactly when errors survive the filters; a raising check raises |
| CheckLinks.Tally | wikitools_cli/commands/check_links.py:105-141 | over all articles: the command raises exactly when some checked article's check raises, and then with the error of the first such article; the exit code is 1 exactly when some checked article keeps errors after the filters; error files never exceed checked files; with `--in-outdated-articles` every article is checked |
| CheckLinks.Targets | wikitools_cli/commands/check_links.py:102 | exactly the targets that are articles or newsposts |
| CheckLinks.Main | wikitools_cli/commands/check_links.py:89-165 | no `--target` values and no `--all`: nothing to check; otherwise the tally, which raises exactly when some article's check raises, with the first raising article's error, and whose exit code is 1 exactly when some article keeps errors |
| Cli.Commands | wikitools_cli/osu_wiki_tools.py:14-35 | exactly four commands, with distinct names and distinct entry points |
| Cli.Lookup | wikitools_cli/osu_wiki_tools.py:14-35 | a command name selects the entry of that name |
| Cli.LookupNames | wikitools_cli/osu_wiki_tools.py:14-35 | every command is selected by its own name |
| Cli.FirstCommand | wikitools_cli/osu_wiki_tools.py:43-49 | the position of the first argument that is a command name, none before it |
| Cli.Split | wikitools_cli/osu_wiki_tools.py:38-51 | `split_args`: `main + sub == args`; `main` ends at the first command name, with no command name before it; without any command name `sub` is empty |
| Cli.SplitArgs | wikitools_cli/osu_wiki_tools.py:38-51 | the loop of `split_args` computes that split |
| Cli.LaterNamesGoToCommand | wikitools_cli/osu_wiki_tools.py:44-49 | a command name after the first goes to the command, as one of its arguments |
| Cli.Dispatch | wikitools_cli/osu_wiki_tools.py:54-78 | no arguments print help and exit with 1; a command name first runs that command on the rest; anything else is argparse's |
| Cli.DispatchExamples | wikitools_cli/osu_wiki_tools.py:54-78 | `check-links --all` runs `check-links` with `--all` |
| Cli.DispatchSecondName | wikitools_cli/osu_wiki_tools.py:44-49 | in `check-yaml check-links` the second name is an argument of `check-yaml` |
| Cli.DispatchVersion | wikitools_cli/osu_wiki_tools.py:54-73 | `--version` alone is left to argparse |
| CodeBlocks.RunLength | wikitools/code_block_parser.py:63-65 | the count is the length of the run of backticks starting at `i`: all backticks, stopped by the end of the line or a non-backtick |
| CodeBlocks.ScanBlocksClose | wikitools/code_block_parser.py:57-75 | every block the scan closes ends at a maximal run of exactly as many backticks as its opening run (or the carried ``` fence), ending at `i + len - 1`; every tag left on the stack is a maximal run or the carried fence at the bottom |
| CodeBlocks.ScanInvStep | wikitools/code_block_parser.py:63-75 | one run: when the top tag has the same length it is popped and a block from its start to the run's last backtick is added; otherwise the run is pushed |
| CodeBlocks.ClosingCarriedFence | wikitools/code_block_parser.py:53-72 | on a line entered inside a fence, a first ``` run at `i` closes the carried tag into a block from -1 to i+2, and scanning goes on with an empty stack |
| CodeBlocks.ParseOutcome | wikitools/code_block_parser.py:77-99 | a fence stays open exactly when the bottom unmatched tag has three backticks, and then the line yields only that open block; otherwise every block returned is one the scan closed |
| CodeBlocks.InsideFence | wikitools/code_block_parser.py:53-82 | inside a fence, a line without a run of exactly three backticks is `[CodeBlock(-1, -1, 3)]` and the fence stays open |
| CodeBlocks.ClosedNotMultiline | wikitools/code_block_parser.py:30-32 | a closed block never ends at -1, so `is_multiline` is false for it |
| CodeBlocks.BlockLessStrictWeakOrder | wikitools/code_block_parser.py:90 | tuple order on (start, end, tag_len) is a strict weak order, so `blocks.sort()` is well defined |
| CodeBlocks.SkipContained | wikitools/code_block_parser.py:95-96 | the inner loop drops exactly the leading blocks the kept block contains and stops at the first one it does not |
| CodeBlocks.ConsumeApart | wikitools/code_block_parser.py:88-99 | the filtered list never holds a block right after one that contains it |
| CodeBlocks.ConsumeCovers | wikitools/code_block_parser.py:88-99 | every block the filter drops is contained in a block it keeps, and every kept block is one of the input's |
| CodeBlocks.AnyInside | wikitools/code_block_parser.py:110-117 | the loop finds a block holding the position strictly inside, or after the start of an open fence |
| CodeBlocks.IsInCodeBlock | wikitools/code_block_parser.py:102-117 | true exactly when the list is non-empty, the position lies between the first start and the last `end` (compared literally) and some block holds it |
| CodeBlocks.OpenFenceIgnored | wikitools/code_block_parser.py:103-115 | with an open fence (end -1) as the only block, no position counts as code, though the loop's `is_multiline` test would accept every position after its start |
| CodeBlocks.IsInCodeBlockIntended | wikitools/code_block_parser.py:102-117 | the reading where an open fence extends the range to the end of the line |
| CodeBlocks.IntendedAgreesOnClosedBlocks | wikitools/article_parser.py:125-132 | without an open fence the two readings agree; `parse` skips every line that leaves a fence open, so `is_in_code_block` is only consulted on such lists |
| Comments.NextState | wikitools/comment_parser.py:34-67 | the state carried to the next line is true exactly when the position just past the line is inside one of its comments (`is_in_comment(len(line), …)`); a line without `-->` leaves a comment open exactly when it starts inside one or holds a `<!--`; outside a comment an open state needs a `<!--`, and inside one a closed state needs a `-->` |
| Comments.ParseWellFormed | wikitools/comment_parser.py:34-67 | every comment's `<!--`/`-->` sit at its start and end-2; comments are in order and apart; only the first may start at -1 (and it does exactly when the line begins inside a comment); only the last may end at -1 |
| Comments.ScanFromWellFormed | wikitools/comment_parser.py:39-67 | a scan from `index` outside a comment yields well-formed comments none of which starts before `index` |
| Comments.MarkersApart | wikitools/comment_parser.py:42-57 | a `-->` found from an `<!--` ends at least two characters after it, so an inline comment has start + 4 <= end |
| Comments.NoCommentIffNoOpening | wikitools/comment_parser.py:41-45 | outside a comment, the result is empty exactly when the line has no `<!--` |
| Comments.WholeLineInComment | wikitools/comment_parser.py:47-63 | inside a comment, a line without `-->` gives exactly `[Comment(-1, -1)]` and leaves the comment open |
| Comments.ClosingCarriedComment | wikitools/comment_parser.py:47-58 | inside a comment, the first `-->` at `end` gives `Comment(-1, end + 2)`, and the rest of the line from end+3 is parsed as a fresh line, positions shifted |
| Comments.ScanFromSuffix | wikitools/comment_parser.py:58 | resuming at `index = end + 3` finds the same comments as parsing that suffix on its own, shifted by the offset |
| Comments.IsInComment | wikitools/comment_parser.py:70-82 | true exactly when some comment covers the index inclusively, -1 leaving that side unbounded |
| Comments.States | find-broken-wikilinks.py:429-433 | the state after each line is `NextState` of that line from the state after the previous line, starting from the given state |
| Descriptors.Follow | wikitools/template_descriptor.py:22-30 | a walk that fails raises TypeError: a missing key is None, not an error |
| Descriptors.FollowNest | wikitools/template_descriptor.py:22-30 | following a path through the document built along it finds the value put there |
| Descriptors.FollowAppend | wikitools/template_descriptor.py:22-30 | following `p + q` follows `p`, then `q`; a missing key or a failure on `p` ends the walk there |
| Descriptors.Typed | wikitools/template_descriptor.py:37-116 | an accessor raises exactly when the walk does, and yields a value only when the path leads to one |
| Descriptors.AlignmentOf | wikitools/template_descriptor.py:57-58 | a known alignment name gives its alignment, and anything else gives LEFT |
| Descriptors.Alignments | wikitools/template_descriptor.py:53-60 | the list at `table.alignments`, entry by entry read as alignments |
| Descriptors.Formats | wikitools/template_descriptor.py:62-68 | a non-string entry raises ValueError; otherwise every entry of the list at `table.format` parsed as a format |
| Descriptors.TableFilter | wikitools/table_generator.py:469-475 | a filter is produced exactly when `table.filter` is a string that parses as a filter |
| Descriptors.TemplateFilter | wikitools/template_descriptor.py:69-76 | the stand-alone copy never produces a filter; it raises exactly when the walk does or `table.filter` is a mapping |
| Descriptors.ReadTableDoc | wikitools/template_descriptor.py:37-76 | the accessors read back what a table document holds, and a string filter is a filter only for the table generator's copy |
| Descriptors.NotMapping | wikitools/template_descriptor.py:22-30 | a document that is not a mapping makes every accessor raise TypeError |
| Descriptors.NoTable | wikitools/template_descriptor.py:22-30 | a document without `table` reads as nothing at all |
| Descriptors.NameLine | wikitools/template_descriptor.py:156-160 | a name line's name and version hold no space |
| Descriptors.NameLineOf | wikitools/template_descriptor.py:156-160 | two space-free words on a non-blank line are read as name and version, stripped |
| Descriptors.Step | wikitools/template_descriptor.py:151-177 | a descriptor is emitted exactly on a line outside a comment after a name line with buffered YAML, carrying that line's number, the name, the version and the loaded YAML; the reader is idle again after any line outside a comment |
| Descriptors.RunWithAppend | wikitools/template_descriptor.py:150-177 | reading two stretches of lines one after the other finds what each finds, in order |
| Descriptors.RunPlaced | wikitools/template_descriptor.py:150-177 | every descriptor found sits on a line that closes a comment, and their lines increase strictly |
| Descriptors.RunNamed | wikitools/template_descriptor.py:156-159 | names and versions of what the loop finds hold no space |
| Descriptors.LoadFound | wikitools/template_descriptor.py:118-179 | `load_template_descriptors` returns descriptors on comment-closing lines, in order, with space-free names |
| Descriptors.RunBody | wikitools/template_descriptor.py:162-165 | inside a named comment nothing is emitted and the buffer collects the YAML lines |
| Descriptors.RunBlock | wikitools/template_descriptor.py:150-177 | a block read from its name line to the line closing the comment gives one descriptor on the closing line when YAML was buffered, none otherwise, and the loader is idle again |
| Descriptors.LoadBlock | wikitools/template_descriptor.py:120-177 | the same for a name line of two space-free words as the loader reads it |
| Descriptors.RunOutside | wikitools/template_descriptor.py:150-177 | lines outside any comment, read while idle, find nothing |
| Descriptors.LoadAppend | wikitools/template_descriptor.py:150-177 | what an idle loader finds in `a + b` is what it finds in `a`, then in `b` |
| FileUtils.Normalised | wikitools/file_utils.py:19-23 | the result holds no backslash, and a normalised path without backslashes or a leading `./` is returned unchanged |
| FileUtils.NormalisedPlain | wikitools/file_utils.py:19-23 | a relative path of plain components without `..` or backslashes is its own normal form |
| FileUtils.NoDotSlash | wikitools/file_utils.py:21-22 | a join of plain components never starts with `./`, so the strip does not apply |
| FileUtils.MaskTwo | wikitools/file_utils.py:87 | `??.md` matches exactly the five-character names ending in `.md` |
| FileUtils.MaskThree | wikitools/file_utils.py:88 | `???.md` matches exactly the six-character names ending in `.md` |
| FileUtils.MaskRegion | wikitools/file_utils.py:89 | `??-??.md` matches exactly the eight-character names with `-` third and ending in `.md` |
| FileUtils.ArticleMaskShape | wikitools/file_utils.py:84-90 | an article file name is exactly a two- or three-character code, or `xx-yy`, followed by `.md` |
| FileUtils.TranslationIsArticleNotOriginal | wikitools/file_utils.py:84-106 | a translation is exactly an article that is not `en.md`; an original is an article and never a translation |
| FileUtils.NewspostBelow | wikitools/file_utils.py:77-81 | a file below plain directories is a news post exactly when its directory path starts with `news` and its name ends in `.md` |
| FileUtils.TranslationNames | wikitools/file_utils.py:173-175 | the names kept are exactly the listed names that are translations |
| FileUtils.TranslationNamesAscending | wikitools/file_utils.py:173-175 | filtering a sorted listing keeps it sorted |
| FileUtils.Map | wikitools/file_utils.py:177 | each name is joined to the directory, with backslashes written as `/`, one path per name |
| FileUtils.Concat | wikitools/file_utils.py:172-177 | a path is in the concatenation exactly when some directory's part holds it |
| FileUtils.TranslationsInListing | wikitools/file_utils.py:172-177 | one directory's part joins exactly its listed translations, in ascending order |
| FileUtils.TranslationsInMembers | wikitools/file_utils.py:172-177 | a path comes from one directory exactly when it joins the directory and a translation listed there |
| FileUtils.ListAllTranslationsMembers | wikitools/file_utils.py:167-177 | `list_all_translations` yields exactly the joined paths of the translations listed in the given directories |
| FrontMatter.Get | wikitools_cli/commands/check_outdated_articles.py:102 | `m.get(key)` is None exactly when the key is absent, and otherwise the value paired with the key |
| FrontMatter.Set | wikitools_cli/commands/check_outdated_articles.py:124-125 | dict assignment: an existing key keeps its place and the key order is unchanged; a new key is appended; every other entry is untouched |
| FrontMatter.SetGet | wikitools_cli/commands/check_outdated_articles.py:124-125 | after assignment the key reads back the new value and every other key reads as before |
| FrontMatter.SetDistinct | wikitools_cli/commands/check_outdated_articles.py:124-125 | assignment keeps the keys distinct |
| FrontMatter.BeforeHash | wikitools/article_parser.py:67 | `line.split('#')[0]` is the longest prefix without `#`, stopped by the first `#` |
| FrontMatter.BeforeHashIsSplit | wikitools/article_parser.py:67 | the prefix is exactly the first piece of splitting the line on `#` |
| FrontMatter.KindOf | wikitools/article_parser.py:67-70 | a line is a delimiter exactly when its text before `#`, stripped, is `---`; a title exactly when it is not a delimiter and starts with `# ` |
| FrontMatter.TitleNotDelimiter | wikitools/article_parser.py:67-70 | a title line is never counted as a delimiter |
| FrontMatter.ScanStops | wikitools/article_parser.py:66-72 | the loop reads up to the first title or second delimiter (or the end), having counted the delimiters before it plus that line's own |
| FrontMatter.ClosesOnce | wikitools/article_parser.py:66-72 | at most one line can close the block |
| FrontMatter.ScanCloses | wikitools/article_parser.py:66-75 | the loop ends on a second delimiter exactly when some line closes a block, and then on that line |
| FrontMatter.BlockCloses | wikitools/article_parser.py:61-77 | the buffered block exists exactly when some line closes it, and it is every line before that one, the first `---` and anything above it included |
| FrontMatter.Load | wikitools/article_parser.py:61-77 | `load_front_matter` gives the YAML of the block when there is one and the empty mapping otherwise |
| FrontMatter.BlockText | wikitools_cli/commands/check_yaml.py:27-42 | check_yaml's `front_matter` joins the block's lines when there is one; its only error is ValueError |
| FrontMatter.BlockTextOutcome | wikitools_cli/commands/check_yaml.py:38-42 | without a block: no delimiter read gives the empty text, one delimiter read is ValueError |
| FrontMatter.ReadYaml | wikitools_cli/commands/check_yaml.py:45-50 | a `.md` file yields its front-matter text, any other file its whole text |
| FrontMatter.Body | wikitools/article_parser.py:92-97 | the copied part of the old file starts at its first title line and skips only lines that are not titles; with no title nothing is copied |
| FrontMatter.Save | wikitools/article_parser.py:80-99 | nothing is written for an empty mapping; otherwise the file starts with `---`, the dumped mapping, `---` and an empty line |
| FrontMatter.SaveKeepsBody | wikitools/article_parser.py:92-97 | the saved file keeps the old file's text from its title on |
| FrontMatter.SaveIdempotent | wikitools/article_parser.py:80-99 | saving a saved file again with the same mapping changes nothing |
| FrontMatter.SaveThenBlock | wikitools/article_parser.py:61-99 | loading the saved file finds exactly the written block, `---` and the dumped lines, when the dump holds no delimiter or title |
| Generate.Level | wikitools_cli/commands/generate_templates.py:51-56 | the heading level is the length of the run of `#` the line starts with |
| Generate.Update | wikitools_cli/commands/generate_templates.py:37-46 | a line not starting with `#` leaves the heading path alone; a heading of level L keeps the first `min(L, depth + 1) - 1` names and puts its own name after them |
| Generate.SkipFromReaches | wikitools_cli/commands/generate_templates.py:60-74 | `skip_while` stops at the first line that passes, with the tracker as it stands after that line; at the end of the input it hands back `""` with every line consumed; no earlier line passes |
| Generate.SkipWhile | wikitools_cli/commands/generate_templates.py:60-74 | never more lines are consumed than remain |
| Generate.TargetAt | wikitools_cli/commands/generate_templates.py:97-99 | the first table whose descriptor sits on the line, and none exactly when no table does |
| Generate.ReplacedSection | wikitools_cli/commands/generate_templates.py:106-116 | a split table takes its whole section: every line up to the next heading no deeper than the descriptor's is consumed, and that heading is the line reached; without one, the rest of the file goes |
| Generate.ReplacedNoTable | wikitools_cli/commands/generate_templates.py:117-132 | without an old `\|` table only the blank lines up to the next line with content are replaced, and that line is reached |
| Generate.Ended | wikitools_cli/commands/generate_templates.py:102-104 | the descriptor's line is written with a line break at its end |
| Generate.SaveCopyCons | wikitools_cli/commands/generate_templates.py:141-143 | a line without a descriptor is copied |
| Generate.SaveTargetStep | wikitools_cli/commands/generate_templates.py:97-139 | on a descriptor's line the loop writes the line and the table, and goes on after what was replaced |
| Generate.SaveEnds | wikitools_cli/commands/generate_templates.py:145 | the last string written is the closing line break |
| Generate.SaveTables | wikitools_cli/commands/generate_templates.py:78-147 | the new text of the file ends with a line break |
| Generate.SaveCopies | wikitools_cli/commands/generate_templates.py:89-145 | where no descriptor sits, every line is written as it was, followed by the final line break |
| Generate.SaveNothing | wikitools_cli/commands/generate_templates.py:78-147 | a file without tables is only given a final line break |
| Generate.SaveOpensTarget | wikitools_cli/commands/generate_templates.py:102-136 | at a descriptor's line the output opens with the line, its line break, a blank line and the stripped table |
| Generate.SaveAtTarget | wikitools_cli/commands/generate_templates.py:89-143 | up to the first descriptor every line is written as it was, then the descriptor's line followed by a blank line and its table |
| Generate.SaveTablesInsert | wikitools_cli/commands/generate_templates.py:78-147 | the text up to the first descriptor is kept, then the descriptor's line ended, a blank line and the stripped table |
| Generate.CellsFromOk | wikitools_cli/commands/generate_templates.py:205-208 | the cells of a row are rendered exactly when every format applies |
| Generate.CellsFromValues | wikitools_cli/commands/generate_templates.py:205-208 | cell `j` comes from format `j`, one cell per column |
| Generate.CellsFromShort | wikitools_cli/commands/generate_templates.py:206-207 | a format list shorter than the header fails with IndexError |
| Generate.Render | wikitools_cli/commands/generate_templates.py:204-210 | a row renders exactly when every cell does; with columns, an error reading the formats propagates and a missing format list raises TypeError |
| Generate.RenderCells | wikitools_cli/commands/generate_templates.py:205-208 | a rendered row of a format list is its cells, one per column |
| Generate.CellText | wikitools_cli/commands/generate_templates.py:206 | a rendered cell is the format applied to the data row, stripped |
| Generate.RenderShort | wikitools_cli/commands/generate_templates.py:206-207 | formats that all apply but are fewer than the columns fail with IndexError |
| Generate.RenderAll | wikitools_cli/commands/generate_templates.py:203-211 | the data rows rendered in order; the first failing row decides the error |
| Generate.HeaderNames | wikitools_cli/commands/generate_templates.py:160-213 | the header entries must all be strings, else printing raises TypeError |
| Generate.Display | wikitools/table_generator.py:582-603 | the display table has the descriptor's header, one row per rendered data row, and the Markdown string of each alignment, as `Table.__init__` builds it from table_generator's own members |
| Generate.PrintedFrom | wikitools/table_generator.py:582-607 | `str(table)` with table_generator's own members is the printed display table; with template_generator's members it raises TypeError exactly when there are alignments, since each becomes None and the join of the alignment row refuses it (table_generator.py:674-677) |
| Generate.AlignedTablePrints | wikitools/table_generator.py:606-607 | with table_generator's own members, printing succeeds and the alignment line holds the Markdown string of each alignment, or `:--` per column when there are none |
| Generate.TestTableAlignmentLine | tests/test_generate_templates.py:41-59 | for the test's `centre`, `left`, `left`, printing as written raises TypeError, while the intended alignment line is `\| :-: \| :-- \| :-- \|` |
| Generate.Printed | wikitools_cli/commands/generate_templates.py:213 | `str(table)` ends with a line break |
| Generate.StepOrder | wikitools_cli/commands/generate_templates.py:168-187 | one step adds the row to the group rows and its key to the keys when it is new |
| Generate.StepGrouped | wikitools_cli/commands/generate_templates.py:168-187 | one step keeps the groups well formed |
| Generate.GroupFromKeysRead | wikitools_cli/commands/generate_templates.py:169 | the loop only succeeds when it can read every row's key |
| Generate.GroupFromSources | wikitools_cli/commands/generate_templates.py:168-187 | the groups hold exactly the rows with a non-empty key, in their order |
| Generate.GroupFromKeys | wikitools_cli/commands/generate_templates.py:170-178 | the groups open in order of their keys' first appearance |
| Generate.GroupRows | wikitools_cli/commands/generate_templates.py:163-187 | split grouping gives well-formed groups holding exactly the rows with a non-empty key, in key order of first appearance |
| Generate.GroupTexts | wikitools_cli/commands/generate_templates.py:195-197 | each group's prefix followed by its shown table; the first table that cannot be shown ends the loop with its error |
| Generate.Present | wikitools_cli/commands/generate_templates.py:199 | `filter(None, ...)` keeps exactly the non-empty texts, in order |
| Generate.DataTable | wikitools_cli/commands/generate_templates.py:152-158 | an error reading `data` propagates, an empty CSV file raises StopIteration, and without a file there are no data rows |
| Generate.SortAsWritten | wikitools/table_generator.py:666-669 | with template_generator's order, the sorted rows are in ascending key order whatever order is asked for |
| Generate.SortIntended | wikitools/table_generator.py:666-669 | with table_generator's own order, the sorted rows are in the order asked for: descending keys for DESCENDING, ascending otherwise |
| Generate.DataTableOrigins | wikitools_cli/commands/generate_templates.py:152-158 | the two readings of the order give the same data table unless the descriptor asks for `descending` |
| Generate.SplitText | wikitools_cli/commands/generate_templates.py:164-200 | with template_generator's members and non-empty alignments, every group's table raises, so split mode that succeeds gives the empty text |
| Generate.PlainText | wikitools_cli/commands/generate_templates.py:202-213 | plain mode succeeds exactly when the header is all strings, every data row renders and, with template_generator's members, there are no alignments; the text ends with a line break |
| Generate.MakeTable | wikitools_cli/commands/generate_templates.py:151-213 | a failing data table fails the table; a result means `split_by` was readable; a plain table ends with a line break; with template_generator's members, a descriptor with alignments yields only an empty split table |
| Generate.Entry | wikitools_cli/commands/generate_templates.py:246-247 | an entry exists exactly when `make_table` succeeds on the descriptor as the program passes it (template_generator's enums), and holds the descriptor's line and that table |
| Generate.MakeTables | wikitools_cli/commands/generate_templates.py:245-247 | every descriptor's entry is made, in order, or the first failure ends the command |
| Generate.GenerateArticle | wikitools_cli/commands/generate_templates.py:241-249 | the rewritten article ends with a line break, and an article without descriptors is only given one |
| LinkChecker.Location | wikitools/link_checker.py:42-45 | a `/wiki/` location is kept; any other is placed below the article's directory under `wiki`, which fails only for an article without a directory; the result always starts with `/wiki/` |
| LinkChecker.TargetOf | wikitools/link_checker.py:47 | the target path is relative and its first component is `wiki` |
| LinkChecker.RelativeTarget | wikitools/link_checker.py:42-47 | a relative link from an article in `wiki/<dirs>` names `wiki/<dirs>/<its own components>` |
| LinkChecker.RelativeDirectory | wikitools/link_checker.py:44 | the article directory relative to `wiki` is its components below `wiki`, or `.` |
| LinkChecker.Follow | wikitools/link_checker.py:48-58 | a target that is reached exists |
| LinkChecker.FollowExisting | wikitools/link_checker.py:48-49 | an existing target is reached without consulting the redirects |
| LinkChecker.FollowMissing | wikitools/link_checker.py:49-58 | a missing target is looked up by its lower-cased path below `wiki`: no redirect gives "not found" with the path as written, a redirect to a missing destination gives a broken redirect with its line and destination, otherwise the destination is reached |
| LinkChecker.FollowIgnoresCase | wikitools/link_checker.py:52 | two missing targets whose paths differ only in ASCII letter case follow the same redirect |
| LinkChecker.SectionFile | wikitools/link_checker.py:64-69 | the translation in the linking article's language is used exactly when the article is not `en.md` and that file exists; otherwise the target's `en.md` |
| LinkChecker.OriginalUsesEnglish | wikitools/link_checker.py:67-69 | from an original, fragments are always looked up in the target's `en.md` |
| LinkChecker.CheckSection | wikitools/link_checker.py:60-79 | without a fragment the link is good; a failure is OSError for a section file that cannot be opened, or the exception that parsing one of the site's files raises |
| LinkChecker.SectionError | wikitools/link_checker.py:71-77 | a fragment raises exactly when the section file cannot be opened (OSError) or its parse raises (with the parse's exception); it is good exactly when it is one of the parsed file's identifiers, and otherwise is a missing identifier naming the file, the fragment and whether the translation was used |
| LinkChecker.SectionParsed | wikitools/link_checker.py:71-74 | when the site's entry for the section file is what `article_parser.parse` makes of its lines, a fragment raises exactly when that parse raises (IndexError on a bare `[name]:` line, for one), with the parse's exception, and is good exactly when it is one of the parsed identifiers |
| LinkChecker.CheckLink | wikitools/link_checker.py:13-79 | an unresolved reference is a missing reference with the location as written; a link with a scheme is good; a host without a scheme raises RuntimeError; any other exception is ValueError from `relpath` or one that opening or parsing a section file raises |
| LinkChecker.LineErrors | wikitools/link_checker.py:88-92 | a line raises exactly when one of its links raises; otherwise it reports exactly the links with errors, each with its own error |
| LinkChecker.CheckArticle | wikitools/link_checker.py:82-94 | the article raises exactly when one of its lines does; otherwise the map holds exactly the lines with errors, keyed by line number, each with that line's errors |
| LinkChecker.ReportsStep | wikitools/link_checker.py:88-92 | adding one line's errors to the report of the earlier lines reports all of them, and a line without errors adds no key |
| Links.FindFrom | wikitools/link_parser.py:157-221 | a link found from index `i` ends at or after `i` and inside the line |
| Links.FindLink | wikitools/link_parser.py:146-221 | a link `find_link(s, index)` returns ends inside the line, at or after `index` |
| Links.FindLinkSound | wikitools/link_parser.py:146-221 | every returned link starts at a `[` at or after `index`, before its end; `full_link` is exactly `s[link_start..link_end]`; the title is bracket-balanced; an inline location holds no space, `#` or `?` and `extra` is empty or starts with one of them, and the content is parenthesis-balanced; a reference link has empty `extra` and a bracket-balanced location |
| Links.FindFromSound | wikitools/link_parser.py:157-221 | from any state satisfying the scanner invariant, the link the loop returns is sound and starts no earlier than the pending `[` |
| Links.StepAdvances | wikitools/link_parser.py:160-219 | one loop iteration keeps the scanner invariant (bracket and parenthesis depths equal one plus the net count since the opening, which never goes negative) or returns a sound link |
| Links.StepStartValid | wikitools/link_parser.py:167-183 | while in the title, the bracket depth is tracked; a closing `]` at the end of the line or not followed by `(` or `[` returns to idle |
| Links.StepInlineValid | wikitools/link_parser.py:185-205 | inside `(...)`, the first space, `#` or `?` starts `extra` and the parenthesis that brings the depth to zero closes the link |
| Links.StepReferenceValid | wikitools/link_parser.py:207-219 | inside the second `[...]`, the bracket that brings the depth to zero closes a reference link with empty `extra` |
| Links.InlineCloses | wikitools/link_parser.py:191-204 | the closing `)` yields the link with title `s[start+1..location-2]`, location up to the extra start (or the end), extra up to the `)` |
| Links.FindLinksOrdered | wikitools/link_parser.py:224-231 | `find_links` returns sound links, each ending before the next one starts |
| Links.UnfollowedBracket | wikitools/link_parser.py:171-183 | a balanced `[...]` that ends the line or is followed by neither `(` nor `[` yields no link: the search gives what a search after its `]` gives |
| Links.Child | wikitools/link_parser.py:107-108 | `child(path)` is a suffix of the path |
| Links.ChildCut | wikitools/link_parser.py:107-108 | with the first `/` at index k >= 1, `child` is everything after it |
| Links.ChildWhole | wikitools/link_parser.py:107-108 | with no `/` after index 0, `find` gives -1 and `child` is the whole path |
| Links.DefinitionColonAsWritten | wikitools/link_parser.py:235-236 | the guard raises IndexError exactly when the line starts with `[`, its first `:` follows `]` and is the last character; otherwise it agrees with the corrected guard |
| Links.DefinitionColon | wikitools/link_parser.py:235-236 | a definition colon exists exactly when the line starts with `[`, its first `:` follows `]` and a space follows the `:` |
| Links.FindReferenceAsWritten | wikitools/link_parser.py:234-238 | `find_reference` raises IndexError exactly when the guard does, and otherwise returns what the corrected version returns |
| Links.BareColonRaises | wikitools/link_parser.py:236 | `find_reference("[a]:")` raises IndexError as written, while the corrected version finds nothing |
| Links.FindReference | wikitools/link_parser.py:234-238 | a pair is returned exactly when the guard holds; the line is `[` + name + `]: ` + the rest, and the second part is the rest without the line's last character |
| Links.ReferenceEntry | wikitools/link_parser.py:245-247 | a line contributes name to (location, line number) exactly when `find_reference` finds a pair |
| Links.FindReferences | wikitools/link_parser.py:241-249 | the file raises IndexError exactly when some line raises; otherwise every line reads as the corrected `find_reference` and the result is the collected map |
| Links.ReferenceMapDomain | wikitools/link_parser.py:244-247 | a name is a key exactly when some line defines it |
| Links.ReferenceMapLastWins | wikitools/link_parser.py:244-247 | a name's entry records the last line defining it, with that line's location |
| OnlineData.Zip | wikitools/online_data.py:25 | `zip` pairs the header and the row up to the shorter of the two |
| OnlineData.DictOfLast | wikitools/online_data.py:25 | the dict's keys are exactly the pairs' keys, and each keeps the value of its last pair |
| OnlineData.RowDictCells | wikitools/online_data.py:25 | a row's mapping holds the header names of the columns the row reaches, and a repeated name takes the cell of its last column |
| OnlineData.ListToDictTable | wikitools/online_data.py:21-26 | an empty table raises IndexError; otherwise one mapping per row after the header row, each built from the header and that row |
| OnlineData.PadRow | wikitools/online_data.py:48 | a short row is padded with `""` to the count, a long one is kept, and the original cells stay in place |
| OnlineData.PadRows | wikitools/online_data.py:45-48 | no rows raises IndexError; otherwise every row is padded to at least the first row's width, keeping its cells and adding only `""` |
| OnlineData.SheetTableKeys | wikitools/online_data.py:45-49 | after padding, each mapping's keys are exactly the header names, and a short row's missing cells read as `""` |
| OnlineData.ShortRowExample | wikitools/online_data.py:25-48 | without the padding a short row loses the names it does not reach; with it they read as `""` |
| OnlineData.DuplicateHeaderExample | wikitools/online_data.py:25 | with a repeated header name the later column wins |
| Originals.GroupingAsWritten | wikitools_cli/commands/update_originals.py:138-159 | the loop of `MarkdownSection.__init__` as written: every range it records starts at a heading of the next level |
| Originals.Grouped | wikitools_cli/commands/update_originals.py:138-159 | the intended grouping cuts the chunks into a top part without headings followed by consecutive runs, each opening at a heading and holding no other |
| Originals.Group | wikitools_cli/commands/update_originals.py:144-159 | the intended loop from any reachable state ends in a grouping that cuts the chunks as above |
| Originals.ChainedWithin | wikitools_cli/commands/update_originals.py:149-154 | the runs a grouping records lie in order within the chunks they cut |
| Originals.ScanEnd | wikitools_cli/commands/update_originals.py:144-159 | once every chunk is read, closing the open run gives a grouping that cuts all chunks |
| Originals.ChildShorter | wikitools_cli/commands/update_originals.py:153 | a subsection is parsed from a text no longer than its parent's, which is why the recursion ends |
| Originals.StrJoin | wikitools_cli/commands/update_originals.py:180-186 | `str(section)` joins the chunks and the subsections' texts with blank lines, with one blank line between the two parts only when both are present |
| Originals.JoinGroups | wikitools_cli/commands/update_originals.py:139-185 | a top part and consecutive runs, each joined with blank lines, join back to the whole text |
| Originals.ParseRoundTrip | wikitools_cli/commands/update_originals.py:134-186 | printing the (corrected) parse gives back the text exactly, at every level of the tree |
| Originals.ParseShape | wikitools_cli/commands/update_originals.py:144-159 | the chunks before the first heading of the next level stay in the section and each such heading opens a subsection |
| Originals.TrailingHeadingLost | wikitools_cli/commands/update_originals.py:144-159 | as written, a heading that is the last chunk opens a section that is never closed, so printing drops it; the corrected parse keeps it |
| Originals.TrailingHeadingMerged | wikitools_cli/commands/update_originals.py:149-154 | as written, a second heading that is the last chunk is put inside the first section: one subsection instead of two |
| Originals.TrailingHeadingExample | wikitools_cli/commands/update_originals.py:144-159 | `"Intro\n\n# Title"` prints back as `"Intro"` under the parser as written |
| Originals.ListIndex | wikitools_cli/commands/update_originals.py:165-175 | Python list indexing: a valid index lies in `-n..n-1` and a negative one counts from the end; any other is an IndexError |
| Originals.Get | wikitools_cli/commands/update_originals.py:161-165 | `section[key]`: a non-int key is a TypeError; an int key in range gives one of the subsections |
| Originals.Set | wikitools_cli/commands/update_originals.py:167-175 | `section[key] = value`: a non-int key is a TypeError; the chunks and the number of subsections never change; a value that is neither section nor string changes nothing |
| Originals.SetText | wikitools_cli/commands/update_originals.py:174-175 | assigning a string replaces exactly one subsection's printed text by that string as the written parser keeps it |
| Originals.SetTextDropsTrailingHeading | wikitools_cli/commands/update_originals.py:175 | assigning text that ends in a lone heading (as `main` does for the event sections) prints without that heading (see also lines 452-459) |
| Originals.EscapeBang | wikitools_cli/commands/update_originals.py:362 | `re.sub(r"!$", ...)`: a final `!`, or a `!` before a final newline, gets a backslash; anything else is unchanged |
| Originals.EscapeChainEach | wikitools_cli/commands/update_originals.py:353-361 | the chain of `replace` calls, backslash first, escapes each character on its own: no inserted backslash is escaped again |
| Originals.SanitiseRoundTrip | wikitools_cli/commands/update_originals.py:352-363 | removing the escaping backslashes from a sanitised track name gives back the name |
| Originals.SanitiseOne | wikitools_cli/commands/update_originals.py:352-363 | each of `\ _ ~ \| < >` and a final `!` comes out behind a backslash; any other character is kept |
| Originals.SingleModeIcon | wikitools_cli/commands/update_originals.py:199-209 | each of the four modes gets its icon image, anything else nothing |
| Originals.ModeIconParts | wikitools_cli/commands/update_originals.py:195-198 | a text without `", "` gets the icon of one mode; a list gets the icon of each part, joined with spaces |
| Originals.FirstRule | wikitools_cli/commands/update_originals.py:212-226 | the first rule, in the order of the tests, whose test the link passes; none when it passes no test |
| Originals.LinkIcon | wikitools_cli/commands/update_originals.py:212-226 | the icon is empty exactly when no test passes, and otherwise is the icon of the first test that passes |
| Originals.Cells | wikitools_cli/commands/update_originals.py:71 | the cells of the given columns in order; a missing column is a KeyError (see also line 230) |
| Originals.NonEmpty | wikitools_cli/commands/update_originals.py:230 | `filter(None, ...)` on the links: only non-empty links remain, and every non-empty link is kept as often as it occurs |
| Originals.NonEmptyAppend | wikitools_cli/commands/update_originals.py:230 | dropping the empty links of two lists one after the other keeps the order of the parts, so the kept links keep their column order |
| Originals.NonEmptyOne | wikitools_cli/commands/update_originals.py:230 | a single link is kept exactly when it is non-empty |
| Originals.LinkIcons | wikitools_cli/commands/update_originals.py:229-230 | `link_icons(row)` raises KeyError exactly when one of the five link columns is missing; otherwise it is the icons of the non-empty columns, SoundCloud, YouTube, Spotify, Bandcamp and Asset in that order, joined by spaces |
| Originals.LinkIconsOneColumn | wikitools_cli/commands/update_originals.py:229-230 | a row whose only link is in one column gets that link's icon alone |
| Originals.NoLinksNoIcons | wikitools_cli/commands/update_originals.py:229-230 | a row with every link column empty gets no icons |
| Originals.First | wikitools_cli/commands/update_originals.py:232-236 | the first non-empty string, or `""` exactly when all are empty |
| Originals.MaybeLink | wikitools_cli/commands/update_originals.py:239-242 | no link gives the text, or nothing when asked; a link gives a Markdown link to it |
| Originals.Footnote | wikitools_cli/commands/update_originals.py:245-254 | `FA` and `FA_FEATURE` get their footnote marks, every other status nothing |
| Originals.ShownName | wikitools_cli/commands/update_originals.py:73-75 | a column name starting with `_` is printed blank; any other is printed as it is |
| Originals.RowCells | wikitools_cli/commands/update_originals.py:70-86 | every row's cells in header order, or a KeyError exactly when some row lacks a header column |
| Originals.AsListTable | wikitools_cli/commands/update_originals.py:77-86 | the updater's table as a table of the table generator: the shown header, the same alignments, the given cell rows |
| Originals.PrintTable | wikitools_cli/commands/update_originals.py:77-86 | `Table.print`: a header line, an alignment line (`:--` per column without alignments), then one line per row with its cells in header order; a KeyError exactly when a row lacks a column |
| Originals.ShownHeaderBlanks | wikitools_cli/commands/update_originals.py:73-78 | a printed header name is blank exactly when it is empty or a placeholder |
| Outdated.SubsequenceTrans | wikitools_cli/commands/check_outdated_articles.py:217-221 | a subsequence of a subsequence is a subsequence, so filters chained in order keep order |
| Outdated.Or | wikitools_cli/commands/check_outdated_articles.py:199-227 | Python's `a or b` on optional hashes: the result is given exactly when either operand is, and it is the first when that one is given |
| Outdated.ListOutdated | wikitools_cli/commands/check_outdated_articles.py:91-105 | the translations listed keep the order of `all` and are exactly those not modified whose front matter has no `outdated_since` key and no truthy `outdated_translation` |
| Outdated.SetPlaces | wikitools_cli/commands/check_outdated_articles.py:124-125 | assignment keeps every existing key in its place and appends only the assigned key |
| Outdated.SetReads | wikitools_cli/commands/check_outdated_articles.py:124-125 | after assignment the key reads back its value, others read as before, and distinct keys stay distinct |
| Outdated.Outdate | wikitools_cli/commands/check_outdated_articles.py:116-126 | the saved front matter has `outdated_translation: true` and `outdated_since` set to the hash; every other key reads as before and keeps its place; at most two keys are added, at the end; the result is no longer listed as outdated |
| Outdated.Writes | wikitools_cli/commands/check_outdated_articles.py:121-126 | exactly the given files are written, each with its outdated front matter |
| Outdated.ListedOnceOnly | wikitools_cli/commands/check_outdated_articles.py:91-126 | after outdating some files, listing again finds exactly the previously listed files that were not written |
| Outdated.HashOf | wikitools_cli/commands/check_outdated_articles.py:138-139 | `front_matter.get("outdated_since")` is None both for a missing key and for a YAML null |
| Outdated.Rejected | wikitools_cli/commands/check_outdated_articles.py:129-151 | the reference answer: the files whose hash git rejects, in order |
| Outdated.CheckFrom | wikitools_cli/commands/check_outdated_articles.py:134-151 | the loop with its good and bad caches flags exactly the rejected files in order; looking up an unhashable list or mapping value raises TypeError |
| Outdated.CheckFromQueries | wikitools_cli/commands/check_outdated_articles.py:139-150 | git is asked about each hash the caches do not already hold exactly once |
| Outdated.CheckHashes | wikitools_cli/commands/check_outdated_articles.py:129-151 | `check_commit_hashes` yields the files with a rejected hash, in order; it raises TypeError exactly when some hash is a collection; every distinct hash the files carry goes to git once |
| Outdated.RemovePrefix | wikitools_cli/commands/check_outdated_articles.py:168 | `removeprefix` removes the prefix when present and leaves the string alone otherwise |
| Outdated.Hit | wikitools_cli/commands/check_outdated_articles.py:170-174 | the path equal to the pattern hits; `commonpath` raises ValueError exactly when the two differ and one is absolute and the other relative; a glob match hits |
| Outdated.FirstHit | wikitools_cli/commands/check_outdated_articles.py:169-175 | the inner loop is plainly false exactly when every test is; otherwise it returns the first test that is not |
| Outdated.PathMatch | wikitools_cli/commands/check_outdated_articles.py:154-176 | `path_match` is false exactly when every pattern misses both the path and the path without `wiki/`; its only error is ValueError |
| Outdated.PathMatchOne | wikitools_cli/commands/check_outdated_articles.py:168-176 | with one pattern, the path is tried first and the path without `wiki/` second |
| Outdated.CommonOfRelative | wikitools_cli/commands/check_outdated_articles.py:172 | two relative paths never make `commonpath` raise, and their common path joins their common leading components |
| Outdated.DirectoryExcludes | wikitools_cli/commands/check_outdated_articles.py:161-172 | a directory pattern excludes every file beneath it, and the directory itself |
| Outdated.WikiPrefixOptional | wikitools_cli/commands/check_outdated_articles.py:158-168 | a pattern may leave out `wiki/`: the path is tried again without it |
| Outdated.PartialComponentMisses | wikitools_cli/commands/check_outdated_articles.py:170-174 | a literal pattern that stops inside a component excludes nothing beneath it: `wiki/First_art` leaves `wiki/First_article/fr.md` alone |
| Outdated.StarMatchesRelative | wikitools_cli/commands/check_outdated_articles.py:173 | `*` matches every relative path, across `/` |
| Outdated.AbsolutePathRaises | wikitools_cli/commands/check_outdated_articles.py:172 | an absolute path against the relative `*` makes `commonpath` raise ValueError before `fnmatch` is tried |
| Outdated.GlobAcrossDirectories | wikitools_cli/commands/check_outdated_articles.py:162-173 | `wiki/*/fr.md` matches the French translation of every article, however deep |
| Outdated.Partition | wikitools_cli/commands/check_outdated_articles.py:217-221 | each candidate is kept, in order, or counted as skipped; kept plus skipped is the number of candidates; a test error escapes |
| Outdated.Exclude | wikitools_cli/commands/check_outdated_articles.py:210-224 | the `--exclude` loop keeps, in order, exactly the candidates `path_match` rejects, counts the rest as skipped, and lets ValueError escape |
| Outdated.NoPatternsKeepAll | wikitools_cli/commands/check_outdated_articles.py:223-224 | without `--exclude` every candidate is kept and none skipped |
| Outdated.ModifiedTranslations | wikitools_cli/commands/check_outdated_articles.py:108-109 | the changed files that are translations, in order |
| Outdated.ExitCode | wikitools_cli/commands/check_outdated_articles.py:181-256 | the exit code is 0 or 1 |
| Outdated.ExitCodeCases | wikitools_cli/commands/check_outdated_articles.py:198-256 | the exit code is 1 exactly for bad hashes, or for translations left to outdate without `--autofix` or without a hash to write |
| Outdated.Decide | wikitools_cli/commands/check_outdated_articles.py:196-256 | the hash is `--outdated-since` or the branch's first commit, whichever is given first; with `--autofix` and a hash exactly the listed translations are written, each outdated; the exit code follows the rule above |
| Outdated.DecideWrites | wikitools_cli/commands/check_outdated_articles.py:231-235 | whatever is written is exactly `outdate_translations` of the listed files with the chosen hash |
| Outdated.ToOutdate | wikitools_cli/commands/check_outdated_articles.py:204-224 | the translations to outdate are, in order, the candidates of the changed originals' directories that are stale (modified ones only skipped without `--all`) and that no exclude mask matches |
| Outdated.Run | wikitools_cli/commands/check_outdated_articles.py:179-266 | `main`: TypeError exactly for an unhashable hash; the bad-hash files are those validated with a rejected hash; the files to outdate are `ToOutdate`'s; the exit code follows the rule; the autofix writes exactly the listed files with both tags |
| Outdated.RunExitCode | wikitools_cli/commands/check_outdated_articles.py:198-256 | a run exits with 1 exactly for bad hashes or for translations to outdate the autofix does not write, and with 0 otherwise |
| Outdated.AutofixSettles | wikitools_cli/commands/check_outdated_articles.py:204-235 | after the autofix has written, listing again finds only translations an exclude mask matches |
| Outdated.LegacyRun | wikitools_cli/check_outdated_articles.py:137-186 | the older scripts: same listing and hash cache, no `--exclude` or `--all`; the hash is `--outdated-since` when non-empty, else the base commit; exit 1 exactly for bad hashes or listed translations without `--auto(fix)`; the autofix writes every listed translation |
| Outdated.ExpirerNames | wikitools_cli/check_expired_articles.py:76-86 | the names kept are, in order, those other than `en.md` matching `??.md` or `??-??.md` |
| Outdated.JoinEachSplitsBack | wikitools_cli/check_expired_articles.py:86 | below a directory named without a trailing `/`, each `os.path.join(d, name)` of a name without `/` splits back into the directory and the name |
| Outdated.ExpirerTranslationsMembers | wikitools_cli/check_expired_articles.py:70-86 | a path is listed exactly when it is some directory joined with a kept name of that directory's listing |
| Outdated.ExpirerNamesAreTranslations | wikitools_cli/check_expired_articles.py:77-84 | every name the expirer keeps is a translation name to `file_utils` |
| Outdated.ExpirerDropsThreeLetterCodes | wikitools_cli/check_expired_articles.py:80-81 | `xyz.md` is a translation to `file_utils` but the expirer's listing drops it |
| Redirects.Entry | wikitools/redirect_parser.py:17-21 | a line defines a redirect exactly when splitting it on `"` gives at least four pieces, and the entry carries the line's number |
| Redirects.EntryOfQuotedLine | wikitools/redirect_parser.py:17-19 | a line `"key": "destination"` (anything around the quotes) maps piece 1 to piece 3 |
| Redirects.EntryNeedsQuotes | wikitools/redirect_parser.py:18-21 | a line without double quotes raises IndexError inside the loop and is skipped |
| Redirects.LoadRedirectsDomain | wikitools/redirect_parser.py:9-22 | a source is a key exactly when some line defines it, and its line number lies within the file |
| Redirects.LoadRedirectsLastWins | wikitools/redirect_parser.py:16-21 | the entry kept for a source is the one from the last line that defines it |
| Redirects.CheckRedirect | wikitools/redirect_parser.py:25-35 | resolves exactly when the lower-cased link is a key whose destination exists under `wiki/`; a resolved link has an empty note; a missing key gives the "was not found" note with the link as given |
| Redirects.CheckRedirectIgnoresCase | wikitools/redirect_parser.py:26-28 | links equal after lower-casing resolve alike |
| Redirects.UpperCaseSourceUnreachable | wikitools/redirect_parser.py:19-28 | a source stored with an upper-case letter can never be reached, since keys are stored as written and lookups are lower-cased |
| Keyed.CollectDomain | wikitools/redirect_parser.py:16-21 | a key of the collected dictionary is present exactly when some line yields it |
| Keyed.CollectLast | wikitools/redirect_parser.py:16-21 | the value kept for a key comes from the last line yielding it, as assignment into a dict in line order does |
| Keyed.FirstFailure | wikitools/reference_parser.py:75-83 | a loop over lines raises the error of the first raising line, and raises nothing when no line raises |
| References.End | wikitools/reference_parser.py:37-41 | `end` is the length of the canonical written-out line `[name]: location "alt"`, the quoted part only when there is alternative text |
| References.LocationAndAlt | wikitools/reference_parser.py:56-61 | the location has no space; with no space the whole rest is the location and the alternative text is empty; otherwise the rest is location, a space and a remainder whose first and last characters are trimmed |
| References.ExtractAsWritten | wikitools/reference_parser.py:47-67 | `extract` raises IndexError exactly when the guard reads past a final `:`; otherwise it returns what the corrected `Extract` returns |
| References.Extract | wikitools/reference_parser.py:47-67 | no reference exactly when the line lacks the `[name]: ` shape; a reference carries the line number, the name inside the leading brackets, a location without spaces and the alt text, both split from the text after `]: ` as `References.LocationAndAlt` does, and the location's `urlparse` result; the only error is urlparse's ValueError |
| References.BareDefinitionRaises | wikitools/reference_parser.py:53-54 | `extract("[a]:", 1)` raises IndexError as written; the corrected version returns None |
| References.ExtractRender | wikitools/reference_parser.py:33-67 | writing a definition out and extracting it gives back its line number, name, location and alternative text, for a name without `:` and a location without spaces |
| References.EntryIsExtract | wikitools/reference_parser.py:79-83 | a line contributes an entry exactly when it yields a reference, keyed by that reference's name |
| References.ExtractAll | wikitools/reference_parser.py:70-83 | the first raising line makes the whole text raise its IndexError or ValueError; otherwise every line reads as the corrected `Extract` and the result is name to reference over lines numbered from 1 |
| References.DefinitionsDomain | wikitools/reference_parser.py:79-83 | a name is a key exactly when some line defines it |
| References.DefinitionsLastWins | wikitools/reference_parser.py:79-83 | the reference kept for a name is the one on the last line defining it |
| Tables.New | wikitools/table_generator.py:582-603 | an empty CSV file raises StopIteration; otherwise the header is the argument when non-empty, else the file's first record; each later record becomes a row under the file's header; alignments are their Markdown strings |
| Tables.MarkdownOf | wikitools/table_generator.py:278-285 | `markdown_string_from_alignment` gives the Markdown string for table_generator's own members and None for template_generator's, which match no case |
| Tables.Aligned | wikitools/table_generator.py:645-683 | the table's own alignment row, or `:--` for every header column while it is empty |
| Tables.Print | wikitools/table_generator.py:672-680 | the header line, the alignment line, then one line per row, in order |
| Tables.ReadPrinted | wikitools/table_generator.py:673-680 | printing a line of plain cells and reading it back between the pipes gives the cells again |
| Tables.Justify | wikitools/table_generator.py:627-634 | `ljust`, `center` or `rjust` for the three Markdown alignments, padding to the longer of the cell and the width; any other alignment raises TypeError |
| Tables.JustifyStrip | wikitools/table_generator.py:627-634 | stripping a justified plain cell gives the cell back |
| Tables.ExpandAlignment | wikitools/table_generator.py:637-638 | fails with IndexError exactly for an alignment shorter than three; otherwise first character, the middle repeated, last character, `max(length, 2)` long |
| Tables.ColumnWidth | wikitools/table_generator.py:688-697 | a column's width is its longest cell, at least 3; a line without that column raises IndexError |
| Tables.Widths | wikitools/table_generator.py:684-697 | widths exist exactly when no row is shorter than the header, one per header column |
| Tables.WidthsCover | wikitools/table_generator.py:688-697 | every width is at least 3 and at least as wide as each cell of its column |
| Tables.JustifyAll | wikitools/table_generator.py:699-710 | the cells zipped with widths and alignments, the shortest deciding; TypeError exactly when a zipped alignment is not one of the three |
| Tables.ExpandAll | wikitools/table_generator.py:703-705 | the alignment cells zipped with the widths and stretched; IndexError exactly when one is shorter than three |
| Tables.JustifyRows | wikitools/table_generator.py:707-710 | the rows' justified lines in order; it fails exactly when one row does |
| Tables.PrintPretty | wikitools/table_generator.py:682-710 | a header line, an alignment line and one line per row |
| Tables.PrettyLinesLineUp | wikitools/table_generator.py:682-710 | every line `print_pretty` prints has the same length: the columns line up |
| Tables.KeepWith | wikitools/table_generator.py:646 | `list(filter(...))` succeeds exactly when every test does, and keeps no more elements than it gets |
| Tables.KeepMembers | wikitools/table_generator.py:646 | an element is kept exactly when it occurs and passes the test |
| Tables.KeepAppend | wikitools/table_generator.py:646 | filtering a concatenation filters each part in turn, keeping the order |
| Tables.KeepIdempotent | wikitools/table_generator.py:646 | filtering what a filter kept keeps all of it |
| Tables.Keep | wikitools/table_generator.py:646 | the rows kept are exactly those the filter tree accepts; a failing evaluation raises |
| Tables.Filter | wikitools/table_generator.py:640-648 | the accepted rows in order, with the alignment row defaulted, and the header unchanged |
| Tables.Indices | wikitools/table_generator.py:656 | a name the header lacks raises ValueError; otherwise each name's first header position |
| Tables.Pick | wikitools/table_generator.py:657-660 | an index past the end raises IndexError; otherwise the cells at the indices, in order |
| Tables.PickRows | wikitools/table_generator.py:659-662 | every row cut down to the chosen columns, under the new header |
| Tables.Columns | wikitools/table_generator.py:650-664 | fails exactly when a name is missing (ValueError) or the alignment row or a row is too short; otherwise the header becomes `names` and every row keeps the cells of the chosen columns |
| Tables.GetAfterColumns | wikitools/table_generator.py:650-664 | looking a chosen column up by name in a projected row finds the cell the original row holds under that name |
| Tables.FirstFailing | wikitools/table_generator.py:669 | the row whose key lookup raises is one of the table's rows |
| Tables.Sort | wikitools/table_generator.py:666-670 | sorting succeeds exactly when every row's key lookup does, keeps header and alignments, and permutes the rows |
| Tables.SortOrdersRows | wikitools/table_generator.py:667-669 | sorted rows come in order of their lower-cased key, ascending or descending |
| Tables.SortStable | wikitools/table_generator.py:669 | rows with equal keys keep their relative order in both directions |
| Templates.ModeIcon | wikitools/template_generator.py:24-35 | an icon is produced exactly for the four game-mode names, and it is a wiki icon image |
| Templates.IconLink | wikitools/template_generator.py:38-50 | the result is empty exactly when no known host appears in the link; otherwise it is a linked icon ending in `](link)` |
| Templates.ActionFromString | wikitools/template_generator.py:59-66 | `mode icon` and `icon link` select their actions, and nothing else selects one |
| Templates.AlignmentFromString | wikitools/template_generator.py:75-84 | exactly `left`, `right` and `centre` name an alignment |
| Templates.AlignmentRoundTrip | wikitools/template_generator.py:75-94 | every alignment's name reads back as it, and distinct alignments print distinct Markdown |
| Templates.SortOrderFromString | wikitools/template_generator.py:102-109 | `ascending` and `descending` name the two orders, and nothing else does |
| Templates.MakeRow | wikitools/table_row.py:7-12 | the row keeps its cells, and has a header exactly when the given header is non-empty |
| Templates.Get | wikitools/table_row.py:14-16 | no header raises AttributeError, a key missing from the header raises ValueError, a header position past the cells raises IndexError; otherwise the cell under the first matching header entry |
| Templates.FindTagFinds | wikitools/template_generator.py:193-208 | `_find_tag` returns the first `<<` at or after the start and the first `>>` after it, or None exactly when there is no such pair |
| Templates.TagWithoutAction | wikitools/template_generator.py:168-181 | tag text without `:` is all columns, stripped, and no action |
| Templates.TagWithAction | wikitools/template_generator.py:168-181 | with one `:`, the stripped text before it selects the action and the text after it holds the columns |
| Templates.TagMalformed | wikitools/template_generator.py:169-172 | tag text with two `:` or more is skipped |
| Templates.ParsePlain | wikitools/template_generator.py:156-164 | a format without `<<` is one literal piece, none when empty |
| Templates.ParseTag | wikitools/template_generator.py:156-191 | text before the first tag becomes a literal piece, the tag follows, and parsing resumes after `>>`; a malformed tag drops itself and the text before it |
| Templates.ParseUnclosed | wikitools/template_generator.py:157-164 | a `<<` without a later `>>` stays literal text |
| Templates.FirstValue | wikitools/template_generator.py:267-273 | the value is the first non-empty cell among the columns, read lazily; none exactly when every column reads empty; the first failing read propagates its error |
| Templates.Evaluate | wikitools/template_generator.py:259-278 | evaluation succeeds exactly when every tag's reads succeed, with one entry per literal character and one per tag |
| Templates.PruneSpaces | wikitools/template_generator.py:212-233 | pruning keeps the length; whitespace next to an empty entry is blanked, an empty entry between two whitespace entries becomes one space, deciding from the unpruned list |
| Templates.PruneNoEmpty | wikitools/template_generator.py:212-233 | without empty entries pruning changes nothing |
| Templates.PruneReadsOriginal | wikitools/template_generator.py:220-231 | blanked spaces still turn the empty entries between them into spaces, because pruning reads the unpruned list |
| Templates.ApplyPlain | wikitools/template_generator.py:151-283 | applying the format of a text without `<<` gives the text back for any row |
| Templates.ApplyDropsSpace | wikitools/template_generator.py:144-146 | `<<A>> <<B>>` with empty `A` and `B` = `x` gives `x` |
| Templates.Tokens | wikitools/template_generator.py:345 | the filter's tokens alternate operands and operators, operators at the odd positions |
| Templates.TokensFromText | wikitools/template_generator.py:345 | the split loses nothing: its pieces and separators concatenate back to the filter text |
| Templates.Filter | wikitools/template_generator.py:342-351 | a parsed filter is an operator node built by `_build_ast`; failures are IndexError or ValueError |
| Templates.BuildAstOrdered | wikitools/template_generator.py:353-378 | every tree `_build_ast` builds respects the operator order (`is not`, `is`, `has not`, `has`, `and`, `or`) and nests chains to the right |
| Templates.BuildAstFlatten | wikitools/template_generator.py:353-378 | operands alternating with operators always build a tree that lists them back in order |
| Templates.FilterParses | wikitools/template_generator.py:342-378 | when no operand reads as an operator, a filter parses exactly when it has an operator, and the tree holds its tokens in order |
| Templates.ApplyOp | wikitools/template_generator.py:298-304 | `has` and `has not` raise TypeError exactly when an operand is a truth value |
| Templates.EvalNode | wikitools/template_generator.py:383-394 | both operands are evaluated, left first, and an error on either side propagates; `and`/`or` are conjunction and disjunction of truthiness, `is`/`is not` compare, `has` tests for a substring |
| Templates.EvalLeaf | wikitools/template_generator.py:386-391 | a leaf without tags evaluates to its own text |
| Paths.Normpath | wikitools/file_utils.py:20 | `os.path.normpath` never yields the empty text |
| Paths.NormpathIdempotent | wikitools/file_utils.py:20 | normalising a normalised path changes nothing |
| Paths.NormpathPlain | wikitools/file_utils.py:19-23 | a path of plain components without `..`, relative or behind one `/`, is already normal |
| Paths.Basename | wikitools/file_utils.py:85 | the base name holds no `/`, ends the path, and is the whole path when it has no `/` |
| Paths.DirnameBasename | wikitools/file_utils.py:77-85 | `dirname` and `basename` take `d + "/" + f` apart into `d` and `f` |
| Paths.CommonPath | wikitools_cli/commands/check_outdated_articles.py:172 | `commonpath` raises ValueError exactly when one path is absolute and the other is not |
| Paths.CommonPathBeneath | wikitools_cli/commands/check_outdated_articles.py:172 | the common path of a path and a directory above it is that directory |
| Paths.RelPath | wikitools/link_checker.py:44 | `relpath` raises ValueError exactly for an empty path |
| Paths.RelPathBeneath | wikitools/link_checker.py:44 | a directory below `start`, taken relative to `start`, is the components below it (or `.`) |
| Paths.RelativeTo | wikitools/link_checker.py:50 | `relative_to` succeeds exactly when the base's components begin the path's, and the result is the rest |
| Paths.ParseAsPosix | wikitools/article_parser.py:50 | writing a pure path out with `as_posix` and reading it back gives it again |
| Paths.ChildParentName | wikitools/article_parser.py:49-50 | for a plain name, `(p / name).parent == p` and `(p / name).name == name` |
| Glob.MatchLiteral | wikitools_cli/commands/check_outdated_articles.py:173 | a pattern without wildcards matches exactly itself |
| Glob.MatchStar | wikitools_cli/commands/check_outdated_articles.py:173 | `*` matches every name |
| Glob.MatchAround | wikitools_cli/commands/check_outdated_articles.py:173 | `prefix*suffix` matches every name made of the prefix, any text (slashes included) and the suffix |
| Urls.FromParts | wikitools/reference_parser.py:63 | `urlparse` refuses exactly the network locations whose brackets do not pair up, and otherwise keeps path, network location and fragment |
| Urls.ParseSitePath | wikitools/reference_parser.py:63 | a site path such as `/wiki/Article#x` parses to that path and fragment, with no scheme and no network location |
| Text.FindFirst | wikitools/link_parser.py:235 | `str.find` returns the first occurrence at or after the start, and -1 only when there is none |
| Text.SplitJoinChar | wikitools/article_parser.py:67 | splitting on a one-character separator undoes joining pieces that do not contain it |
| Text.NatToStringRoundTrip | wikitools/article_parser.py:147 | `str(n)` can be read back to `n`, so the numeric suffixes of duplicate identifiers differ |
| Text.LexLessTotal | wikitools/file_utils.py:173 | Python's string order is total |
| Sorting.SortSorted | wikitools/table_generator.py:669 | the stable sort yields a sorted result for any strict weak order |
| Sorting.SortStable | wikitools/table_generator.py:669 | elements of equal key keep their input order |
| Sorting.SortByOrdered | wikitools/table_generator.py:666-669 | `sorted(key=..., reverse=...)` orders by the key, ascending or descending, and keeps equal keys in input order |
| Sorting.SortStringsAscending | wikitools/file_utils.py:173 | `sorted(names)` comes in ascending order |
| YamlRules.AllowedCount | wikitools/yaml_rules.py:7-24 | the allowed front-matter tags are exactly twelve distinct names; the repeated `layout` counts once |
| YamlRules.Grouped | wikitools/yaml_rules.py:7-24 | the allowed set is the union of its short, middle and long names |
| YamlRules.SevenLetters | wikitools/yaml_rules.py:7-24 | no allowed tag is seven letters long |
| YamlRules.Update | wikitools/yaml_rules.py:32-41 | a mapping or sequence start pushes its frame, an end pops, popping an empty stack does nothing, and every other token leaves the stack alone (see also lines 105-110) |
| YamlRules.OpenThenClose | wikitools/yaml_rules.py:36-41 | a start followed by an end leaves the stack as it was |
| YamlRules.MakeProblem | wikitools/yaml_rules.py:90-94 | the problem sits at the token's line and column counted from 1, with the rule and issue given; without a token it raises AttributeError |
| YamlRules.ReprQuote | wikitools/yaml_rules.py:154 | `repr` quotes with `"` exactly when the text holds `'` and no `"` |
| YamlRules.ReprChar | wikitools/yaml_rules.py:154 | a printable character other than the quote and `\` is written as itself, and the quote never is |
| YamlRules.Repr | wikitools/yaml_rules.py:154 | `repr` begins and ends with the chosen quote |
| YamlRules.ReprPlain | wikitools/yaml_rules.py:154 | a tag without quotes, backslashes or controls is shown as it is between single quotes |
| YamlRules.ReprApostrophe | wikitools/yaml_rules.py:154 | a tag holding `'` and no `"` is shown as it is between double quotes |
| YamlRules.ReprQuoteChoice | wikitools/yaml_rules.py:154 | `it's` is shown between double quotes; a text with both quotes is shown between single quotes with its `'` escaped |
| YamlRules.OnlyArticlesLinted | wikitools/yaml_rules.py:27-68 | every `.md` file is linted, and any file that is linted ends in `.md` |
| YamlRules.NestedCheck | wikitools/yaml_rules.py:113-130 | a nested start is flagged exactly when the stack is open and the start is not a sequence directly inside a mapping; the problem sits at the next token, and without one the check raises AttributeError |
| YamlRules.TopLevelCheck | wikitools/yaml_rules.py:133-141 | a sequence start on an empty stack is flagged at the next token, and nothing else is |
| YamlRules.TagCheck | wikitools/yaml_rules.py:144-154 | a mapping key is flagged exactly when it is not an allowed tag, at the key's own position |
| YamlRules.RunFromIsReference | wikitools/yaml_rules.py:96-110 | threading the stack through the token loop is the same as judging every token against the stack rebuilt from the tokens before it |
| YamlRules.RunIsReference | wikitools/yaml_rules.py:96-110 | a whole run checks every token against the stack its predecessors left |
| YamlRules.RunStep | wikitools/yaml_rules.py:100-110 | each token is checked before it moves the stack, and its problem comes before those of the rest |
| YamlRules.OneKeyReported | wikitools/yaml_rules.py:144-154 | a key of the top mapping is reported at line 2 column 1 exactly when it is not an allowed tag |
| YamlRules.UnknownTagExample | wikitools/yaml_rules.py:144-154 | `outdate` is reported and `tags` is not |
| YamlRules.NestedMappingExample | wikitools/yaml_rules.py:113-130 | a mapping as the value of a top-level key is reported at the token after its start |
| YamlRules.ListInMappingExample | wikitools/yaml_rules.py:120-125 | a list as the value of a key is allowed |
| YamlRules.TopLevelListExample | wikitools/yaml_rules.py:133-141 | a list at the top level is reported at the token after its start |

## Left out

- File system, git and network access are parameters rather than operations:
  - `os.path.exists` is membership in a set of existing paths;
  - file contents are functions from path to lines;
  - `git diff`/`git show` are a list of changed files and a hash-validity oracle;
  - directory walks (`os.walk`, `list_all_articles_and_newsposts`, `file_iterator`) are given lists;
  - the Google Sheets fetch of `online_data.py` is left out, and its rows are the input.
- Printing, console colours, `argparse` and `sys.exit` are left out.
  - The values that are printed (the summary counts, highlighted lines, suggestions, notes) and the exit codes are modelled.
  - Colouring is the identity.
  - `Cli.Dispatch` leaves everything but the command split to argparse (`Cli.ParserOnly`), because argparse's help, version and error output are library behaviour.
- YAML loading and dumping, the YAML scanner's tokens, the CSV reader and `braceexpand` are parameters.
  - Patterns reach `Glob` already brace-expanded.
- `wikitools/plotting.py`, the visual test runners, `setup.py`, `wikitools_cli/outdate_translations.py`, `what_links_here.py`, `check_files.py` and `front_matter.py` are left out. They are plotting, interactive or packaging code, or thin file-system drivers.
- `identifier_parser` is not part of this model. The identifier of a line is a parameter of `Articles`.
- Text.Lower: lowers only the ASCII letters A-Z. Python's `str.lower` covers all of Unicode (`"É".lower()` is `"é"`), so redirect lookups (`Redirects.CheckRedirect`, `LinkChecker.Follow`) and sort keys (`Tables.Sort`, `Generate`) agree with Python on ASCII text only.
- Text.Strip: strips only ASCII whitespace. Python's `str.strip` also strips Unicode spaces such as U+00A0, so `Articles.Analyze` and the table and template code agree with Python on ASCII whitespace only.
- Text.IsWhitespace: the ASCII whitespace characters and U+001C to U+001F only. Python's `str.isspace` is Unicode-wide and also accepts U+0085, U+00A0, U+2028 and other spaces.
- Glob.Match: supports `*` and `?` only; `fnmatch`'s `[seq]` character classes are not modelled.
- Paths.Normpath: POSIX paths only, with `/` as the separator. The source also runs on Windows, where `\` separates too; `FileUtils` and `BrokenLinks.Normalise` model the `\` to `/` rewrite where the source does it.
- Templates.Apply: returns the text after `_prune_spaces` without `_prune_links` (template_generator.py:235-256). As shipped, `_prune_links` reads `alt_text`, `start` and `raw_location` of each link `find_links` returns, and the shipped `link_parser.Link` (link_parser.py:38-75) has none of them. So `apply` raises AttributeError whenever the formatted text contains a link, an `icon link` result or `[<<Track>>](<<Link>>)` for example, and returns the text unchanged when it contains none. The model agrees with the shipped code on text without links; on text with links it stands in for the pruning the code evidently intends with the identity, and neither that AttributeError nor the intended pruning of empty links is modelled.
- FrontMatter.Load: the YAML oracle always returns a mapping. An empty `---`/`---` block loads as `None` in PyYAML, and then `OUTDATED_HASH_TAG in front_matter` raises TypeError and `.get` raises AttributeError (check_outdated_articles.py:102,138). That failure is not modelled, so `Outdated.CheckHashes` fails only on an unhashable hash value.
- Outdated.Run: the modified translations form a Python `set` (check_outdated_articles.py:193), whose iteration order is not fixed. The model takes them in diff order and states only which files are listed, not in what order.
- YamlRules.Repr: counts every character from U+0020 up as printable, except U+007F. Python's `repr` also escapes the non-printable characters beyond ASCII, such as U+0080 to U+009F, U+00AD and U+2028, so tag names holding those are rendered differently.
- CheckLinks.Main: takes the parsed articles as a list in path order. The source builds a dictionary keyed by `Article.path` (check_links.py:107-110), so of two targets with the same path only the last is kept; the caller is assumed to pass distinct paths.
- CheckLinks.Tally: states the exit code, the file and link counts and the error-file count, but not the error count, which depends on the sizes of the kept error lists line by line.
- Redirects.CheckRedirect: does not state the text of the broken-redirect note in its contract. The body builds it as the source does.
- Generate.GenerateArticle: models one article of `main`. The listing of the articles to rewrite, and the reading and writing of each file, are left to the caller.
- References.ExtractAll: takes the text already cut into lines. `str.splitlines()` itself is not modelled.

## Findings

| source | as written | input that shows it | evidently intended | confidence | as-written member | corrected member |
|---|---|---|---|---|---|---|
| wikitools_cli/commands/update_originals.py:144-159 | the section opened by a heading that is the last chunk is never appended, and a later heading that is the last chunk is merged into the open section | `"Intro\n\n# Title"` parses to a section whose text is `"Intro"`; `"# A\n\n# B"` gives one subsection | every heading opens a subsection that runs to the next heading or the end, so `str(MarkdownSection(s)) == s` | not executed | Originals.TrailingHeadingLost | Originals.ParseRoundTrip |
| wikitools/link_parser.py:234-238 | `s[split + 1]` is read when the colon is the last character | a final line `"[a]:"` without a line break raises IndexError | a line that ends at the colon is no reference definition | not executed | Links.BareColonRaises | Links.FindReference |
| wikitools/reference_parser.py:53-54 | the same `s[split + 1]` test on a stripped line | `"[a]:"`, or `"[a]: "` once stripped, raises IndexError in `extract`, `extract_all` and `article_parser.parse` | no reference is read from such a line | not executed | References.BareDefinitionRaises | References.ExtractRender |
| wikitools/table_generator.py:278-285 | `markdown_string_from_alignment` matches table_generator's own `Alignment` members, but the descriptor passes template_generator's, so every entry of the alignment row is None, and `str(table)` raises TypeError at the join in line 674-677 | a descriptor with `alignments: [centre, left, left]`, as in tests/test_generate_templates.py:41-44 | the alignment line `\| :-: \| :-- \| :-- \|` that the test expects | not executed | Generate.TestTableAlignmentLine | Generate.AlignedTablePrints |
| wikitools/table_generator.py:666-669 | `order == SortOrder.DESCENDING` compares a template_generator member with table_generator's own, which is never equal, so the data rows are always sorted ascending | `sort: {by: Track, order: descending}` over rows with keys `b` and `a` lists `a` first | rows in descending key order | not executed | Generate.SortAsWritten | Generate.SortIntended |
| find-broken-wikilinks.py:459-460 | `error_file_count` goes up once per line with a broken link | one file with broken links on two lines prints "2 errors in 2 files (… in 1 file checked)" | count each file with a broken link once | not executed | BrokenLinks.TwoBadLinesOneFile | BrokenLinks.Tally |

=== FILE: articles.dfy ===
/**
 * Reading an article (wikitools/article_parser.py): the lines that hold
 * links, the reference definitions and the identifiers, skipping
 * everything inside multi-line HTML comments and fenced code.
 *
 * Reading the file and the identifier of a line (identifier_parser, which
 * is not part of this model) are parameters.
 */
module Articles {
  import Text
  import Outcomes
  import Paths
  import Comments
  import CodeBlocks
  import Links
  import References
  import FrontMatter

  // ---------------------------------------------------------------------
  // Duplicate identifiers

  /** `cnt` (times each identifier was found) and `identifiers` (stored name to line). */
  datatype Names = Names(counts: map<string, nat>, ids: map<string, nat>)

  /** The name the k-th (from 0) occurrence of an identifier is stored under. */
  function Suffixed(name: string, k: nat): string {
    if k == 0 then name else name + "." + Text.NatToString(k)
  }

  /**
   * One identifier found on line `lineno`: its count goes up, and when
   * the name is already stored it is stored again with the suffix
   * `.{count - 1}`.
   */
  function Add(st: Names, name: string, lineno: nat): Names {
    var c := (if name in st.counts then st.counts[name] else 0) + 1;
    var key := if name in st.ids then name + "." + Text.NatToString(c - 1) else name;
    Names(st.counts[name := c], st.ids[key := lineno])
  }

  /** The names after finding `items` (identifier, line) in order. */
  function Dedup(items: seq<(string, nat)>): Names {
    if |items| == 0 then Names(map[], map[])
    else Add(Dedup(items[..|items| - 1]), items[|items| - 1].0, items[|items| - 1].1)
  }

  /** How often `name` occurs among the items. */
  function Occ(items: seq<(string, nat)>, name: string): nat {
    if |items| == 0 then 0
    else Occ(items[..|items| - 1], name) + (if items[|items| - 1].0 == name then 1 else 0)
  }

  /** The line of the k-th (from 0) occurrence of `name`. */
  function LineOf(items: seq<(string, nat)>, name: string, k: nat): nat
    requires k < Occ(items, name)
  {
    var init := items[..|items| - 1];
    if items[|items| - 1].0 == name && k == Occ(init, name) then items[|items| - 1].1
    else LineOf(init, name, k)
  }

  predicate Undotted(items: seq<(string, nat)>) {
    forall i :: 0 <= i < |items| ==> '.' !in items[i].0
  }

  lemma {:induction false} OccUndotted(items: seq<(string, nat)>, name: string)
    requires Undotted(items) && Occ(items, name) > 0
    ensures '.' !in name
    decreases |items|
  {
    var init := items[..|items| - 1];
    if items[|items| - 1].0 != name {
      assert Undotted(init) by {
        assert forall i :: 0 <= i < |init| ==> init[i] == items[i];
      }
      OccUndotted(init, name);
    }
  }

  /** Where the first `.` of a string is, or its length when there is none. */
  function DotIndex(s: string): (r: nat)
    ensures r <= |s|
  {
    if |s| == 0 || s[0] == '.' then 0 else 1 + DotIndex(s[1..])
  }

  lemma {:induction false} DotIndexAfter(n: string, rest: string)
    requires '.' !in n
    requires rest == [] || rest[0] == '.'
    ensures DotIndex(n + rest) == |n|
    decreases |n|
  {
    if |n| > 0 {
      assert n[0] in n;
      assert (n + rest)[1..] == n[1..] + rest;
      DotIndexAfter(n[1..], rest);
    } else {
      assert n + rest == rest;
    }
  }

  /** Different (name, occurrence) pairs are stored under different names. */
  lemma SuffixedInjective(n: string, k: nat, m: string, j: nat)
    requires '.' !in n && '.' !in m
    requires Suffixed(n, k) == Suffixed(m, j)
    ensures n == m && k == j
  {
    var a := Suffixed(n, k);
    if k == 0 {
      DotIndexAfter(n, []);
      assert n + [] == n;
    } else {
      DotIndexAfter(n, "." + Text.NatToString(k));
      assert a == n + ("." + Text.NatToString(k));
    }
    if j == 0 {
      DotIndexAfter(m, []);
      assert m + [] == m;
    } else {
      DotIndexAfter(m, "." + Text.NatToString(j));
      assert a == m + ("." + Text.NatToString(j));
    }
    if k != 0 && j != 0 {
      assert n == a[..|n|] == m;
      assert Text.NatToString(k) == a[|n| + 1..] == Text.NatToString(j);
      Text.NatToStringInjective(k, j);
    }
  }

  /**
   * With identifiers free of `.`: each identifier is counted once per
   * occurrence; its first occurrence is stored under its own name and
   * the k-th repeat under `name.k`, each with its own line; and nothing
   * else is stored.
   */
  lemma {:induction false} DedupNames(items: seq<(string, nat)>)
    requires Undotted(items)
    ensures forall n :: n in Dedup(items).counts <==> Occ(items, n) > 0
    ensures forall n :: n in Dedup(items).counts ==> Dedup(items).counts[n] == Occ(items, n)
    ensures forall n, k :: 0 <= k < Occ(items, n) ==>
      Suffixed(n, k) in Dedup(items).ids && Dedup(items).ids[Suffixed(n, k)] == LineOf(items, n, k)
    ensures forall key :: key in Dedup(items).ids ==> exists n, k :: 0 <= k < Occ(items, n) && key == Suffixed(n, k)
    decreases |items|
  {
    if |items| > 0 {
      var init := items[..|items| - 1];
      var (m, line) := items[|items| - 1];
      assert Undotted(init) by {
        assert forall i :: 0 <= i < |init| ==> init[i] == items[i];
      }
      DedupNames(init);
      var st := Dedup(init);
      assert '.' !in m;
      DedupStep(items, init, m, line, st);
      assert Dedup(items) == Add(st, m, line);
    }
  }

  /** `st` is what finding `items` leaves, as `DedupNames` states it. */
  ghost predicate Deduped(items: seq<(string, nat)>, st: Names) {
    && (forall n :: n in st.counts <==> Occ(items, n) > 0)
    && (forall n :: n in st.counts ==> st.counts[n] == Occ(items, n))
    && (forall n, k :: 0 <= k < Occ(items, n) ==> Suffixed(n, k) in st.ids && st.ids[Suffixed(n, k)] == LineOf(items, n, k))
    && (forall key :: key in st.ids ==> exists n, k :: 0 <= k < Occ(items, n) && key == Suffixed(n, k))
  }

  /** A name is stored under itself exactly when it occurred before. */
  lemma StoredIffSeen(init: seq<(string, nat)>, m: string, st: Names)
    requires Undotted(init) && '.' !in m && Deduped(init, st)
    ensures m in st.ids <==> Occ(init, m) > 0
  {
    if m in st.ids {
      var n, k :| 0 <= k < Occ(init, n) && m == Suffixed(n, k);
      OccUndotted(init, n);
      SuffixedInjective(n, k, m, 0);
    }
    if Occ(init, m) > 0 {
      assert Suffixed(m, 0) in st.ids;
    }
  }

  lemma DedupStep(items: seq<(string, nat)>, init: seq<(string, nat)>, m: string, line: nat, st: Names)
    requires |items| > 0 && init == items[..|items| - 1] && items[|items| - 1] == (m, line)
    requires Undotted(init) && '.' !in m && Deduped(init, st)
    ensures Deduped(items, Add(st, m, line))
  {
    StoredIffSeen(init, m, st);
    DedupCountsStep(items, init, m, line, st);
    DedupIdsStep(items, init, m, line, st);
    DedupKeysStep(items, init, m, line, st);
  }

  lemma DedupCountsStep(items: seq<(string, nat)>, init: seq<(string, nat)>, m: string, line: nat, st: Names)
    requires |items| > 0 && init == items[..|items| - 1] && items[|items| - 1] == (m, line)
    requires forall n :: n in st.counts <==> Occ(init, n) > 0
    requires forall n :: n in st.counts ==> st.counts[n] == Occ(init, n)
    ensures forall n :: n in Add(st, m, line).counts <==> Occ(items, n) > 0
    ensures forall n :: n in Add(st, m, line).counts ==> Add(st, m, line).counts[n] == Occ(items, n)
  {
    OccStep(items, init, m, line);
  }

  lemma DedupIdsStep(items: seq<(string, nat)>, init: seq<(string, nat)>, m: string, line: nat, st: Names)
    requires |items| > 0 && init == items[..|items| - 1] && items[|items| - 1] == (m, line)
    requires Undotted(init) && '.' !in m
    requires (if m in st.counts then st.counts[m] else 0) == Occ(init, m)
    requires forall n, k :: 0 <= k < Occ(init, n) ==> Suffixed(n, k) in st.ids && st.ids[Suffixed(n, k)] == LineOf(init, n, k)
    requires m in st.ids <==> Occ(init, m) > 0
    ensures forall n, k :: 0 <= k < Occ(items, n) ==>
      Suffixed(n, k) in Add(st, m, line).ids && Add(st, m, line).ids[Suffixed(n, k)] == LineOf(items, n, k)
  {
    var c := Occ(init, m);
    OccStep(items, init, m, line);
    AddIds(st, m, line, c);
    var key := Suffixed(m, c);
    var after := Add(st, m, line);
    forall n, k | 0 <= k < Occ(items, n)
      ensures Suffixed(n, k) in after.ids && after.ids[Suffixed(n, k)] == LineOf(items, n, k)
    {
      if !(n == m && k == c) {
        assert k < Occ(init, n);
        OccUndotted(init, n);
        if Suffixed(n, k) == key {
          SuffixedInjective(n, k, m, c);
        }
      }
    }
  }

  lemma DedupKeysStep(items: seq<(string, nat)>, init: seq<(string, nat)>, m: string, line: nat, st: Names)
    requires |items| > 0 && init == items[..|items| - 1] && items[|items| - 1] == (m, line)
    requires (if m in st.counts then st.counts[m] else 0) == Occ(init, m)
    requires forall key :: key in st.ids ==> exists n, k :: 0 <= k < Occ(init, n) && key == Suffixed(n, k)
    requires m in st.ids <==> Occ(init, m) > 0
    ensures forall key :: key in Add(st, m, line).ids ==> exists n, k :: 0 <= k < Occ(items, n) && key == Suffixed(n, k)
  {
    OccStep(items, init, m, line);
    AddIds(st, m, line, Occ(init, m));
    KeysStep(items, init, m, line, st.ids, Add(st, m, line).ids);
  }

  /** Storing the next occurrence of `m` under its name keeps every stored name one of an occurrence. */
  lemma KeysStep(items: seq<(string, nat)>, init: seq<(string, nat)>, m: string, line: nat, ids: map<string, nat>, after: map<string, nat>)
    requires forall n :: Occ(items, n) == Occ(init, n) + (if n == m then 1 else 0)
    requires after == ids[Suffixed(m, Occ(init, m)) := line]
    requires forall key :: key in ids ==> exists n, k :: 0 <= k < Occ(init, n) && key == Suffixed(n, k)
    ensures forall key :: key in after ==> exists n, k :: 0 <= k < Occ(items, n) && key == Suffixed(n, k)
  {
    var c := Occ(init, m);
    forall key | key in after ensures exists n, k :: 0 <= k < Occ(items, n) && key == Suffixed(n, k) {
      if key == Suffixed(m, c) {
        assert 0 <= c < Occ(items, m);
      } else {
        var n, j :| 0 <= j < Occ(init, n) && key == Suffixed(n, j);
        assert j < Occ(items, n);
      }
    }
  }

  /** Finding `m` a (c+1)-th time stores it under its c-th suffixed name. */
  lemma AddIds(st: Names, m: string, line: nat, c: nat)
    requires (if m in st.counts then st.counts[m] else 0) == c
    requires m in st.ids <==> c > 0
    ensures Add(st, m, line).ids == st.ids[Suffixed(m, c) := line]
  {
  }

  /** One more item adds one occurrence of its name and none of any other. */
  lemma OccStep(items: seq<(string, nat)>, init: seq<(string, nat)>, m: string, line: nat)
    requires |items| > 0 && init == items[..|items| - 1] && items[|items| - 1] == (m, line)
    ensures forall n :: Occ(items, n) == Occ(init, n) + (if n == m then 1 else 0)
  {
  }

  /**
   * An identifier that itself looks like a suffixed name is overwritten
   * by the repeat of the name it looks like: `a`, `a.1`, `a` leaves
   * `a.1` pointing at the third line.
   */
  lemma DottedIdentifierOverwritten()
    ensures Dedup([("a", 1), ("a.1", 2), ("a", 3)]).ids == map["a" := 1, "a.1" := 3]
  {
    var items := [("a", 1), ("a.1", 2), ("a", 3)];
    assert items[..2] == [("a", 1), ("a.1", 2)];
    assert items[..2][..1] == [("a", 1)];
    assert [("a", 1)][..0] == [];
    assert Text.NatToString(1) == "1";
    assert "a" + "." + "1" == "a.1";
  }

  // ---------------------------------------------------------------------
  // Links kept on a line

  /** A link is kept unless it is the sitemap or starts inside a comment or code. */
  predicate Kept(l: Links.Link, comments: seq<Comments.Comment>, blocks: seq<CodeBlocks.CodeBlock>) {
    && l.Content() != "/wiki/Sitemap"
    && !Comments.IsInComment(l.linkStart, comments)
    && !CodeBlocks.IsInCodeBlock(l.linkStart, blocks)
  }

  /** The filter over `find_links(line)`. */
  function KeepLinks(links: seq<Links.Link>, comments: seq<Comments.Comment>, blocks: seq<CodeBlocks.CodeBlock>): (r: seq<Links.Link>)
    ensures forall l :: l in r <==> l in links && Kept(l, comments, blocks)
    ensures |r| <= |links|
  {
    if |links| == 0 then []
    else
      assert forall l :: l in links <==> l == links[0] || l in links[1..];
      (if Kept(links[0], comments, blocks) then [links[0]] else []) + KeepLinks(links[1..], comments, blocks)
  }

  predicate Increasing(links: seq<Links.Link>) {
    forall i, j :: 0 <= i < j < |links| ==> links[i].linkStart < links[j].linkStart
  }

  /** The kept links stay in line order. */
  lemma {:induction false} KeepLinksIncreasing(links: seq<Links.Link>, comments: seq<Comments.Comment>, blocks: seq<CodeBlocks.CodeBlock>)
    requires Increasing(links)
    ensures Increasing(KeepLinks(links, comments, blocks))
    decreases |links|
  {
    if |links| > 0 {
      KeepLinksIncreasing(links[1..], comments, blocks);
      var rest := KeepLinks(links[1..], comments, blocks);
      forall j | 0 <= j < |rest| ensures links[0].linkStart < rest[j].linkStart {
        assert rest[j] in links[1..];
      }
    }
  }

  /** The links `find_links` returns are in line order. */
  lemma FindLinksIncreasing(line: string)
    ensures Increasing(Links.FindLinks(line))
  {
    Links.FindLinksOrdered(line, 0);
    var ls := Links.FindLinks(line);
    forall i, j | 0 <= i < j < |ls| ensures ls[i].linkStart < ls[j].linkStart {
      IncreasingFrom(ls, i, j);
    }
  }

  lemma {:induction false} IncreasingFrom(ls: seq<Links.Link>, i: nat, j: nat)
    requires i < j < |ls|
    requires forall k :: 0 <= k < |ls| - 1 ==> ls[k].linkEnd < ls[k + 1].linkStart
    requires forall k :: 0 <= k < |ls| ==> ls[k].linkStart < ls[k].linkEnd
    ensures ls[i].linkStart < ls[j].linkStart
    decreases j - i
  {
    if i + 1 < j {
      IncreasingFrom(ls, i + 1, j);
    }
  }

  // ---------------------------------------------------------------------
  // parse

  /** A line worth keeping: its text and the links kept on it. */
  datatype ArticleLine = ArticleLine(rawLine: string, links: seq<Links.Link>)

  /** An article as `parse` returns it. */
  datatype Article = Article(
    directory: string,
    filename: string,
    lines: map<nat, ArticleLine>,
    references: map<string, References.Reference>,
    identifiers: map<string, nat>,
    frontMatter: FrontMatter.Mapping)
  {
    /** `Article.path`. */
    function Path(): string {
      directory + "/" + filename
    }
  }

  /**
   * The reading state after some lines: whether a comment or a fence is
   * open, what has been gathered, and the identifiers found so far (in
   * order) that the names were built from.
   */
  datatype State = State(
    inComment: bool,
    inCode: bool,
    lines: map<nat, ArticleLine>,
    references: map<string, References.Reference>,
    names: Names,
    found: seq<(string, nat)>)

  /** Where an identifier parser places a line's identifier: its name and position. */
  type Identify = (string, seq<Links.Link>) -> Outcomes.Option<(string, int)>

  /**
   * What reading one line finds: the comment and fence states after it,
   * the links it keeps, its identifier and its reference definition.
   */
  datatype LineInfo = LineInfo(
    inComment: bool,
    inCode: bool,
    links: seq<Links.Link>,
    identifier: Outcomes.Option<string>,
    definition: Outcomes.Result<Outcomes.Option<References.Reference>>)
  {
    /** The line leaves a comment or a fence open, so nothing on it is gathered. */
    predicate Skipped() {
      inComment || inCode
    }
  }

  /** Reading line number `lineno` in the given comment and fence states. */
  type Analyzer = (string, nat, bool, bool) -> LineInfo

  /** The links a line keeps, given the states it starts in. */
  function LineLinks(line: string, inComment: bool, inCode: bool): seq<Links.Link> {
    KeepLinks(Links.FindLinks(line), Comments.Parse(line, inComment), CodeBlocks.Parse(line, inCode).0)
  }

  /** The identifier a line contributes: found by `identify` and not inside a comment. */
  function Identifier(line: string, inComment: bool, inCode: bool, identify: Identify): Outcomes.Option<string> {
    match identify(line, LineLinks(line, inComment, inCode))
    case Some((name, pos)) =>
      if Comments.IsInComment(pos, Comments.Parse(line, inComment)) then Outcomes.None else Outcomes.Some(name)
    case None => Outcomes.None
  }

  /**
   * One line of `parse`: the comment and fence parsers run on it, the
   * links outside comments and code are kept, and a line starting with
   * `[` is read as a reference definition.
   */
  function Analyze(line: string, lineno: nat, inComment: bool, inCode: bool, identify: Identify): (r: LineInfo)
    ensures r.definition.Ok? && r.definition.value.Some? ==> r.definition.value.value.lineno == lineno
    ensures r.definition.Err? ==> r.definition.error == Outcomes.ValueError || r.definition.error == Outcomes.IndexError
    ensures r.definition.Ok? && r.definition.value.Some? ==> Text.StartsWith(line, "[")
    ensures r.definition == Outcomes.Err(Outcomes.IndexError) <==>
      Text.StartsWith(line, "[") && Links.DefinitionColonAsWritten(Text.Strip(line)).Err?
  {
    LineInfo(
      Comments.NextState(line, inComment),
      CodeBlocks.Parse(line, inCode).1,
      LineLinks(line, inComment, inCode),
      Identifier(line, inComment, inCode, identify),
      if Text.StartsWith(line, "[") then References.ExtractAsWritten(Text.Strip(line), lineno) else Outcomes.Ok(Outcomes.None))
  }

  /** The reader `parse` uses. */
  function Reader(identify: Identify): Analyzer {
    (line: string, lineno: nat, inComment: bool, inCode: bool) => Analyze(line, lineno, inComment, inCode, identify)
  }

  /** Definitions carry the number of the line they were read from. */
  ghost predicate Numbered(analyze: Analyzer) {
    forall line, lineno, c, f :: analyze(line, lineno, c, f).definition.Ok? && analyze(line, lineno, c, f).definition.value.Some? ==>
      analyze(line, lineno, c, f).definition.value.value.lineno == lineno
  }

  lemma ReaderNumbered(identify: Identify)
    ensures Numbered(Reader(identify))
  {
  }

  /** The body of `parse`'s loop for line `lineno`. */
  function Step(st: State, line: string, lineno: nat, analyze: Analyzer): Outcomes.Result<State> {
    var info := analyze(line, lineno, st.inComment, st.inCode);
    if info.Skipped() then Outcomes.Ok(st.(inComment := info.inComment, inCode := info.inCode))
    else
      var lines := if info.links != [] then st.lines[lineno := ArticleLine(line, info.links)] else st.lines;
      var names := if info.identifier.Some? then Add(st.names, info.identifier.value, lineno) else st.names;
      var found := if info.identifier.Some? then st.found + [(info.identifier.value, lineno)] else st.found;
      var definition :- info.definition;
      var references := if definition.Some? then st.references[definition.value.name := definition.value] else st.references;
      Outcomes.Ok(State(info.inComment, info.inCode, lines, references, names, found))
  }

  const Start: State := State(false, false, map[], map[], Names(map[], map[]), [])

  /** The loop over the file's lines, numbered from 1. */
  function ParseLines(text: seq<string>, analyze: Analyzer): Outcomes.Result<State> {
    if |text| == 0 then Outcomes.Ok(Start)
    else
      var before :- ParseLines(text[..|text| - 1], analyze);
      Step(before, text[|text| - 1], |text|, analyze)
  }

  /** The comment and fence states after a prefix of the file, computed on their own. */
  function ModesAfter(text: seq<string>, analyze: Analyzer): (bool, bool) {
    if |text| == 0 then (false, false)
    else
      var (c, f) := ModesAfter(text[..|text| - 1], analyze);
      var info := analyze(text[|text| - 1], |text|, c, f);
      (info.inComment, info.inCode)
  }

  /** What reading line `n` (from 1) finds. */
  function InfoOn(text: seq<string>, n: int, analyze: Analyzer): LineInfo
    requires 1 <= n <= |text|
  {
    var (c, f) := ModesAfter(text[..n - 1], analyze);
    analyze(text[n - 1], n, c, f)
  }

  /** Line `n` is read: it does not leave a comment or a fence open. */
  predicate Read(text: seq<string>, n: int, analyze: Analyzer)
    requires 1 <= n <= |text|
  {
    !InfoOn(text, n, analyze).Skipped()
  }

  /** The identifiers found on read lines, in order, with their lines. */
  function FoundIn(text: seq<string>, analyze: Analyzer): seq<(string, nat)> {
    if |text| == 0 then []
    else
      var n := |text|;
      var info := InfoOn(text, n, analyze);
      FoundIn(text[..n - 1], analyze) + (if !info.Skipped() && info.identifier.Some? then [(info.identifier.value, n)] else [])
  }

  /** Line `k` reads the same in the file and in any longer prefix of it. */
  lemma PrefixAgrees(text: seq<string>, m: int, k: int, analyze: Analyzer)
    requires 1 <= k <= m <= |text|
    ensures InfoOn(text[..m], k, analyze) == InfoOn(text, k, analyze)
  {
    assert text[..m][..k - 1] == text[..k - 1];
    assert text[..m][k - 1] == text[k - 1];
  }

  /** The last line reads in the states the loop is in after the lines before it. */
  lemma {:induction false} ParseLinesModes(text: seq<string>, analyze: Analyzer)
    requires ParseLines(text, analyze).Ok?
    ensures var st := ParseLines(text, analyze).value;
      (st.inComment, st.inCode) == ModesAfter(text, analyze)
    decreases |text|
  {
    if |text| > 0 {
      ParseLinesModes(text[..|text| - 1], analyze);
    }
  }

  /** One step of the loop, with the line it reads described by `InfoOn`. */
  lemma LastStep(text: seq<string>, analyze: Analyzer)
    requires |text| > 0 && ParseLines(text, analyze).Ok?
    ensures ParseLines(text[..|text| - 1], analyze).Ok?
    ensures var before := ParseLines(text[..|text| - 1], analyze).value;
      && ParseLines(text, analyze) == Step(before, text[|text| - 1], |text|, analyze)
      && analyze(text[|text| - 1], |text|, before.inComment, before.inCode) == InfoOn(text, |text|, analyze)
  {
    var init := text[..|text| - 1];
    ParseLinesModes(init, analyze);
    assert text[..|text| - 1] == init;
  }

  /**
   * A line is cached exactly when it is read and keeps a link; the
   * cache holds its text and those links.
   */
  lemma {:induction false} ParseLinesCached(text: seq<string>, analyze: Analyzer)
    requires ParseLines(text, analyze).Ok?
    ensures var st := ParseLines(text, analyze).value;
      && (forall n :: n in st.lines <==> 1 <= n <= |text| && Read(text, n, analyze) && InfoOn(text, n, analyze).links != [])
      && (forall n :: n in st.lines ==> 1 <= n <= |text| && st.lines[n] == ArticleLine(text[n - 1], InfoOn(text, n, analyze).links))
    decreases |text|
  {
    if |text| > 0 {
      var n := |text|;
      var init := text[..n - 1];
      LastStep(text, analyze);
      ParseLinesCached(init, analyze);
      forall k | 1 <= k < n ensures InfoOn(init, k, analyze) == InfoOn(text, k, analyze) {
        PrefixAgrees(text, n - 1, k, analyze);
      }
      var before := ParseLines(init, analyze).value;
      var info := InfoOn(text, n, analyze);
      StepLines(before, text[n - 1], n, analyze, ParseLines(text, analyze).value);
      CachedStep(text, analyze, before.lines, info, ParseLines(text, analyze).value.lines);
    }
  }

  /** The lines that hold links are all `Step` changes in the cache. */
  lemma StepLines(before: State, line: string, lineno: nat, analyze: Analyzer, after: State)
    requires Step(before, line, lineno, analyze) == Outcomes.Ok(after)
    ensures var info := analyze(line, lineno, before.inComment, before.inCode);
      after.lines == if !info.Skipped() && info.links != [] then before.lines[lineno := ArticleLine(line, info.links)] else before.lines
  {
  }

  /** `cache` holds exactly the read lines of `text` that keep a link. */
  ghost predicate Cached(text: seq<string>, analyze: Analyzer, cache: map<nat, ArticleLine>) {
    && (forall n :: n in cache <==> 1 <= n <= |text| && Read(text, n, analyze) && InfoOn(text, n, analyze).links != [])
    && (forall n :: n in cache ==> 1 <= n <= |text| && cache[n] == ArticleLine(text[n - 1], InfoOn(text, n, analyze).links))
  }

  lemma CachedStep(text: seq<string>, analyze: Analyzer, before: map<nat, ArticleLine>, info: LineInfo, after: map<nat, ArticleLine>)
    requires |text| > 0 && info == InfoOn(text, |text|, analyze)
    requires Cached(text[..|text| - 1], analyze, before)
    requires forall k :: 1 <= k < |text| ==> InfoOn(text[..|text| - 1], k, analyze) == InfoOn(text, k, analyze)
    requires after == if !info.Skipped() && info.links != [] then before[|text| := ArticleLine(text[|text| - 1], info.links)] else before
    ensures Cached(text, analyze, after)
  {
    var init := text[..|text| - 1];
    var n := |text|;
    forall k | 1 <= k < n
      ensures Read(init, k, analyze) == Read(text, k, analyze) && init[k - 1] == text[k - 1]
    {
    }
    forall k | k in after ensures 1 <= k <= n && Read(text, k, analyze) && InfoOn(text, k, analyze).links != []
      && after[k] == ArticleLine(text[k - 1], InfoOn(text, k, analyze).links)
    {
      if k != n {
        assert k in before;
      }
    }
    forall k | 1 <= k <= n && Read(text, k, analyze) && InfoOn(text, k, analyze).links != [] ensures k in after {
      if k != n {
        assert k in before;
      }
    }
  }

  /** The identifiers found are those of the read lines, in order; the names are built from them. */
  lemma {:induction false} ParseLinesNames(text: seq<string>, analyze: Analyzer)
    requires ParseLines(text, analyze).Ok?
    ensures var st := ParseLines(text, analyze).value;
      st.found == FoundIn(text, analyze) && st.names == Dedup(st.found)
    decreases |text|
  {
    if |text| > 0 {
      var n := |text|;
      LastStep(text, analyze);
      var before := ParseLines(text[..n - 1], analyze).value;
      ParseLinesNames(text[..n - 1], analyze);
      var st := ParseLines(text, analyze).value;
      if |st.found| > |before.found| {
        assert st.found[..|st.found| - 1] == before.found;
      }
    }
  }

  /** Definitions later in the file replace earlier ones of the same name. */
  predicate LastDefinition(text: seq<string>, analyze: Analyzer, r: References.Reference)
  {
    && 1 <= r.lineno <= |text|
    && Read(text, r.lineno, analyze)
    && InfoOn(text, r.lineno, analyze).definition == Outcomes.Ok(Outcomes.Some(r))
    && forall m :: r.lineno < m <= |text| && Read(text, m, analyze) ==>
         var d := InfoOn(text, m, analyze).definition;
         !(d.Ok? && d.value.Some? && d.value.value.name == r.name)
  }

  /** Whether line `n` is read and defines `name`. */
  predicate Defines(text: seq<string>, n: int, analyze: Analyzer, name: string)
    requires 1 <= n <= |text|
  {
    var d := InfoOn(text, n, analyze).definition;
    Read(text, n, analyze) && d.Ok? && d.value.Some? && d.value.value.name == name
  }

  /** A definition on the last line is the last one of its name. */
  lemma LastLineDefinition(text: seq<string>, analyze: Analyzer)
    requires Numbered(analyze)
    requires |text| > 0 && Read(text, |text|, analyze)
    requires InfoOn(text, |text|, analyze).definition.Ok? && InfoOn(text, |text|, analyze).definition.value.Some?
    ensures LastDefinition(text, analyze, InfoOn(text, |text|, analyze).definition.value.value)
  {
    var (c, f) := ModesAfter(text[..|text| - 1], analyze);
    assert InfoOn(text, |text|, analyze) == analyze(text[|text| - 1], |text|, c, f);
  }

  /** The last definition before the last line stays the last one when that line does not define its name. */
  lemma EarlierDefinition(text: seq<string>, analyze: Analyzer, r: References.Reference)
    requires |text| > 0 && LastDefinition(text[..|text| - 1], analyze, r)
    requires !Defines(text, |text|, analyze, r.name)
    ensures LastDefinition(text, analyze, r)
  {
    var n := |text|;
    PrefixAgrees(text, n - 1, r.lineno, analyze);
    forall m | r.lineno < m < n ensures InfoOn(text[..n - 1], m, analyze) == InfoOn(text, m, analyze) {
      PrefixAgrees(text, n - 1, m, analyze);
    }
  }

  /** Whether line `n` is read and holds a definition. */
  predicate HasDefinition(text: seq<string>, n: int, analyze: Analyzer)
    requires 1 <= n <= |text|
  {
    var d := InfoOn(text, n, analyze).definition;
    Read(text, n, analyze) && d.Ok? && d.value.Some?
  }

  /**
   * Every reference is the definition read on its own line, keyed by its
   * name, and no read line after it defines the same name; and every
   * definition on a read line has its name among the references.
   */
  lemma {:induction false} ParseLinesReferences(text: seq<string>, analyze: Analyzer)
    requires Numbered(analyze)
    requires ParseLines(text, analyze).Ok?
    ensures var st := ParseLines(text, analyze).value;
      forall name :: name in st.references ==>
        st.references[name].name == name && LastDefinition(text, analyze, st.references[name])
    ensures var st := ParseLines(text, analyze).value;
      forall n :: 1 <= n <= |text| && HasDefinition(text, n, analyze) ==>
        InfoOn(text, n, analyze).definition.value.value.name in st.references
    decreases |text|
  {
    StoresDefinitions(text, analyze);
    if |text| > 0 {
      var n := |text|;
      LastStep(text, analyze);
      ParseLinesReferences(text[..n - 1], analyze);
      var before := ParseLines(text[..n - 1], analyze).value;
      var st := ParseLines(text, analyze).value;
      var info := InfoOn(text, n, analyze);
      forall name | name in st.references
        ensures st.references[name].name == name && LastDefinition(text, analyze, st.references[name])
      {
        if Defines(text, n, analyze, name) {
          LastLineDefinition(text, analyze);
        } else {
          EarlierDefinition(text, analyze, before.references[name]);
        }
      }
    }
  }

  /** Every definition on a read line has its name among the references. */
  lemma {:induction false} StoresDefinitions(text: seq<string>, analyze: Analyzer)
    requires ParseLines(text, analyze).Ok?
    ensures var st := ParseLines(text, analyze).value;
      forall n :: 1 <= n <= |text| && HasDefinition(text, n, analyze) ==>
        InfoOn(text, n, analyze).definition.value.value.name in st.references
    decreases |text|
  {
    if |text| > 0 {
      var n := |text|;
      LastStep(text, analyze);
      StoresDefinitions(text[..n - 1], analyze);
      var before := ParseLines(text[..n - 1], analyze).value;
      var st := ParseLines(text, analyze).value;
      ReferencesGrow(before, text[n - 1], n, analyze, st);
      forall k | 1 <= k <= n && HasDefinition(text, k, analyze)
        ensures InfoOn(text, k, analyze).definition.value.value.name in st.references
      {
        if k < n {
          PrefixAgrees(text, n - 1, k, analyze);
          assert HasDefinition(text[..n - 1], k, analyze);
        }
      }
    }
  }

  /** A step keeps every reference name and adds the name of a definition on a read line. */
  lemma ReferencesGrow(before: State, line: string, lineno: nat, analyze: Analyzer, after: State)
    requires Step(before, line, lineno, analyze) == Outcomes.Ok(after)
    ensures forall name :: name in before.references ==> name in after.references
    ensures var info := analyze(line, lineno, before.inComment, before.inCode);
      !info.Skipped() && info.definition.Ok? && info.definition.value.Some? ==> info.definition.value.value.name in after.references
  {
  }

  /** `parse(path)`: the article at `path` whose file has lines `text`; `load` is YAML loading of the front matter. */
  function Parse(path: Paths.PurePath, text: seq<string>, identify: Identify, load: seq<string> -> FrontMatter.Mapping): (r: Outcomes.Result<Article>)
    ensures r.Ok? <==> ParseLines(text, Reader(identify)).Ok?
    ensures r.Ok? ==> (r.value.directory, r.value.filename) == Located(path)
    ensures r.Ok? ==> r.value.frontMatter == FrontMatter.Load(text, load)
  {
    var st :- ParseLines(text, Reader(identify));
    var (directory, filename) := Located(path);
    Outcomes.Ok(Article(directory, filename, st.lines, st.references, st.names.ids, FrontMatter.Load(text, load)))
  }

  /**
   * The identifiers of a parsed article: with identifiers free of `.`,
   * the first occurrence of each keeps its name and the k-th repeat is
   * `name.k`, each mapped to its own line, and nothing else is there.
   */
  lemma ParseIdentifiers(path: Paths.PurePath, text: seq<string>, identify: Identify, load: seq<string> -> FrontMatter.Mapping)
    requires Parse(path, text, identify, load).Ok?
    requires Undotted(FoundIn(text, Reader(identify)))
    ensures var found := FoundIn(text, Reader(identify));
      var ids := Parse(path, text, identify, load).value.identifiers;
      && (forall n, k :: 0 <= k < Occ(found, n) ==> Suffixed(n, k) in ids && ids[Suffixed(n, k)] == LineOf(found, n, k))
      && (forall key :: key in ids ==> exists n, k :: 0 <= k < Occ(found, n) && key == Suffixed(n, k))
  {
    ParseLinesNames(text, Reader(identify));
    DedupNames(FoundIn(text, Reader(identify)));
  }

  /** The links a read line keeps: those `find_links` finds outside the comments and code that line's parsers report. */
  lemma ReadLinks(text: seq<string>, n: int, identify: Identify)
    requires 1 <= n <= |text|
    ensures var (c, f) := ModesAfter(text[..n - 1], Reader(identify));
      InfoOn(text, n, Reader(identify)).links == LineLinks(text[n - 1], c, f)
  {
  }

  /** The lines a parsed article keeps are exactly the read lines with a kept link, with their text and links. */
  lemma ParseLinesKept(path: Paths.PurePath, text: seq<string>, identify: Identify, load: seq<string> -> FrontMatter.Mapping)
    requires Parse(path, text, identify, load).Ok?
    ensures var lines := Parse(path, text, identify, load).value.lines;
      && (forall n :: n in lines <==> 1 <= n <= |text| && Read(text, n, Reader(identify)) && InfoOn(text, n, Reader(identify)).links != [])
      && (forall n :: n in lines ==> 1 <= n <= |text| && lines[n] == ArticleLine(text[n - 1], InfoOn(text, n, Reader(identify)).links))
  {
    ParseLinesCached(text, Reader(identify));
  }

  /**
   * The references of a parsed article: each is the last definition of its
   * name on a read line, and every definition on a read line is stored
   * under its name.
   */
  lemma ParseReferences(path: Paths.PurePath, text: seq<string>, identify: Identify, load: seq<string> -> FrontMatter.Mapping)
    requires Parse(path, text, identify, load).Ok?
    ensures var refs := Parse(path, text, identify, load).value.references;
      forall name :: name in refs ==> refs[name].name == name && LastDefinition(text, Reader(identify), refs[name])
    ensures var refs := Parse(path, text, identify, load).value.references;
      forall n :: 1 <= n <= |text| && HasDefinition(text, n, Reader(identify)) ==>
        InfoOn(text, n, Reader(identify)).definition.value.value.name in refs
  {
    ReaderNumbered(identify);
    ParseLinesReferences(text, Reader(identify));
  }

  /** The directory (`parent.as_posix()`) and file name (`name`) an article takes from its path. */
  function Located(path: Paths.PurePath): (string, string) {
    (Paths.AsPosix(Paths.Parent(path)), Paths.Name(path))
  }

  /** A path of at least two components reads back as itself from `Article.path`. */
  lemma ArticlePath(path: Paths.PurePath)
    requires |path.parts| >= 2 && Paths.AllPlain(path.parts)
    ensures Located(path).0 + "/" + Located(path).1 == Paths.AsPosix(path)
  {
    var parent := Paths.Parent(path);
    assert parent.parts + [Paths.Name(path)] == path.parts;
    JoinSnoc(parent.parts, Paths.Name(path));
  }

  /** A file in the working directory has `.` for its directory: its path is `./name`. */
  lemma ArticlePathTopLevel(name: string)
    ensures Located(Paths.PurePath(false, [name])).0 + "/" + Located(Paths.PurePath(false, [name])).1 == "./" + name
  {
  }

  lemma {:induction false} JoinSnoc(xs: seq<string>, x: string)
    requires |xs| >= 1
    ensures Text.Join("/", xs + [x]) == Text.Join("/", xs) + "/" + x
    decreases |xs|
  {
    if |xs| > 1 {
      assert (xs + [x])[1..] == xs[1..] + [x];
      JoinSnoc(xs[1..], x);
    } else {
      assert (xs + [x])[1..] == [x];
    }
  }
}

=== FILE: brokenlinks.dfy ===
/**
 * The standalone link checker (find-broken-wikilinks.py), the
 * predecessor of `check-links`. Its link and comment parsers and its
 * redirect loader are the same text as wikitools' `link_parser`,
 * `comment_parser` and `redirect_parser`, so they are `Links`, `Comments`
 * and `Redirects` here; what is its own is modelled below: where a file's
 * directory is taken from, how a link is resolved (by existence on disk
 * and through redirects), which files and links are counted, and the
 * summary counts.
 */
module BrokenLinks {
  import Text
  import Links
  import Comments
  import Redirects
  import CheckLinks

  // ---------------------------------------------------------------------
  // directory, check_redirect, check_link

  /**
   * `directory(filename)`: the text between the first and the last `/`.
   * Python's slice end -1 (no `/` at all) cuts the last character.
   */
  function Directory(filename: string): string {
    Text.Slice(filename, Text.Find(filename, "/", 0) + 1, Text.LastIndex(filename, '/'))
  }

  /** For a file `wiki/<d>/<name>` the directory is `d`, however many levels it has. */
  lemma DirectoryOfArticle(d: string, name: string)
    requires '/' !in name
    ensures Directory("wiki/" + d + "/" + name) == d
  {
    var f := "wiki/" + d + "/" + name;
    var p := 5 + |d|;
    assert f[..4] == "wiki" && f[4] == '/';
    Text.FindFirstChar(f, '/', "wiki");
    assert "/" == ['/'];
    assert f[p] == '/' && f[p + 1..] == name;
    var r := Text.LastIndex(f, '/');
    assert r != -1;
    forall k | p < k < |f| ensures f[k] != '/' {
      assert f[k] == f[p + 1..][k - p - 1];
    }
    forall k | r < k < |f| ensures f[k] != '/' {
      assert f[k] == f[r + 1..][k - r - 1];
    }
    assert r == p;
    assert f[5..p] == d;
  }

  /** A file name without `/` loses its last character: `directory("README.md")` is `"README.m"`. */
  lemma DirectoryWithoutSlash(f: string)
    requires '/' !in f && |f| > 0
    ensures Directory(f) == f[..|f| - 1]
  {
    Text.FindIsContains(f, "/");
    Text.ContainsChar(f, '/');
    assert "/" == ['/'];
    assert Text.SliceBound(-1, |f|) == |f| - 1;
  }

  /**
   * This tool's `check_redirect`: the link is looked up in lower case; a
   * link with no redirect fails without a note, a redirect whose
   * destination is missing fails with one.
   */
  function CheckRedirect(redirects: Redirects.Redirects, link: string, existing: set<string>): (r: Redirects.Check)
    ensures r.ok == Redirects.CheckRedirect(redirects, link, existing).ok
    ensures Text.Lower(link) in redirects ==> r == Redirects.CheckRedirect(redirects, link, existing)
    ensures Text.Lower(link) !in redirects ==> r == Redirects.Check(false, "")
  {
    var linkLower := Text.Lower(link);
    if linkLower !in redirects then Redirects.Check(false, "")
    else
      var (destination, lineNo) := redirects[linkLower];
      if "wiki/" + destination !in existing then
        Redirects.Check(false, "Note: Broken redirect (redirect.yaml:" + Text.IntToString(lineNo) + ": " + linkLower + " --> " + destination + ")")
      else Redirects.Check(true, "")
  }

  predicate External(link: string) {
    Text.StartsWith(link, "http://") || Text.StartsWith(link, "https://") || Text.StartsWith(link, "mailto:")
  }

  /**
   * `check_link(redirects, directory, link)`: an absolute wiki link
   * resolves when its path exists, otherwise through a redirect of the
   * path below `/wiki/`; a relative link likewise from the article's
   * directory; external links always pass. `existing` is the set of paths
   * present on disk.
   */
  function CheckLink(redirects: Redirects.Redirects, directory: string, link: string, existing: set<string>): (r: Redirects.Check)
    ensures Text.StartsWith(link, "/wiki/") ==>
      (r.ok <==> link[1..] in existing || Redirects.CheckRedirect(redirects, Links.Child(link), existing).ok)
    ensures !Text.StartsWith(link, "/wiki/") && !External(link) ==>
      (r.ok <==> "wiki/" + directory + "/" + link in existing || Redirects.CheckRedirect(redirects, directory + "/" + link, existing).ok)
    ensures !Text.StartsWith(link, "/wiki/") && External(link) ==> r == Redirects.Check(true, "")
    ensures r.ok ==> r.note == ""
  {
    if Text.StartsWith(link, "/wiki/") then
      if link[1..] in existing then Redirects.Check(true, "")
      else CheckRedirect(redirects, Links.Child(link), existing)
    else if !External(link) then
      if "wiki/" + directory + "/" + link in existing then Redirects.Check(true, "")
      else CheckRedirect(redirects, directory + "/" + link, existing)
    else Redirects.Check(true, "")
  }

  /** An absolute link falls back on the redirect of the article path below `/wiki/`. */
  lemma AbsoluteFallsBackOnPath(rest: string, redirects: Redirects.Redirects, existing: set<string>)
    requires "wiki/" + rest !in existing
    ensures CheckLink(redirects, "", "/wiki/" + rest, existing) == CheckRedirect(redirects, rest, existing)
  {
    var link := "/wiki/" + rest;
    assert link[..6] == "/wiki/" && link[1..] == "wiki/" + rest;
    Links.ChildCut(link, 5);
    assert link[6..] == rest;
  }

  // ---------------------------------------------------------------------
  // the file filter

  /** The path as given with backslashes turned into slashes and one leading `./` dropped. */
  function Normalise(filename: string): (r: string)
    ensures '\\' !in r
  {
    var f := Text.ReplaceChar(filename, '\\', "/");
    assert !Text.Contains("/", ['\\']) by {
      Text.ContainsChar("/", '\\');
    }
    if Text.StartsWith(f, "./") then f[2..] else f
  }

  /** Only Markdown files are checked, and never templates, read-mes or the styling criteria. */
  predicate Checked(filename: string) {
    && Text.EndsWith(filename, ".md")
    && !Text.Contains(filename, "TEMPLATE")
    && !Text.Contains(filename, "README")
    && !Text.Contains(filename, "Article_styling_criteria")
  }

  lemma NormaliseExamples()
    ensures Normalise(".\\a") == "a"
    ensures Normalise("./b") == "b"
  {
    assert Text.ReplaceChar("./b", '\\', "/") == "./b";
    assert Text.ReplaceChar(".\\a", '\\', "/") == "./a";
  }

  /** The checked files among the given names, normalised, in the given order. */
  function CheckedFiles(filenames: seq<string>): (r: seq<string>)
    ensures forall f :: f in r <==> exists g :: g in filenames && f == Normalise(g) && Checked(f)
  {
    if |filenames| == 0 then []
    else
      var f := Normalise(filenames[0]);
      assert forall g :: g in filenames <==> g == filenames[0] || g in filenames[1..];
      (if Checked(f) then [f] else []) + CheckedFiles(filenames[1..])
  }

  // ---------------------------------------------------------------------
  // one line

  /** The comment state after a line: the last comment's, when the line has comments. */
  function After(comments: seq<Comments.Comment>, inMultiline: bool): bool {
    if |comments| > 0 then comments[|comments| - 1].end == -1 else inMultiline
  }

  /** This tool's update of `in_multiline` is the wikitools one. */
  lemma AfterIsNextState(line: string, inMultiline: bool)
    ensures After(Comments.Parse(line, inMultiline), inMultiline) == Comments.NextState(line, inMultiline)
  {
  }

  /** The page every article may link to without a check. */
  const Sitemap: string := "/wiki/Sitemap"

  /** What one line contributes: its links outside comments, and those among them that are broken. */
  datatype LineReport = LineReport(counted: seq<Links.Link>, bad: seq<Links.Link>)

  /** The link is not skipped and does not resolve. */
  predicate Broken(l: Links.Link, redirects: Redirects.Redirects, directory: string, existing: set<string>) {
    l.Content() != Sitemap && !CheckLink(redirects, directory, l.location, existing).ok
  }

  /**
   * The inner loop of `main` for one line: links that start inside a
   * comment are not counted; `/wiki/Sitemap` is counted but not checked;
   * every other link is checked, and the broken ones are collected in order.
   */
  function CheckLine(line: string, inMultiline: bool, redirects: Redirects.Redirects, directory: string, existing: set<string>): (r: LineReport)
    ensures var comments := Comments.Parse(line, inMultiline);
      forall l :: l in r.counted <==> l in Links.FindLinks(line) && !Comments.IsInComment(l.linkStart, comments)
    ensures forall l :: l in r.bad <==> l in r.counted && Broken(l, redirects, directory, existing)
    ensures |r.bad| <= |r.counted| <= |Links.FindLinks(line)|
  {
    var comments := Comments.Parse(line, inMultiline);
    var counted := CheckLinks.Filter((l: Links.Link) => !Comments.IsInComment(l.linkStart, comments), Links.FindLinks(line));
    LineReport(counted, CheckLinks.Filter((l: Links.Link) => Broken(l, redirects, directory, existing), counted))
  }

  /** The lines of a file, each checked in the comment state the lines before it leave. */
  function CheckLines(lines: seq<string>, inMultiline: bool, redirects: Redirects.Redirects, directory: string, existing: set<string>): (r: seq<LineReport>)
    ensures |r| == |lines|
    ensures |lines| > 0 ==> r[0] == CheckLine(lines[0], inMultiline, redirects, directory, existing)
    ensures forall i :: 0 < i < |lines| ==>
      r[i] == CheckLine(lines[i], Comments.States(lines, inMultiline)[i - 1], redirects, directory, existing)
  {
    if |lines| == 0 then []
    else
      var next := After(Comments.Parse(lines[0], inMultiline), inMultiline);
      AfterIsNextState(lines[0], inMultiline);
      var rest := CheckLines(lines[1..], next, redirects, directory, existing);
      StatesShift(lines, inMultiline);
      [CheckLine(lines[0], inMultiline, redirects, directory, existing)] + rest
  }

  /** The states of a file are the first line's state followed by the states of the rest. */
  lemma StatesShift(lines: seq<string>, inMultiline: bool)
    requires |lines| > 0
    ensures var next := Comments.NextState(lines[0], inMultiline);
      && Comments.States(lines, inMultiline)[0] == next
      && forall j :: 0 < j < |lines| - 1 ==> Comments.States(lines, inMultiline)[j] == Comments.States(lines[1..], next)[j - 1]
  {
    var next := Comments.NextState(lines[0], inMultiline);
    assert Comments.States(lines, inMultiline) == [next] + Comments.States(lines[1..], next);
  }

  // ---------------------------------------------------------------------
  // the summary

  /** The counts of `print_count` and the exit code. */
  datatype Totals = Totals(exitCode: nat, errors: nat, matches: nat, errorFiles: nat, files: nat)

  function Matches(reports: seq<LineReport>): nat {
    if |reports| == 0 then 0 else |reports[0].counted| + Matches(reports[1..])
  }

  function Errors(reports: seq<LineReport>): (r: nat)
    ensures r == 0 <==> forall j :: 0 <= j < |reports| ==> reports[j].bad == []
  {
    if |reports| == 0 then 0
    else
      assert forall j :: 1 <= j < |reports| ==> reports[1..][j - 1] == reports[j];
      |reports[0].bad| + Errors(reports[1..])
  }

  /** The number of lines with a broken link. */
  function BadLines(reports: seq<LineReport>): (r: nat)
    ensures r <= |reports|
    ensures r <= Errors(reports)
    ensures r == 0 <==> Errors(reports) == 0
  {
    if |reports| == 0 then 0
    else (if reports[0].bad != [] then 1 else 0) + BadLines(reports[1..])
  }

  /** Some line of some file has a broken link. */
  predicate AnyBroken(files: seq<seq<LineReport>>) {
    exists i, j :: 0 <= i < |files| && 0 <= j < |files[i]| && files[i][j].bad != []
  }

  lemma AnyBrokenSplit(files: seq<seq<LineReport>>)
    requires |files| > 0
    ensures AnyBroken(files) <==> Errors(files[0]) > 0 || AnyBroken(files[1..])
  {
    var tail := files[1..];
    assert forall i :: 0 <= i < |tail| ==> tail[i] == files[i + 1];
    if AnyBroken(files) {
      var i, j :| 0 <= i < |files| && 0 <= j < |files[i]| && files[i][j].bad != [];
      if i > 0 {
        assert tail[i - 1][j].bad != [];
      }
    }
  }

  /**
   * The counts with an error file counted once per file that has a
   * broken link, as the summary line says.
   */
  function Tally(files: seq<seq<LineReport>>): (r: Totals)
    ensures r.files == |files|
    ensures r.exitCode <= 1
    ensures r.exitCode == 1 <==> AnyBroken(files)
    ensures r.errorFiles <= r.files
    ensures r.errorFiles <= r.errors
    ensures r.errorFiles == 0 <==> r.exitCode == 0
  {
    if |files| == 0 then Totals(0, 0, 0, 0, 0)
    else
      AnyBrokenSplit(files);
      var rest := Tally(files[1..]);
      var e := Errors(files[0]);
      Totals(if e > 0 then 1 else rest.exitCode, rest.errors + e, rest.matches + Matches(files[0]),
             rest.errorFiles + (if e > 0 then 1 else 0), rest.files + 1)
  }

  /** The counts as the script keeps them: the error-file count goes up once per line with a broken link. */
  function TallyAsWritten(files: seq<seq<LineReport>>): (r: Totals)
    ensures r.files == |files|
    ensures r.exitCode <= 1
    ensures r.exitCode == 1 <==> AnyBroken(files)
    ensures r.errorFiles <= r.errors
    ensures r.errorFiles == 0 <==> r.exitCode == 0
  {
    if |files| == 0 then Totals(0, 0, 0, 0, 0)
    else
      AnyBrokenSplit(files);
      var rest := TallyAsWritten(files[1..]);
      var e := Errors(files[0]);
      Totals(if e > 0 then 1 else rest.exitCode, rest.errors + e, rest.matches + Matches(files[0]),
             rest.errorFiles + BadLines(files[0]), rest.files + 1)
  }

  /**
   * The two tallies agree on everything but the error-file count, which
   * the script never makes smaller than the per-file count.
   */
  lemma {:induction false} AsWrittenOvercounts(files: seq<seq<LineReport>>)
    ensures var w := TallyAsWritten(files); var c := Tally(files);
      w.(errorFiles := c.errorFiles) == c && w.errorFiles >= c.errorFiles
  {
    if |files| > 0 {
      AsWrittenOvercounts(files[1..]);
    }
  }

  /**
   * One file with a broken link on each of two lines: the script reports
   * two error files out of one checked, the per-file count one.
   */
  lemma TwoBadLinesOneFile(l: Links.Link)
    ensures var file := [LineReport([l], [l]), LineReport([l], [l])];
      && TallyAsWritten([file]).errorFiles == 2
      && TallyAsWritten([file]).files == 1
      && Tally([file]).errorFiles == 1
  {
    var file := [LineReport([l], [l]), LineReport([l], [l])];
    assert file[1..][1..] == [];
    assert BadLines(file) == 2;
    assert Errors(file) == 2;
  }

  // ---------------------------------------------------------------------
  // highlight_links

  /** The spans of links to highlight, each replaced by `paint` of the link (its coloured form in the script). */
  function Spans(links: seq<Links.Link>, paint: Links.Link -> string): (r: seq<CheckLinks.Span>)
    ensures |r| == |links|
    ensures forall k :: 0 <= k < |links| ==> r[k] == CheckLinks.Span(links[k].linkStart, links[k].linkEnd, paint(links[k]))
  {
    if |links| == 0 then [] else [CheckLinks.Span(links[0].linkStart, links[0].linkEnd, paint(links[0]))] + Spans(links[1..], paint)
  }

  /** The links `find_links` returns lie in order and each covers its own text, up to a line's final newline. */
  lemma {:induction false} FoundLinksVerbatim(s: string, index: nat)
    requires 0 < |s| && s[|s| - 1] == '\n' && index <= |s| - 1
    ensures CheckLinks.Verbatim(s, Spans(Links.FindLinksFrom(s, index), (l: Links.Link) => l.FullLink()), index)
    decreases |s| - index
  {
    var paint := (l: Links.Link) => l.FullLink();
    match Links.FindLink(s, index)
    case None =>
    case Some(l) =>
      Links.FindLinkSound(s, index);
      var full := l.FullLink();
      assert full[|full| - 1] == s[l.linkEnd];
      assert l.linkEnd < |s| - 1;
      FoundLinksVerbatim(s, l.linkEnd + 1);
      var spans := Spans(Links.FindLinksFrom(s, index), paint);
      assert Links.FindLinksFrom(s, index) == [l] + Links.FindLinksFrom(s, l.linkEnd + 1);
      assert spans[1..] == Spans(Links.FindLinksFrom(s, l.linkEnd + 1), paint);
  }

  /** Highlighting every link of a line with its own text gives the line back without its newline. */
  lemma HighlightFoundLinks(s: string)
    requires 0 < |s| && s[|s| - 1] == '\n'
    ensures CheckLinks.Highlight(s, Spans(Links.FindLinks(s), (l: Links.Link) => l.FullLink())) == s[..|s| - 1]
  {
    FoundLinksVerbatim(s, 0);
    CheckLinks.HighlightIdentity(s, Spans(Links.FindLinks(s), (l: Links.Link) => l.FullLink()), 0);
  }

  // ---------------------------------------------------------------------
  // main

  datatype Outcome = NothingToCheck | Ran(totals: Totals)

  /**
   * `main`: without targets or `--all` there is nothing to do; otherwise
   * the given names (the targets, or the walk of `wiki` and `news`) are
   * normalised and filtered, each checked file is read as its lines, and
   * the counts are summed as the script keeps them (one error file per
   * line with a broken link). `redirectLines` is the text of
   * `wiki/redirect.yaml`.
   */
  function Main(targets: seq<string>, all: bool, walk: seq<string>, read: string -> seq<string>,
                redirectLines: seq<string>, existing: set<string>): (r: Outcome)
    ensures r == NothingToCheck <==> targets == [] && !all
    ensures r.Ran? ==> r.totals.files == |CheckedFiles(if all then walk else targets)|
    ensures r.Ran? ==> (r.totals.exitCode == 1 <==> AnyBroken(Reports(CheckedFiles(if all then walk else targets), read, redirectLines, existing)))
  {
    if targets == [] && !all then NothingToCheck
    else Ran(TallyAsWritten(Reports(CheckedFiles(if all then walk else targets), read, redirectLines, existing)))
  }

  /** The line reports of each checked file. */
  function Reports(files: seq<string>, read: string -> seq<string>, redirectLines: seq<string>, existing: set<string>): (r: seq<seq<LineReport>>)
    ensures |r| == |files|
    ensures forall i :: 0 <= i < |files| ==>
      r[i] == CheckLines(read(files[i]), false, Redirects.LoadRedirects(redirectLines), Directory(files[i]), existing)
  {
    var redirects := Redirects.LoadRedirects(redirectLines);
    seq(|files|, i requires 0 <= i < |files| => CheckLines(read(files[i]), false, redirects, Directory(files[i]), existing))
  }
}

=== FILE: checklinks.dfy ===
/**
 * The `check-links` command (wikitools_cli/commands/check_links.py): the
 * summary it prints, the two filters that drop section errors, the line
 * highlighting and the identifier suggestions, and the exit-code rule of
 * its main loop. Parsing and checking each article is done by `Articles`
 * and `LinkChecker`; the kinds of error the filters look at are
 * parameters.
 */
module CheckLinks {
  import Text
  import Outcomes
  import Sorting
  import FrontMatter

  // ---------------------------------------------------------------------
  // s(i, word)

  /** `s(i, word)`: the count and the word, with an `s` unless the count is 1. */
  function Plural(i: int, word: string): string {
    Text.IntToString(i) + " " + word + (if i != 1 then "s" else "")
  }

  /** The count reads back from the front of the phrase, and the word is plural exactly when the count is not 1. */
  lemma PluralReadsBack(n: nat, word: string)
    ensures var r := Plural(n, word); var k := |Text.NatToString(n)|;
      && k < |r| && r[k] == ' '
      && r[..k] == Text.NatToString(n)
      && Text.DigitsValue(r[..k]) == n
      && (r[k + 1..] == word + "s" <==> n != 1)
      && (r[k + 1..] == word <==> n == 1)
  {
    var r := Plural(n, word);
    var k := |Text.NatToString(n)|;
    assert r[..k] == Text.NatToString(n);
    Text.NatToStringRoundTrip(n);
    if n != 1 {
      assert r[k + 1..] == word + "s";
      assert |word + "s"| != |word|;
    } else {
      assert r[k + 1..] == word;
    }
  }

  /** Different counts give different phrases. */
  lemma PluralInjective(m: nat, n: nat, word: string)
    requires Plural(m, word) == Plural(n, word)
    ensures m == n
  {
    var r := Plural(m, word);
    var km := |Text.NatToString(m)|;
    var kn := |Text.NatToString(n)|;
    PluralReadsBack(m, word);
    PluralReadsBack(n, word);
    forall j | 0 <= j < kn ensures r[j] != ' ' {
      assert r[j] == r[..kn][j];
    }
    forall j | 0 <= j < km ensures r[j] != ' ' {
      assert r[j] == r[..km][j];
    }
    assert km == kn;
    Text.NatToStringInjective(m, n);
  }

  lemma PluralExamples()
    ensures Plural(1, "error") == "1 error"
    ensures Plural(0, "file") == "0 files"
    ensures Plural(2, "link") == "2 links"
  {
  }

  // ---------------------------------------------------------------------
  // highlight_links

  /** A span of a line to replace: the positions of its first and last characters, and what replaces it. */
  datatype Span = Span(start: int, end: int, pretty: string)

  /**
   * The loop of `highlight_links` from `prev` on: the text up to each
   * span's start, the span's replacement, and after the last span the rest
   * of the line without its last character (its newline). Slices are
   * Python's, so a span that starts before `prev` copies nothing.
   */
  function HighlightFrom(s: string, spans: seq<Span>, prev: int): string
    decreases |spans|
  {
    if |spans| == 0 then Text.Slice(s, prev, -1)
    else Text.Slice(s, prev, spans[0].start) + spans[0].pretty + HighlightFrom(s, spans[1..], spans[0].end + 1)
  }

  /** `highlight_links(s, errors)`, each error given as the span of its link and its highlighted form. */
  function Highlight(s: string, spans: seq<Span>): string {
    HighlightFrom(s, spans, 0)
  }

  /**
   * The spans lie in order inside the line, before its last character,
   * from `prev` on, and each is replaced by the text it covers.
   */
  predicate Verbatim(s: string, spans: seq<Span>, prev: int)
    decreases |spans|
  {
    if |spans| == 0 then 0 <= prev <= |s| - 1
    else
      var sp := spans[0];
      && 0 <= prev <= sp.start <= sp.end < |s| - 1
      && sp.pretty == s[sp.start..sp.end + 1]
      && Verbatim(s, spans[1..], sp.end + 1)
  }

  /** `s[lo:-1]` for a bound inside the line. */
  lemma SliceToLast(s: string, lo: int)
    requires 0 <= lo <= |s| - 1
    ensures Text.Slice(s, lo, -1) == s[lo..|s| - 1]
  {
    assert Text.SliceBound(-1, |s|) == |s| - 1;
  }

  /** Three consecutive pieces of a string put back together. */
  lemma Join3(s: string, a: nat, b: nat, c: nat, d: nat, x: string, y: string, z: string)
    requires a <= b <= c <= d <= |s|
    requires x == s[a..b] && y == s[b..c] && z == s[c..d]
    ensures x + y + z == s[a..d]
  {
    assert s[a..d] == s[a..b] + s[b..c] + s[c..d];
  }

  lemma HighlightStep(s: string, spans: seq<Span>, prev: int)
    requires |spans| > 0 && 0 <= prev <= spans[0].start <= |s|
    ensures HighlightFrom(s, spans, prev) == s[prev..spans[0].start] + spans[0].pretty + HighlightFrom(s, spans[1..], spans[0].end + 1)
  {
  }

  /** Where each span is replaced by its own text, highlighting gives the line back without its last character. */
  lemma {:induction false} HighlightIdentity(s: string, spans: seq<Span>, prev: int)
    requires Verbatim(s, spans, prev)
    ensures HighlightFrom(s, spans, prev) == s[prev..|s| - 1]
    decreases |spans|
  {
    if |spans| == 0 {
      SliceToLast(s, prev);
    } else {
      var sp, tail := spans[0], spans[1..];
      var after := HighlightFrom(s, tail, sp.end + 1);
      assert after == s[sp.end + 1..|s| - 1] by {
        HighlightIdentity(s, tail, sp.end + 1);
      }
      assert HighlightFrom(s, spans, prev) == s[prev..sp.start] + sp.pretty + after by {
        HighlightStep(s, spans, prev);
      }
      Join3(s, prev, sp.start, sp.end + 1, |s| - 1, s[prev..sp.start], sp.pretty, after);
    }
  }

  /** With one span: the text before it, its replacement, then the text after it without the line's last character. */
  lemma HighlightOne(s: string, sp: Span)
    requires 0 <= sp.start <= sp.end < |s| - 1
    ensures Highlight(s, [sp]) == s[..sp.start] + sp.pretty + s[sp.end + 1..|s| - 1]
  {
    HighlightStep(s, [sp], 0);
    assert [sp][1..] == [];
    SliceToLast(s, sp.end + 1);
  }

  /** With no spans the line loses only its last character; an empty line stays empty. */
  lemma HighlightNothing(s: string)
    ensures |s| > 0 ==> Highlight(s, []) == s[..|s| - 1]
    ensures |s| == 0 ==> Highlight(s, []) == ""
  {
    if |s| > 0 {
      SliceToLast(s, 0);
    }
  }

  // ---------------------------------------------------------------------
  // filter_errors

  /** The elements of `xs` that `keep` accepts, in order. */
  function Filter<E(==,!new)>(keep: E -> bool, xs: seq<E>): (r: seq<E>)
    ensures |r| <= |xs|
    ensures forall e :: e in r <==> e in xs && keep(e)
  {
    if |xs| == 0 then []
    else
      assert forall e :: e in xs <==> e == xs[0] || e in xs[1..];
      (if keep(xs[0]) then [xs[0]] else []) + Filter(keep, xs[1..])
  }

  /** Filtering twice is filtering once by both conditions. */
  lemma {:induction false} FilterTwice<E(!new)>(first: E -> bool, second: E -> bool, both: E -> bool, xs: seq<E>)
    requires forall e :: both(e) == (first(e) && second(e))
    ensures Filter(second, Filter(first, xs)) == Filter(both, xs)
  {
    if |xs| > 0 {
      var x := xs[0];
      FilterTwice(first, second, both, xs[1..]);
      var rest := Filter(first, xs[1..]);
      assert Filter(both, xs) == (if both(x) then [x] else []) + Filter(both, xs[1..]);
      if first(x) {
        assert Filter(first, xs) == [x] + rest;
        assert ([x] + rest)[0] == x && ([x] + rest)[1..] == rest;
        assert Filter(second, [x] + rest) == (if second(x) then [x] else []) + Filter(second, rest);
      } else {
        assert Filter(first, xs) == rest;
        assert Filter(both, xs) == Filter(both, xs[1..]);
      }
    }
  }

  /**
   * `filter_errors(keep, errors)`: per line, the errors `keep` accepts, in
   * order; a line left without errors is dropped.
   */
  function FilterErrors<E(==,!new)>(keep: E -> bool, errors: map<nat, seq<E>>): (r: map<nat, seq<E>>)
    ensures forall n :: n in r <==> n in errors && Filter(keep, errors[n]) != []
    ensures forall n :: n in r ==> r[n] == Filter(keep, errors[n])
  {
    map n | n in errors && Filter(keep, errors[n]) != [] :: Filter(keep, errors[n])
  }

  /** A line stays exactly when one of its errors passes, and keeps exactly the errors that pass. */
  lemma FilterErrorsMembers<E(!new)>(keep: E -> bool, errors: map<nat, seq<E>>)
    ensures forall n :: n in FilterErrors(keep, errors) <==> n in errors && exists e :: e in errors[n] && keep(e)
    ensures forall n, e :: n in FilterErrors(keep, errors) ==> (e in FilterErrors(keep, errors)[n] <==> e in errors[n] && keep(e))
  {
    forall n | n in errors ensures Filter(keep, errors[n]) != [] <==> exists e :: e in errors[n] && keep(e) {
      var f := Filter(keep, errors[n]);
      if f != [] {
        assert f[0] in f;
      }
    }
  }

  /** The two filters of `main` applied one after the other are one filter by both conditions. */
  lemma FilterErrorsTwice<E(!new)>(first: E -> bool, second: E -> bool, both: E -> bool, errors: map<nat, seq<E>>)
    requires forall e :: both(e) == (first(e) && second(e))
    ensures FilterErrors(second, FilterErrors(first, errors)) == FilterErrors(both, errors)
  {
    var mid := FilterErrors(first, errors);
    var lhs := FilterErrors(second, mid);
    var rhs := FilterErrors(both, errors);
    forall n ensures (n in lhs <==> n in rhs) && (n in lhs ==> lhs[n] == rhs[n]) {
      if n in errors {
        FilterTwiceAt(first, second, both, errors, n);
      }
    }
    assert lhs.Keys == rhs.Keys;
  }

  lemma FilterTwiceAt<E(!new)>(first: E -> bool, second: E -> bool, both: E -> bool, errors: map<nat, seq<E>>, n: nat)
    requires forall e :: both(e) == (first(e) && second(e))
    requires n in errors
    ensures var lhs := FilterErrors(second, FilterErrors(first, errors)); var rhs := FilterErrors(both, errors);
      (n in lhs <==> n in rhs) && (n in lhs ==> lhs[n] == rhs[n])
  {
    var mid := FilterErrors(first, errors);
    FilterTwice(first, second, both, errors[n]);
    if n !in mid {
      assert Filter(first, errors[n]) == [];
      assert Filter(second, Filter(first, errors[n])) == [];
    } else {
      assert mid[n] == Filter(first, errors[n]);
    }
  }

  /** Filtering keeps only lines that had errors, and never adds errors to a line. */
  lemma FilterErrorsShrinks<E(!new)>(keep: E -> bool, errors: map<nat, seq<E>>)
    ensures FilterErrors(keep, errors).Keys <= errors.Keys
    ensures forall n :: n in FilterErrors(keep, errors) ==> |FilterErrors(keep, errors)[n]| <= |errors[n]|
  {
  }

  // ---------------------------------------------------------------------
  // identifier_suggestions

  /** Order by line number. */
  function ByLine(): ((string, nat), (string, nat)) -> bool {
    (a: (string, nat), b: (string, nat)) => a.1 < b.1
  }

  lemma ByLineStrictWeakOrder()
    ensures Sorting.StrictWeakOrder(ByLine())
  {
  }

  function SuggestionLine(entry: (string, nat)): string {
    "line " + Text.NatToString(entry.1) + ": " + entry.0
  }

  /** Where the shorter of two numbers ends, its line has the `:` and the other a digit. */
  lemma ColonAfterDigits(a: string, x: string, b: string, y: string)
    ensures |a| < |b| && (forall i :: 0 <= i < |b| ==> '0' <= b[i] <= '9') ==> ("line " + a + ": " + x)[5 + |a|] != ("line " + b + ": " + y)[5 + |a|]
  {
    if |a| < |b| {
      assert ("line " + b + ": " + y)[5 + |a|] == b[|a|];
    }
  }

  /** A suggestion line gives back its identifier and its line number: different entries never print alike. */
  lemma SuggestionLineReadsBack(e1: (string, nat), e2: (string, nat))
    requires SuggestionLine(e1) == SuggestionLine(e2)
    ensures e1 == e2
  {
    var s1, s2 := SuggestionLine(e1), SuggestionLine(e2);
    var a, b := Text.NatToString(e1.1), Text.NatToString(e2.1);
    assert s1 == "line " + a + ": " + e1.0 && s2 == "line " + b + ": " + e2.0;
    if |a| < |b| {
      ColonAfterDigits(a, e1.0, b, e2.0);
      assert false;
    } else if |b| < |a| {
      ColonAfterDigits(b, e2.0, a, e1.0);
      assert false;
    }
    assert a == s1[5..5 + |a|] == s2[5..5 + |b|] == b;
    Text.NatToStringInjective(e1.1, e2.1);
    assert e1.0 == s1[7 + |a|..] == s2[7 + |b|..] == e2.0;
  }

  function SuggestionLines(entries: seq<(string, nat)>): (r: seq<string>)
    ensures |r| == |entries|
    ensures forall i :: 0 <= i < |entries| ==> r[i] == SuggestionLine(entries[i])
  {
    seq(|entries|, i requires 0 <= i < |entries| => SuggestionLine(entries[i]))
  }

  /**
   * `identifier_suggestions(e, articles)`: the target's identifiers, given
   * in the order the article recorded them, sorted by line number (stably)
   * and written one per line.
   */
  function IdentifierSuggestions(identifiers: seq<(string, nat)>): string {
    Text.Join("\n\t", SuggestionLines(Sorting.Sort(identifiers, ByLine())))
  }

  /** The suggestions list every identifier once per entry, by ascending line number, identifiers on the same line in their recorded order. */
  lemma SuggestionsOrdered(identifiers: seq<(string, nat)>)
    ensures var sorted := Sorting.Sort(identifiers, ByLine());
      && multiset(sorted) == multiset(identifiers)
      && (forall i, j :: 0 <= i < j < |sorted| ==> sorted[i].1 <= sorted[j].1)
      && (forall e :: Sorting.ClassOf(sorted, e, ByLine()) == Sorting.ClassOf(identifiers, e, ByLine()))
      && IdentifierSuggestions(identifiers) == Text.Join("\n\t", SuggestionLines(sorted))
  {
    ByLineStrictWeakOrder();
    Sorting.SortSorted(identifiers, ByLine());
    forall e {
      Sorting.SortStable(identifiers, e, ByLine());
    }
  }

  /** Suggestions are printed only when there are any: the text is empty exactly when the article has no identifiers. */
  lemma SuggestionsEmpty(identifiers: seq<(string, nat)>)
    ensures IdentifierSuggestions(identifiers) == "" <==> |identifiers| == 0
  {
    var lines := SuggestionLines(Sorting.Sort(identifiers, ByLine()));
    if |identifiers| > 0 {
      assert |lines| > 0;
      JoinNonEmpty(lines);
    }
  }

  lemma JoinNonEmpty(lines: seq<string>)
    requires |lines| > 0 && lines[0] != ""
    ensures Text.Join("\n\t", lines) != ""
  {
    if |lines| > 1 {
      assert Text.Join("\n\t", lines) == lines[0] + "\n\t" + Text.Join("\n\t", lines[1..]);
    }
  }

  // ---------------------------------------------------------------------
  // main

  /** The options of `check-links` that decide the outcome. */
  datatype Options = Options(
    targets: Outcomes.Option<seq<string>>,
    all: bool,
    inOutdatedArticles: bool,
    toSectionsInOutdatedTranslations: bool,
    toSectionsInMissingTranslations: bool)

  /** One parsed article: its path, its front matter, its number of kept links, and what `check_article` returns for it. */
  datatype Parsed<E> = Parsed(path: string, frontMatter: FrontMatter.Mapping, links: nat,
                              errors: Outcomes.Result<map<nat, seq<E>>>)

  /** The counts of `print_count` and the exit code. */
  datatype Summary = Summary(exitCode: nat, errors: nat, links: nat, errorFiles: nat, files: nat)

  datatype Outcome = NothingToCheck | Ran(summary: Summary)

  /** The errors are kinds of section error: one about an outdated translation, one about a missing translation. */
  datatype Kinds<!E> = Kinds(outdatedSection: E -> bool, missingSection: E -> bool)

  /** Outdated articles and translations are skipped unless `--in-outdated-articles`. */
  predicate Skipped<E>(a: Parsed<E>, opts: Options) {
    !opts.inOutdatedArticles && (FrontMatter.TruthyAt(a.frontMatter, "outdated") || FrontMatter.TruthyAt(a.frontMatter, "outdated_translation"))
  }

  /** The errors of one article after the two filters `main` applies unless their flags are given. */
  function Kept<E(==,!new)>(errors: map<nat, seq<E>>, opts: Options, kinds: Kinds<E>): map<nat, seq<E>> {
    var first := if !opts.toSectionsInOutdatedTranslations then FilterErrors((e: E) => !kinds.outdatedSection(e), errors) else errors;
    if !opts.toSectionsInMissingTranslations then FilterErrors((e: E) => !kinds.missingSection(e), first) else first
  }

  /** What the filters let through: an error is dropped only for a kind whose flag is not given. */
  predicate Reported<E>(e: E, opts: Options, kinds: Kinds<E>) {
    && (opts.toSectionsInOutdatedTranslations || !kinds.outdatedSection(e))
    && (opts.toSectionsInMissingTranslations || !kinds.missingSection(e))
  }

  /**
   * The two filters together keep exactly the reported errors of each
   * line, and the lines that have some (`check_article` never records a
   * line without errors).
   */
  lemma KeptIsReported<E(!new)>(errors: map<nat, seq<E>>, opts: Options, kinds: Kinds<E>)
    requires forall n :: n in errors ==> errors[n] != []
    ensures forall n :: n in Kept(errors, opts, kinds) <==> n in errors && exists e :: e in errors[n] && Reported(e, opts, kinds)
    ensures forall n :: n in Kept(errors, opts, kinds) ==>
      forall e :: e in Kept(errors, opts, kinds)[n] <==> e in errors[n] && Reported(e, opts, kinds)
  {
    var notOutdated := (e: E) => !kinds.outdatedSection(e);
    var notMissing := (e: E) => !kinds.missingSection(e);
    var both := (e: E) => Reported(e, opts, kinds);
    if !opts.toSectionsInOutdatedTranslations && !opts.toSectionsInMissingTranslations {
      FilterErrorsTwice(notOutdated, notMissing, both, errors);
      FilterErrorsMembers(both, errors);
    } else if !opts.toSectionsInOutdatedTranslations {
      FilterErrorsMembers(notOutdated, errors);
    } else if !opts.toSectionsInMissingTranslations {
      FilterErrorsMembers(notMissing, errors);
    } else {
      forall n | n in errors ensures exists e :: e in errors[n] && Reported(e, opts, kinds) {
        assert errors[n][0] in errors[n];
      }
    }
  }

  /** The sum of the sizes of the error lists, line by line in ascending order. */
  function ErrorTotal<E>(errors: map<nat, seq<E>>): nat
    decreases |errors.Keys|
  {
    if errors == map[] then 0
    else
      var n := LeastKey(errors.Keys);
      var rest := errors - {n};
      assert rest.Keys == errors.Keys - {n};
      |errors[n]| + ErrorTotal(rest)
  }

  /** The smallest line number of a non-empty set. */
  function LeastKey(keys: set<nat>): (n: nat)
    requires keys != {}
    ensures n in keys && forall m :: m in keys ==> n <= m
  {
    var x :| x in keys;
    LeastKeyFrom(keys, x, 0);
    var n :| n in keys && forall m :: m in keys ==> n <= m;
    n
  }

  /** A set of line numbers holding `x` has a least element, found by counting up from a lower bound `k`. */
  lemma {:induction false} LeastKeyFrom(keys: set<nat>, x: nat, k: nat)
    requires x in keys && k <= x
    requires forall m :: m in keys ==> k <= m
    ensures exists n :: n in keys && forall m :: m in keys ==> n <= m
    decreases x - k
  {
    if k !in keys {
      LeastKeyFrom(keys, x, k + 1);
    }
  }

  /** The article is checked and raises. */
  predicate Raises<E>(a: Parsed<E>, opts: Options) {
    !Skipped(a, opts) && a.errors.Err?
  }

  /** The article is checked and keeps errors after the filters. */
  predicate Flagged<E(==,!new)>(a: Parsed<E>, opts: Options, kinds: Kinds<E>) {
    !Skipped(a, opts) && a.errors.Ok? && Kept(a.errors.value, opts, kinds) != map[]
  }

  /** What one article adds to the counts gathered over the articles after it. */
  function Count<E(==,!new)>(a: Parsed<E>, opts: Options, kinds: Kinds<E>, rest: Summary): (r: Outcomes.Result<Summary>)
    requires rest.exitCode <= 1 && rest.errorFiles <= rest.files
    requires rest.errorFiles == 0 <==> rest.exitCode == 0
    ensures r.Err? <==> Raises(a, opts)
    ensures r.Ok? ==> r.value.exitCode <= 1 && r.value.errorFiles <= r.value.files
    ensures r.Ok? ==> (r.value.errorFiles == 0 <==> r.value.exitCode == 0)
    ensures r.Ok? ==> (r.value.exitCode == 1 <==> rest.exitCode == 1 || Flagged(a, opts, kinds))
    ensures r.Ok? ==> r.value.files == rest.files + (if Skipped(a, opts) then 0 else 1)
    ensures r.Ok? ==> r.value.links == rest.links + (if Skipped(a, opts) then 0 else a.links)
    ensures r.Ok? ==> r.value.errorFiles == rest.errorFiles + (if Flagged(a, opts, kinds) then 1 else 0)
  {
    if Skipped(a, opts) then Outcomes.Ok(rest)
    else
      var errors :- a.errors;
      var kept := Kept(errors, opts, kinds);
      if kept == map[] then
        Outcomes.Ok(rest.(links := rest.links + a.links, files := rest.files + 1))
      else
        Outcomes.Ok(Summary(1, rest.errors + ErrorTotal(kept), rest.links + a.links, rest.errorFiles + 1, rest.files + 1))
  }

  /** Whether some article raises or keeps errors, split at the first article. */
  lemma SomeSplit<E(!new)>(articles: seq<Parsed<E>>, opts: Options, kinds: Kinds<E>)
    requires |articles| > 0
    ensures var tail := articles[1..];
      && ((exists i :: 0 <= i < |articles| && Raises(articles[i], opts))
          <==> Raises(articles[0], opts) || exists i :: 0 <= i < |tail| && Raises(tail[i], opts))
      && ((exists i :: 0 <= i < |articles| && Flagged(articles[i], opts, kinds))
          <==> Flagged(articles[0], opts, kinds) || exists i :: 0 <= i < |tail| && Flagged(tail[i], opts, kinds))
  {
    var tail := articles[1..];
    assert forall i :: 0 <= i < |tail| ==> tail[i] == articles[i + 1];
    if exists i :: 0 <= i < |articles| && Raises(articles[i], opts) {
      var i :| 0 <= i < |articles| && Raises(articles[i], opts);
      if i > 0 {
        assert Raises(tail[i - 1], opts);
      }
    }
    if exists i :: 0 <= i < |articles| && Flagged(articles[i], opts, kinds) {
      var i :| 0 <= i < |articles| && Flagged(articles[i], opts, kinds);
      if i > 0 {
        assert Flagged(tail[i - 1], opts, kinds);
      }
    }
  }

  /** Article `i` is the first checked article whose check raises. */
  predicate FirstRaises<E>(articles: seq<Parsed<E>>, opts: Options, i: int) {
    0 <= i < |articles| && Raises(articles[i], opts) && forall j :: 0 <= j < i ==> !Raises(articles[j], opts)
  }

  /** The first raising article of the tail is the first of the whole list when the head does not raise. */
  lemma FirstRaisesShift<E>(articles: seq<Parsed<E>>, opts: Options, i: int)
    requires |articles| > 0 && !Raises(articles[0], opts) && FirstRaises(articles[1..], opts, i)
    ensures FirstRaises(articles, opts, i + 1) && articles[i + 1] == articles[1..][i]
  {
    forall j | 1 <= j < i + 1 ensures !Raises(articles[j], opts) {
      assert articles[j] == articles[1..][j - 1];
    }
  }

  /**
   * The loop of `main` over the parsed articles: skipped articles count
   * nothing; every other article counts its links and is checked, and an
   * article that keeps errors after the filters counts as an error file,
   * adds its errors and sets the exit code to 1. The first article whose
   * check raises makes the whole command raise with its error.
   */
  function Tally<E(==,!new)>(articles: seq<Parsed<E>>, opts: Options, kinds: Kinds<E>): (r: Outcomes.Result<Summary>)
    ensures r.Err? <==> exists i :: 0 <= i < |articles| && Raises(articles[i], opts)
    ensures r.Err? ==> exists i :: FirstRaises(articles, opts, i) && r.error == articles[i].errors.error
    ensures r.Ok? ==> r.value.exitCode <= 1
    ensures r.Ok? ==> (r.value.exitCode == 1 <==> exists i :: 0 <= i < |articles| && Flagged(articles[i], opts, kinds))
    ensures r.Ok? ==> r.value.errorFiles <= r.value.files <= |articles|
    ensures r.Ok? ==> (r.value.errorFiles == 0 <==> r.value.exitCode == 0)
    ensures r.Ok? && opts.inOutdatedArticles ==> r.value.files == |articles|
  {
    if |articles| == 0 then Outcomes.Ok(Summary(0, 0, 0, 0, 0))
    else
      SomeSplit(articles, opts, kinds);
      if Raises(articles[0], opts) then Outcomes.Err(articles[0].errors.error)
      else
        var rest := Tally(articles[1..], opts, kinds);
        if rest.Err? then
          var i :| FirstRaises(articles[1..], opts, i) && rest.error == articles[1..][i].errors.error;
          FirstRaisesShift(articles, opts, i);
          Outcomes.Err(rest.error)
        else Count(articles[0], opts, kinds, rest.value)
  }

  /** Only article and newspost files among `--target` are checked. */
  function Targets(targets: seq<string>, isArticle: string -> bool, isNewspost: string -> bool): (r: seq<string>)
    ensures forall f :: f in r <==> f in targets && (isArticle(f) || isNewspost(f))
  {
    Filter((f: string) => isArticle(f) || isNewspost(f), targets)
  }

  /**
   * `main`: nothing to do without `--target` values or `--all`; otherwise
   * the tally over the parsed articles, which the caller gives in path
   * order (the order only changes what is printed).
   */
  function Main<E(==,!new)>(opts: Options, articles: seq<Parsed<E>>, kinds: Kinds<E>): (r: Outcomes.Result<Outcome>)
    ensures (opts.targets.None? || opts.targets.value == []) && !opts.all <==> r == Outcomes.Ok(NothingToCheck)
    ensures r.Err? <==> r != Outcomes.Ok(NothingToCheck) && exists i :: 0 <= i < |articles| && Raises(articles[i], opts)
    ensures r.Err? ==> exists i :: FirstRaises(articles, opts, i) && r.error == articles[i].errors.error
    ensures r.Ok? && r.value.Ran? ==> (r.value.summary.exitCode == 1 <==> exists i :: 0 <= i < |articles| && Flagged(articles[i], opts, kinds))
  {
    if (opts.targets.None? || opts.targets.value == []) && !opts.all then Outcomes.Ok(NothingToCheck)
    else
      var summary :- Tally(articles, opts, kinds);
      Outcomes.Ok(Ran(summary))
  }
}

=== FILE: cli.dfy ===
/**
 * The `osu-wiki-tools` entry point (wikitools_cli/osu_wiki_tools.py): the
 * table of commands, and how the arguments are split between the main
 * parser and the chosen command.
 */
module Cli {
  /** The four commands; each stands for the `main` of its module. */
  datatype Command = CheckOutdatedArticles | CheckLinks | CheckYaml | WhatLinksHere

  datatype Entry = Entry(name: string, help: string, command: Command)

  /** The command table, in the order the help lists it. */
  function Commands(): (r: seq<Entry>)
    ensures |r| == 4
    ensures forall i, j :: 0 <= i < j < |r| ==> r[i].name != r[j].name && r[i].command != r[j].command
  {
    [ Entry("check-outdated-articles", "check if articles are correctly outdated", CheckOutdatedArticles),
      Entry("check-links", "find broken wikilinks", CheckLinks),
      Entry("check-yaml", "validate front matter and standalone YAML files", CheckYaml),
      Entry("what-links-here", "find links that link to an article", WhatLinksHere) ]
  }

  predicate IsCommandName(arg: string) {
    exists i :: 0 <= i < |Commands()| && Commands()[i].name == arg
  }

  /** The entry a command name selects. */
  function Lookup(name: string): (r: Command)
    requires IsCommandName(name)
    ensures exists i :: 0 <= i < |Commands()| && Commands()[i].name == name && Commands()[i].command == r
  {
    var t := Commands();
    if name == t[0].name then t[0].command
    else if name == t[1].name then t[1].command
    else if name == t[2].name then t[2].command
    else t[3].command
  }

  /** Every command can be selected by its own name, and only by it. */
  lemma LookupNames(i: nat)
    requires i < |Commands()|
    ensures IsCommandName(Commands()[i].name)
    ensures Lookup(Commands()[i].name) == Commands()[i].command
  {
  }

  /** The position of the first argument that names a command, or the number of arguments. */
  function FirstCommand(args: seq<string>): (k: nat)
    ensures k <= |args|
    ensures forall j :: 0 <= j < k ==> !IsCommandName(args[j])
    ensures k < |args| ==> IsCommandName(args[k])
  {
    if |args| == 0 then 0
    else if IsCommandName(args[0]) then 0
    else
      var k := FirstCommand(args[1..]);
      assert forall j :: 1 <= j < |args| ==> args[1..][j - 1] == args[j];
      k + 1
  }

  /**
   * `split_args(args)`, stated directly: the arguments up to and including
   * the first command name go to the main parser, everything after it to
   * the command, command names included.
   */
  function Split(args: seq<string>): (r: (seq<string>, seq<string>))
    ensures r.0 + r.1 == args
    ensures r.1 != [] ==> |r.0| > 0 && IsCommandName(r.0[|r.0| - 1])
    ensures forall j :: 0 <= j < |r.0| - 1 ==> !IsCommandName(r.0[j])
    ensures (forall j :: 0 <= j < |args| ==> !IsCommandName(args[j])) ==> r == (args, [])
  {
    var k := FirstCommand(args);
    if k == |args| then (args, [])
    else
      assert args[..k + 1] + args[k + 1..] == args;
      (args[..k + 1], args[k + 1..])
  }

  /** The loop of `split_args`: each argument goes to the main parser until a command name has been seen. */
  method SplitArgs(args: seq<string>) returns (main: seq<string>, sub: seq<string>)
    ensures (main, sub) == Split(args)
  {
    main := [];
    sub := [];
    var found := false;
    var i := 0;
    ghost var k := FirstCommand(args);
    while i < |args|
      invariant 0 <= i <= |args|
      invariant found <==> k < i
      invariant !found ==> main == args[..i] && sub == []
      invariant found ==> main == args[..k + 1] && sub == args[k + 1..i]
    {
      if found {
        sub := sub + [args[i]];
      } else {
        main := main + [args[i]];
      }
      if IsCommandName(args[i]) {
        found := true;
      }
      i := i + 1;
    }
    assert args[..|args|] == args;
  }

  /** A second command name is passed on to the first command, as an argument of its own. */
  lemma LaterNamesGoToCommand(args: seq<string>, i: nat, j: nat)
    requires i < j < |args| && IsCommandName(args[i]) && IsCommandName(args[j])
    ensures args[j] in Split(args).1
    ensures |Split(args).0| <= i + 1
  {
    var k := FirstCommand(args);
    assert k <= i;
    assert args[j] == args[k + 1..][j - k - 1];
  }

  /** What `main` does with the arguments. */
  datatype Outcome =
    | Usage                              // no arguments: help is printed and the exit code is 1
    | Run(command: Command, args: seq<string>) // the command's `main` gets the rest
    | ParserOnly(args: seq<string>)     // argparse decides: version, help or a usage error

  /**
   * `parse_args` and `main`: no arguments print the help and exit with 1;
   * a command name alone before the rest runs that command on what follows
   * it; any other main arguments are for argparse itself.
   */
  function Dispatch(args: seq<string>): (r: Outcome)
    ensures r == Usage <==> args == []
    ensures r.Run? <==> |args| > 0 && IsCommandName(args[0])
    ensures r.Run? ==> r.command == Lookup(args[0]) && r.args == args[1..]
  {
    var (main, sub) := Split(args);
    if main == [] then Usage
    else if |main| == 1 && IsCommandName(main[0]) then Run(Lookup(main[0]), sub)
    else ParserOnly(main)
  }

  /** `osu-wiki-tools check-links --all` runs `check-links` with `--all`. */
  lemma DispatchExamples()
    ensures Dispatch(["check-links", "--all"]) == Run(CheckLinks, ["--all"])
  {
    assert IsCommandName("check-links") by { LookupNames(1); }
    assert FirstCommand(["check-links", "--all"]) == 0;
  }

  /** A command name after the first is an argument of the first command. */
  lemma DispatchSecondName()
    ensures Dispatch(["check-yaml", "check-links"]) == Run(CheckYaml, ["check-links"])
  {
    assert IsCommandName("check-yaml") by { LookupNames(2); }
    assert FirstCommand(["check-yaml", "check-links"]) == 0;
  }

  /** Options of the main parser alone are left to argparse. */
  lemma DispatchVersion()
    ensures Dispatch(["--version"]) == ParserOnly(["--version"])
  {
    assert !IsCommandName("--version");
    assert FirstCommand(["--version"]) == 1;
  }
}

=== FILE: codeblocks.dfy ===
/**
 * Backtick code spans and fenced blocks on one line of Markdown
 * (wikitools/code_block_parser.py).
 *
 * A block runs from the first backtick of its opening run (`start`) to the
 * last backtick of its closing run (`end`); `tagLen` is the run length. A
 * fence opened on an earlier line starts at -1, and one that stays open
 * past the line ends at -1.
 */
module CodeBlocks {
  import Sorting

  datatype CodeTag = CodeTag(start: int, len: int)

  datatype CodeBlock = CodeBlock(start: int, end: int, tagLen: int)

  /** `CodeBlock.is_multiline`. */
  predicate IsMultiline(b: CodeBlock) {
    b.end == -1 && b.tagLen == 3
  }

  /** `CodeBlock.contains`. */
  predicate Contains(a: CodeBlock, b: CodeBlock) {
    a.start < b.start && a.end > b.end && a.tagLen > b.tagLen
  }

  /** The implicit opening fence carried over from the previous line. */
  const CarriedFence := CodeTag(-1, 3)

  /** The number of backticks from `i` on. */
  function RunLength(line: string, i: nat): (n: nat)
    requires i <= |line|
    ensures i + n <= |line|
    ensures forall j :: i <= j < i + n ==> line[j] == '`'
    ensures i + n == |line| || line[i + n] != '`'
    decreases |line| - i
  {
    if i < |line| && line[i] == '`' then 1 + RunLength(line, i + 1) else 0
  }

  /** A maximal run of exactly `n` backticks starts at `i`. */
  predicate MaxRun(line: string, i: int, n: int) {
    && 0 <= i && 1 <= n && i + n <= |line|
    && (forall j :: i <= j < i + n ==> line[j] == '`')
    && (i == 0 || line[i - 1] != '`')
    && (i + n == |line| || line[i + n] != '`')
  }

  /** At the start of a maximal run, `RunLength` is that run's length. */
  lemma RunLengthOfMaxRun(line: string, i: nat, n: int)
    requires MaxRun(line, i, n)
    ensures RunLength(line, i) == n
  {
  }

  /** The scanning loop: the unmatched tags and the blocks closed so far. */
  function Scan(line: string, i: nat, stack: seq<CodeTag>, blocks: seq<CodeBlock>): (seq<CodeTag>, seq<CodeBlock>)
    requires i <= |line|
    decreases |line| - i
  {
    if i == |line| then (stack, blocks)
    else if line[i] != '`' then Scan(line, i + 1, stack, blocks)
    else
      var cnt := RunLength(line, i);
      if |stack| > 0 && stack[|stack| - 1].len == cnt then
        var opening := stack[|stack| - 1];
        Scan(line, i + cnt, stack[..|stack| - 1],
             blocks + [CodeBlock(opening.start, i + opening.len - 1, opening.len)])
      else
        Scan(line, i + cnt, stack + [CodeTag(i, cnt)], blocks)
  }

  /** Python's tuple order on `(start, end, tag_len)`, used by `blocks.sort()`. */
  function BlockLess(): (CodeBlock, CodeBlock) -> bool {
    (a: CodeBlock, b: CodeBlock) =>
      a.start < b.start || (a.start == b.start && (a.end < b.end || (a.end == b.end && a.tagLen < b.tagLen)))
  }

  lemma BlockLessStrictWeakOrder()
    ensures Sorting.StrictWeakOrder(BlockLess())
  {
  }

  /** Drops the blocks at the front of `rest` that `kept` contains. */
  function SkipContained(kept: CodeBlock, rest: seq<CodeBlock>): (r: seq<CodeBlock>)
    ensures |r| <= |rest| && r == rest[|rest| - |r|..]
    ensures forall j :: 0 <= j < |rest| - |r| ==> Contains(kept, rest[j])
    ensures |r| > 0 ==> !Contains(kept, r[0])
  {
    if |rest| > 0 && Contains(kept, rest[0]) then SkipContained(kept, rest[1..]) else rest
  }

  /** The filtering loop over the sorted blocks. */
  function Consume(blocks: seq<CodeBlock>): seq<CodeBlock>
    decreases |blocks|
  {
    if |blocks| == 0 then [] else [blocks[0]] + Consume(SkipContained(blocks[0], blocks[1..]))
  }

  /** `CodeBlockParser.parse`: the blocks of one line and whether a fence stays open after it. */
  function Parse(line: string, inMultiline: bool): (seq<CodeBlock>, bool) {
    var (stack, blocks) := Scan(line, 0, if inMultiline then [CarriedFence] else [], []);
    if |stack| > 0 then
      if stack[0].len == 3 then ([CodeBlock(stack[0].start, -1, 3)], true)
      else (blocks, |blocks| > 0 && IsMultiline(blocks[0]))
    else
      var filtered := Consume(Sorting.Sort(blocks, BlockLess()));
      (filtered, |filtered| > 0 && IsMultiline(filtered[0]))
  }

  /** A closed block: both runs are maximal runs of `tagLen` backticks, the opening one before the closing one. */
  predicate Closes(line: string, b: CodeBlock) {
    && MaxRun(line, b.end - b.tagLen + 1, b.tagLen)
    && (if b.start == -1 then b.tagLen == 3 else MaxRun(line, b.start, b.tagLen) && b.start + b.tagLen <= b.end - b.tagLen + 1)
  }

  /** An unmatched tag: the carried fence at the bottom of the stack, or a maximal run before `i`. */
  predicate OpenTag(line: string, i: int, t: CodeTag, bottom: bool) {
    (bottom && t == CarriedFence) || (MaxRun(line, t.start, t.len) && t.start + t.len <= i)
  }

  /** Scanning only stops at run starts. */
  predicate AtRunBoundary(line: string, i: nat) {
    i <= |line| && (i < |line| && i > 0 && line[i] == '`' ==> line[i - 1] != '`')
  }

  predicate ScanInv(line: string, i: nat, stack: seq<CodeTag>, blocks: seq<CodeBlock>) {
    && AtRunBoundary(line, i)
    && (forall k :: 0 <= k < |stack| ==> OpenTag(line, i, stack[k], k == 0))
    && (forall b :: b in blocks ==> Closes(line, b) && b.end < i)
  }

  lemma ScanInvStep(line: string, i: nat, stack: seq<CodeTag>, blocks: seq<CodeBlock>)
    requires i < |line| && line[i] == '`'
    requires ScanInv(line, i, stack, blocks)
    ensures var cnt := RunLength(line, i);
      && MaxRun(line, i, cnt)
      && AtRunBoundary(line, i + cnt)
      && (|stack| > 0 && stack[|stack| - 1].len == cnt ==>
            var opening := stack[|stack| - 1];
            ScanInv(line, i + cnt, stack[..|stack| - 1],
                    blocks + [CodeBlock(opening.start, i + opening.len - 1, opening.len)]))
      && (!(|stack| > 0 && stack[|stack| - 1].len == cnt) ==>
            ScanInv(line, i + cnt, stack + [CodeTag(i, cnt)], blocks))
  {
    var cnt := RunLength(line, i);
    RunAt(line, i);
    if |stack| > 0 && stack[|stack| - 1].len == cnt {
      ScanInvClose(line, i, cnt, stack, blocks);
    } else {
      ScanInvPush(line, i, cnt, stack, blocks);
    }
  }

  /** The run scanning reaches at `i` is maximal, and scanning resumes after it at a run boundary. */
  lemma RunAt(line: string, i: nat)
    requires i < |line| && line[i] == '`' && AtRunBoundary(line, i)
    ensures MaxRun(line, i, RunLength(line, i)) && AtRunBoundary(line, i + RunLength(line, i))
  {
  }

  lemma ScanInvClose(line: string, i: nat, cnt: nat, stack: seq<CodeTag>, blocks: seq<CodeBlock>)
    requires i < |line| && MaxRun(line, i, cnt) && AtRunBoundary(line, i + cnt)
    requires ScanInv(line, i, stack, blocks)
    requires |stack| > 0 && stack[|stack| - 1].len == cnt
    ensures var opening := stack[|stack| - 1];
      ScanInv(line, i + cnt, stack[..|stack| - 1], blocks + [CodeBlock(opening.start, i + opening.len - 1, opening.len)])
  {
    var opening := stack[|stack| - 1];
    var b := CodeBlock(opening.start, i + opening.len - 1, opening.len);
    assert OpenTag(line, i, stack[|stack| - 1], |stack| - 1 == 0);
    assert Closes(line, b);
    var blocks' := blocks + [b];
    forall c | c in blocks' ensures Closes(line, c) && c.end < i + cnt {
      if c != b {
        assert c in blocks;
      }
    }
    var stack' := stack[..|stack| - 1];
    forall k | 0 <= k < |stack'| ensures OpenTag(line, i + cnt, stack'[k], k == 0) {
      assert OpenTag(line, i, stack[k], k == 0);
    }
  }

  lemma ScanInvPush(line: string, i: nat, cnt: nat, stack: seq<CodeTag>, blocks: seq<CodeBlock>)
    requires i < |line| && MaxRun(line, i, cnt) && AtRunBoundary(line, i + cnt)
    requires ScanInv(line, i, stack, blocks)
    ensures ScanInv(line, i + cnt, stack + [CodeTag(i, cnt)], blocks)
  {
    var stack' := stack + [CodeTag(i, cnt)];
    forall k | 0 <= k < |stack'| ensures OpenTag(line, i + cnt, stack'[k], k == 0) {
      if k < |stack| {
        assert OpenTag(line, i, stack[k], k == 0);
      }
    }
  }

  lemma {:induction false} ScanInvariant(line: string, i: nat, stack: seq<CodeTag>, blocks: seq<CodeBlock>)
    requires ScanInv(line, i, stack, blocks)
    ensures var (s, bs) := Scan(line, i, stack, blocks); ScanInv(line, |line|, s, bs)
    decreases |line| - i
  {
    if i < |line| {
      if line[i] != '`' {
        forall k | 0 <= k < |stack| ensures OpenTag(line, i + 1, stack[k], k == 0) {
          assert OpenTag(line, i, stack[k], k == 0);
        }
        ScanInvariant(line, i + 1, stack, blocks);
      } else {
        var cnt := RunLength(line, i);
        ScanInvStep(line, i, stack, blocks);
        if |stack| > 0 && stack[|stack| - 1].len == cnt {
          var opening := stack[|stack| - 1];
          ScanInvariant(line, i + cnt, stack[..|stack| - 1],
                        blocks + [CodeBlock(opening.start, i + opening.len - 1, opening.len)]);
        } else {
          ScanInvariant(line, i + cnt, stack + [CodeTag(i, cnt)], blocks);
        }
      }
    }
  }

  /**
   * Every block the scan closes ends at a maximal run of exactly as many
   * backticks as its opening run (or the carried ``` fence), and the run
   * ends at the block's `end`.
   */
  lemma ScanBlocksClose(line: string, inMultiline: bool)
    ensures var (stack, blocks) := Scan(line, 0, if inMultiline then [CarriedFence] else [], []);
      && (forall b :: b in blocks ==> Closes(line, b))
      && (forall k :: 0 <= k < |stack| ==> OpenTag(line, |line|, stack[k], k == 0))
  {
    ScanInvariant(line, 0, if inMultiline then [CarriedFence] else [], []);
  }

  /** A closed block never ends at -1, so it is never an open fence. */
  lemma ClosedNotMultiline(line: string, b: CodeBlock)
    requires Closes(line, b)
    ensures b.end >= 0 && !IsMultiline(b)
  {
  }

  lemma ConsumeSubset(blocks: seq<CodeBlock>)
    ensures forall b :: b in Consume(blocks) ==> b in blocks
    decreases |blocks|
  {
    if |blocks| > 0 {
      var rest := SkipContained(blocks[0], blocks[1..]);
      ConsumeSubset(rest);
      forall b | b in rest ensures b in blocks {
        assert b in blocks[1..];
      }
    }
  }

  /** Every block after the first is either skipped as contained in it or left for later. */
  lemma {:induction false} SkipContainedSplits(kept: CodeBlock, rest: seq<CodeBlock>, b: CodeBlock)
    requires b in rest
    ensures b in SkipContained(kept, rest) || Contains(kept, b)
    decreases |rest|
  {
    if Contains(kept, rest[0]) && b != rest[0] {
      assert b in rest[1..];
      SkipContainedSplits(kept, rest[1..], b);
    }
  }

  /** No block contains the one right after it. */
  predicate Apart(kept: seq<CodeBlock>) {
    forall i :: 0 <= i < |kept| - 1 ==> !Contains(kept[i], kept[i + 1])
  }

  lemma ApartCons(b: CodeBlock, tail: seq<CodeBlock>)
    requires Apart(tail)
    requires |tail| > 0 ==> !Contains(b, tail[0])
    ensures Apart([b] + tail)
  {
    var kept := [b] + tail;
    forall i | 0 < i < |kept| - 1 ensures !Contains(kept[i], kept[i + 1]) {
      assert kept[i] == tail[i - 1] && kept[i + 1] == tail[i];
    }
  }

  /** The filtering loop never keeps a block right after one that contains it. */
  lemma {:induction false} ConsumeApart(blocks: seq<CodeBlock>)
    ensures Apart(Consume(blocks))
    decreases |blocks|
  {
    if |blocks| > 0 {
      var rest := SkipContained(blocks[0], blocks[1..]);
      ConsumeApart(rest);
      ApartCons(blocks[0], Consume(rest));
    }
  }

  /** Every block the filtering loop drops is contained in a block it keeps. */
  lemma {:induction false} ConsumeCovers(blocks: seq<CodeBlock>, b: CodeBlock)
    requires b in blocks
    ensures b in Consume(blocks) || exists c :: c in Consume(blocks) && Contains(c, b)
    decreases |blocks|
  {
    var rest := SkipContained(blocks[0], blocks[1..]);
    var tail := Consume(rest);
    var kept := [blocks[0]] + tail;
    assert Consume(blocks) == kept;
    assert blocks[0] in kept;
    if b != blocks[0] {
      assert b in blocks[1..];
      SkipContainedSplits(blocks[0], blocks[1..], b);
      if b in rest {
        ConsumeCovers(rest, b);
        if b !in tail {
          var c :| c in tail && Contains(c, b);
          assert c in kept;
        }
      }
    }
  }

  /**
   * `parse` in summary: a fence stays open after the line exactly when the
   * bottom unmatched tag is a ``` run (or the carried fence), and then the
   * line yields only that fence; otherwise the closed blocks come back.
   */
  lemma ParseOutcome(line: string, inMultiline: bool)
    ensures var (stack, blocks) := Scan(line, 0, if inMultiline then [CarriedFence] else [], []);
      var (result, multiline) := Parse(line, inMultiline);
      && (multiline <==> |stack| > 0 && stack[0].len == 3)
      && (multiline ==> result == [CodeBlock(stack[0].start, -1, 3)])
      && (!multiline ==> forall b :: b in result ==> b in blocks && Closes(line, b))
  {
    var (stack, blocks) := Scan(line, 0, if inMultiline then [CarriedFence] else [], []);
    ScanBlocksClose(line, inMultiline);
    if |stack| > 0 {
      if stack[0].len != 3 && |blocks| > 0 {
        ClosedNotMultiline(line, blocks[0]);
      }
    } else {
      var sorted := Sorting.Sort(blocks, BlockLess());
      var filtered := Consume(sorted);
      ConsumeSubset(sorted);
      forall b | b in filtered ensures b in blocks {
        assert b in multiset(sorted);
      }
      if |filtered| > 0 {
        assert filtered[0] in blocks;
        ClosedNotMultiline(line, filtered[0]);
      }
    }
  }

  /** Keeping the carried fence open: a stack whose bottom is the carried fence keeps it without a ``` run. */
  lemma {:induction false} FenceSurvives(line: string, i: nat, stack: seq<CodeTag>, blocks: seq<CodeBlock>)
    requires ScanInv(line, i, stack, blocks)
    requires |stack| > 0 && stack[0] == CarriedFence
    requires forall j :: 0 <= j < |line| ==> !MaxRun(line, j, 3)
    ensures var (s, _) := Scan(line, i, stack, blocks); |s| > 0 && s[0] == CarriedFence
    decreases |line| - i
  {
    if i < |line| {
      if line[i] != '`' {
        forall k | 0 <= k < |stack| ensures OpenTag(line, i + 1, stack[k], k == 0) {
          assert OpenTag(line, i, stack[k], k == 0);
        }
        FenceSurvives(line, i + 1, stack, blocks);
      } else {
        var cnt := RunLength(line, i);
        ScanInvStep(line, i, stack, blocks);
        if |stack| > 0 && stack[|stack| - 1].len == cnt {
          var opening := stack[|stack| - 1];
          assert |stack| > 1;
          FenceSurvives(line, i + cnt, stack[..|stack| - 1],
                        blocks + [CodeBlock(opening.start, i + opening.len - 1, opening.len)]);
        } else {
          FenceSurvives(line, i + cnt, stack + [CodeTag(i, cnt)], blocks);
        }
      }
    }
  }

  /** Inside an open fence, a line without a run of exactly three backticks is wholly code. */
  lemma InsideFence(line: string)
    requires forall j :: 0 <= j < |line| ==> !MaxRun(line, j, 3)
    ensures Parse(line, true) == ([CodeBlock(-1, -1, 3)], true)
  {
    FenceSurvives(line, 0, [CarriedFence], []);
  }

  /** Closing a carried fence: the first block of the scan starts at -1 and ends at the run's last backtick. */
  lemma ClosingCarriedFence(line: string, i: nat)
    requires MaxRun(line, i, 3)
    requires forall j :: 0 <= j < i ==> line[j] != '`'
    ensures Scan(line, 0, [CarriedFence], []) == Scan(line, i + 3, [], [CodeBlock(-1, i + 2, 3)])
  {
    SkipPlain(line, 0, i, [CarriedFence], []);
    RunLengthOfMaxRun(line, i, 3);
    assert line[i] == '`';
    assert Scan(line, i, [CarriedFence], [])
        == Scan(line, i + 3, [CarriedFence][..0], [] + [CodeBlock(-1, i + 3 - 1, 3)]);
    assert [CarriedFence][..0] == [] && [] + [CodeBlock(-1, i + 3 - 1, 3)] == [CodeBlock(-1, i + 2, 3)];
  }

  lemma {:induction false} SkipPlain(line: string, from: nat, to: nat, stack: seq<CodeTag>, blocks: seq<CodeBlock>)
    requires from <= to <= |line|
    requires forall j :: from <= j < to ==> line[j] != '`'
    ensures Scan(line, from, stack, blocks) == Scan(line, to, stack, blocks)
    decreases |line| - from
  {
    if from < to {
      SkipPlain(line, from + 1, to, stack, blocks);
    }
  }

  /** A position strictly inside a block, or after the start of an open fence. */
  predicate Inside(b: CodeBlock, pos: int) {
    (b.start < pos < b.end) || (b.start < pos && IsMultiline(b))
  }

  function AnyInside(pos: int, blocks: seq<CodeBlock>): (r: bool)
    ensures r <==> exists b :: b in blocks && Inside(b, pos)
  {
    if |blocks| == 0 then false
    else if Inside(blocks[0], pos) then true
    else
      assert forall b :: b in blocks ==> b == blocks[0] || b in blocks[1..];
      AnyInside(pos, blocks[1..])
  }

  /** `is_in_code_block(link_start, code_blocks)`, with its guard as written. */
  function IsInCodeBlock(pos: int, blocks: seq<CodeBlock>): (r: bool)
    ensures r <==> && |blocks| > 0
                   && blocks[0].start <= pos <= blocks[|blocks| - 1].end
                   && exists b :: b in blocks && Inside(b, pos)
  {
    if |blocks| == 0 || pos < blocks[0].start || pos > blocks[|blocks| - 1].end then false
    else AnyInside(pos, blocks)
  }

  /**
   * The guard compares against `end` literally, so after an open fence
   * (the only block `parse` returns in that case) no position on the line
   * counts as code, although the loop's `is_multiline` test was meant for
   * exactly those positions.
   */
  lemma OpenFenceIgnored(start: int, pos: int)
    requires pos >= 0
    ensures !IsInCodeBlock(pos, [CodeBlock(start, -1, 3)])
    ensures start < pos ==> IsInCodeBlockIntended(pos, [CodeBlock(start, -1, 3)])
  {
    assert Inside(CodeBlock(start, -1, 3), pos) <== start < pos;
  }

  /** The evident intent: an open fence extends the last block's range to the end of the line. */
  function IsInCodeBlockIntended(pos: int, blocks: seq<CodeBlock>): (r: bool)
    ensures r <==> && |blocks| > 0
                   && blocks[0].start <= pos
                   && (IsMultiline(blocks[|blocks| - 1]) || pos <= blocks[|blocks| - 1].end)
                   && exists b :: b in blocks && Inside(b, pos)
  {
    if |blocks| == 0 || pos < blocks[0].start then false
    else if !IsMultiline(blocks[|blocks| - 1]) && pos > blocks[|blocks| - 1].end then false
    else AnyInside(pos, blocks)
  }

  /** Without an open fence the two agree, which is every line a caller consults them on. */
  lemma IntendedAgreesOnClosedBlocks(pos: int, blocks: seq<CodeBlock>)
    requires forall b :: b in blocks ==> !IsMultiline(b)
    ensures IsInCodeBlockIntended(pos, blocks) == IsInCodeBlock(pos, blocks)
  {
    if |blocks| > 0 {
      assert blocks[|blocks| - 1] in blocks;
    }
  }
}

=== FILE: comments.dfy ===
/**
 * HTML comments on one line of Markdown (wikitools/comment_parser.py).
 *
 * A comment is a pair of positions: `start` is the index of its `<!--`
 * and `end` the index of the `>` of its `-->`. A comment carried over from
 * the previous line has `start == -1`; one that runs on to the next line
 * has `end == -1`.
 */
module Comments {
  import Text

  datatype Comment = Comment(start: int, end: int)

  const Open: string := "<!--"
  const Close: string := "-->"

  /** The comments from `index` on, outside of any open comment. */
  function ScanFrom(line: string, index: nat): seq<Comment> {
    FindForward(line);
    ScanWith(line, index, (from: nat) => Text.Find(line, Open, from), (from: nat) => Text.Find(line, Close, from))
  }

  /** A search in `line` for `pat` that returns -1 or an occurrence at or after where it starts. */
  ghost predicate Forward(line: string, pat: string, find: nat -> int) {
    forall from: nat :: find(from) == -1 || (from <= find(from) && Text.OccursAt(line, pat, find(from)))
  }

  lemma FindForward(line: string)
    ensures Forward(line, Open, (from: nat) => Text.Find(line, Open, from))
    ensures Forward(line, Close, (from: nat) => Text.Find(line, Close, from))
  {
  }

  /** The scan of `ScanFrom`, with the searches for the two markers as parameters. */
  function ScanWith(line: string, index: nat, open: nat -> int, close: nat -> int): seq<Comment>
    requires Forward(line, Open, open) && Forward(line, Close, close)
    decreases |line| - index
  {
    var start := open(index);
    if start == -1 then []
    else
      var end := close(start);
      assert end == -1 || (start <= end && Text.OccursAt(line, Close, end));
      if end != -1 then [Comment(start, end + 2)] + ScanWith(line, end + 3, open, close)
      else [Comment(start, -1)]
  }

  /** `parse(line, in_multiline)`: the comments of one line. */
  function Parse(line: string, inMultiline: bool): seq<Comment> {
    if !inMultiline then ScanFrom(line, 0)
    else
      var end := Text.Find(line, Close, 0);
      if end != -1 then [Comment(-1, end + 2)] + ScanFrom(line, end + 3)
      else [Comment(-1, -1)]
  }

  /**
   * Whether the line leaves a comment open: the state passed to the next
   * line. It is open exactly when the position just past the line lies in
   * one of its comments; a line without `-->` leaves a comment open exactly
   * when it starts in one or holds a `<!--`.
   */
  function NextState(line: string, inMultiline: bool): (r: bool)
    ensures r <==> IsInComment(|line|, Parse(line, inMultiline))
    ensures !Text.Contains(line, Close) ==> (r <==> inMultiline || Text.Contains(line, Open))
    ensures r && !inMultiline ==> Text.Contains(line, Open)
    ensures !r && inMultiline ==> Text.Contains(line, Close)
  {
    var cs := Parse(line, inMultiline);
    LastOpenCoversEnd(line, inMultiline);
    WithoutClose(line, inMultiline);
    NoCommentIffNoOpening(line);
    |cs| > 0 && cs[|cs| - 1].end == -1
  }

  /** Only a comment that runs on covers the position just past the line, and only the last one may. */
  lemma LastOpenCoversEnd(line: string, inMultiline: bool)
    ensures var cs := Parse(line, inMultiline);
      (|cs| > 0 && cs[|cs| - 1].end == -1) <==> IsInComment(|line|, cs)
  {
    var cs := Parse(line, inMultiline);
    ParseWellFormed(line, inMultiline);
    forall c | c in cs && c.end != -1 ensures !Covers(c, |line|) {
      assert Anchored(line, c);
    }
    if |cs| > 0 && cs[|cs| - 1].end == -1 {
      assert Anchored(line, cs[|cs| - 1]);
      assert Covers(cs[|cs| - 1], |line|);
    }
    if IsInComment(|line|, cs) {
      var c :| c in cs && Covers(c, |line|);
      var i :| 0 <= i < |cs| && cs[i] == c;
      assert i == |cs| - 1;
    }
  }

  /** Without a `-->`, a comment runs on exactly when the line starts in one or opens one. */
  lemma WithoutClose(line: string, inMultiline: bool)
    ensures var cs := Parse(line, inMultiline);
      !Text.Contains(line, Close) ==> ((|cs| > 0 && cs[|cs| - 1].end == -1) <==> inMultiline || Text.Contains(line, Open))
  {
    if !Text.Contains(line, Close) {
      Text.FindIsContains(line, Open);
      var start := Text.Find(line, Open, 0);
      var from: nat := if inMultiline || start == -1 then 0 else start;
      assert Text.Find(line, Close, from) == -1;
    }
  }

  /** Every comment's markers are where its positions say. */
  predicate Anchored(line: string, c: Comment) {
    && (c.start == -1 || Text.OccursAt(line, Open, c.start))
    && (c.end == -1 || (c.end >= 2 && Text.OccursAt(line, Close, c.end - 2)))
    && (c.start != -1 && c.end != -1 ==> c.start + 4 <= c.end)
  }

  /**
   * The shape of a parse result: anchored comments, in order and apart;
   * only the first may continue an earlier comment and only the last may
   * run on.
   */
  predicate WellFormed(line: string, cs: seq<Comment>) {
    && (forall i :: 0 <= i < |cs| ==> Anchored(line, cs[i]))
    && (forall i :: 0 < i < |cs| ==> cs[i].start != -1)
    && (forall i :: 0 <= i < |cs| - 1 ==> cs[i].end != -1)
    && (forall i :: 0 <= i < |cs| - 1 ==> cs[i].end < cs[i + 1].start)
  }

  lemma ConsWellFormed(line: string, c: Comment, rest: seq<Comment>)
    requires Anchored(line, c) && c.end != -1
    requires WellFormed(line, rest)
    requires forall d :: d in rest ==> d.start > c.end
    ensures WellFormed(line, [c] + rest)
  {
    var cs := [c] + rest;
    forall i | 0 < i < |cs| ensures cs[i].start != -1 {
      assert cs[i] in rest;
    }
    forall i | 0 <= i < |cs| - 1 ensures cs[i].end < cs[i + 1].start {
      assert cs[i + 1] in rest;
    }
  }

  lemma ScanFromWellFormed(line: string, index: nat)
    ensures WellFormed(line, ScanFrom(line, index))
    ensures forall c :: c in ScanFrom(line, index) ==> c.start >= index
  {
    FindForward(line);
    ScanWithWellFormed(line, index, (from: nat) => Text.Find(line, Open, from), (from: nat) => Text.Find(line, Close, from));
  }

  lemma {:induction false} ScanWithWellFormed(line: string, index: nat, open: nat -> int, close: nat -> int)
    requires Forward(line, Open, open) && Forward(line, Close, close)
    ensures WellFormed(line, ScanWith(line, index, open, close))
    ensures forall c :: c in ScanWith(line, index, open, close) ==> c.start >= index
    decreases |line| - index
  {
    var start := open(index);
    if start != -1 {
      var end := close(start);
      if end != -1 {
        MarkersApart(line, start, end);
        var rest := ScanWith(line, end + 3, open, close);
        ScanWithWellFormed(line, end + 3, open, close);
        ConsWellFormed(line, Comment(start, end + 2), rest);
      }
    }
  }

  /** `-->` cannot begin on the `<` or `!` of an opening marker at or before it. */
  lemma MarkersApart(line: string, start: int, end: int)
    requires Text.OccursAt(line, Open, start) && Text.OccursAt(line, Close, end) && start <= end
    ensures end >= start + 2
  {
    assert line[start + 0] == Open[0] && line[start + 1] == Open[1];
    assert line[end + 0] == Close[0] && line[end + 1] == Close[1];
  }

  /** A parse is well formed, and there is no comment at all only outside a comment. */
  lemma ParseWellFormed(line: string, inMultiline: bool)
    ensures WellFormed(line, Parse(line, inMultiline))
    ensures inMultiline ==> |Parse(line, inMultiline)| > 0 && Parse(line, inMultiline)[0].start == -1
    ensures !inMultiline ==> forall c :: c in Parse(line, inMultiline) ==> c.start != -1
  {
    if !inMultiline {
      ScanFromWellFormed(line, 0);
    } else {
      var end := Text.Find(line, Close, 0);
      if end != -1 {
        var rest := ScanFrom(line, end + 3);
        ScanFromWellFormed(line, end + 3);
        assert Anchored(line, Comment(-1, end + 2));
        ConsWellFormed(line, Comment(-1, end + 2), rest);
        assert Parse(line, true) == [Comment(-1, end + 2)] + rest;
      } else {
        assert Parse(line, true) == [Comment(-1, -1)];
      }
    }
  }

  /** Outside a comment, a line has no comments exactly when it has no `<!--`. */
  lemma NoCommentIffNoOpening(line: string)
    ensures Parse(line, false) == [] <==> !Text.Contains(line, Open)
  {
    Text.FindIsContains(line, Open);
  }

  /** Inside a comment, a line without `-->` is one comment spanning the whole line. */
  lemma WholeLineInComment(line: string)
    requires !Text.Contains(line, Close)
    ensures Parse(line, true) == [Comment(-1, -1)]
    ensures NextState(line, true)
  {
    Text.FindIsContains(line, Close);
  }

  function Shift(cs: seq<Comment>, k: int): (r: seq<Comment>)
    ensures |r| == |cs|
  {
    if |cs| == 0 then []
    else
      var c := cs[0];
      [Comment(if c.start == -1 then -1 else c.start + k, if c.end == -1 then -1 else c.end + k)]
        + Shift(cs[1..], k)
  }

  lemma ShiftCons(c: Comment, cs: seq<Comment>, k: int)
    ensures Shift([c] + cs, k) == Shift([c], k) + Shift(cs, k)
  {
  }

  /** `find` on the part of a line from `k` on is `onLine` on the line, shifted. */
  ghost predicate Shifts(onLine: nat -> int, find: nat -> int, k: nat) {
    forall from: nat :: onLine(k + from) == (if find(from) == -1 then -1 else find(from) + k)
  }

  lemma FindShifts(line: string, rest: string, k: nat, pat: string)
    requires Text.SuffixAt(line, rest, k)
    ensures Shifts((from: nat) => Text.Find(line, pat, from), (from: nat) => Text.Find(rest, pat, from), k)
  {
    forall from: nat ensures Text.Find(line, pat, k + from) == (if Text.Find(rest, pat, from) == -1 then -1 else Text.Find(rest, pat, from) + k) {
      Text.FindSuffix(line, rest, k, pat, from);
    }
  }

  /** Scanning the part of a line from `k` on finds the line's own comments from `k` on, shifted. */
  lemma ScanFromSuffix(line: string, rest: string, k: nat, index: nat)
    requires Text.SuffixAt(line, rest, k)
    ensures ScanFrom(line, k + index) == Shift(ScanFrom(rest, index), k)
  {
    FindForward(line);
    FindForward(rest);
    FindShifts(line, rest, k, Open);
    FindShifts(line, rest, k, Close);
    ScanWithSuffix(line, rest, k, index,
      (from: nat) => Text.Find(line, Open, from), (from: nat) => Text.Find(line, Close, from),
      (from: nat) => Text.Find(rest, Open, from), (from: nat) => Text.Find(rest, Close, from));
  }

  lemma {:induction false} ScanWithSuffix(line: string, rest: string, k: nat, index: nat,
                                          lineOpen: nat -> int, lineClose: nat -> int, open: nat -> int, close: nat -> int)
    requires Forward(line, Open, lineOpen) && Forward(line, Close, lineClose)
    requires Forward(rest, Open, open) && Forward(rest, Close, close)
    requires Shifts(lineOpen, open, k) && Shifts(lineClose, close, k)
    ensures ScanWith(line, k + index, lineOpen, lineClose) == Shift(ScanWith(rest, index, open, close), k)
    decreases |rest| - index
  {
    var start := open(index);
    assert lineOpen(k + index) == (if start == -1 then -1 else start + k);
    if start != -1 {
      var end := close(start);
      assert lineClose(k + start) == (if end == -1 then -1 else end + k);
      if end != -1 {
        ScanWithSuffix(line, rest, k, end + 3, lineOpen, lineClose, open, close);
        assert k + (end + 3) == (end + k) + 3;
        ShiftCons(Comment(start, end + 2), ScanWith(rest, end + 3, open, close), k);
      }
    }
  }

  /**
   * Closing a comment carried over from the previous line: the first `-->`
   * ends it, and the rest of the line is parsed as a fresh line would be.
   */
  lemma ClosingCarriedComment(line: string, end: nat)
    requires Text.OccursAt(line, Close, end)
    requires forall k :: 0 <= k < end ==> !Text.OccursAt(line, Close, k)
    ensures Parse(line, true)
      == [Comment(-1, end + 2)] + Shift(Parse(line[end + 3..], false), end + 3)
  {
    Text.FindIs(line, Close, 0, end);
    Text.SuffixAtSlice(line, end + 3);
    ScanFromSuffix(line, line[end + 3..], end + 3, 0);
  }

  /** A position is inside `c`; -1 leaves that side unbounded. */
  predicate Covers(c: Comment, index: int) {
    (c.start == -1 || c.start <= index) && (c.end == -1 || index <= c.end)
  }

  /** `is_in_comment(index, comments)`. */
  function IsInComment(index: int, comments: seq<Comment>): (r: bool)
    ensures r <==> exists c :: c in comments && Covers(c, index)
  {
    if |comments| == 0 then false
    else if Covers(comments[0], index) then true
    else
      assert forall c :: c in comments ==> c == comments[0] || c in comments[1..];
      IsInComment(index, comments[1..])
  }

  /** A line's comment state after each line of a file, starting outside a comment. */
  function States(lines: seq<string>, inMultiline: bool): (r: seq<bool>)
    ensures |r| == |lines|
    ensures forall i :: 0 < i < |lines| ==> r[i] == NextState(lines[i], r[i - 1])
    ensures |lines| > 0 ==> r[0] == NextState(lines[0], inMultiline)
  {
    if |lines| == 0 then []
    else
      var first := NextState(lines[0], inMultiline);
      [first] + States(lines[1..], first)
  }
}

=== FILE: descriptors.dfy ===
/**
 * Table template descriptors: the YAML block inside an HTML comment that
 * tells the table generator how to build a table, the typed accessors
 * that read it, and the line-by-line loader that finds the blocks in an
 * article. YAML parsing itself is a parameter (`load`), and the comment
 * and front-matter state of every line is given with the line: the loader
 * asks a `CommentParser` and a `FrontMatterDetector` for them, and neither
 * is defined by the shipped comment_parser.py and article_parser.py.
 */
module Descriptors {
  import Text
  import Templates
  import opened Outcomes

  /** A loaded YAML value: a string, a list, a mapping with string keys, or any other scalar (number, boolean, null). */
  datatype Yaml = YStr(s: string) | YList(items: seq<Yaml>) | YMap(entries: map<string, Yaml>) | YScalar(text: string)

  /**
   * `_get(path)`: index mapping by mapping along `path`. A missing key
   * (the KeyError that `_get` catches) gives None; indexing anything that
   * is not a mapping with a string raises TypeError, which is not caught.
   */
  function Follow(v: Yaml, path: seq<string>): (r: Result<Option<Yaml>>)
    ensures r.Err? ==> r.error == TypeError
    decreases |path|
  {
    if |path| == 0 then Ok(Some(v))
    else match v
      case YMap(m) => if path[0] in m then Follow(m[path[0]], path[1..]) else Ok(None)
      case _ => Err(TypeError)
  }

  /** The document holding `v` at `path` and nothing else. */
  function Nest(path: seq<string>, v: Yaml): Yaml
    decreases |path|
  {
    if |path| == 0 then v else YMap(map[path[0] := Nest(path[1..], v)])
  }

  /** Following a path through the document built along it finds the value put there. */
  lemma {:induction false} FollowNest(path: seq<string>, v: Yaml)
    ensures Follow(Nest(path, v), path) == Ok(Some(v))
    decreases |path|
  {
    if |path| > 0 {
      FollowNest(path[1..], v);
    }
  }

  /** Following `p + q` follows `p`, then `q` from where `p` led; a missing key or a non-mapping on `p` ends the walk there. */
  lemma {:induction false} FollowAppend(v: Yaml, p: seq<string>, q: seq<string>)
    ensures Follow(v, p + q) ==
      match Follow(v, p)
      case Ok(Some(w)) => Follow(w, q)
      case other => other
    decreases |p|
  {
    if |p| == 0 {
      assert p + q == q;
    } else {
      assert (p + q)[0] == p[0] && (p + q)[1..] == p[1..] + q;
      if v.YMap? && p[0] in v.entries {
        FollowAppend(v.entries[p[0]], p[1..], q);
      }
    }
  }

  /** A `TableTemplateDescriptor`: the line closing its comment, the name and version, and the loaded YAML. */
  datatype Descriptor = Descriptor(line: nat, name: string, version: string, data: Yaml)

  /** The value at `path`, if `pick` accepts its shape; None when the path is missing or the shape is another. */
  function Typed<X>(d: Descriptor, path: seq<string>, pick: Yaml -> Option<X>): (r: Result<Option<X>>)
    ensures r.Err? <==> Follow(d.data, path).Err?
    ensures r.Ok? && r.value.Some? ==> Follow(d.data, path).Ok? && Follow(d.data, path).value.Some?
  {
    match Follow(d.data, path)
    case Err(e) => Err(e)
    case Ok(None) => Ok(None)
    case Ok(Some(v)) => Ok(pick(v))
  }

  function AsString(v: Yaml): Option<string> {
    if v.YStr? then Some(v.s) else None
  }

  function AsList(v: Yaml): Option<seq<Yaml>> {
    if v.YList? then Some(v.items) else None
  }

  /** `data`: the CSV file name at `table.data`. */
  function Data(d: Descriptor): Result<Option<string>> {
    Typed(d, ["table", "data"], AsString)
  }

  /** `header`: the list at `table.header`. */
  function Header(d: Descriptor): Result<Option<seq<Yaml>>> {
    Typed(d, ["table", "header"], AsList)
  }

  /** One entry of `alignments`: a known alignment name, and LEFT for anything else. */
  function AlignmentOf(v: Yaml): (r: Templates.Alignment)
    ensures (exists a :: v == YStr(Templates.AlignmentName(a)) && r == a) || (r == Templates.Left && !(v.YStr? && v.s in ["centre", "right"]))
  {
    match v
    case YStr(s) => (
      match Templates.AlignmentFromString(s)
      case Some(a) =>
        assert v == YStr(Templates.AlignmentName(a));
        a
      case None => Templates.Left)
    case _ => Templates.Left
  }

  /** `alignments`: the list at `table.alignments`, each entry read as an alignment. */
  function Alignments(d: Descriptor): (r: Result<Option<seq<Templates.Alignment>>>)
    ensures r.Ok? && r.value.Some? ==> exists items: seq<Yaml> :: (
      && Follow(d.data, ["table", "alignments"]) == Ok(Some(YList(items)))
      && |r.value.value| == |items|
      && forall i :: 0 <= i < |items| ==> r.value.value[i] == AlignmentOf(items[i]))
  {
    Typed(d, ["table", "alignments"], (v: Yaml) => if v.YList? then Some(seq(|v.items|, i requires 0 <= i < |v.items| => AlignmentOf(v.items[i]))) else None)
  }

  /** Every entry is a string: what `Format(f)` needs, since it raises ValueError for anything else. */
  predicate AllStrings(items: seq<Yaml>) {
    forall i :: 0 <= i < |items| ==> items[i].YStr?
  }

  /** `formats`: every string of the list at `table.format` parsed as a format; a non-string entry raises ValueError. */
  function Formats(d: Descriptor): (r: Result<Option<seq<seq<Templates.Piece>>>>)
    ensures r == Err(ValueError) <==> exists items: seq<Yaml> :: Follow(d.data, ["table", "format"]) == Ok(Some(YList(items))) && !AllStrings(items)
    ensures r.Ok? && r.value.Some? ==> exists items: seq<Yaml> :: (
      && Follow(d.data, ["table", "format"]) == Ok(Some(YList(items)))
      && |r.value.value| == |items|
      && forall i :: 0 <= i < |items| ==> items[i].YStr? && r.value.value[i] == Templates.ParseFormat(items[i].s))
  {
    match Follow(d.data, ["table", "format"])
    case Err(e) => Err(e)
    case Ok(Some(YList(items))) =>
      if AllStrings(items) then Ok(Some(seq(|items|, i requires 0 <= i < |items| => Templates.ParseFormat(items[i].s))))
      else Err(ValueError)
    case Ok(_) => Ok(None)
  }

  /** `sort_by`: the column name at `table.sort.by`. */
  function SortBy(d: Descriptor): Result<Option<string>> {
    Typed(d, ["table", "sort", "by"], AsString)
  }

  /** A sort order given as a string; an unknown name reads as no order at all. */
  function OrderOf(v: Yaml): Option<Templates.SortOrder> {
    if v.YStr? then Templates.SortOrderFromString(v.s) else None
  }

  /** `sort_order`: the order at `table.sort.order`. */
  function SortOrder(d: Descriptor): Result<Option<Templates.SortOrder>> {
    Typed(d, ["table", "sort", "order"], OrderOf)
  }

  /** `split_by`: the column at `table.split.by`. */
  function SplitBy(d: Descriptor): Result<Option<string>> {
    Typed(d, ["table", "split", "by"], AsString)
  }

  /** `split_sort_order`: the order at `table.split.order`. */
  function SplitSortOrder(d: Descriptor): Result<Option<Templates.SortOrder>> {
    Typed(d, ["table", "split", "order"], OrderOf)
  }

  /** `split_prefix_format`: the format string at `table.split.prefix_format`, parsed. */
  function SplitPrefixFormat(d: Descriptor): Result<Option<seq<Templates.Piece>>> {
    Typed(d, ["table", "split", "prefix_format"], (v: Yaml) => if v.YStr? then Some(Templates.ParseFormat(v.s)) else None)
  }

  /**
   * `filter` of the table generator's copy: a string at `table.filter`
   * is parsed as a filter, which raises when it holds no operator.
   */
  function TableFilter(d: Descriptor): (r: Result<Option<Templates.Tree>>)
    ensures r.Ok? && r.value.Some? <==> exists s :: Follow(d.data, ["table", "filter"]) == Ok(Some(YStr(s))) && Templates.Filter(s).Ok?
  {
    match Follow(d.data, ["table", "filter"])
    case Err(e) => Err(e)
    case Ok(Some(YStr(s))) => (
      match Templates.Filter(s)
      case Ok(tree) => Ok(Some(tree))
      case Err(e) => Err(e))
    case Ok(_) => Ok(None)
  }

  /**
   * `filter` of the stand-alone descriptor module: only a mapping is
   * accepted, and handing a mapping to `Filter` raises TypeError where
   * the filter text is split, so no filter is ever produced.
   */
  function TemplateFilter(d: Descriptor): (r: Result<Option<Templates.Tree>>)
    ensures r.Ok? ==> r.value.None?
    ensures r.Err? <==> Follow(d.data, ["table", "filter"]).Err? || exists m :: Follow(d.data, ["table", "filter"]) == Ok(Some(YMap(m)))
  {
    match Follow(d.data, ["table", "filter"])
    case Err(e) => Err(e)
    case Ok(Some(YMap(_))) => Err(TypeError)
    case Ok(_) => Ok(None)
  }

  /** A descriptor whose document is a mapping with a `table` mapping of the given fields. */
  function TableDoc(line: nat, name: string, version: string, fields: map<string, Yaml>): Descriptor {
    Descriptor(line, name, version, YMap(map["table" := YMap(fields)]))
  }

  lemma FollowTable(d: Descriptor, fields: map<string, Yaml>, key: string)
    requires d.data == YMap(map["table" := YMap(fields)])
    ensures Follow(d.data, ["table", key]) == if key in fields then Ok(Some(fields[key])) else Ok(None)
  {
    assert ["table", key][0] == "table" && ["table", key][1..] == [key];
    assert [key][0] == key && [key][1..] == [];
    assert Follow(YMap(fields), [key]) == if key in fields then Follow(fields[key], []) else Ok(None);
  }

  /** The accessors read back what a table document holds, and a string filter is a filter only for the table generator's copy. */
  lemma ReadTableDoc(line: nat, name: string, version: string, fields: map<string, Yaml>, data: string, filter: string)
    requires "data" in fields && fields["data"] == YStr(data)
    requires "filter" in fields && fields["filter"] == YStr(filter)
    requires Templates.Filter(filter).Ok?
    ensures Data(TableDoc(line, name, version, fields)) == Ok(Some(data))
    ensures TableFilter(TableDoc(line, name, version, fields)) == Ok(Some(Templates.Filter(filter).value))
    ensures TemplateFilter(TableDoc(line, name, version, fields)) == Ok(None)
  {
    var d := TableDoc(line, name, version, fields);
    FollowTable(d, fields, "data");
    FollowTable(d, fields, "filter");
  }

  /** A document that is not a mapping makes every accessor raise TypeError. */
  lemma NotMapping(d: Descriptor)
    requires !d.data.YMap?
    ensures Data(d) == Err(TypeError) && Header(d) == Err(TypeError) && Alignments(d) == Err(TypeError)
    ensures Formats(d) == Err(TypeError) && SortBy(d) == Err(TypeError) && SortOrder(d) == Err(TypeError)
    ensures SplitBy(d) == Err(TypeError) && SplitSortOrder(d) == Err(TypeError) && SplitPrefixFormat(d) == Err(TypeError)
    ensures TableFilter(d) == Err(TypeError) && TemplateFilter(d) == Err(TypeError)
  {
  }

  /** A document without a `table` key reads as nothing at all. */
  lemma NoTable(d: Descriptor)
    requires d.data.YMap? && "table" !in d.data.entries
    ensures Data(d) == Ok(None) && Header(d) == Ok(None) && Alignments(d) == Ok(None)
    ensures Formats(d) == Ok(None) && SortBy(d) == Ok(None) && SortOrder(d) == Ok(None)
    ensures SplitBy(d) == Ok(None) && SplitSortOrder(d) == Ok(None) && SplitPrefixFormat(d) == Ok(None)
    ensures TableFilter(d) == Ok(None) && TemplateFilter(d) == Ok(None)
  {
  }

  // ---------------------------------------------------------------------
  // load_template_descriptors

  /**
   * One line as the loader sees it: its text, whether the comment parser
   * is inside a multi-line comment after reading it, and whether the
   * front-matter detector places it inside a `---` block.
   */
  datatype Line = Line(text: string, inComment: bool, inFrontMatter: bool)

  /** The loader's state: whether a name line was seen, the name and version, and the buffered YAML text. */
  datatype Reader = Reader(allow: bool, name: string, version: string, buffer: string)

  const Idle: Reader := Reader(false, "", "", "")

  /** Idle unless a name line was seen; names and versions never hold a space. */
  predicate Clean(st: Reader) {
    && (!st.allow ==> st == Idle)
    && ' ' !in st.name && ' ' !in st.version
  }

  lemma StripNoSpace(s: string)
    requires ' ' !in s
    ensures ' ' !in Text.Strip(s)
  {
  }

  /** A name line: non-blank, and exactly two pieces when split on single spaces; the pieces come back stripped. */
  function NameLine(text: string): (r: Option<(string, string)>)
    ensures r.Some? ==> ' ' !in r.value.0 && ' ' !in r.value.1
  {
    if |Text.Strip(text)| == 0 then None
    else
      var parts := Text.Split(text, " ");
      if |parts| == 2 then
        Text.ContainsChar(parts[0], ' ');
        Text.ContainsChar(parts[1], ' ');
        StripNoSpace(parts[0]);
        StripNoSpace(parts[1]);
        Some((Text.Strip(parts[0]), Text.Strip(parts[1])))
      else None
  }

  /** Two space-free words on a non-blank line are read as name and version. */
  lemma NameLineOf(a: string, b: string)
    requires ' ' !in a && ' ' !in b && |Text.Strip(a + " " + b)| > 0
    ensures NameLine(a + " " + b) == Some((Text.Strip(a), Text.Strip(b)))
  {
    Text.SplitChar(a + " " + b, ' ', a, b);
    Text.SplitCharNone(b, ' ');
  }

  /** Whether the loader buffers a line once a name was seen: inside the front-matter block and not a `---` line. */
  predicate Buffers(l: Line) {
    l.inFrontMatter && Text.Strip(l.text) != "---"
  }

  /**
   * How the loop recognises lines: the name-line reader and the YAML-line
   * test. The loader uses `NameLine` and `Buffers`; the loop's facts below
   * hold for any recognisers whose names are free of spaces.
   */
  datatype Recognisers = Recognisers(named: string -> Option<(string, string)>, yaml: Line -> bool)

  function Source(): Recognisers {
    Recognisers(NameLine, Buffers)
  }

  /** Names and versions read by `named` hold no space. */
  ghost predicate SpaceFree(named: string -> Option<(string, string)>) {
    forall t :: named(t).Some? ==> ' ' !in named(t).value.0 && ' ' !in named(t).value.1
  }

  lemma SourceSpaceFree()
    ensures SpaceFree(Source().named)
  {
  }

  /** One iteration of the loader's loop over line `lineno`. */
  function Step(st: Reader, l: Line, lineno: nat, load: string -> Yaml, rec: Recognisers): (r: (Reader, Option<Descriptor>))
    ensures Clean(st) && SpaceFree(rec.named) ==> Clean(r.0)
    ensures Clean(st) && !l.inComment ==> r.0 == Idle
    ensures r.1.Some? <==> !l.inComment && st.allow && |st.buffer| > 0
    ensures r.1.Some? ==> r.1.value == Descriptor(lineno, st.name, st.version, load(st.buffer))
  {
    if l.inComment && !st.allow then
      match rec.named(l.text)
      case Some((name, version)) => (Reader(true, name, version, st.buffer), None)
      case None => (st, None)
    else if l.inComment && st.allow then
      if rec.yaml(l) then (st.(buffer := st.buffer + l.text), None) else (st, None)
    else if !l.inComment && st.allow then
      (Idle, if |st.buffer| > 0 then Some(Descriptor(lineno, st.name, st.version, load(st.buffer))) else None)
    else (st, None)
  }

  function Found(o: Option<Descriptor>): seq<Descriptor> {
    if o.Some? then [o.value] else []
  }

  /** A loader's state after some lines, and the descriptors found in them. */
  datatype Loaded<S> = Loaded(reader: S, found: seq<Descriptor>)

  /** A line loop: `step` reads each line with its number and may emit one descriptor. */
  function RunWith<S>(lines: seq<Line>, lineno: nat, st: S, step: (S, Line, nat) -> (S, Option<Descriptor>)): Loaded<S>
    decreases |lines|
  {
    if |lines| == 0 then Loaded(st, [])
    else
      var next := step(st, lines[0], lineno);
      var rest := RunWith(lines[1..], lineno + 1, next.0, step);
      Loaded(rest.reader, Found(next.1) + rest.found)
  }

  /** Reading two stretches of lines one after the other. */
  lemma {:induction false} RunWithAppend<S>(a: seq<Line>, b: seq<Line>, lineno: nat, st: S, step: (S, Line, nat) -> (S, Option<Descriptor>))
    ensures RunWith(a + b, lineno, st, step) ==
      var first := RunWith(a, lineno, st, step);
      var second := RunWith(b, lineno + |a|, first.reader, step);
      Loaded(second.reader, first.found + second.found)
    decreases |a|
  {
    if |a| == 0 {
      assert a + b == b;
    } else {
      assert (a + b)[0] == a[0] && (a + b)[1..] == a[1..] + b;
      var next := step(st, a[0], lineno);
      RunWithAppend(a[1..], b, lineno + 1, next.0, step);
      var x := Found(next.1);
      var y := RunWith(a[1..], lineno + 1, next.0, step);
      var z := RunWith(b, lineno + |a|, y.reader, step).found;
      assert x + (y.found + z) == (x + y.found) + z;
    }
  }

  function Stepper(load: string -> Yaml, rec: Recognisers): (Reader, Line, nat) -> (Reader, Option<Descriptor>) {
    (st: Reader, l: Line, n: nat) => Step(st, l, n, load, rec)
  }

  /** The loop of `load_template_descriptors` from line `lineno` on. */
  function Run(lines: seq<Line>, lineno: nat, st: Reader, load: string -> Yaml, rec: Recognisers): Loaded<Reader> {
    RunWith(lines, lineno, st, Stepper(load, rec))
  }

  /** `Run` on a non-empty input: one step, then the rest. */
  lemma RunCons(lines: seq<Line>, lineno: nat, st: Reader, load: string -> Yaml, rec: Recognisers)
    requires |lines| > 0
    ensures var next := Step(st, lines[0], lineno, load, rec);
      var rest := Run(lines[1..], lineno + 1, next.0, load, rec);
      Run(lines, lineno, st, load, rec) == Loaded(rest.reader, Found(next.1) + rest.found)
  {
  }

  /** `load_template_descriptors`: the lines are numbered from 1. */
  function Load(lines: seq<Line>, load: string -> Yaml): seq<Descriptor> {
    Run(lines, 1, Idle, load, Source()).found
  }

  /** Where descriptors are found: on lines of the input that close a comment, strictly increasing. */
  predicate Placed(lines: seq<Line>, lineno: nat, found: seq<Descriptor>) {
    && (forall i :: 0 <= i < |found| ==>
      lineno <= found[i].line < lineno + |lines| && !lines[found[i].line - lineno].inComment)
    && (forall i, j :: 0 <= i < j < |found| ==> found[i].line < found[j].line)
  }

  lemma PlacedCons(lines: seq<Line>, lineno: nat, o: Option<Descriptor>, rest: seq<Descriptor>)
    requires |lines| > 0
    requires Placed(lines[1..], lineno + 1, rest)
    requires o.Some? ==> o.value.line == lineno && !lines[0].inComment
    ensures Placed(lines, lineno, Found(o) + rest)
  {
    assert forall i :: 0 <= i < |rest| ==> lines[1..][rest[i].line - (lineno + 1)] == lines[rest[i].line - lineno];
  }

  /** Names and versions of the found descriptors hold no space. */
  predicate Named(found: seq<Descriptor>) {
    forall i :: 0 <= i < |found| ==> ' ' !in found[i].name && ' ' !in found[i].version
  }

  /** Every descriptor the loop finds sits on a line that closes a comment, and their lines increase strictly. */
  lemma {:induction false} RunPlaced(lines: seq<Line>, lineno: nat, st: Reader, load: string -> Yaml, rec: Recognisers)
    ensures Placed(lines, lineno, Run(lines, lineno, st, load, rec).found)
    decreases |lines|
  {
    if |lines| > 0 {
      var next := Step(st, lines[0], lineno, load, rec);
      RunPlaced(lines[1..], lineno + 1, next.0, load, rec);
      RunCons(lines, lineno, st, load, rec);
      PlacedCons(lines, lineno, next.1, Run(lines[1..], lineno + 1, next.0, load, rec).found);
    }
  }

  /** Names and versions of what the loop finds hold no space. */
  lemma {:induction false} RunNamed(lines: seq<Line>, lineno: nat, st: Reader, load: string -> Yaml, rec: Recognisers)
    requires Clean(st) && SpaceFree(rec.named)
    ensures Named(Run(lines, lineno, st, load, rec).found)
    decreases |lines|
  {
    if |lines| > 0 {
      var next := Step(st, lines[0], lineno, load, rec);
      RunNamed(lines[1..], lineno + 1, next.0, load, rec);
      RunCons(lines, lineno, st, load, rec);
      NamedCons(next.1, Run(lines[1..], lineno + 1, next.0, load, rec).found);
    }
  }

  lemma NamedCons(o: Option<Descriptor>, rest: seq<Descriptor>)
    requires Named(rest)
    requires o.Some? ==> ' ' !in o.value.name && ' ' !in o.value.version
    ensures Named(Found(o) + rest)
  {
    assert forall i :: 0 <= i < |rest| ==> (Found(o) + rest)[|Found(o)| + i] == rest[i];
  }

  /** What `load_template_descriptors` returns lies on comment-closing lines of the file, in order, with space-free names. */
  lemma LoadFound(lines: seq<Line>, load: string -> Yaml)
    ensures Placed(lines, 1, Load(lines, load)) && Named(Load(lines, load))
  {
    SourceSpaceFree();
    RunPlaced(lines, 1, Idle, load, Source());
    RunNamed(lines, 1, Idle, load, Source());
  }

  /** The buffered YAML of a block's body. */
  function Buffered(body: seq<Line>, yaml: Line -> bool): string {
    if |body| == 0 then "" else (if yaml(body[0]) then body[0].text else "") + Buffered(body[1..], yaml)
  }

  /** A line inside a named comment emits nothing and buffers its text when it is a YAML line. */
  lemma StepInside(st: Reader, l: Line, lineno: nat, load: string -> Yaml, rec: Recognisers)
    requires Clean(st) && st.allow && l.inComment
    ensures Step(st, l, lineno, load, rec) == (st.(buffer := st.buffer + if rec.yaml(l) then l.text else ""), None)
  {
    if !rec.yaml(l) {
      assert st.buffer + "" == st.buffer;
    }
  }

  /** Inside a named comment nothing is emitted and the buffer collects the YAML lines. */
  lemma {:induction false} RunBody(body: seq<Line>, lineno: nat, st: Reader, load: string -> Yaml, rec: Recognisers)
    requires Clean(st) && st.allow
    requires forall i :: 0 <= i < |body| ==> body[i].inComment
    ensures Run(body, lineno, st, load, rec) == Loaded(st.(buffer := st.buffer + Buffered(body, rec.yaml)), [])
    decreases |body|
  {
    if |body| == 0 {
      assert Run(body, lineno, st, load, rec) == Loaded(st, []);
      assert Buffered(body, rec.yaml) == "";
      assert st.buffer + "" == st.buffer;
      assert st.(buffer := st.buffer) == st;
    } else {
      var head := if rec.yaml(body[0]) then body[0].text else "";
      var next := st.(buffer := st.buffer + head);
      StepInside(st, body[0], lineno, load, rec);
      RunCons(body, lineno, st, load, rec);
      assert forall i :: 0 <= i < |body[1..]| ==> body[1..][i] == body[i + 1];
      RunBody(body[1..], lineno + 1, next, load, rec);
      var tail := Buffered(body[1..], rec.yaml);
      assert Buffered(body, rec.yaml) == head + tail;
      assert st.buffer + head + tail == st.buffer + (head + tail);
    }
  }

  /**
   * A descriptor block read from its name line to the line closing the
   * comment: one descriptor on the closing line when YAML was buffered,
   * none otherwise, and the loader idle again.
   */
  lemma RunBlock(first: Line, body: seq<Line>, close: Line, lineno: nat, load: string -> Yaml, rec: Recognisers)
    requires SpaceFree(rec.named) && first.inComment && rec.named(first.text).Some?
    requires forall i :: 0 <= i < |body| ==> body[i].inComment
    requires !close.inComment
    ensures var data := Buffered(body, rec.yaml);
      var (name, version) := rec.named(first.text).value;
      Run([first] + body + [close], lineno, Idle, load, rec)
      == Loaded(Idle, if |data| > 0 then [Descriptor(lineno + |body| + 1, name, version, load(data))] else [])
  {
    var lines := [first] + body + [close];
    var (name, version) := rec.named(first.text).value;
    var named := Reader(true, name, version, "");
    assert lines[0] == first && lines[1..] == body + [close];
    RunCons(lines, lineno, Idle, load, rec);
    assert Step(Idle, first, lineno, load, rec) == (named, None);
    RunWithAppend(body, [close], lineno + 1, named, Stepper(load, rec));
    RunBody(body, lineno + 1, named, load, rec);
    var data := Buffered(body, rec.yaml);
    assert named.buffer + data == data;
    RunClose(close, lineno + 1 + |body|, named.(buffer := data), load, rec);
  }

  /** The line closing a named comment emits the descriptor if YAML was buffered, and the loader is idle again. */
  lemma RunClose(close: Line, lineno: nat, st: Reader, load: string -> Yaml, rec: Recognisers)
    requires Clean(st) && st.allow && !close.inComment
    ensures Run([close], lineno, st, load, rec)
      == Loaded(Idle, if |st.buffer| > 0 then [Descriptor(lineno, st.name, st.version, load(st.buffer))] else [])
  {
    RunCons([close], lineno, st, load, rec);
    assert [close][0] == close && [close][1..] == [];
    assert Run([], lineno + 1, Idle, load, rec) == Loaded(Idle, []);
  }

  /** The same for a name line of two space-free words, as the loader reads it. */
  lemma LoadBlock(a: string, b: string, front: bool, body: seq<Line>, close: Line, lineno: nat, load: string -> Yaml)
    requires ' ' !in a && ' ' !in b && |Text.Strip(a + " " + b)| > 0
    requires forall i :: 0 <= i < |body| ==> body[i].inComment
    requires !close.inComment
    ensures var data := Buffered(body, Buffers);
      Run([Line(a + " " + b, true, front)] + body + [close], lineno, Idle, load, Source())
      == Loaded(Idle, if |data| > 0 then [Descriptor(lineno + |body| + 1, Text.Strip(a), Text.Strip(b), load(data))] else [])
  {
    NameLineOf(a, b);
    SourceSpaceFree();
    RunBlock(Line(a + " " + b, true, front), body, close, lineno, load, Source());
  }

  /** Lines outside any comment, read while idle, find nothing and leave the loader idle. */
  lemma {:induction false} RunOutside(lines: seq<Line>, lineno: nat, load: string -> Yaml, rec: Recognisers)
    requires forall i :: 0 <= i < |lines| ==> !lines[i].inComment
    ensures Run(lines, lineno, Idle, load, rec) == Loaded(Idle, [])
    decreases |lines|
  {
    if |lines| > 0 {
      RunCons(lines, lineno, Idle, load, rec);
      RunOutside(lines[1..], lineno + 1, load, rec);
    }
  }

  /** Reading stretches back to back: what an idle loader finds in `a + b` is what it finds in each. */
  lemma LoadAppend(a: seq<Line>, b: seq<Line>, lineno: nat, load: string -> Yaml, rec: Recognisers)
    requires Run(a, lineno, Idle, load, rec).reader == Idle
    ensures Run(a + b, lineno, Idle, load, rec).found == Run(a, lineno, Idle, load, rec).found + Run(b, lineno + |a|, Idle, load, rec).found
  {
    RunWithAppend(a, b, lineno, Idle, Stepper(load, rec));
  }
}

=== FILE: fileutils.dfy ===
/**
 * File classification of wikitools/file_utils.py: which paths are
 * articles, translations, originals and news posts, and the translations
 * a directory listing holds. Listing a directory is a parameter.
 */
module FileUtils {
  import Text
  import Paths
  import Glob
  import Sorting

  /**
   * `normalised(path)`: `normpath`, then backslashes written as `/`, then
   * one leading `./` removed.
   */
  function Normalised(path: string): (r: string)
    ensures '\\' !in r
    ensures '\\' !in Paths.Normpath(path) && !Text.StartsWith(Paths.Normpath(path), "./") ==> r == Paths.Normpath(path)
  {
    Text.ContainsChar("/", '\\');
    var n := Text.ReplaceChar(Paths.Normpath(path), '\\', "/");
    if Text.StartsWith(n, "./") then
      assert forall c :: c in n[2..] ==> c in n;
      n[2..]
    else n
  }

  /** A relative path of plain components without `..` or backslashes is already normalised. */
  lemma NormalisedPlain(cs: seq<string>)
    requires Paths.AllPlain(cs) && ".." !in cs && cs != []
    requires '\\' !in Text.Join("/", cs)
    ensures Normalised(Text.Join("/", cs)) == Text.Join("/", cs)
  {
    var j := Text.Join("/", cs);
    Paths.NormpathPlain(false, cs);
    assert "" + j == j;
    NoDotSlash(cs);
  }

  /** A join of plain components does not start with `./`. */
  lemma NoDotSlash(cs: seq<string>)
    requires Paths.AllPlain(cs) && cs != []
    ensures !Text.StartsWith(Text.Join("/", cs), "./")
  {
    var j := Text.Join("/", cs);
    Paths.JoinPlainStart(cs);
    JoinStartsWithFirst(cs);
    assert cs[0] != "." && '/' !in cs[0];
    if |cs[0]| == 1 {
      assert j[0] == cs[0][0] && cs[0] == [cs[0][0]];
    } else {
      assert j[1] == cs[0][1];
      assert cs[0][1] in cs[0];
    }
  }

  lemma JoinStartsWithFirst(cs: seq<string>)
    requires cs != []
    ensures Text.StartsWith(Text.Join("/", cs), cs[0])
  {
  }

  // ---------------------------------------------------------------------
  // Article file names

  /** The three `fnmatch` masks of an article file name. */
  predicate ArticleMask(filename: string) {
    || Glob.Match(filename, "??.md")
    || Glob.Match(filename, "???.md")
    || Glob.Match(filename, "??-??.md")
  }

  /** `is_article(path)`: the base name matches `??.md`, `???.md` or `??-??.md`. */
  predicate IsArticle(path: string) {
    ArticleMask(Paths.Basename(path))
  }

  /** `is_translation(path)`: an article file name other than `en.md`. */
  predicate IsTranslation(path: string) {
    var filename := Paths.Basename(path);
    filename != "en.md" && ArticleMask(filename)
  }

  /** `is_original(path)`: the base name is `en.md`. */
  predicate IsOriginal(path: string) {
    Paths.Basename(path) == "en.md"
  }

  /** The article file names, stated without masks: a two- or three-character language code, or `xx-yy`, then `.md`. */
  predicate ArticleShape(filename: string) {
    && Text.EndsWith(filename, ".md")
    && (|filename| == 5 || |filename| == 6 || (|filename| == 8 && filename[2] == '-'))
  }

  lemma MaskTwo(f: string)
    ensures Glob.Match(f, "??.md") <==> |f| == 5 && f[2..] == ".md"
  {
    Glob.MatchAny(f, "?.md");
    assert "??.md" == "?" + "?.md";
    if |f| > 0 {
      Glob.MatchAny(f[1..], ".md");
      assert "?.md" == "?" + ".md";
      if |f| > 1 {
        Glob.MatchLiteral(f[2..], ".md");
        assert f[1..][1..] == f[2..];
      }
    }
  }

  lemma MaskThree(f: string)
    ensures Glob.Match(f, "???.md") <==> |f| == 6 && f[3..] == ".md"
  {
    assert "???.md" == "?" + "??.md";
    Glob.MatchAny(f, "??.md");
    if |f| > 0 {
      MaskTwo(f[1..]);
      if |f| > 2 {
        assert f[1..][2..] == f[3..];
      }
    }
  }

  lemma MaskRegionTail(h: string)
    ensures Glob.Match(h, "-??.md") <==> |h| == 6 && h[0] == '-' && h[3..] == ".md"
  {
    assert "-??.md" == ['-'] + "??.md";
    Glob.MatchChar(h, '-', "??.md");
    if |h| > 0 {
      MaskTwo(h[1..]);
      if |h| > 2 {
        assert h[1..][2..] == h[3..];
      }
    }
  }

  lemma MaskRegion(f: string)
    ensures Glob.Match(f, "??-??.md") <==> |f| == 8 && f[2] == '-' && f[5..] == ".md"
  {
    MaskRegionHead(f);
    if |f| >= 2 {
      MaskRegionTail(f[2..]);
      RegionIndices(f);
    }
  }

  lemma MaskRegionHead(f: string)
    ensures Glob.Match(f, "??-??.md") <==> |f| >= 2 && Glob.Match(f[2..], "-??.md")
  {
    assert "??-??.md" == "??" + "-??.md";
    Glob.MatchTwoAny(f, "-??.md");
  }

  lemma RegionIndices(f: string)
    requires |f| >= 2
    ensures (|f[2..]| == 6 && f[2..][0] == '-' && f[2..][3..] == ".md") <==> (|f| == 8 && f[2] == '-' && f[5..] == ".md")
  {
    if |f| >= 5 {
      assert f[2..][3..] == f[5..];
    }
  }

  /** The masks say exactly what `ArticleShape` says. */
  lemma ArticleMaskShape(filename: string)
    ensures ArticleMask(filename) <==> ArticleShape(filename)
  {
    MaskTwo(filename);
    MaskThree(filename);
    MaskRegion(filename);
    var n := |filename|;
    if n >= 3 {
      assert Text.EndsWith(filename, ".md") <==> filename[n - 3..] == ".md";
    }
  }

  /** A translation is an article that is not an original; an original is an article and never a translation. */
  lemma TranslationIsArticleNotOriginal(path: string)
    ensures IsTranslation(path) <==> IsArticle(path) && !IsOriginal(path)
    ensures IsOriginal(path) ==> IsArticle(path) && !IsTranslation(path)
  {
    MaskTwo("en.md");
  }

  // ---------------------------------------------------------------------
  // News posts

  /** `is_newspost(path)`: the normalised directory starts with `news`, and the path ends in `.md`. */
  predicate IsNewspost(path: string) {
    Text.StartsWith(Normalised(Paths.Dirname(path)), "news") && Text.EndsWith(path, ".md")
  }

  /** A file below plain directories is a news post exactly when the directory path starts with `news` and the name ends in `.md`. */
  lemma NewspostBelow(dirs: seq<string>, filename: string)
    requires Paths.AllPlain(dirs) && ".." !in dirs && dirs != []
    requires '\\' !in Text.Join("/", dirs) && '/' !in filename
    ensures IsNewspost(Text.Join("/", dirs) + "/" + filename)
      <==> Text.StartsWith(Text.Join("/", dirs), "news") && Text.EndsWith(filename, ".md")
  {
    var d := Text.Join("/", dirs);
    var p := d + "/" + filename;
    Paths.JoinPlainEnd(dirs);
    Paths.DirnameBasename(d, filename);
    NormalisedPlain(dirs);
    var n := |filename|;
    if n >= 3 {
      assert p[|p| - 3..] == filename[n - 3..];
    } else {
      assert p[|p| - n - 1] == '/';
    }
  }

  // ---------------------------------------------------------------------
  // list_all_translations

  /** `os.path.join(d, filename).replace("\\", "/")`. */
  function PathIn(d: string, filename: string): string {
    Text.ReplaceChar(Paths.Join2(d, filename), '\\', "/")
  }

  /** The file names that name translations, in their order. */
  function TranslationNames(names: seq<string>): (r: seq<string>)
    ensures forall i :: 0 <= i < |r| ==> IsTranslation(r[i])
    ensures forall f :: f in r <==> f in names && IsTranslation(f)
  {
    if |names| == 0 then []
    else
      TranslationIsArticleNotOriginal(names[0]);
      (if IsOriginal(names[0]) || !IsArticle(names[0]) then [] else [names[0]]) + TranslationNames(names[1..])
  }

  /** A sublist of an ascending list is ascending. */
  lemma {:induction false} TranslationNamesAscending(names: seq<string>)
    requires forall i, j :: 0 <= i < j < |names| ==> !Text.LexLess(names[j], names[i])
    ensures forall i, j :: 0 <= i < j < |TranslationNames(names)| ==>
      !Text.LexLess(TranslationNames(names)[j], TranslationNames(names)[i])
  {
    if |names| > 0 {
      TranslationNamesAscending(names[1..]);
      var rest := TranslationNames(names[1..]);
      forall j | 0 <= j < |rest| ensures !Text.LexLess(rest[j], names[0]) {
        assert rest[j] in names[1..];
      }
    }
  }

  /** The translations in one directory, listed by `listing`. */
  function TranslationsIn(d: string, listing: seq<string>): seq<string> {
    Map(d, TranslationNames(Sorting.SortStrings(listing)))
  }

  function Map(d: string, names: seq<string>): (r: seq<string>)
    ensures |r| == |names|
    ensures forall i :: 0 <= i < |r| ==> r[i] == PathIn(d, names[i])
  {
    if |names| == 0 then [] else [PathIn(d, names[0])] + Map(d, names[1..])
  }

  /** The parts of each directory in turn, concatenated: a path is there exactly when some directory's part holds it. */
  function Concat(dirs: seq<string>, part: string -> seq<string>): (r: seq<string>)
    ensures forall p :: p in r ==> exists i :: 0 <= i < |dirs| && p in part(dirs[i])
    ensures forall i, p :: 0 <= i < |dirs| && p in part(dirs[i]) ==> p in r
  {
    if |dirs| == 0 then []
    else
      var rest := Concat(dirs[1..], part);
      assert forall i :: 1 <= i < |dirs| ==> dirs[1..][i - 1] == dirs[i];
      part(dirs[0]) + rest
  }

  /**
   * `list_all_translations(dirs)`: for each directory in turn, its
   * translation files in sorted order, joined to the directory.
   */
  function ListAllTranslations(dirs: seq<string>, listing: string -> seq<string>): seq<string> {
    Concat(dirs, (d: string) => TranslationsIn(d, listing(d)))
  }

  /**
   * One directory's part of the listing: the translation file names it
   * holds, each once per listing entry, in ascending order.
   */
  lemma TranslationsInListing(d: string, listing: seq<string>)
    ensures var names := TranslationNames(Sorting.SortStrings(listing));
      && TranslationsIn(d, listing) == Map(d, names)
      && (forall f :: f in names <==> f in listing && IsTranslation(f))
      && (forall i, j :: 0 <= i < j < |names| ==> !Text.LexLess(names[j], names[i]))
  {
    var sorted := Sorting.SortStrings(listing);
    assert forall f :: f in sorted <==> f in listing by {
      assert forall f :: f in sorted <==> f in multiset(sorted);
      assert forall f :: f in listing <==> f in multiset(listing);
    }
    Sorting.SortStringsAscending(listing);
    TranslationNamesAscending(sorted);
  }

  /** A path comes from one directory's listing exactly when it joins the directory and a translation listed there. */
  lemma TranslationsInMembers(d: string, listing: seq<string>, p: string)
    ensures p in TranslationsIn(d, listing) <==> exists f :: f in listing && IsTranslation(f) && p == PathIn(d, f)
  {
    TranslationsInListing(d, listing);
    var names := TranslationNames(Sorting.SortStrings(listing));
    if p in TranslationsIn(d, listing) {
      var k :| 0 <= k < |names| && p == PathIn(d, names[k]);
      assert names[k] in names;
    }
    if f :| f in listing && IsTranslation(f) && p == PathIn(d, f) {
      var k :| 0 <= k < |names| && names[k] == f;
      assert TranslationsIn(d, listing)[k] == p;
    }
  }

  /** Every listed path is the path of a translation in one of the directories, and each such path is listed. */
  lemma ListAllTranslationsMembers(dirs: seq<string>, listing: string -> seq<string>, p: string)
    ensures p in ListAllTranslations(dirs, listing) <==>
      exists i, f :: 0 <= i < |dirs| && f in listing(dirs[i]) && IsTranslation(f) && p == PathIn(dirs[i], f)
  {
    var part := (d: string) => TranslationsIn(d, listing(d));
    if p in ListAllTranslations(dirs, listing) {
      var i :| 0 <= i < |dirs| && p in part(dirs[i]);
      TranslationsInMembers(dirs[i], listing(dirs[i]), p);
    }
    if i, f :| 0 <= i < |dirs| && f in listing(dirs[i]) && IsTranslation(f) && p == PathIn(dirs[i], f) {
      TranslationsInMembers(dirs[i], listing(dirs[i]), p);
      assert p in part(dirs[i]);
    }
  }
}

=== FILE: frontmatter.dfy ===
/**
 * Front matter: the YAML block between two `---` lines at the top of an
 * article (wikitools/article_parser.py, and the copy in
 * wikitools_cli/commands/check_yaml.py).
 *
 * Loading and dumping YAML are parameters; a loaded block is an ordered
 * mapping (Python's `OrderedDict`) from keys to values.
 */
module FrontMatter {
  import Text
  import Outcomes

  /** The YAML values the tools look at, and a stand-in for the rest. */
  datatype Value = Bool(b: bool) | Str(s: string) | Int(i: int) | Null | Collection(size: nat)

  /** Python's truth value of a YAML value. */
  predicate Truthy(v: Value) {
    match v
    case Bool(b) => b
    case Str(s) => s != ""
    case Int(i) => i != 0
    case Null => false
    case Collection(n) => n > 0
  }

  /** An ordered mapping: keys in insertion order, each once. */
  type Mapping = seq<(string, Value)>

  function Keys(m: Mapping): (r: seq<string>)
    ensures |r| == |m|
    ensures forall i :: 0 <= i < |m| ==> r[i] == m[i].0
  {
    if |m| == 0 then [] else [m[0].0] + Keys(m[1..])
  }

  predicate Distinct(m: Mapping) {
    forall i, j :: 0 <= i < j < |m| ==> m[i].0 != m[j].0
  }

  /** `m.get(key)`. */
  function Get(m: Mapping, key: string): (r: Outcomes.Option<Value>)
    ensures r.None? <==> key !in Keys(m)
    ensures r.Some? ==> exists i :: 0 <= i < |m| && m[i] == (key, r.value)
  {
    if |m| == 0 then Outcomes.None
    else if m[0].0 == key then Outcomes.Some(m[0].1)
    else
      var r := Get(m[1..], key);
      assert Keys(m) == [m[0].0] + Keys(m[1..]);
      assert r.Some? ==> exists i :: 0 <= i < |m| && m[i] == (key, r.value) by {
        if r.Some? {
          var i :| 0 <= i < |m[1..]| && m[1..][i] == (key, r.value);
          assert m[i + 1] == (key, r.value);
        }
      }
      r
  }

  /** `m.get(key, False)` read as a condition. */
  predicate TruthyAt(m: Mapping, key: string) {
    var v := Get(m, key);
    v.Some? && Truthy(v.value)
  }

  /**
   * `m[key] = value`: an existing key keeps its place and takes the new
   * value; a new key goes at the end.
   */
  function Set(m: Mapping, key: string, value: Value): (r: Mapping)
    ensures key in Keys(m) ==> |r| == |m| && Keys(r) == Keys(m)
    ensures key !in Keys(m) ==> r == m + [(key, value)]
    ensures forall i :: 0 <= i < |m| && m[i].0 != key ==> r[i] == m[i]
  {
    if |m| == 0 then [(key, value)]
    else if m[0].0 == key then [(key, value)] + m[1..]
    else
      assert Keys(m) == [m[0].0] + Keys(m[1..]);
      [m[0]] + Set(m[1..], key, value)
  }

  /** After `m[key] = value` the key reads back the value and every other key reads as before. */
  lemma {:induction false} SetGet(m: Mapping, key: string, value: Value, other: string)
    ensures Get(Set(m, key, value), key) == Outcomes.Some(value)
    ensures other != key ==> Get(Set(m, key, value), other) == Get(m, other)
    decreases |m|
  {
    if |m| > 0 && m[0].0 != key {
      SetGet(m[1..], key, value, other);
      assert Set(m, key, value)[1..] == Set(m[1..], key, value);
    }
  }

  /** Assignment keeps the keys distinct. */
  lemma {:induction false} SetDistinct(m: Mapping, key: string, value: Value)
    requires Distinct(m)
    ensures Distinct(Set(m, key, value))
    decreases |m|
  {
    if |m| > 0 && m[0].0 != key {
      SetDistinct(m[1..], key, value);
      var r := Set(m, key, value);
      assert r == [m[0]] + Set(m[1..], key, value);
      forall j | 0 < j < |r| ensures r[0].0 != r[j].0 {
        var t := Set(m[1..], key, value);
        if key in Keys(m[1..]) {
          assert Keys(t) == Keys(m[1..]);
          assert r[j].0 == Keys(t)[j - 1] == m[j].0;
        } else {
          assert t == m[1..] + [(key, value)];
        }
      }
    }
  }

  // ---------------------------------------------------------------------
  // Finding the block

  /** The text before the first `#`: `line.split('#')[0]`, as `BeforeHashIsSplit` shows. */
  function BeforeHash(line: string): (r: string)
    ensures '#' !in r && |r| <= |line| && line[..|r|] == r
    ensures |r| < |line| ==> line[|r|] == '#'
  {
    if |line| == 0 || line[0] == '#' then ""
    else [line[0]] + BeforeHash(line[1..])
  }

  lemma BeforeHashIsSplit(line: string)
    ensures Text.Split(line, "#")[0] == BeforeHash(line)
  {
    var b := BeforeHash(line);
    assert "#" == ['#'];
    if |b| == |line| {
      assert b == line;
      Text.SplitCharNone(line, '#');
    } else {
      assert line == b + ['#'] + line[|b| + 1..];
      Text.SplitChar(line, '#', b, line[|b| + 1..]);
    }
  }

  /** A `---` line: the text before any `#`, stripped, is `---`. */
  predicate IsDelimiter(line: string) {
    Text.Strip(BeforeHash(line)) == "---"
  }

  /** A line that opens the article's title: the front matter cannot come after it. */
  predicate IsTitle(line: string) {
    Text.StartsWith(line, "# ")
  }

  /** What the reading loop sees in a line: the delimiter test comes first. */
  datatype Kind = Delimiter | Title | Other

  function KindOf(line: string): (k: Kind)
    ensures k == Delimiter <==> IsDelimiter(line)
    ensures k == Title <==> !IsDelimiter(line) && IsTitle(line)
  {
    if IsDelimiter(line) then Delimiter else if IsTitle(line) then Title else Other
  }

  function Kinds(lines: seq<string>): (r: seq<Kind>)
    ensures |r| == |lines|
    ensures forall i :: 0 <= i < |lines| ==> r[i] == KindOf(lines[i])
  {
    seq(|lines|, i requires 0 <= i < |lines| => KindOf(lines[i]))
  }

  /** A title line is never a delimiter: everything before its `#` is empty. */
  lemma TitleNotDelimiter(line: string)
    requires IsTitle(line)
    ensures KindOf(line) == Title
  {
    assert line[0] == '#';
  }

  /** The number of delimiter lines. */
  function Count(ks: seq<Kind>): nat {
    if |ks| == 0 then 0
    else Count(ks[..|ks| - 1]) + (if ks[|ks| - 1] == Delimiter then 1 else 0)
  }

  lemma CountStep(ks: seq<Kind>, k: nat)
    requires k < |ks|
    ensures Count(ks[..k + 1]) == Count(ks[..k]) + (if ks[k] == Delimiter then 1 else 0)
  {
    assert ks[..k + 1][..k] == ks[..k];
  }

  lemma {:induction false} CountGrows(ks: seq<Kind>, a: nat, b: nat)
    requires a <= b <= |ks|
    ensures Count(ks[..a]) <= Count(ks[..b])
    decreases b - a
  {
    if a < b {
      CountGrows(ks, a, b - 1);
      CountStep(ks, b - 1);
    }
  }

  /** Line `k` ends the reading: a title, or the delimiter after exactly one earlier one. */
  predicate StopsAt(ks: seq<Kind>, k: int)
    requires 0 <= k < |ks|
  {
    ks[k] == Title || (ks[k] == Delimiter && Count(ks[..k]) == 1)
  }

  /**
   * The reading loop from line `from`, with `count` delimiters seen: the
   * delimiters counted when it stops, and the number of lines read
   * before the stopping line.
   */
  function Scan(ks: seq<Kind>, from: nat, count: nat): (r: (nat, nat))
    requires from <= |ks| && count <= 1
    ensures from <= r.1 <= |ks| && r.0 <= 2
    decreases |ks| - from
  {
    if from == |ks| then (count, from)
    else
      var c := if ks[from] == Delimiter then count + 1 else count;
      if c == 2 || ks[from] == Title then (c, from)
      else Scan(ks, from + 1, c)
  }

  /**
   * The loop reads up to the first stopping line (or the end) and has
   * then counted the delimiters before it, plus the stopping line's own.
   */
  lemma {:induction false} ScanStops(ks: seq<Kind>, from: nat, count: nat)
    requires from <= |ks| && count <= 1
    requires Count(ks[..from]) == count
    requires forall k :: 0 <= k < from ==> !StopsAt(ks, k)
    ensures var (c, n) := Scan(ks, from, count);
      && (forall k :: 0 <= k < n ==> !StopsAt(ks, k))
      && (n < |ks| ==> StopsAt(ks, n))
      && Count(ks[..n]) <= 1
      && c == Count(ks[..n]) + (if n < |ks| && ks[n] == Delimiter then 1 else 0)
    decreases |ks| - from
  {
    if from < |ks| {
      CountStep(ks, from);
      var c := if ks[from] == Delimiter then count + 1 else count;
      if !(c == 2 || ks[from] == Title) {
        ScanStops(ks, from + 1, c);
      }
    }
  }

  /**
   * `load_front_matter` before YAML: the lines read when a second
   * delimiter ends the reading, None otherwise.
   */
  function Block(lines: seq<string>): Outcomes.Option<seq<string>> {
    var (c, n) := Scan(Kinds(lines), 0, 0);
    if c == 2 then Outcomes.Some(lines[..n]) else Outcomes.None
  }

  /** A block closes at line `j`: a delimiter with exactly one delimiter and no title before it. */
  predicate ClosesAt(ks: seq<Kind>, j: int) {
    && 0 <= j < |ks|
    && ks[j] == Delimiter
    && Count(ks[..j]) == 1
    && forall k :: 0 <= k < j ==> ks[k] != Title
  }

  /** At most one line closes a block. */
  lemma ClosesOnce(ks: seq<Kind>, i: int, j: int)
    requires ClosesAt(ks, i) && ClosesAt(ks, j)
    ensures i == j
  {
    if i < j {
      CountStep(ks, i);
      CountGrows(ks, i + 1, j);
    } else if j < i {
      CountStep(ks, j);
      CountGrows(ks, j + 1, i);
    }
  }

  /** The loop ends on a second delimiter exactly when some line closes a block, and then on that line. */
  lemma ScanCloses(ks: seq<Kind>)
    ensures var (c, n) := Scan(ks, 0, 0);
      && (c == 2 ==> ClosesAt(ks, n))
      && (c != 2 ==> forall j :: !ClosesAt(ks, j))
  {
    ScanStops(ks, 0, 0);
    var (c, n) := Scan(ks, 0, 0);
    if c == 2 {
      forall k | 0 <= k < n ensures ks[k] != Title {
        assert !StopsAt(ks, k);
      }
    } else {
      forall j | 0 <= j < |ks| ensures !ClosesAt(ks, j) {
        if j < n {
          assert !StopsAt(ks, j);
        } else if j > n {
          assert StopsAt(ks, n);
        }
      }
    }
  }

  /**
   * The block is there exactly when some line closes it, and it is every
   * line before that one, the opening `---` (and anything above it)
   * included.
   */
  lemma BlockCloses(lines: seq<string>)
    ensures Block(lines).Some? ==> ClosesAt(Kinds(lines), |Block(lines).value|) && Block(lines).value == lines[..|Block(lines).value|]
    ensures Block(lines).None? ==> forall j :: !ClosesAt(Kinds(lines), j)
  {
    ScanCloses(Kinds(lines));
  }

  /**
   * `load_front_matter(file)`: the loaded block when there is one, else
   * the empty mapping. `load` is YAML loading.
   */
  function Load(lines: seq<string>, load: seq<string> -> Mapping): (r: Mapping)
    ensures Block(lines).None? ==> r == []
    ensures Block(lines).Some? ==> r == load(Block(lines).value)
  {
    match Block(lines)
    case None => []
    case Some(b) => load(b)
  }

  /**
   * check_yaml's `front_matter(file)`: the block's text; the empty text
   * when no delimiter comes before the reading stops; ValueError when
   * only one does.
   */
  function BlockText(lines: seq<string>): (r: Outcomes.Result<string>)
    ensures Block(lines).Some? ==> r == Outcomes.Ok(Text.Join("", Block(lines).value))
    ensures r.Err? ==> r.error == Outcomes.ValueError
  {
    var (c, n) := Scan(Kinds(lines), 0, 0);
    if c == 0 then Outcomes.Ok("")
    else if c == 2 then Outcomes.Ok(Text.Join("", lines[..n]))
    else Outcomes.Err(Outcomes.ValueError)
  }

  /**
   * Without a block the outcome depends on the delimiters read before
   * the loop stopped: none gives the empty text, one is an error.
   */
  lemma BlockTextOutcome(lines: seq<string>)
    requires Block(lines).None?
    ensures var n := Scan(Kinds(lines), 0, 0).1;
      && Count(Kinds(lines)[..n]) <= 1
      && (BlockText(lines) == Outcomes.Ok("") <==> Count(Kinds(lines)[..n]) == 0)
      && (BlockText(lines).Err? <==> Count(Kinds(lines)[..n]) == 1)
  {
    var ks := Kinds(lines);
    ScanStops(ks, 0, 0);
    var (c, n) := Scan(ks, 0, 0);
    if n < |ks| {
      assert StopsAt(ks, n);
    }
  }

  /** check_yaml's `read_yaml(path)`: the front matter of a Markdown file, the whole text of any other. */
  function ReadYaml(path: string, lines: seq<string>): (r: Outcomes.Result<string>)
    ensures !Text.EndsWith(path, ".md") ==> r == Outcomes.Ok(Text.Join("", lines))
    ensures Text.EndsWith(path, ".md") ==> r == BlockText(lines)
  {
    if Text.EndsWith(path, ".md") then BlockText(lines) else Outcomes.Ok(Text.Join("", lines))
  }

  // ---------------------------------------------------------------------
  // Saving

  /** The lines from the first title line on; none when there is no title. */
  function Body(lines: seq<string>): (r: seq<string>)
    ensures r == [] || IsTitle(r[0])
    ensures exists k :: 0 <= k <= |lines| && r == lines[k..] && forall i :: 0 <= i < k ==> !IsTitle(lines[i])
  {
    if |lines| == 0 then
      assert lines[0..] == [];
      []
    else if IsTitle(lines[0]) then
      assert lines[0..] == lines;
      lines
    else
      var r := Body(lines[1..]);
      var k :| 0 <= k <= |lines[1..]| && r == lines[1..][k..] && forall i :: 0 <= i < k ==> !IsTitle(lines[1..][i]);
      assert r == lines[k + 1..];
      r
  }

  const Header: seq<string> := ["---\n"]
  const Footer: seq<string> := ["---\n", "\n"]

  /**
   * `save_front_matter(path, m)` as the lines of the new file: nothing is
   * written for an empty mapping; otherwise `---`, the dumped mapping,
   * `---`, an empty line, then the old file from its title line on.
   */
  function Save(m: Mapping, dumped: seq<string>, lines: seq<string>): (r: Outcomes.Option<seq<string>>)
    ensures r.None? <==> m == []
    ensures r.Some? ==> |r.value| >= |dumped| + 3 && r.value[..|dumped| + 3] == Header + dumped + Footer
  {
    if m == [] then Outcomes.None
    else
      var header := Header + dumped + Footer;
      assert (header + Body(lines))[..|dumped| + 3] == header;
      Outcomes.Some(header + Body(lines))
  }

  predicate NoTitles(xs: seq<string>) {
    forall i :: 0 <= i < |xs| ==> !IsTitle(xs[i])
  }

  lemma {:induction false} BodyAfter(header: seq<string>, body: seq<string>)
    requires NoTitles(header)
    requires body == [] || IsTitle(body[0])
    ensures Body(header + body) == body
    decreases |header|
  {
    if |header| > 0 {
      assert (header + body)[1..] == header[1..] + body;
      BodyAfter(header[1..], body);
    } else {
      assert header + body == body;
    }
  }

  /** The saved file keeps the old file's text from its title on. */
  lemma SaveKeepsBody(m: Mapping, dumped: seq<string>, lines: seq<string>)
    requires m != [] && NoTitles(dumped)
    ensures Body(Save(m, dumped, lines).value) == Body(lines)
  {
    var header := Header + dumped + Footer;
    assert "---\n"[0] == '-';
    assert NoTitles(header) by {
      forall i | 0 <= i < |header| ensures !IsTitle(header[i]) {
        if 0 < i <= |dumped| {
          assert header[i] == dumped[i - 1];
        }
      }
    }
    assert Save(m, dumped, lines).value == header + Body(lines);
    BodyAfter(header, Body(lines));
  }

  /** Saving a saved file again with the same mapping changes nothing. */
  lemma SaveIdempotent(m: Mapping, dumped: seq<string>, lines: seq<string>)
    requires m != [] && NoTitles(dumped)
    ensures Save(m, dumped, Save(m, dumped, lines).value) == Save(m, dumped, lines)
  {
    SaveKeepsBody(m, dumped, lines);
  }

  lemma DelimiterLine()
    ensures KindOf("---\n") == Delimiter
  {
    DelimiterLineBeforeHash();
    DelimiterLineStrip();
  }

  lemma DelimiterLineBeforeHash()
    ensures BeforeHash("---\n") == "---\n"
  {
    assert "---\n"[1..] == "--\n" && "--\n"[1..] == "-\n" && "-\n"[1..] == "\n" && "\n"[1..] == "";
    assert BeforeHash("\n") == "\n";
    assert BeforeHash("-\n") == "-\n";
    assert BeforeHash("--\n") == "--\n";
  }

  lemma DelimiterLineStrip()
    ensures Text.Strip("---\n") == "---"
  {
    assert Text.LStrip("---\n") == "---\n";
    assert "---\n"[..3] == "---";
    assert Text.RStrip("---") == "---";
  }

  lemma {:induction false} CountOnlyFirst(ks: seq<Kind>)
    requires |ks| > 0 && ks[0] == Delimiter
    requires forall i :: 1 <= i < |ks| ==> ks[i] == Other
    ensures Count(ks) == 1
    decreases |ks|
  {
    if |ks| > 1 {
      CountOnlyFirst(ks[..|ks| - 1]);
    }
  }

  /** A delimiter, then lines of no kind that matters, then a delimiter: the second one closes the block. */
  lemma ClosesAfterHeader(ks: seq<Kind>, j: nat)
    requires 0 < j < |ks|
    requires ks[0] == Delimiter && ks[j] == Delimiter
    requires forall i :: 1 <= i < j ==> ks[i] == Other
    ensures ClosesAt(ks, j)
  {
    CountOnlyFirst(ks[..j]);
  }

  lemma HeaderLines(top: seq<string>, dumped: seq<string>)
    requires top == Header + dumped + Footer
    ensures forall i :: 1 <= i <= |dumped| ==> top[i] == dumped[i - 1]
  {
  }

  /**
   * Reading the saved file back finds the written block: `---` and the
   * dumped lines, provided the dump holds no delimiter and no title.
   */
  lemma SaveThenBlock(m: Mapping, dumped: seq<string>, lines: seq<string>)
    requires m != []
    requires forall i :: 0 <= i < |dumped| ==> KindOf(dumped[i]) == Other
    ensures Block(Save(m, dumped, lines).value) == Outcomes.Some(Header + dumped)
  {
    var saved := Save(m, dumped, lines).value;
    var j := |dumped| + 1;
    var top := saved[..|dumped| + 3];
    assert top == Header + dumped + Footer;
    assert saved[..j] == Header + dumped by {
      assert saved[..j] == top[..j];
    }
    var ks := Kinds(saved);
    DelimiterLine();
    assert ks[0] == Delimiter by {
      assert saved[0] == top[0];
    }
    assert ks[j] == Delimiter by {
      assert saved[j] == top[j];
    }
    HeaderLines(top, dumped);
    forall i | 1 <= i < j ensures ks[i] == Other {
      assert saved[i] == top[i];
    }
    ClosesAfterHeader(ks, j);
    BlockCloses(saved);
    var b := Block(saved).value;
    ClosesOnce(ks, |b|, j);
  }
}

=== FILE: generate.dfy ===
/**
 * The `generate-tables` command: the heading tracker, `skip_while`, the
 * rewriting of an article around its descriptors (`save_tables`), and
 * `make_table`, which turns one descriptor into Markdown. Lines carry
 * their line breaks, as lines read from a file do; reading and writing
 * files is left to the caller, and the CSV file behind a descriptor is
 * the parameter `csv` (its records, by file name).
 */
module Generate {
  import Text
  import Sorting
  import Templates
  import Tables
  import Descriptors
  import opened Outcomes

  // ---------------------------------------------------------------------
  // HeadingTracker

  /** The number of `#` a line starts with. */
  function Level(line: string): (r: nat)
    ensures r <= |line|
    ensures forall i :: 0 <= i < r ==> line[i] == '#'
    ensures r == |line| || line[r] != '#'
  {
    if |line| > 0 && line[0] == '#' then 1 + Level(line[1..]) else 0
  }

  /** `_parse_heading`: the text after the last `#`, stripped. */
  function HeadingName(line: string): string {
    var pieces := Text.Split(line, "#");
    Text.Strip(pieces[|pieces| - 1])
  }

  /**
   * `HeadingTracker.update`: a heading of level L leaves the first
   * `min(L, depth + 1) - 1` names in place and puts its own name after
   * them; any other line changes nothing.
   */
  function Update(path: seq<string>, line: string): (r: seq<string>)
    ensures !Text.StartsWith(line, "#") ==> r == path
    ensures Text.StartsWith(line, "#") ==>
      && |r| == Tables.Min(Level(line), |path| + 1)
      && r[|r| - 1] == HeadingName(line)
      && r[..|r| - 1] == path[..|r| - 1]
  {
    if !Text.StartsWith(line, "#") then path
    else
      var level := Level(line);
      var name := HeadingName(line);
      if level > |path| then path + [name]
      else if level == |path| then path[..|path| - 1] + [name]
      else path[..level - 1] + [name]
  }

  /** How reading one line moves the tracker: `Update`, or a stand-in for it in the generic loops. */
  type Updater = (seq<string>, string) -> seq<string>

  /** The tracker after reading `lines` in order. */
  function Track(update: Updater, path: seq<string>, lines: seq<string>): seq<string>
    decreases |lines|
  {
    if |lines| == 0 then path else Track(update, update(path, lines[0]), lines[1..])
  }

  lemma TrackFirst(update: Updater, path: seq<string>, lines: seq<string>, k: nat)
    requires k < |lines|
    ensures Track(update, path, lines[..k + 1]) == Track(update, update(path, lines[0]), lines[1..][..k])
  {
    assert lines[..k + 1][0] == lines[0];
    assert lines[..k + 1][1..] == lines[1..][..k];
  }

  // ---------------------------------------------------------------------
  // skip_while

  /** What `skip_while` hands back: the line reached, how many lines it consumed, and the tracker after them. */
  datatype Skipped = Skipped(line: string, count: nat, path: seq<string>)

  /** Lines read from a file are never empty: each holds at least its line break, or the last characters of the file. */
  predicate NoEmpty(lines: seq<string>) {
    forall k :: 0 <= k < |lines| ==> lines[k] != ""
  }

  lemma NoEmptyFrom(lines: seq<string>, a: nat)
    requires NoEmpty(lines) && a <= |lines|
    ensures NoEmpty(lines[a..])
  {
    assert forall k :: 0 <= k < |lines| - a ==> lines[a..][k] == lines[a + k];
  }

  /**
   * The loop of `skip_while`: read a line, update the tracker, stop when
   * the predicate holds. At the end of the input the last line read is
   * tested once more and replaced by `""` unless it passes.
   */
  function SkipFrom(update: Updater, lines: seq<string>, path: seq<string>, reach: (string, seq<string>) -> bool, last: string): (r: Skipped)
    ensures r.count <= |lines|
    decreases |lines|
  {
    if |lines| == 0 then Skipped(if reach(last, path) then last else "", 0, path)
    else
      var next := update(path, lines[0]);
      if reach(lines[0], next) then Skipped(lines[0], 1, next)
      else
        var rest := SkipFrom(update, lines[1..], next, reach, lines[0]);
        Skipped(rest.line, rest.count + 1, rest.path)
  }

  /**
   * `skip_while` stops at the first line that passes, with the tracker
   * as it stands after that line, and at the end of the input hands back
   * `""` with every line consumed; no line before the one reached passes.
   */
  lemma {:induction false} SkipFromReaches(update: Updater, lines: seq<string>, path: seq<string>, reach: (string, seq<string>) -> bool, last: string)
    requires NoEmpty(lines)
    requires last == "" || !reach(last, path)
    ensures var r := SkipFrom(update, lines, path, reach, last);
      && r.path == Track(update, path, lines[..r.count])
      && (r.line != "" ==> 0 < r.count && r.line == lines[r.count - 1] && reach(r.line, r.path))
      && (r.line == "" ==> r.count == |lines|)
      && (r.line == "" && 0 < r.count ==> !reach(lines[r.count - 1], r.path))
      && (forall k :: 0 <= k < r.count - 1 ==> !reach(lines[k], Track(update, path, lines[..k + 1])))
    decreases |lines|
  {
    if |lines| == 0 {
      assert lines[..0] == [];
    } else {
      var next := update(path, lines[0]);
      if reach(lines[0], next) {
        assert lines[..1][0] == lines[0] && lines[..1][1..] == [];
      } else {
        NoEmptyFrom(lines, 1);
        SkipFromReaches(update, lines[1..], next, reach, lines[0]);
        var rest := SkipFrom(update, lines[1..], next, reach, lines[0]);
        assert lines[..rest.count + 1][0] == lines[0];
        assert lines[1..][..rest.count] == lines[..rest.count + 1][1..];
        assert forall k :: 1 <= k < |lines| ==> lines[1..][k - 1] == lines[k];
        forall k | 0 <= k < rest.count
          ensures !reach(lines[k], Track(update, path, lines[..k + 1]))
        {
          TrackFirst(update, path, lines, k);
        }
      }
    }
  }

  /** `skip_while(file, tracker, reach)` on the remaining lines. */
  function SkipWhile(update: Updater, lines: seq<string>, path: seq<string>, reach: (string, seq<string>) -> bool): (r: Skipped)
    ensures r.count <= |lines|
  {
    SkipFrom(update, lines, path, reach, "")
  }

  // ---------------------------------------------------------------------
  // save_tables

  /** One generated table: the line of its descriptor, its Markdown, and whether it takes the rest of the section. */
  datatype Target = Target(line: nat, table: string, consume: bool)

  /** The first table whose descriptor sits on line `n`. */
  function TargetAt(tables: seq<Target>, n: nat): (r: Option<Target>)
    ensures r.None? <==> forall i :: 0 <= i < |tables| ==> tables[i].line != n
    ensures r.Some? ==> r.value in tables && r.value.line == n
  {
    if |tables| == 0 then None
    else if tables[0].line == n then Some(tables[0])
    else TargetAt(tables[1..], n)
  }

  /** The end of a split table's section: a heading at most as deep as the descriptor's. */
  function SectionEnd(depth: nat): (string, seq<string>) -> bool {
    (l: string, t: seq<string>) => Text.StartsWith(l, "#") && |t| <= depth
  }

  /** The next line with content. */
  function Content(): (string, seq<string>) -> bool {
    (l: string, t: seq<string>) => !Text.IsSpace(l)
  }

  /** The first line after a `|` table. */
  function PastTable(): (string, seq<string>) -> bool {
    (l: string, t: seq<string>) => !Text.StartsWith(l, "|")
  }

  /**
   * What follows a descriptor's line is replaced: for a split table the
   * rest of its section, up to the next heading no deeper than the
   * descriptor's; otherwise the old `|` table after the next content
   * line, and the blank lines after it. The tracker sees the line reached
   * once more, as in `save_tables`.
   */
  function Replaced(update: Updater, rest: seq<string>, path: seq<string>, consume: bool): (r: Skipped)
    ensures r.count <= |rest|
  {
    if consume then
      var s := SkipWhile(update, rest, path, SectionEnd(|path|));
      Skipped(s.line, s.count, update(s.path, s.line))
    else
      var s1 := SkipWhile(update, rest, path, Content());
      var p1 := update(s1.path, s1.line);
      if !Text.StartsWith(s1.line, "|") then Skipped(s1.line, s1.count, p1)
      else
        var s2 := SkipWhile(update, rest[s1.count..], p1, PastTable());
        var p2 := update(s2.path, s2.line);
        if !Text.IsSpace(s2.line) then Skipped(s2.line, s1.count + s2.count, p2)
        else
          var s3 := SkipWhile(update, rest[s1.count + s2.count..], p2, Content());
          Skipped(s3.line, s1.count + s2.count + s3.count, update(s3.path, s3.line))
  }

  /**
   * A split table takes its whole section: every line up to the next
   * heading no deeper than the descriptor's is consumed, and that heading
   * is the line reached; without one, the rest of the file goes.
   */
  lemma ReplacedSection(update: Updater, rest: seq<string>, path: seq<string>)
    requires NoEmpty(rest)
    ensures var r := Replaced(update, rest, path, true);
      && (r.line == "" ==> r.count == |rest|)
      && (r.line != "" ==> 0 < r.count && r.line == rest[r.count - 1] && Text.StartsWith(r.line, "#"))
      && (forall k :: 0 <= k < r.count - 1 ==>
            !(Text.StartsWith(rest[k], "#") && |Track(update, path, rest[..k + 1])| <= |path|))
  {
    SkipFromReaches(update, rest, path, SectionEnd(|path|), "");
  }

  /**
   * Any other table replaces the old table after the next line with
   * content; where there is no old table, only the blank lines up to
   * that line are replaced, and it is the line reached.
   */
  lemma ReplacedNoTable(update: Updater, rest: seq<string>, path: seq<string>)
    requires NoEmpty(rest)
    requires forall k :: 0 <= k < |rest| ==> !Text.StartsWith(rest[k], "|")
    ensures var r := Replaced(update, rest, path, false);
      && (r.line == "" ==> r.count == |rest|)
      && (r.line != "" ==> 0 < r.count && r.line == rest[r.count - 1] && !Text.IsSpace(r.line))
      && (forall k :: 0 <= k < r.count - 1 ==> Text.IsSpace(rest[k]))
  {
    SkipFromReaches(update, rest, path, Content(), "");
  }

  /** The descriptor's line, given a line break if it lacks one. */
  function Ended(line: string): (r: string)
    ensures Text.EndsWith(r, "\n")
    ensures Text.StartsWith(r, line)
  {
    if Text.EndsWith(line, "\n") then line
    else
      Text.PrefixOfConcat(line, "\n");
      Text.SuffixOfConcat(line, "\n");
      line + "\n"
  }

  /** The line break written after a descriptor's line that lacks one. */
  function Break(line: string): seq<string> {
    if Text.EndsWith(line, "\n") then [] else ["\n"]
  }

  /** The descriptor's line and its `Break` make up `Ended`. */
  lemma BreakText(line: string)
    ensures Text.Concat([line] + Break(line)) == Ended(line)
  {
    if Text.EndsWith(line, "\n") {
      assert [line] + [] == [line];
      assert [line][1..] == [];
    } else {
      assert [line] + ["\n"] == [line, "\n"] + [];
      Text.ConcatTwo(line, "\n", []);
    }
  }

  /**
   * How `save_tables` writes: the tracker's update, what follows a
   * descriptor (`Replaced`), and `str.strip`. `Command()` is the one the
   * command uses; the loop takes it as a parameter so that its proofs
   * need not look inside any of the three.
   */
  datatype Writer = Writer(update: Updater, replace: (seq<string>, seq<string>, bool) -> Skipped, strip: string -> string)

  /** What is replaced after a descriptor is taken from the lines that follow it. */
  ghost predicate Consumes(w: Writer) {
    forall rest: seq<string>, path: seq<string>, consume: bool :: w.replace(rest, path, consume).count <= |rest|
  }

  function Command(): (w: Writer)
    ensures Consumes(w)
  {
    Writer(Update, (rest: seq<string>, path: seq<string>, consume: bool) => Replaced(Update, rest, path, consume), Text.Strip)
  }

  /** What a descriptor's line starts: the line, its line break if it lacks one, a blank line and the stripped table. */
  function Opening(w: Writer, line: string, table: string): seq<string> {
    [line] + Break(line) + ["\n", w.strip(table)]
  }

  /** What is written at a descriptor: `Opening`, and then, if a line was reached, a blank line and that line. */
  function Emitted(w: Writer, line: string, table: string, reached: string): seq<string> {
    Opening(w, line, table) + (if reached != "" then ["\n\n", reached] else [])
  }

  /**
   * The loop of `save_tables` after `lineno` lines, as the sequence of
   * strings it writes: a line that is not a descriptor's is copied; a
   * descriptor's line is written with its table after it, in place of
   * what `Replaced` consumes; a last line break closes the file.
   * `at(n)` is the table whose descriptor sits on line `n`, if any.
   */
  function SaveFrom(w: Writer, lines: seq<string>, lineno: nat, path: seq<string>, at: nat -> Option<Target>): seq<string>
    requires Consumes(w)
    decreases |lines|
  {
    if |lines| == 0 then ["\n"]
    else
      var n := lineno + 1;
      var p := w.update(path, lines[0]);
      match at(n)
      case None => [lines[0]] + SaveFrom(w, lines[1..], n, p, at)
      case Some(t) =>
        var after := w.replace(lines[1..], p, t.consume);
        Emitted(w, lines[0], t.table, after.line) + SaveFrom(w, lines[1..][after.count..], n + after.count, after.path, at)
  }

  /** A line with no descriptor on it is copied. */
  lemma SaveCopyCons(w: Writer, lines: seq<string>, lineno: nat, path: seq<string>, at: nat -> Option<Target>)
    requires Consumes(w) && 0 < |lines|
    requires at(lineno + 1).None?
    ensures SaveFrom(w, lines, lineno, path, at) == [lines[0]] + SaveFrom(w, lines[1..], lineno + 1, w.update(path, lines[0]), at)
  {
  }

  /** On a descriptor's line the loop writes the line and the table, and goes on after what was replaced. */
  lemma SaveTargetStep(w: Writer, lines: seq<string>, lineno: nat, path: seq<string>, at: nat -> Option<Target>, t: Target)
    requires Consumes(w) && 0 < |lines|
    requires at(lineno + 1) == Some(t)
    ensures var after := w.replace(lines[1..], w.update(path, lines[0]), t.consume);
      && after.count <= |lines| - 1
      && SaveFrom(w, lines, lineno, path, at)
         == Emitted(w, lines[0], t.table, after.line) + SaveFrom(w, lines[1..][after.count..], lineno + 1 + after.count, after.path, at)
  {
  }

  /** What is written ends with a line break of its own. */
  predicate Closed(r: seq<string>) {
    0 < |r| && r[|r| - 1] == "\n"
  }

  lemma ClosedAfter(a: seq<string>, b: seq<string>)
    requires Closed(b)
    ensures Closed(a + b)
  {
    assert (a + b)[|a + b| - 1] == b[|b| - 1];
  }

  lemma ClosedCopy(w: Writer, lines: seq<string>, lineno: nat, path: seq<string>, at: nat -> Option<Target>)
    requires Consumes(w) && 0 < |lines| && at(lineno + 1).None?
    requires Closed(SaveFrom(w, lines[1..], lineno + 1, w.update(path, lines[0]), at))
    ensures Closed(SaveFrom(w, lines, lineno, path, at))
  {
    SaveCopyCons(w, lines, lineno, path, at);
    ClosedAfter([lines[0]], SaveFrom(w, lines[1..], lineno + 1, w.update(path, lines[0]), at));
  }

  lemma ClosedTarget(w: Writer, lines: seq<string>, lineno: nat, path: seq<string>, at: nat -> Option<Target>, t: Target, after: Skipped)
    requires Consumes(w) && 0 < |lines| && at(lineno + 1) == Some(t)
    requires after == w.replace(lines[1..], w.update(path, lines[0]), t.consume)
    requires after.count <= |lines| - 1
    requires Closed(SaveFrom(w, lines[1..][after.count..], lineno + 1 + after.count, after.path, at))
    ensures Closed(SaveFrom(w, lines, lineno, path, at))
  {
    SaveTargetStep(w, lines, lineno, path, at, t);
    ClosedAfter(Emitted(w, lines[0], t.table, after.line), SaveFrom(w, lines[1..][after.count..], lineno + 1 + after.count, after.path, at));
  }

  /** The last string written is the closing line break. */
  lemma {:induction false} SaveEnds(w: Writer, lines: seq<string>, lineno: nat, path: seq<string>, at: nat -> Option<Target>)
    requires Consumes(w)
    ensures Closed(SaveFrom(w, lines, lineno, path, at))
    decreases |lines|
  {
    if |lines| > 0 {
      var p := w.update(path, lines[0]);
      match at(lineno + 1)
      case None =>
        SaveEnds(w, lines[1..], lineno + 1, p, at);
        ClosedCopy(w, lines, lineno, path, at);
      case Some(t) =>
        var after := w.replace(lines[1..], p, t.consume);
        assert after.count <= |lines| - 1;
        SaveEnds(w, lines[1..][after.count..], lineno + 1 + after.count, after.path, at);
        ClosedTarget(w, lines, lineno, path, at, t, after);
    }
  }

  /** The tables by the line of their descriptor. */
  function Lookup(tables: seq<Target>): nat -> Option<Target> {
    (n: nat) => TargetAt(tables, n)
  }

  /** `save_tables(path, tables)`: the new text of the file, which ends with a line break. */
  function SaveTables(lines: seq<string>, tables: seq<Target>): (r: string)
    ensures Text.EndsWith(r, "\n")
  {
    var w := SaveFrom(Command(), lines, 0, [], Lookup(tables));
    SaveEnds(Command(), lines, 0, [], Lookup(tables));
    Text.ConcatAppend(w[..|w| - 1], [w[|w| - 1]]);
    assert w[..|w| - 1] + [w[|w| - 1]] == w;
    assert Text.Concat(["\n"]) == "\n";
    Text.SuffixOfConcat(Text.Concat(w[..|w| - 1]), "\n");
    Text.Concat(w)
  }

  /** Where no descriptor sits, every line is written as it was, followed by the final line break. */
  lemma {:induction false} SaveCopies(w: Writer, lines: seq<string>, lineno: nat, path: seq<string>, at: nat -> Option<Target>)
    requires Consumes(w)
    requires forall j :: lineno < j <= lineno + |lines| ==> at(j).None?
    ensures SaveFrom(w, lines, lineno, path, at) == lines + ["\n"]
    decreases |lines|
  {
    if |lines| > 0 {
      assert at(lineno + 1).None?;
      SaveCopyCons(w, lines, lineno, path, at);
      SaveCopies(w, lines[1..], lineno + 1, w.update(path, lines[0]), at);
      assert [lines[0]] + (lines[1..] + ["\n"]) == lines + ["\n"];
    }
  }

  /** A file without tables is only given a final line break. */
  lemma SaveNothing(lines: seq<string>)
    ensures SaveTables(lines, []) == Text.Concat(lines) + "\n"
  {
    SaveCopies(Command(), lines, 0, [], Lookup([]));
    Text.ConcatAppend(lines, ["\n"]);
    assert Text.Concat(["\n"]) == "\n";
  }

  /** At a descriptor's line the output opens with the line and its table. */
  lemma SaveOpensTarget(w: Writer, lines: seq<string>, lineno: nat, path: seq<string>, at: nat -> Option<Target>, t: Target)
    requires Consumes(w) && 0 < |lines|
    requires at(lineno + 1) == Some(t)
    ensures exists tail :: SaveFrom(w, lines, lineno, path, at) == Opening(w, lines[0], t.table) + tail
  {
    var after := w.replace(lines[1..], w.update(path, lines[0]), t.consume);
    var whole := SaveFrom(w, lines, lineno, path, at);
    assert after.count <= |lines| - 1 by { SaveTargetStep(w, lines, lineno, path, at, t); }
    var tail := SaveFrom(w, lines[1..][after.count..], lineno + 1 + after.count, after.path, at);
    assert whole == Emitted(w, lines[0], t.table, after.line) + tail by { SaveTargetStep(w, lines, lineno, path, at, t); }
    EmittedOpens(w, lines[0], t.table, after.line, tail, whole);
  }

  lemma EmittedOpens(w: Writer, line: string, table: string, reached: string, tail: seq<string>, whole: seq<string>)
    requires whole == Emitted(w, line, table, reached) + tail
    ensures exists more :: whole == Opening(w, line, table) + more
  {
    var rest := if reached != "" then ["\n\n", reached] else [];
    assert whole == Opening(w, line, table) + (rest + tail);
  }

  /** One more copied line in front of the descriptor keeps the shape. */
  lemma SaveBeforeTarget(w: Writer, lines: seq<string>, lineno: nat, path: seq<string>, at: nat -> Option<Target>, k: nat, o: seq<string>, tail: seq<string>)
    requires Consumes(w) && 0 < k < |lines|
    requires at(lineno + 1).None?
    requires SaveFrom(w, lines[1..], lineno + 1, w.update(path, lines[0]), at) == lines[1..][..k - 1] + o + tail
    ensures SaveFrom(w, lines, lineno, path, at) == lines[..k] + o + tail
  {
    SaveCopyCons(w, lines, lineno, path, at);
    assert [lines[0]] + (lines[1..][..k - 1] + o + tail) == lines[..k] + o + tail;
  }

  /**
   * Up to the first descriptor every line is written as it was; the
   * descriptor's line is followed by a blank line and its table.
   */
  lemma {:induction false} SaveAtTarget(w: Writer, lines: seq<string>, lineno: nat, path: seq<string>, at: nat -> Option<Target>, k: nat, t: Target)
    requires Consumes(w) && k < |lines|
    requires forall j :: lineno < j <= lineno + k ==> at(j).None?
    requires at(lineno + k + 1) == Some(t)
    ensures exists tail :: SaveFrom(w, lines, lineno, path, at) == lines[..k] + Opening(w, lines[k], t.table) + tail
    decreases k
  {
    var o := Opening(w, lines[k], t.table);
    if k == 0 {
      SaveOpensTarget(w, lines, lineno, path, at, t);
      assert lines[..0] + o == o;
    } else {
      var m: nat := lineno + 1;
      assert m + (k - 1) + 1 == lineno + k + 1;
      SaveAtTarget(w, lines[1..], m, w.update(path, lines[0]), at, k - 1, t);
      assert lines[1..][k - 1] == lines[k];
      var tail :| SaveFrom(w, lines[1..], m, w.update(path, lines[0]), at) == lines[1..][..k - 1] + o + tail;
      SaveBeforeTarget(w, lines, lineno, path, at, k, o, tail);
    }
  }

  /** The text of `Opening`. */
  lemma OpeningText(w: Writer, line: string, table: string)
    ensures Text.Concat(Opening(w, line, table)) == Ended(line) + "\n" + w.strip(table)
  {
    var b := Break(line);
    BreakText(line);
    Text.ConcatAppend([line] + b, ["\n", w.strip(table)]);
    Text.ConcatTwo("\n", w.strip(table), []);
    assert ["\n", w.strip(table)] + [] == ["\n", w.strip(table)];
    assert Text.Concat([]) == "";
  }

  lemma TextPrefix(front: seq<string>, o: seq<string>, tail: seq<string>)
    ensures Text.StartsWith(Text.Concat(front + o + tail), Text.Concat(front) + Text.Concat(o))
  {
    Text.ConcatAppend(front + o, tail);
    Text.ConcatAppend(front, o);
    Text.PrefixOfConcat(Text.Concat(front + o), Text.Concat(tail));
  }

  /** The text written up to the first descriptor's table. */
  lemma SaveTextAt(w: Writer, lines: seq<string>, at: nat -> Option<Target>, k: nat, t: Target)
    requires Consumes(w) && k < |lines|
    requires forall j :: 0 < j <= k ==> at(j).None?
    requires at(k + 1) == Some(t)
    ensures Text.StartsWith(Text.Concat(SaveFrom(w, lines, 0, [], at)), Text.Concat(lines[..k]) + (Ended(lines[k]) + "\n" + w.strip(t.table)))
  {
    var o := Opening(w, lines[k], t.table);
    SaveAtTarget(w, lines, 0, [], at, k, t);
    var tail :| SaveFrom(w, lines, 0, [], at) == lines[..k] + o + tail;
    TextPrefix(lines[..k], o, tail);
    OpeningText(w, lines[k], t.table);
  }

  /** In the command's own terms: the text up to the first descriptor is kept, then the descriptor's line ended, a blank line and the stripped table. */
  lemma SaveTablesInsert(lines: seq<string>, tables: seq<Target>, k: nat, t: Target)
    requires k < |lines|
    requires forall i :: 0 <= i < |tables| ==> !(0 < tables[i].line <= k)
    requires TargetAt(tables, k + 1) == Some(t)
    ensures Text.StartsWith(SaveTables(lines, tables), Text.Concat(lines[..k]) + (Ended(lines[k]) + "\n" + Text.Strip(t.table)))
  {
    var at := Lookup(tables);
    assert forall j :: 0 < j <= k ==> at(j).None?;
    SaveTextAt(Command(), lines, at, k, t);
  }

  // ---------------------------------------------------------------------
  // make_table

  /** What `descriptor.formats` gives: the parsed formats, none, or the error reading them raises. */
  type Formats = Result<Option<seq<seq<Templates.Piece>>>>

  /** A rendered cell: the format applied to the data row, stripped. */
  function Cell(row: Templates.Row): seq<Templates.Piece> -> Result<string> {
    (f: seq<Templates.Piece>) => Stripped(Templates.Apply(f, row))
  }

  function Stripped(v: Result<string>): Result<string> {
    if v.Ok? then Ok(Text.Strip(v.value)) else v
  }

  /** Every cell from `i` up to `n` has a format, and each format applies. */
  predicate Applies(fs: seq<seq<Templates.Piece>>, n: nat, i: nat, cell: seq<Templates.Piece> -> Result<string>) {
    n <= |fs| && forall j :: i <= j < n ==> cell(fs[j]).Ok?
  }

  /**
   * Cells `i` up to `n` of a rendered row, `formats[i].apply(row).strip()`:
   * a format list shorter than the header raises IndexError at the first
   * cell past its end.
   */
  function CellsFrom(fs: seq<seq<Templates.Piece>>, n: nat, i: nat, cell: seq<Templates.Piece> -> Result<string>): Result<seq<string>>
    decreases n - i
  {
    if i >= n then Ok([])
    else if i >= |fs| then Err(IndexError)
    else
      var v :- cell(fs[i]);
      var rest :- CellsFrom(fs, n, i + 1, cell);
      Ok([v] + rest)
  }

  /** The cells are rendered exactly when every format applies. */
  lemma {:induction false} CellsFromOk(fs: seq<seq<Templates.Piece>>, n: nat, i: nat, cell: seq<Templates.Piece> -> Result<string>)
    requires i < n
    ensures CellsFrom(fs, n, i, cell).Ok? <==> Applies(fs, n, i, cell)
    decreases n - i
  {
    if i < |fs| && cell(fs[i]).Ok? && i + 1 < n {
      CellsFromOk(fs, n, i + 1, cell);
    }
  }

  /** Cell `j` comes from format `j`. */
  lemma {:induction false} CellsFromValues(fs: seq<seq<Templates.Piece>>, n: nat, i: nat, cell: seq<Templates.Piece> -> Result<string>)
    requires i <= n && CellsFrom(fs, n, i, cell).Ok?
    ensures |CellsFrom(fs, n, i, cell).value| == n - i
    ensures i < n ==> n <= |fs|
    ensures forall j :: i <= j < n ==> cell(fs[j]) == Ok(CellsFrom(fs, n, i, cell).value[j - i])
    decreases n - i
  {
    if i < n {
      CellsFromValues(fs, n, i + 1, cell);
      var rest := CellsFrom(fs, n, i + 1, cell).value;
      assert CellsFrom(fs, n, i, cell).value == [cell(fs[i]).value] + rest;
      forall j | i < j < n
        ensures cell(fs[j]) == Ok(CellsFrom(fs, n, i, cell).value[j - i])
      {
        assert CellsFrom(fs, n, i, cell).value[j - i] == rest[j - (i + 1)];
      }
    }
  }

  /** With every existing format applying, a list shorter than the header fails with IndexError. */
  lemma {:induction false} CellsFromShort(fs: seq<seq<Templates.Piece>>, n: nat, i: nat, cell: seq<Templates.Piece> -> Result<string>)
    requires i <= |fs| < n
    requires forall j :: i <= j < |fs| ==> cell(fs[j]).Ok?
    ensures CellsFrom(fs, n, i, cell) == Err(IndexError)
    decreases |fs| - i
  {
    if i < |fs| {
      CellsFromShort(fs, n, i + 1, cell);
    }
  }

  /** Every cell of a row of `n` columns can be rendered: there is a format for each, and each applies. */
  predicate Renders(formats: Formats, n: nat, row: Templates.Row) {
    n == 0 || (formats.Ok? && formats.value.Some? && Applies(formats.value.value, n, 0, Cell(row)))
  }

  /**
   * One rendered row of `n` columns: cell `j` is format `j` applied to the
   * data row and stripped. The formats are read for each cell, so with no
   * columns they are not read at all; a missing list raises TypeError.
   */
  function Render(formats: Formats, n: nat, row: Templates.Row): (r: Result<seq<string>>)
    ensures r.Ok? <==> Renders(formats, n, row)
    ensures 0 < n && formats.Err? ==> r == Err(formats.error)
    ensures 0 < n && formats == Ok(None) ==> r == Err(TypeError)
  {
    if n == 0 then Ok([])
    else
      var fs :- formats;
      if fs.None? then Err(TypeError)
      else
        CellsFromOk(fs.value, n, 0, Cell(row));
        CellsFrom(fs.value, n, 0, Cell(row))
  }

  /** A rendered row of a format list is its cells, one per column. */
  lemma RenderCells(fs: seq<seq<Templates.Piece>>, n: nat, row: Templates.Row)
    requires 0 < n
    ensures Render(Ok(Some(fs)), n, row) == CellsFrom(fs, n, 0, Cell(row))
  {
  }

  /** What a rendered cell holds: the format applied, then stripped. */
  lemma CellText(row: Templates.Row, f: seq<Templates.Piece>, v: string)
    requires Cell(row)(f) == Ok(v)
    ensures Templates.Apply(f, row).Ok? && v == Text.Strip(Templates.Apply(f, row).value)
  {
  }

  /** Formats that all apply but are fewer than the columns fail with IndexError. */
  lemma RenderShort(fs: seq<seq<Templates.Piece>>, n: nat, row: Templates.Row)
    requires |fs| < n
    requires forall j :: 0 <= j < |fs| ==> Templates.Apply(fs[j], row).Ok?
    ensures Render(Ok(Some(fs)), n, row) == Err(IndexError)
  {
    CellsFromShort(fs, n, 0, Cell(row));
  }

  /** The data rows rendered in order; the first row that fails decides the error. */
  function RenderAll(rows: seq<Templates.Row>, render: Templates.Row -> Result<seq<string>>): (r: Result<seq<seq<string>>>)
    ensures r.Ok? <==> forall i :: 0 <= i < |rows| ==> render(rows[i]).Ok?
    ensures r.Ok? ==> |r.value| == |rows| && forall i :: 0 <= i < |rows| ==> render(rows[i]) == Ok(r.value[i])
    ensures r.Err? ==> exists i :: 0 <= i < |rows| && render(rows[i]) == Err(r.error) && forall j :: 0 <= j < i ==> render(rows[j]).Ok?
  {
    if |rows| == 0 then Ok([])
    else
      var first :- render(rows[0]);
      var rest :- RenderAll(rows[1..], render);
      assert forall i :: 1 <= i < |rows| ==> rows[1..][i - 1] == rows[i];
      Ok([first] + rest)
  }

  /**
   * The column names of a header from the descriptor. Printing joins them,
   * which raises TypeError for an entry that is not a string.
   */
  function HeaderNames(items: seq<Descriptors.Yaml>): (r: Result<seq<string>>)
    ensures r.Ok? <==> Descriptors.AllStrings(items)
    ensures r.Err? ==> r.error == TypeError
    ensures r.Ok? ==> |r.value| == |items| && forall i :: 0 <= i < |items| ==> items[i] == Descriptors.YStr(r.value[i])
  {
    if Descriptors.AllStrings(items) then Ok(seq(|items|, i requires 0 <= i < |items| => items[i].s))
    else Err(TypeError)
  }

  /**
   * A display table: the descriptor's header and alignments over the
   * rendered rows, with each alignment written as its Markdown string, as
   * table_generator does for its own members.
   */
  function Display(names: seq<string>, aligns: seq<Templates.Alignment>, cells: seq<seq<string>>): (t: Tables.Table)
    ensures t.header == names
    ensures |t.alignments| == |aligns| && forall i :: 0 <= i < |aligns| ==> t.alignments[i] == Templates.MarkdownAlignment(aligns[i])
    ensures |t.rows| == |cells| && forall i :: 0 <= i < |cells| ==> t.rows[i] == Templates.MakeRow(cells[i], names)
  {
    var empty := Tables.New(None, names, aligns);
    Tables.Table(names, empty.value.alignments, seq(|cells|, i requires 0 <= i < |cells| => Templates.MakeRow(cells[i], names)))
  }

  /** `str(table)`: every printed line followed by a line break. */
  function Printed(t: Tables.Table): (r: string)
    ensures Text.EndsWith(r, "\n")
  {
    var lines := Tables.Print(t);
    var ended := seq(|lines|, i requires 0 <= i < |lines| => lines[i] + "\n");
    var n := |ended|;
    Text.ConcatAppend(ended[..n - 1], [ended[n - 1]]);
    assert ended[..n - 1] + [ended[n - 1]] == ended;
    assert Text.Concat([ended[n - 1]]) == ended[n - 1];
    BreakAfter(Text.Concat(ended[..n - 1]), lines[n - 1]);
    Text.Concat(ended)
  }

  /**
   * `str(table)` of a display table whose alignments are members of
   * `origin`'s Alignment. `Table.__init__` stores
   * `markdown_string_from_alignment` of each member; a non-empty row then
   * goes to `" | ".join`, which raises TypeError on a None entry.
   */
  function PrintedFrom(origin: Tables.Origin, names: seq<string>, aligns: seq<Templates.Alignment>, cells: seq<seq<string>>): (r: Result<string>)
    ensures origin == Tables.TableGenerator ==> r == Ok(Printed(Display(names, aligns, cells)))
    ensures origin == Tables.TemplateGenerator ==> (r.Err? <==> aligns != [])
    ensures r.Err? ==> r.error == TypeError
    ensures r.Ok? ==> r.value == Printed(Display(names, aligns, cells))
  {
    var row := seq(|aligns|, i requires 0 <= i < |aligns| => Tables.MarkdownOf(origin, aligns[i]));
    assert aligns != [] ==> row[0] == Tables.MarkdownOf(origin, aligns[0]);
    if exists i :: 0 <= i < |row| && row[i].None? then
      Err(TypeError)
    else
      Ok(Printed(Display(names, aligns, cells)))
  }

  /** A display table of table_generator's own members prints its alignment row: the Markdown strings, or `:--` per column when there are none. */
  lemma AlignedTablePrints(names: seq<string>, aligns: seq<Templates.Alignment>, cells: seq<seq<string>>)
    ensures PrintedFrom(Tables.TableGenerator, names, aligns, cells).Ok?
    ensures aligns != [] ==>
      Tables.Print(Display(names, aligns, cells))[1] == Tables.Line(seq(|aligns|, i requires 0 <= i < |aligns| => Templates.MarkdownAlignment(aligns[i])))
    ensures aligns == [] ==> Tables.Print(Display(names, aligns, cells))[1] == Tables.Line(seq(|names|, _ => ":--"))
  {
    var t := Display(names, aligns, cells);
    if aligns != [] {
      assert Tables.Aligned(t) == seq(|aligns|, i requires 0 <= i < |aligns| => Templates.MarkdownAlignment(aligns[i]));
    } else {
      assert Tables.Aligned(t) == seq(|names|, _ => ":--");
    }
  }

  /**
   * The descriptor of the generator's own test (`centre`, `left`, `left`
   * under three column names): as written, printing raises TypeError;
   * the alignment line the test expects is `| :-: | :-- | :-- |`.
   */
  lemma TestTableAlignmentLine(names: seq<string>, cells: seq<seq<string>>)
    ensures PrintedFrom(Tables.TemplateGenerator, names, [Templates.Centre, Templates.Left, Templates.Left], cells) == Err(TypeError)
    ensures Tables.Print(Display(names, [Templates.Centre, Templates.Left, Templates.Left], cells))[1] == "| :-: | :-- | :-- |"
  {
    var aligns := [Templates.Centre, Templates.Left, Templates.Left];
    AlignedTablePrints(names, aligns, cells);
    var strings := seq(|aligns|, i requires 0 <= i < |aligns| => Templates.MarkdownAlignment(aligns[i]));
    assert strings == [":-:", ":--", ":--"];
    TestAlignmentStrings();
  }

  lemma TestAlignmentStrings()
    ensures Tables.Line([":-:", ":--", ":--"]) == "| :-: | :-- | :-- |"
  {
    LineOfThree([":-:", ":--", ":--"]);
  }

  lemma LineOfThree(xs: seq<string>)
    requires |xs| == 3
    ensures Tables.Line(xs) == "| " + xs[0] + " | " + xs[1] + " | " + xs[2] + " |"
  {
    assert xs[1..][1..] == [xs[2]];
    assert Text.Join(" | ", xs[1..]) == xs[1] + " | " + xs[2];
    assert Text.Join(" | ", xs) == xs[0] + " | " + (xs[1] + " | " + xs[2]);
  }

  lemma BreakAfter(a: string, x: string)
    ensures Text.EndsWith(a + (x + "\n"), "\n")
  {
    assert (a + (x + "\n"))[|a + (x + "\n")| - 1] == '\n';
  }

  /** One group of a split table: its key, its prefix, the data rows it took and their rendered cells. */
  datatype Group = Group(key: string, prefix: string, sources: seq<Templates.Row>, cells: seq<seq<string>>)

  function Keys(gs: seq<Group>): (r: seq<string>)
    ensures |r| == |gs| && forall i :: 0 <= i < |gs| ==> r[i] == gs[i].key
  {
    seq(|gs|, i requires 0 <= i < |gs| => gs[i].key)
  }

  /** The data rows of all groups, group after group. */
  function Sources(gs: seq<Group>): seq<Templates.Row> {
    if |gs| == 0 then [] else Sources(gs[..|gs| - 1]) + gs[|gs| - 1].sources
  }

  /** The data rows with a non-empty key, in order. */
  function Keyed(rows: seq<Templates.Row>, keyOf: Templates.Row -> Result<string>): seq<Templates.Row> {
    if |rows| == 0 then []
    else (if keyOf(rows[0]).Ok? && keyOf(rows[0]).value != "" then [rows[0]] else []) + Keyed(rows[1..], keyOf)
  }

  /** The non-empty keys of the data rows, in order. */
  function KeysOf(rows: seq<Templates.Row>, keyOf: Templates.Row -> Result<string>): seq<string> {
    if |rows| == 0 then []
    else (if keyOf(rows[0]).Ok? && keyOf(rows[0]).value != "" then [keyOf(rows[0]).value] else []) + KeysOf(rows[1..], keyOf)
  }

  /** The keys in order of first appearance, leaving out those already `seen`. */
  function Fresh(keys: seq<string>, seen: seq<string>): seq<string> {
    if |keys| == 0 then []
    else if keys[0] in seen then Fresh(keys[1..], seen)
    else [keys[0]] + Fresh(keys[1..], seen + [keys[0]])
  }

  /** A group as the split loop builds it: a non-empty key, opened by a row of that key, every row's cells rendered. */
  predicate Formed(g: Group, keyOf: Templates.Row -> Result<string>, render: Templates.Row -> Result<seq<string>>) {
    && g.key != "" && |g.sources| > 0 && keyOf(g.sources[0]) == Ok(g.key)
    && |g.cells| == |g.sources|
    && forall j :: 0 <= j < |g.sources| ==> render(g.sources[j]) == Ok(g.cells[j])
  }

  /** Groups as the split loop builds them: distinct keys, each group well formed. */
  predicate Grouped(gs: seq<Group>, keyOf: Templates.Row -> Result<string>, render: Templates.Row -> Result<seq<string>>) {
    && (forall i, j :: 0 <= i < j < |gs| ==> gs[i].key != gs[j].key)
    && (forall i :: 0 <= i < |gs| ==> Formed(gs[i], keyOf, render))
  }

  /** A key not seen before opens a group, with the prefix its first row gives. */
  function Open(gs: seq<Group>, key: string, row: Templates.Row, prefixOf: Templates.Row -> Result<string>): (r: Result<seq<Group>>)
    ensures r.Ok? ==> |r.value| > 0
  {
    if key in Keys(gs) then Ok(gs)
    else
      var prefix :- prefixOf(row);
      Ok(gs + [Group(key, prefix, [], [])])
  }

  /** `split_table[-1].rows.append(...)`: the row joins the most recently opened group. */
  function Append(gs: seq<Group>, row: Templates.Row, cells: seq<string>): seq<Group>
    requires |gs| > 0
  {
    var last := gs[|gs| - 1];
    gs[..|gs| - 1] + [last.(sources := last.sources + [row], cells := last.cells + [cells])]
  }

  /**
   * The loop of split mode over the data rows: a row with an empty key is
   * dropped; a new key opens a group; the row, rendered, then joins the
   * most recently opened group, whatever its key.
   */
  function GroupFrom(rows: seq<Templates.Row>, acc: seq<Group>, keyOf: Templates.Row -> Result<string>,
                     prefixOf: Templates.Row -> Result<string>, render: Templates.Row -> Result<seq<string>>): Result<seq<Group>>
  {
    if |rows| == 0 then Ok(acc)
    else
      var key :- keyOf(rows[0]);
      if key == "" then GroupFrom(rows[1..], acc, keyOf, prefixOf, render)
      else
        var grown :- Open(acc, key, rows[0], prefixOf);
        var cells :- render(rows[0]);
        GroupFrom(rows[1..], Append(grown, rows[0], cells), keyOf, prefixOf, render)
  }

  lemma SourcesAppend(gs: seq<Group>, g: Group)
    ensures Sources(gs + [g]) == Sources(gs) + g.sources
  {
    assert (gs + [g])[..|gs|] == gs;
  }

  /** The groups after one row with a non-empty key. */
  function Step(acc: seq<Group>, row: Templates.Row, key: string, prefixOf: Templates.Row -> Result<string>, cells: seq<string>): Result<seq<Group>> {
    var grown :- Open(acc, key, row, prefixOf);
    Ok(Append(grown, row, cells))
  }

  /** One step adds the row to the sources and its key to the keys if it is new. */
  lemma StepOrder(acc: seq<Group>, row: Templates.Row, key: string, prefixOf: Templates.Row -> Result<string>, cells: seq<string>)
    requires Step(acc, row, key, prefixOf, cells).Ok?
    ensures Sources(Step(acc, row, key, prefixOf, cells).value) == Sources(acc) + [row]
    ensures Keys(Step(acc, row, key, prefixOf, cells).value) == Keys(acc) + (if key in Keys(acc) then [] else [key])
  {
    var grown := Open(acc, key, row, prefixOf).value;
    var next := Append(grown, row, cells);
    var last := grown[|grown| - 1];
    var init := grown[..|grown| - 1];
    assert grown == init + [last];
    SourcesAppend(init, last);
    SourcesAppend(init, next[|next| - 1]);
    assert next == init + [next[|next| - 1]];
    if key !in Keys(acc) {
      assert init == acc;
    }
  }

  /** One step keeps the groups well formed. */
  lemma StepGrouped(acc: seq<Group>, row: Templates.Row, key: string, keyOf: Templates.Row -> Result<string>,
                    prefixOf: Templates.Row -> Result<string>, render: Templates.Row -> Result<seq<string>>, cells: seq<string>)
    requires Grouped(acc, keyOf, render)
    requires keyOf(row) == Ok(key) && key != "" && render(row) == Ok(cells)
    requires Step(acc, row, key, prefixOf, cells).Ok?
    ensures Grouped(Step(acc, row, key, prefixOf, cells).value, keyOf, render)
  {
    var grown := Open(acc, key, row, prefixOf).value;
    var next := Append(grown, row, cells);
    var n := |grown| - 1;
    if key in Keys(acc) {
      assert grown == acc;
      assert Formed(next[n], keyOf, render);
    } else {
      assert grown[..n] == acc;
      assert next[n] == Group(key, grown[n].prefix, [row], [cells]);
      assert Formed(next[n], keyOf, render);
    }
    assert forall i :: 0 <= i < n ==> next[i] == grown[i];
  }

  /** The loop is the step followed by the rest of the loop. */
  lemma GroupFromCons(rows: seq<Templates.Row>, acc: seq<Group>, keyOf: Templates.Row -> Result<string>,
                      prefixOf: Templates.Row -> Result<string>, render: Templates.Row -> Result<seq<string>>, key: string, cells: seq<string>)
    requires |rows| > 0 && keyOf(rows[0]) == Ok(key) && key != "" && render(rows[0]) == Ok(cells)
    requires GroupFrom(rows, acc, keyOf, prefixOf, render).Ok?
    ensures Step(acc, rows[0], key, prefixOf, cells).Ok?
    ensures GroupFrom(rows, acc, keyOf, prefixOf, render) == GroupFrom(rows[1..], Step(acc, rows[0], key, prefixOf, cells).value, keyOf, prefixOf, render)
  {
  }

  /** The loop only succeeds when it can read every row's key. */
  lemma {:induction false} GroupFromKeysRead(rows: seq<Templates.Row>, acc: seq<Group>, keyOf: Templates.Row -> Result<string>,
                                             prefixOf: Templates.Row -> Result<string>, render: Templates.Row -> Result<seq<string>>)
    requires GroupFrom(rows, acc, keyOf, prefixOf, render).Ok?
    ensures forall i :: 0 <= i < |rows| ==> keyOf(rows[i]).Ok? && (keyOf(rows[i]).value != "" ==> render(rows[i]).Ok?)
    decreases |rows|
  {
    if |rows| > 0 {
      assert forall i :: 1 <= i < |rows| ==> rows[1..][i - 1] == rows[i];
      var key := keyOf(rows[0]).value;
      if key == "" {
        GroupFromKeysRead(rows[1..], acc, keyOf, prefixOf, render);
      } else {
        GroupFromCons(rows, acc, keyOf, prefixOf, render, key, render(rows[0]).value);
        GroupFromKeysRead(rows[1..], Step(acc, rows[0], key, prefixOf, render(rows[0]).value).value, keyOf, prefixOf, render);
      }
    }
  }

  /** The groups built by the loop are well formed. */
  lemma {:induction false} GroupFromGrouped(rows: seq<Templates.Row>, acc: seq<Group>, keyOf: Templates.Row -> Result<string>,
                                            prefixOf: Templates.Row -> Result<string>, render: Templates.Row -> Result<seq<string>>)
    requires Grouped(acc, keyOf, render)
    requires GroupFrom(rows, acc, keyOf, prefixOf, render).Ok?
    ensures Grouped(GroupFrom(rows, acc, keyOf, prefixOf, render).value, keyOf, render)
    decreases |rows|
  {
    if |rows| > 0 {
      var key := keyOf(rows[0]).value;
      if key == "" {
        GroupFromGrouped(rows[1..], acc, keyOf, prefixOf, render);
      } else {
        var cells := render(rows[0]).value;
        GroupFromCons(rows, acc, keyOf, prefixOf, render, key, cells);
        StepGrouped(acc, rows[0], key, keyOf, prefixOf, render, cells);
        GroupFromGrouped(rows[1..], Step(acc, rows[0], key, prefixOf, cells).value, keyOf, prefixOf, render);
      }
    }
  }

  /** The groups hold the rows with a non-empty key, in their order. */
  lemma {:induction false} GroupFromSources(rows: seq<Templates.Row>, acc: seq<Group>, keyOf: Templates.Row -> Result<string>,
                                            prefixOf: Templates.Row -> Result<string>, render: Templates.Row -> Result<seq<string>>)
    requires GroupFrom(rows, acc, keyOf, prefixOf, render).Ok?
    ensures Sources(GroupFrom(rows, acc, keyOf, prefixOf, render).value) == Sources(acc) + Keyed(rows, keyOf)
    decreases |rows|
  {
    if |rows| > 0 {
      var key := keyOf(rows[0]).value;
      if key == "" {
        GroupFromSources(rows[1..], acc, keyOf, prefixOf, render);
        assert Keyed(rows, keyOf) == Keyed(rows[1..], keyOf);
      } else {
        var cells := render(rows[0]).value;
        GroupFromCons(rows, acc, keyOf, prefixOf, render, key, cells);
        var next := Step(acc, rows[0], key, prefixOf, cells).value;
        StepOrder(acc, rows[0], key, prefixOf, cells);
        GroupFromSources(rows[1..], next, keyOf, prefixOf, render);
        assert Keyed(rows, keyOf) == [rows[0]] + Keyed(rows[1..], keyOf);
        Text.WrapAssoc(Sources(acc), [rows[0]], Keyed(rows[1..], keyOf));
      }
    }
  }

  /** The groups open in order of their keys' first appearance. */
  lemma {:induction false} GroupFromKeys(rows: seq<Templates.Row>, acc: seq<Group>, keyOf: Templates.Row -> Result<string>,
                                         prefixOf: Templates.Row -> Result<string>, render: Templates.Row -> Result<seq<string>>)
    requires GroupFrom(rows, acc, keyOf, prefixOf, render).Ok?
    ensures Keys(GroupFrom(rows, acc, keyOf, prefixOf, render).value) == Keys(acc) + Fresh(KeysOf(rows, keyOf), Keys(acc))
    decreases |rows|
  {
    if |rows| > 0 {
      var key := keyOf(rows[0]).value;
      if key == "" {
        GroupFromKeys(rows[1..], acc, keyOf, prefixOf, render);
        assert KeysOf(rows, keyOf) == KeysOf(rows[1..], keyOf);
      } else {
        var cells := render(rows[0]).value;
        GroupFromCons(rows, acc, keyOf, prefixOf, render, key, cells);
        var next := Step(acc, rows[0], key, prefixOf, cells).value;
        StepOrder(acc, rows[0], key, prefixOf, cells);
        GroupFromKeys(rows[1..], next, keyOf, prefixOf, render);
        var later := KeysOf(rows[1..], keyOf);
        assert KeysOf(rows, keyOf) == [key] + later;
        if key in Keys(acc) {
          assert Fresh([key] + later, Keys(acc)) == Fresh(later, Keys(acc));
          assert Keys(acc) + [] == Keys(acc);
        } else {
          assert Fresh([key] + later, Keys(acc)) == [key] + Fresh(later, Keys(acc) + [key]);
          Text.WrapAssoc(Keys(acc), [key], Fresh(later, Keys(acc) + [key]));
        }
      }
    }
  }

  /**
   * Split grouping from no groups: the groups are well formed, hold
   * exactly the rows with a non-empty key in their order, and open in
   * order of the keys' first appearance; every key was read.
   */
  function GroupRows(rows: seq<Templates.Row>, keyOf: Templates.Row -> Result<string>,
                     prefixOf: Templates.Row -> Result<string>, render: Templates.Row -> Result<seq<string>>): (r: Result<seq<Group>>)
    ensures r.Ok? ==> Grouped(r.value, keyOf, render)
    ensures r.Ok? ==> Sources(r.value) == Keyed(rows, keyOf)
    ensures r.Ok? ==> Keys(r.value) == Fresh(KeysOf(rows, keyOf), [])
    ensures r.Ok? ==> forall i :: 0 <= i < |rows| ==> keyOf(rows[i]).Ok?
  {
    var r := GroupFrom(rows, [], keyOf, prefixOf, render);
    if r.Err? then r
    else
      GroupFromGrouped(rows, [], keyOf, prefixOf, render);
      GroupFromSources(rows, [], keyOf, prefixOf, render);
      GroupFromKeys(rows, [], keyOf, prefixOf, render);
      GroupFromKeysRead(rows, [], keyOf, prefixOf, render);
      assert Sources([]) == [];
      r
  }

  /** The prefix a new group gets: the prefix format applied to its first row, or nothing. */
  function Prefix(format: Result<Option<seq<Templates.Piece>>>, row: Templates.Row): Result<string> {
    var f :- format;
    if f.Some? then Templates.Apply(f.value, row) else Ok("")
  }

  /**
   * Each group's prefix followed by its shown table; the first table that
   * cannot be shown ends the loop with its error.
   */
  function GroupTexts(gs: seq<Group>, show: Group -> Result<string>): (r: Result<seq<string>>)
    ensures r.Ok? <==> forall i :: 0 <= i < |gs| ==> show(gs[i]).Ok?
    ensures r.Ok? ==> |r.value| == 2 * |gs|
    ensures r.Ok? ==> forall i :: 0 <= i < |gs| ==> r.value[2 * i] == gs[i].prefix && show(gs[i]) == Ok(r.value[2 * i + 1])
    ensures r.Err? ==> exists i :: FirstUnshown(gs, show, i) && r.error == show(gs[i]).error
  {
    if |gs| == 0 then Ok([])
    else
      assert forall i :: 1 <= i < |gs| ==> gs[1..][i - 1] == gs[i];
      match show(gs[0])
      case Err(e) =>
        assert FirstUnshown(gs, show, 0);
        Err(e)
      case Ok(shown) =>
        var rest := GroupTexts(gs[1..], show);
        if rest.Err? then
          var i :| FirstUnshown(gs[1..], show, i) && rest.error == show(gs[1..][i]).error;
          assert FirstUnshown(gs, show, i + 1);
          Err(rest.error)
        else
          Ok([gs[0].prefix, shown] + rest.value)
  }

  /** Group `i` is the first whose table cannot be shown. */
  predicate FirstUnshown(gs: seq<Group>, show: Group -> Result<string>, i: int) {
    0 <= i < |gs| && show(gs[i]).Err? && forall j :: 0 <= j < i ==> show(gs[j]).Ok?
  }

  /** `filter(None, texts)`: the non-empty texts in order. */
  function Present(texts: seq<string>): (r: seq<string>)
    ensures forall i :: 0 <= i < |r| ==> r[i] != ""
    ensures forall x :: x in r <==> x in texts && x != ""
    ensures |r| <= |texts|
  {
    if |texts| == 0 then []
    else (if texts[0] != "" then [texts[0]] else []) + Present(texts[1..])
  }

  /**
   * `data_table.sort(key, order)` with the descriptor's order, a member of
   * `origin`'s SortOrder or None: the rows are reversed only for
   * table_generator's own DESCENDING.
   */
  function SortData(origin: Tables.Origin, loaded: Tables.Table, key: string, order: Option<Templates.SortOrder>): Result<Tables.Table> {
    Tables.Sort(loaded, key, if order.Some? && Tables.Reverses(origin, order.value) then Templates.Descending else Templates.Ascending)
  }

  /** As written, the descriptor's order is template_generator's, so the rows come out ascending whatever order is asked for. */
  lemma SortAsWritten(loaded: Tables.Table, key: string, order: Option<Templates.SortOrder>)
    requires SortData(Tables.TemplateGenerator, loaded, key, order).Ok?
    ensures var rows := SortData(Tables.TemplateGenerator, loaded, key, order).value.rows;
      forall i, j :: 0 <= i < j < |rows| ==> !Text.LexLess(Tables.RowKey(key)(rows[j]), Tables.RowKey(key)(rows[i]))
  {
    Tables.SortOrdersRows(loaded, key, Templates.Ascending);
  }

  /** With table_generator's own members the rows come out in the order asked for. */
  lemma SortIntended(loaded: Tables.Table, key: string, order: Templates.SortOrder)
    requires SortData(Tables.TableGenerator, loaded, key, Some(order)).Ok?
    ensures var rows := SortData(Tables.TableGenerator, loaded, key, Some(order)).value.rows;
      forall i, j :: 0 <= i < j < |rows| ==>
        if order == Templates.Descending then !Text.LexLess(Tables.RowKey(key)(rows[i]), Tables.RowKey(key)(rows[j]))
        else !Text.LexLess(Tables.RowKey(key)(rows[j]), Tables.RowKey(key)(rows[i]))
  {
    Tables.SortOrdersRows(loaded, key, order);
  }

  /** The loaded table sorted by the descriptor's `sort_by`, when it names a column. */
  function SortedData(origin: Tables.Origin, d: Descriptors.Descriptor, loaded: Tables.Table): Result<Tables.Table> {
    var sortBy :- Descriptors.SortBy(d);
    if sortBy.Some? && sortBy.value != "" then
      var order :- Descriptors.SortOrder(d);
      SortData(origin, loaded, sortBy.value, order)
    else Ok(loaded)
  }

  /**
   * The data table of a descriptor: the CSV file it names (none for an
   * empty name), sorted by `sort_by` when one is given, then filtered.
   * `origin` is the module whose SortOrder the descriptor's order belongs to.
   */
  function DataTable(origin: Tables.Origin, d: Descriptors.Descriptor, csv: string -> seq<seq<string>>): (r: Result<Tables.Table>)
    ensures Descriptors.Data(d).Err? ==> r == Err(Descriptors.Data(d).error)
    ensures (exists s :: Descriptors.Data(d) == Ok(Some(s)) && s != "" && csv(s) == []) ==> r == Err(StopIteration)
    ensures Descriptors.Data(d).Ok? && (Descriptors.Data(d).value == None || Descriptors.Data(d).value == Some("")) ==> r.Err? || r.value.rows == []
  {
    var data :- Descriptors.Data(d);
    var loaded :- Tables.New(if data.Some? && data.value != "" then Some(csv(data.value)) else None, [], []);
    var sorted :- SortedData(origin, d, loaded);
    var filter :- Descriptors.TemplateFilter(d);
    if filter.Some? then Tables.Filter(sorted, filter.value) else Ok(sorted)
  }

  /** Both readings of the order agree unless the descriptor asks for descending order. */
  lemma DataTableOrigins(d: Descriptors.Descriptor, csv: string -> seq<seq<string>>)
    ensures Descriptors.SortOrder(d) != Ok(Some(Templates.Descending)) ==> DataTable(Tables.TemplateGenerator, d, csv) == DataTable(Tables.TableGenerator, d, csv)
  {
    if Descriptors.SortOrder(d) != Ok(Some(Templates.Descending)) {
      forall loaded: Tables.Table
        ensures SortedData(Tables.TemplateGenerator, d, loaded) == SortedData(Tables.TableGenerator, d, loaded)
      {
      }
    }
  }

  /** The stripped text of one group's table. */
  function Shown(origin: Tables.Origin, names: seq<string>, aligns: seq<Templates.Alignment>): Group -> Result<string> {
    (g: Group) => if PrintedFrom(origin, names, aligns, g.cells).Ok? then Ok(Text.Strip(PrintedFrom(origin, names, aligns, g.cells).value)) else Err(TypeError)
  }

  /**
   * Split mode: the groups, sorted by lowered key when an order is given;
   * the header is joined only when a table is printed.
   */
  function SplitText(origin: Tables.Origin, d: Descriptors.Descriptor, rows: seq<Templates.Row>, key: string, items: seq<Descriptors.Yaml>,
                     aligns: seq<Templates.Alignment>): (r: Result<string>)
    ensures origin == Tables.TemplateGenerator && aligns != [] && r.Ok? ==> r.value == ""
  {
    var render := (row: Templates.Row) => Render(Descriptors.Formats(d), |items|, row);
    var prefixFormat := Descriptors.SplitPrefixFormat(d);
    var groups :- GroupRows(rows, (row: Templates.Row) => Templates.Get(row, key), (row: Templates.Row) => Prefix(prefixFormat, row), render);
    var order :- Descriptors.SplitSortOrder(d);
    var ordered := if order.Some? then Sorting.SortBy(groups, (g: Group) => Text.Lower(g.key), order.value == Templates.Descending) else groups;
    var names :- if |ordered| == 0 then Ok([]) else HeaderNames(items);
    var texts :- GroupTexts(ordered, Shown(origin, names, aligns));
    assert origin == Tables.TemplateGenerator && aligns != [] ==> ordered == [] && texts == [];
    Ok(Text.Join("\n\n", Present(texts)))
  }

  /** Plain mode: every data row rendered into one display table. */
  function PlainText(origin: Tables.Origin, d: Descriptors.Descriptor, rows: seq<Templates.Row>, items: seq<Descriptors.Yaml>,
                     aligns: seq<Templates.Alignment>): (r: Result<string>)
    ensures r.Ok? ==> Text.EndsWith(r.value, "\n")
    ensures r.Ok? <==> && Descriptors.AllStrings(items)
                       && (forall i :: 0 <= i < |rows| ==> Renders(Descriptors.Formats(d), |items|, rows[i]))
                       && (origin == Tables.TemplateGenerator ==> aligns == [])
  {
    var render := (row: Templates.Row) => Render(Descriptors.Formats(d), |items|, row);
    var cells :- RenderAll(rows, render);
    var names :- HeaderNames(items);
    PrintedFrom(origin, names, aligns, cells)
  }

  /**
   * `make_table(descriptor)`: the data table rendered through the formats
   * under the descriptor's header, as one table, or with `split_by` as
   * one table per key. `origin` is the module whose enums the
   * descriptor's order and alignments belong to: template_generator's as
   * written, table_generator's as intended. As written, a descriptor with
   * alignments yields at most an empty split table.
   */
  function MakeTable(origin: Tables.Origin, d: Descriptors.Descriptor, csv: string -> seq<seq<string>>): (r: Result<string>)
    ensures DataTable(origin, d, csv).Err? ==> r == Err(DataTable(origin, d, csv).error)
    ensures r.Ok? ==> Descriptors.SplitBy(d).Ok?
    ensures r.Ok? && Descriptors.SplitBy(d) == Ok(None) ==> Text.EndsWith(r.value, "\n")
    ensures (origin == Tables.TemplateGenerator && r.Ok? && Descriptors.Alignments(d).Ok? && Descriptors.Alignments(d).value.Some?
             && Descriptors.Alignments(d).value.value != []) ==> Splits(d) && r.value == ""
  {
    var kept :- DataTable(origin, d, csv);
    var header :- Descriptors.Header(d);
    var aligns :- Descriptors.Alignments(d);
    var items := if header.Some? then header.value else [];
    var alignments := if aligns.Some? then aligns.value else [];
    var splitBy :- Descriptors.SplitBy(d);
    if splitBy.Some? && splitBy.value != "" then SplitText(origin, d, kept.rows, splitBy.value, items, alignments)
    else PlainText(origin, d, kept.rows, items, alignments)
  }

  // ---------------------------------------------------------------------
  // main

  /** `bool(descriptor.split_by)`: whether the table takes the rest of its section. */
  function Splits(d: Descriptors.Descriptor): bool
    requires Descriptors.SplitBy(d).Ok?
  {
    var split := Descriptors.SplitBy(d).value;
    split.Some? && split.value != ""
  }

  /**
   * One descriptor's entry in `main`'s list: its line, its table, and
   * whether the table takes the rest of its section. The descriptor's
   * enums are template_generator's, as the program passes them.
   */
  function Entry(d: Descriptors.Descriptor, csv: string -> seq<seq<string>>): (r: Result<Target>)
    ensures r.Ok? <==> MakeTable(Tables.TemplateGenerator, d, csv).Ok?
    ensures r.Ok? ==> r.value.line == d.line && Ok(r.value.table) == MakeTable(Tables.TemplateGenerator, d, csv)
  {
    var table :- MakeTable(Tables.TemplateGenerator, d, csv);
    Ok(Target(d.line, table, Splits(d)))
  }

  /** The loop of `main` over one article's descriptors: every entry is made, in order, or the first failure ends the command. */
  function MakeTables(descs: seq<Descriptors.Descriptor>, entry: Descriptors.Descriptor -> Result<Target>): (r: Result<seq<Target>>)
    ensures r.Ok? <==> forall i :: 0 <= i < |descs| ==> entry(descs[i]).Ok?
    ensures r.Ok? ==> |r.value| == |descs| && forall i :: 0 <= i < |descs| ==> entry(descs[i]) == Ok(r.value[i])
  {
    if |descs| == 0 then Ok([])
    else
      var first :- entry(descs[0]);
      var rest :- MakeTables(descs[1..], entry);
      assert forall i :: 1 <= i < |descs| ==> descs[1..][i - 1] == descs[i];
      Ok([first] + rest)
  }

  /**
   * One article of `main`: the descriptors found in its lines make their
   * tables, and the article is rewritten around them.
   */
  function GenerateArticle(lines: seq<Descriptors.Line>, load: string -> Descriptors.Yaml, csv: string -> seq<seq<string>>): (r: Result<string>)
    ensures r.Ok? ==> Text.EndsWith(r.value, "\n")
    ensures Descriptors.Load(lines, load) == [] ==> r == Ok(Text.Concat(Texts(lines)) + "\n")
  {
    var tables :- MakeTables(Descriptors.Load(lines, load), (d: Descriptors.Descriptor) => Entry(d, csv));
    if tables == [] then SaveNothing(Texts(lines)); Ok(SaveTables(Texts(lines), tables))
    else Ok(SaveTables(Texts(lines), tables))
  }

  /** The text of each line. */
  function Texts(lines: seq<Descriptors.Line>): (r: seq<string>)
    ensures |r| == |lines| && forall i :: 0 <= i < |lines| ==> r[i] == lines[i].text
  {
    seq(|lines|, i requires 0 <= i < |lines| => lines[i].text)
  }
}

=== FILE: glob.dfy ===
/**
 * Python's `fnmatch.fnmatch` as it behaves on POSIX systems: matching is
 * case-sensitive and covers the whole name. Patterns are built from
 * literal characters, `*` (any text, `/` included) and `?` (any one
 * character).
 */
module Glob {
  import Text

  /** `fnmatch.fnmatch(name, pat)`. */
  function Match(name: string, pat: string): bool
    decreases |name| + |pat|
  {
    if |pat| == 0 then |name| == 0
    else if pat[0] == '*' then Match(name, pat[1..]) || (|name| > 0 && Match(name[1..], pat))
    else |name| > 0 && (pat[0] == '?' || pat[0] == name[0]) && Match(name[1..], pat[1..])
  }

  /** A pattern without wildcards. */
  predicate Literal(pat: string) {
    '*' !in pat && '?' !in pat
  }

  /** A pattern without wildcards matches exactly itself. */
  lemma {:induction false} MatchLiteral(name: string, pat: string)
    requires Literal(pat)
    ensures Match(name, pat) <==> name == pat
    decreases |pat|
  {
    if |pat| > 0 {
      assert Literal(pat[1..]) by {
        assert forall c :: c in pat[1..] ==> c in pat;
      }
      if |name| > 0 {
        MatchLiteral(name[1..], pat[1..]);
        if name[0] == pat[0] && name[1..] == pat[1..] {
          assert name == [name[0]] + name[1..];
          assert pat == [pat[0]] + pat[1..];
        }
      }
    }
  }

  /** `*` matches every name. */
  lemma {:induction false} MatchStar(name: string)
    ensures Match(name, "*")
    decreases |name|
  {
    if |name| > 0 {
      MatchStar(name[1..]);
    } else {
      assert "*"[1..] == "";
    }
  }

  /** `?` takes exactly one character. */
  lemma MatchAny(name: string, rest: string)
    ensures Match(name, "?" + rest) <==> |name| > 0 && Match(name[1..], rest)
  {
    assert ("?" + rest)[0] == '?' && ("?" + rest)[1..] == rest;
  }

  /** Two `?` take exactly two characters. */
  lemma MatchTwoAny(name: string, rest: string)
    ensures Match(name, "??" + rest) <==> |name| >= 2 && Match(name[2..], rest)
  {
    assert "??" + rest == "?" + ("?" + rest);
    MatchAny(name, "?" + rest);
    if |name| > 0 {
      MatchAny(name[1..], rest);
      if |name| > 1 {
        assert name[1..][1..] == name[2..];
      }
    }
  }

  /** A literal character takes exactly itself. */
  lemma MatchChar(name: string, c: char, rest: string)
    requires c != '*' && c != '?'
    ensures Match(name, [c] + rest) <==> |name| > 0 && name[0] == c && Match(name[1..], rest)
  {
    assert ([c] + rest)[1..] == rest;
  }

  /** `*` can take any text, slashes included, before what follows it. */
  lemma {:induction false} MatchStarSkips(skipped: string, name: string, pat: string)
    requires Match(name, pat)
    ensures Match(skipped + name, "*" + pat)
    decreases |skipped|
  {
    assert ("*" + pat)[1..] == pat;
    if |skipped| > 0 {
      MatchStarSkips(skipped[1..], name, pat);
      assert (skipped + name)[1..] == skipped[1..] + name;
    } else {
      assert skipped + name == name;
    }
  }

  /** A literal prefix takes exactly itself. */
  lemma {:induction false} MatchLiteralPrefix(lit: string, name: string, pat: string)
    requires Literal(lit)
    ensures Match(lit + name, lit + pat) <==> Match(name, pat)
    decreases |lit|
  {
    if |lit| > 0 {
      assert Literal(lit[1..]) by {
        assert forall c :: c in lit[1..] ==> c in lit;
      }
      MatchChar(lit + name, lit[0], lit[1..] + pat);
      assert lit + pat == [lit[0]] + (lit[1..] + pat);
      assert (lit + name)[1..] == lit[1..] + name;
      MatchLiteralPrefix(lit[1..], name, pat);
    } else {
      assert lit + name == name && lit + pat == pat;
    }
  }

  /**
   * A pattern `prefix*suffix` of literal text matches every name made of
   * the prefix, any text at all, and the suffix: `*` crosses `/`.
   */
  lemma MatchAround(prefix: string, middle: string, suffix: string)
    requires Literal(prefix) && Literal(suffix)
    ensures Match(prefix + middle + suffix, prefix + "*" + suffix)
  {
    MatchLiteral(suffix, suffix);
    MatchStarSkips(middle, suffix, suffix);
    assert prefix + middle + suffix == prefix + (middle + suffix);
    assert prefix + "*" + suffix == prefix + ("*" + suffix);
    MatchLiteralPrefix(prefix, middle + suffix, "*" + suffix);
  }
}

=== FILE: keyed.dfy ===
/**
 * Dictionaries built from numbered lines, the shape shared by
 * `find_references`, `reference_parser.extract_all` and
 * `redirect_parser.load_redirects`: lines are numbered from 1, a line
 * yields at most one entry, and a later entry for a key replaces an
 * earlier one.
 */
module Keyed {
  import Outcomes

  function Collect<V>(lines: seq<string>, entry: (string, nat) -> Outcomes.Option<(string, V)>): (r: map<string, V>)
    decreases |lines|
  {
    if |lines| == 0 then map[]
    else
      var before := Collect(lines[..|lines| - 1], entry);
      match entry(lines[|lines| - 1], |lines|)
      case None => before
      case Some((k, v)) => before[k := v]
  }

  /** Line `n` (from 1) yields an entry for `k`. */
  predicate Yields<V>(lines: seq<string>, entry: (string, nat) -> Outcomes.Option<(string, V)>, n: int, k: string) {
    1 <= n <= |lines| && entry(lines[n - 1], n).Some? && entry(lines[n - 1], n).value.0 == k
  }

  lemma YieldsInPrefix<V>(lines: seq<string>, entry: (string, nat) -> Outcomes.Option<(string, V)>, n: int, k: string)
    requires |lines| > 0 && 1 <= n < |lines|
    ensures Yields(lines[..|lines| - 1], entry, n, k) == Yields(lines, entry, n, k)
  {
    assert lines[..|lines| - 1][n - 1] == lines[n - 1];
  }

  /** A key is present exactly when some line yields it. */
  lemma {:induction false} CollectDomain<V>(lines: seq<string>, entry: (string, nat) -> Outcomes.Option<(string, V)>, k: string)
    ensures k in Collect(lines, entry) <==> exists n :: Yields(lines, entry, n, k)
    decreases |lines|
  {
    if |lines| > 0 {
      var init := lines[..|lines| - 1];
      CollectDomain(init, entry, k);
      if !Yields(lines, entry, |lines|, k) {
        assert k in Collect(lines, entry) <==> k in Collect(init, entry);
        if n :| Yields(lines, entry, n, k) {
          YieldsInPrefix(lines, entry, n, k);
        }
        if n :| Yields(init, entry, n, k) {
          YieldsInPrefix(lines, entry, n, k);
        }
      }
    }
  }

  /** The value for a key comes from the last line that yields the key. */
  lemma {:induction false} CollectLast<V>(lines: seq<string>, entry: (string, nat) -> Outcomes.Option<(string, V)>, k: string)
    requires k in Collect(lines, entry)
    ensures exists n :: && Yields(lines, entry, n, k)
                        && Collect(lines, entry)[k] == entry(lines[n - 1], n).value.1
                        && forall m :: n < m <= |lines| ==> !Yields(lines, entry, m, k)
    decreases |lines|
  {
    var init := lines[..|lines| - 1];
    if Yields(lines, entry, |lines|, k) {
      assert Collect(lines, entry)[k] == entry(lines[|lines| - 1], |lines|).value.1;
    } else {
      assert Collect(lines, entry)[k] == Collect(init, entry)[k];
      CollectLast(init, entry, k);
      var n :| && Yields(init, entry, n, k)
               && Collect(init, entry)[k] == entry(init[n - 1], n).value.1
               && forall m :: n < m <= |init| ==> !Yields(init, entry, m, k);
      YieldsInPrefix(lines, entry, n, k);
      assert init[n - 1] == lines[n - 1];
      forall m | n < m <= |lines| ensures !Yields(lines, entry, m, k) {
        if m < |lines| {
          YieldsInPrefix(lines, entry, m, k);
        }
      }
    }
  }

  /** Line `n` (from 1) fails under `f`. */
  predicate Fails<V>(lines: seq<string>, f: (string, nat) -> Outcomes.Result<V>, n: int) {
    1 <= n <= |lines| && f(lines[n - 1], n).Err?
  }

  /**
   * The error of the first failing line from line `n` on: a loop over the
   * lines stops at the first exception.
   */
  function FirstFailure<V>(lines: seq<string>, f: (string, nat) -> Outcomes.Result<V>, n: nat): (r: Outcomes.Option<Outcomes.PyError>)
    requires 1 <= n <= |lines| + 1
    ensures r.None? <==> forall m :: Fails(lines, f, m) ==> m < n
    ensures r.Some? ==> exists m :: (&& n <= m && Fails(lines, f, m)
                                    && f(lines[m - 1], m).error == r.value
                                    && forall j :: n <= j < m ==> !Fails(lines, f, j))
    decreases |lines| + 1 - n
  {
    if n == |lines| + 1 then Outcomes.None
    else
      match f(lines[n - 1], n)
      case Err(e) =>
        assert Fails(lines, f, n);
        Outcomes.Some(e)
      case Ok(_) =>
        assert !Fails(lines, f, n);
        FirstFailure(lines, f, n + 1)
  }
}

=== FILE: linkchecker.dfy ===
/**
 * Link checking (wikitools/link_checker.py): whether a link found in an
 * article leads somewhere, given the files of the repository, the
 * redirects and the identifiers of every article.
 */
module LinkChecker {
  import Text
  import Outcomes
  import Paths
  import Urls
  import Redirects
  import Articles
  import FrontMatter

  /** What can be wrong with a link: the four kinds `check_link` reports. */
  datatype LinkError =
    | LinkNotFound(location: string)
    | BrokenRedirect(location: string, redirectLineno: int, redirectDestination: string)
    | MissingReference(location: string)
    | MissingIdentifier(path: string, identifier: string, translationAvailable: bool)

  /** The linking article: its directory and file name. */
  datatype Article = Article(directory: string, filename: string)

  /**
   * The repository as the checker sees it, from its root (the working
   * directory `cwd`): every path string the file system accepts as an
   * existing path, those that are regular files, and, for every article
   * file that can be opened, what `article_parser.parse` makes of it: the
   * names of its identifiers, or the exception the parse raises. A file
   * that cannot be opened is absent from `sections`.
   */
  datatype Site = Site(existing: set<string>, files: set<string>, sections: map<string, Outcomes.Result<set<string>>>, cwd: string)

  /** The identifier names of a parsed article, or the exception its parse raised. */
  function Identifiers(parsed: Outcomes.Result<Articles.Article>): (r: Outcomes.Result<set<string>>)
    ensures r.Ok? <==> parsed.Ok?
    ensures r.Ok? ==> forall name :: name in r.value <==> name in parsed.value.identifiers
    ensures r.Err? ==> r.error == parsed.error
  {
    if parsed.Ok? then Outcomes.Ok(parsed.value.identifiers.Keys) else Outcomes.Err(parsed.error)
  }

  /**
   * The exceptions reading a section file can raise: OSError for a file
   * that cannot be opened, or what parsing one of the site's files raises.
   */
  predicate SectionRaises(site: Site, e: Outcomes.PyError) {
    e == Outcomes.OSError || exists p :: p in site.sections && site.sections[p] == Outcomes.Err(e)
  }

  /**
   * A link as the checker receives it: its location once resolved (for a
   * reference-style link, through the article's definitions; None when the
   * reference is undefined) and its location as written.
   */
  datatype LinkRef = LinkRef(resolved: Outcomes.Option<Urls.Url>, rawLocation: string)

  /** The `wiki` directory. */
  const Wiki: Paths.PurePath := Paths.PurePath(false, ["wiki"])

  /**
   * The location inside the wiki: a path not under `/wiki/` is taken
   * relative to the article's directory below `wiki`.
   */
  function Location(article: Article, path: string, cwd: string): (r: Outcomes.Result<string>)
    ensures Text.StartsWith(path, "/wiki/") ==> r == Outcomes.Ok(path)
    ensures r.Err? <==> !Text.StartsWith(path, "/wiki/") && article.directory == ""
    ensures r.Ok? ==> Text.StartsWith(r.value, "/wiki/")
  {
    if Text.StartsWith(path, "/wiki/") then Outcomes.Ok(path)
    else
      var dir := Paths.RelPath(article.directory, "wiki", cwd);
      if dir.Err? then Outcomes.Err(dir.error)
      else
        BelowWiki(dir.value + "/" + path);
        Outcomes.Ok("/wiki/" + (dir.value + "/" + path))
  }

  lemma BelowWiki(rest: string)
    ensures Text.StartsWith("/wiki/" + rest, "/wiki/")
  {
    assert ("/wiki/" + rest)[..6] == "/wiki/";
  }

  /** The path a location names: the location without its leading slash. */
  function TargetOf(location: string): (r: Paths.PurePath)
    requires Text.StartsWith(location, "/wiki/")
    ensures !r.absolute && |r.parts| >= 1 && r.parts[0] == "wiki"
  {
    assert location[1..] == "wiki/" + location[6..];
    assert location[1..][..1] == "w";
    ComponentsBelowWiki(location[6..]);
    Paths.ParsePath(location[1..])
  }

  lemma ComponentsBelowWiki(rest: string)
    ensures Paths.Components("wiki/" + rest) == ["wiki"] + Paths.Components(rest)
  {
    assert "wiki/" + rest == "wiki" + "/" + rest;
    Paths.ComponentsOfPlain("wiki");
    Paths.ComponentsConcat("wiki", rest);
  }

  /** Where following a location ends: at an existing path, or at an error. */
  datatype Resolution = Reached(target: Paths.PurePath) | Failed(error: LinkError)

  /** The redirect source of a path below `wiki`: the rest of its components. */
  function Source(target: Paths.PurePath): string
    requires |target.parts| >= 1
  {
    Paths.AsPosix(Paths.PurePath(false, target.parts[1..]))
  }

  /**
   * An existing target is reached as it is; a missing one is looked up,
   * in lower case, among the redirects, and the redirect's destination
   * below `wiki` must exist.
   */
  function Follow(target: Paths.PurePath, redirects: Redirects.Redirects, site: Site): (r: Resolution)
    requires !target.absolute && |target.parts| >= 1 && target.parts[0] == "wiki"
    ensures r.Reached? ==> Paths.AsPosix(r.target) in site.existing
  {
    if Paths.AsPosix(target) in site.existing then Reached(target)
    else
      assert Wiki.parts <= target.parts;
      var source := Paths.RelativeTo(target, Wiki).value;
      var redirectSource := Paths.AsPosix(source);
      var key := Text.Lower(redirectSource);
      if key !in redirects then Failed(LinkNotFound(redirectSource))
      else
        var (destination, lineNo) := redirects[key];
        var next := Paths.Child(Wiki, destination);
        if Paths.AsPosix(next) !in site.existing then Failed(BrokenRedirect(redirectSource, lineNo, destination))
        else Reached(next)
  }

  /**
   * The file a fragment is looked up in: the translation in the
   * article's own language when the linking article is not `en.md` and
   * that file exists, else `en.md`; and whether the translation was used.
   */
  function SectionFile(target: Paths.PurePath, filename: string, site: Site): (r: (Paths.PurePath, bool))
    ensures r.1 <==> filename != "en.md" && Paths.AsPosix(Paths.Child(target, filename)) in site.files
    ensures r.0 == Paths.Child(target, if r.1 then filename else "en.md")
  {
    var translation := Paths.Child(target, filename);
    var available := filename != "en.md" && Paths.AsPosix(translation) in site.files;
    if available then (translation, true) else (Paths.Child(target, "en.md"), false)
  }

  /**
   * `check_link(article, link, ...)`: None for a good link, the error
   * otherwise. A link with a host but no scheme raises RuntimeError; a
   * relative link from an article without a directory raises ValueError;
   * reading the section file raises what opening or parsing it raises.
   */
  function CheckLink(article: Article, link: LinkRef, redirects: Redirects.Redirects, site: Site): (r: Outcomes.Result<Outcomes.Option<LinkError>>)
    ensures link.resolved.None? ==> r == Outcomes.Ok(Outcomes.Some(MissingReference(link.rawLocation)))
    ensures link.resolved.Some? && link.resolved.value.scheme != "" ==> r == Outcomes.Ok(Outcomes.None)
    ensures link.resolved.Some? && link.resolved.value.scheme == "" && link.resolved.value.netloc != ""
      ==> r == Outcomes.Err(Outcomes.RuntimeError)
    ensures r.Err? ==> r.error in {Outcomes.RuntimeError, Outcomes.ValueError} || SectionRaises(site, r.error)
  {
    match link.resolved
    case None => Outcomes.Ok(Outcomes.Some(MissingReference(link.rawLocation)))
    case Some(url) =>
      if url.scheme != "" then Outcomes.Ok(Outcomes.None)
      else if url.netloc != "" then Outcomes.Err(Outcomes.RuntimeError)
      else
        var location :- Location(article, url.path, site.cwd);
        match Follow(TargetOf(location), redirects, site)
        case Failed(e) => Outcomes.Ok(Outcomes.Some(e))
        case Reached(target) => CheckSection(target, url.fragment, article.filename, site)
  }

  /**
   * Lines 60-79: with no fragment the link is good; else the section file
   * is parsed (the cache holds the same outcome), and the fragment must be
   * one of its identifiers.
   */
  function CheckSection(target: Paths.PurePath, fragment: string, filename: string, site: Site): (r: Outcomes.Result<Outcomes.Option<LinkError>>)
    ensures fragment == "" ==> r == Outcomes.Ok(Outcomes.None)
    ensures r.Err? ==> SectionRaises(site, r.error)
  {
    if fragment == "" then Outcomes.Ok(Outcomes.None)
    else
      var (file, translationAvailable) := SectionFile(target, filename, site);
      var rawPath := Paths.AsPosix(file);
      if rawPath !in site.sections then Outcomes.Err(Outcomes.OSError)
      else
        var ids :- site.sections[rawPath];
        if fragment !in ids then Outcomes.Ok(Outcomes.Some(MissingIdentifier(rawPath, fragment, translationAvailable)))
        else Outcomes.Ok(Outcomes.None)
  }

  // ---------------------------------------------------------------------
  // What the checker does, stated per step

  /**
   * A relative link from an article in `wiki/<dirs>` names
   * `wiki/<dirs>/<its own components>`: `.` components vanish and the
   * path is read below the article's directory.
   */
  lemma RelativeTarget(article: Article, path: string, cwd: string, cwdParts: seq<string>, dirs: seq<string>)
    requires Paths.WorkingDirectory(cwd, cwdParts)
    requires Paths.AllPlain(dirs) && ".." !in dirs
    requires article.directory == Text.Join("/", ["wiki"] + dirs)
    requires !Text.StartsWith(path, "/wiki/")
    ensures Location(article, path, cwd).Ok?
    ensures TargetOf(Location(article, path, cwd).value) == Paths.PurePath(false, ["wiki"] + dirs + Paths.Components(path))
  {
    var rel := RelativeDirectory(article, cwd, cwdParts, dirs);
    var location := "/wiki/" + (rel + "/" + path);
    assert Location(article, path, cwd) == Outcomes.Ok(location);
    TargetBelow(rel, path, dirs);
  }

  /** The article's directory relative to `wiki`, as `os.path.relpath` writes it. */
  lemma RelativeDirectory(article: Article, cwd: string, cwdParts: seq<string>, dirs: seq<string>) returns (rel: string)
    requires Paths.WorkingDirectory(cwd, cwdParts)
    requires Paths.AllPlain(dirs) && ".." !in dirs
    requires article.directory == Text.Join("/", ["wiki"] + dirs)
    ensures rel == (if dirs == [] then "." else Text.Join("/", dirs))
    ensures Paths.RelPath(article.directory, "wiki", cwd) == Outcomes.Ok(rel)
  {
    Text.SplitCharNone("wiki", '/');
    assert Paths.AllPlain(["wiki"]);
    Paths.RelPathBeneath(cwd, cwdParts, ["wiki"], dirs);
    assert Text.Join("/", ["wiki"]) == "wiki";
    rel := if dirs == [] then "." else Text.Join("/", dirs);
  }

  lemma TargetBelow(rel: string, path: string, dirs: seq<string>)
    requires Paths.AllPlain(dirs)
    requires rel == (if dirs == [] then "." else Text.Join("/", dirs))
    ensures Text.StartsWith("/wiki/" + (rel + "/" + path), "/wiki/")
    ensures TargetOf("/wiki/" + (rel + "/" + path)) == Paths.PurePath(false, ["wiki"] + dirs + Paths.Components(path))
  {
    var tail := rel + "/" + path;
    var location := "/wiki/" + tail;
    BelowWiki(tail);
    var inner := location[1..];
    assert inner == "wiki/" + tail;
    assert inner[..1] == "w";
    assert TargetOf(location) == Paths.PurePath(false, Paths.Components(inner));
    ComponentsBelowWiki(tail);
    Paths.ComponentsConcat(rel, path);
    ComponentsOfRelative(rel, dirs);
    ConcatAssoc(["wiki"], dirs, Paths.Components(path));
  }

  lemma ConcatAssoc(a: seq<string>, b: seq<string>, c: seq<string>)
    ensures a + (b + c) == a + b + c
  {
  }

  lemma ComponentsOfRelative(rel: string, dirs: seq<string>)
    requires Paths.AllPlain(dirs)
    requires rel == (if dirs == [] then "." else Text.Join("/", dirs))
    ensures Paths.Components(rel) == dirs
  {
    if dirs == [] {
      Text.SplitCharNone(".", '/');
    } else {
      Paths.ComponentsOfJoin(dirs);
    }
  }

  /** An existing target is reached without looking at the redirects. */
  lemma FollowExisting(target: Paths.PurePath, redirects: Redirects.Redirects, site: Site)
    requires !target.absolute && |target.parts| >= 1 && target.parts[0] == "wiki"
    requires Paths.AsPosix(target) in site.existing
    ensures Follow(target, redirects, site) == Reached(target)
  {
  }

  /**
   * A missing target is looked up by its path below `wiki`, in lower
   * case: no redirect is "not found" with the path as written; a redirect
   * whose destination is missing is a broken redirect with its line and
   * destination; otherwise the destination is reached.
   */
  lemma FollowMissing(target: Paths.PurePath, redirects: Redirects.Redirects, site: Site)
    requires !target.absolute && |target.parts| >= 1 && target.parts[0] == "wiki"
    requires Paths.AsPosix(target) !in site.existing
    ensures var source := Source(target);
      && (Text.Lower(source) !in redirects ==> Follow(target, redirects, site) == Failed(LinkNotFound(source)))
      && (Text.Lower(source) in redirects ==>
            var (destination, lineNo) := redirects[Text.Lower(source)];
            var next := Paths.Child(Wiki, destination);
            Follow(target, redirects, site)
              == (if Paths.AsPosix(next) in site.existing then Reached(next) else Failed(BrokenRedirect(source, lineNo, destination))))
  {
    assert ["wiki"] + target.parts[1..] == target.parts;
  }

  /** Links whose text differs only in ASCII letter case follow the same redirect. */
  lemma FollowIgnoresCase(a: Paths.PurePath, b: Paths.PurePath, redirects: Redirects.Redirects, site: Site)
    requires !a.absolute && |a.parts| >= 1 && a.parts[0] == "wiki"
    requires !b.absolute && |b.parts| >= 1 && b.parts[0] == "wiki"
    requires Paths.AsPosix(a) !in site.existing && Paths.AsPosix(b) !in site.existing
    requires Text.Lower(Source(a)) == Text.Lower(Source(b))
    ensures Follow(a, redirects, site).Reached? <==> Follow(b, redirects, site).Reached?
    ensures Follow(a, redirects, site).Reached? ==> Follow(a, redirects, site) == Follow(b, redirects, site)
  {
    FollowMissing(a, redirects, site);
    FollowMissing(b, redirects, site);
  }

  /**
   * A fragment raises exactly when the section file cannot be opened
   * (OSError) or its parse raises (with the parse's exception); it is good
   * exactly when it is one of the parsed file's identifiers; otherwise the
   * error names that file and the fragment, and says whether the
   * translation was used.
   */
  lemma SectionError(target: Paths.PurePath, fragment: string, filename: string, site: Site)
    requires fragment != ""
    ensures var (file, available) := SectionFile(target, filename, site);
      var rawPath := Paths.AsPosix(file);
      var r := CheckSection(target, fragment, filename, site);
      && (r.Err? <==> rawPath !in site.sections || site.sections[rawPath].Err?)
      && (r.Err? && rawPath !in site.sections ==> r.error == Outcomes.OSError)
      && (r.Err? && rawPath in site.sections ==> r.error == site.sections[rawPath].error)
      && (r == Outcomes.Ok(Outcomes.None) <==> rawPath in site.sections && site.sections[rawPath].Ok? && fragment in site.sections[rawPath].value)
      && (r.Ok? && r.value.Some? ==> r.value.value == MissingIdentifier(rawPath, fragment, available))
  {
  }

  /**
   * When the site's entry for the section file is what `article_parser.parse`
   * makes of its lines, the link raises exactly when that parse does (a bare
   * `[name]:` line, say), with the parse's exception, and is good exactly
   * when the fragment is one of the parsed identifiers.
   */
  lemma SectionParsed(target: Paths.PurePath, fragment: string, filename: string, site: Site,
                      text: seq<string>, identify: Articles.Identify, load: seq<string> -> FrontMatter.Mapping)
    requires fragment != ""
    requires var file := SectionFile(target, filename, site).0;
      Paths.AsPosix(file) in site.sections && site.sections[Paths.AsPosix(file)] == Identifiers(Articles.Parse(file, text, identify, load))
    ensures var parsed := Articles.ParseLines(text, Articles.Reader(identify));
      var r := CheckSection(target, fragment, filename, site);
      && (r.Err? <==> parsed.Err?)
      && (r.Err? ==> r.error == parsed.error)
      && (r == Outcomes.Ok(Outcomes.None) <==> parsed.Ok? && fragment in Articles.Parse(SectionFile(target, filename, site).0, text, identify, load).value.identifiers)
  {
    SectionError(target, fragment, filename, site);
  }

  /** From an original (`en.md`) the fragment is always looked up in the target's `en.md`. */
  lemma OriginalUsesEnglish(target: Paths.PurePath, site: Site)
    ensures SectionFile(target, "en.md", site) == (Paths.Child(target, "en.md"), false)
  {
  }

  // ---------------------------------------------------------------------
  // check_article

  /** A link with its error. */
  datatype DetailedError = DetailedError(link: LinkRef, error: LinkError)

  /** The errors of one line's links, in link order; the first link that raises makes the line raise. */
  function LineErrors(article: Article, links: seq<LinkRef>, redirects: Redirects.Redirects, site: Site): (r: Outcomes.Result<seq<DetailedError>>)
    ensures r.Err? <==> exists i :: 0 <= i < |links| && CheckLink(article, links[i], redirects, site).Err?
    ensures r.Ok? ==> |r.value| <= |links|
    ensures r.Ok? ==> forall d :: d in r.value <==> d.link in links && CheckLink(article, d.link, redirects, site) == Outcomes.Ok(Outcomes.Some(d.error))
  {
    if |links| == 0 then Outcomes.Ok([])
    else
      var e :- CheckLink(article, links[0], redirects, site);
      var rest :- LineErrors(article, links[1..], redirects, site);
      assert forall l :: l in links <==> l == links[0] || l in links[1..];
      Outcomes.Ok((if e.Some? then [DetailedError(links[0], e.value)] else []) + rest)
  }

  /** The line numbers of an article's lines are distinct, as a dictionary's keys are. */
  predicate DistinctLines(lines: seq<(nat, seq<LinkRef>)>) {
    forall i, j :: 0 <= i < j < |lines| ==> lines[i].0 != lines[j].0
  }

  /**
   * `check_article(article, ...)`: line number to the errors of that
   * line's links, in link order; lines without errors are absent.
   */
  function CheckArticle(article: Article, lines: seq<(nat, seq<LinkRef>)>, redirects: Redirects.Redirects, site: Site): (r: Outcomes.Result<map<nat, seq<DetailedError>>>)
    requires DistinctLines(lines)
    ensures r.Ok? <==> forall i :: 0 <= i < |lines| ==> LineErrors(article, lines[i].1, redirects, site).Ok?
    ensures r.Ok? ==> Reports(lines, links => LineErrors(article, links, redirects, site), r.value)
    decreases |lines|
  {
    if |lines| == 0 then Outcomes.Ok(map[])
    else
      var init := lines[..|lines| - 1];
      var (n, links) := lines[|lines| - 1];
      var before := CheckArticle(article, init, redirects, site);
      var errors := LineErrors(article, links, redirects, site);
      if before.Err? then
        assert forall i :: 0 <= i < |init| ==> init[i] == lines[i];
        Outcomes.Err(before.error)
      else if errors.Err? then Outcomes.Err(errors.error)
      else
        ReportsStep(lines, links => LineErrors(article, links, redirects, site), before.value, errors.value);
        Outcomes.Ok(if errors.value == [] then before.value else before.value[n := errors.value])
  }

  /** `m` holds exactly the non-empty error lists `check` gives the lines, keyed by line number. */
  ghost predicate Reports<L, E>(lines: seq<(nat, L)>, check: L -> Outcomes.Result<seq<E>>, m: map<nat, seq<E>>) {
    && (forall n :: n in m ==> exists i :: 0 <= i < |lines| && lines[i].0 == n)
    && (forall i :: 0 <= i < |lines| ==> check(lines[i].1).Ok?)
    && (forall i :: 0 <= i < |lines| ==>
      (lines[i].0 in m <==> check(lines[i].1).value != [])
      && (lines[i].0 in m ==> m[lines[i].0] == check(lines[i].1).value))
  }

  /** Adding the last line's errors to the report of the earlier lines reports all of them. */
  lemma ReportsStep<L, E>(lines: seq<(nat, L)>, check: L -> Outcomes.Result<seq<E>>, before: map<nat, seq<E>>, errors: seq<E>)
    requires |lines| > 0
    requires forall i, j :: 0 <= i < j < |lines| ==> lines[i].0 != lines[j].0
    requires Reports(lines[..|lines| - 1], check, before)
    requires check(lines[|lines| - 1].1) == Outcomes.Ok(errors)
    ensures Reports(lines, check, if errors == [] then before else before[lines[|lines| - 1].0 := errors])
  {
    var init := lines[..|lines| - 1];
    assert forall i :: 0 <= i < |init| ==> init[i] == lines[i];
    var n := lines[|lines| - 1].0;
    forall m | m in before ensures m != n {
      var i :| 0 <= i < |init| && init[i].0 == m;
      assert lines[i].0 == m;
    }
  }
}

=== FILE: links.dfy ===
/**
 * Markdown links on one line (wikitools/link_parser.py).
 *
 * `find_link` is a four-state machine that counts square brackets for the
 * title and either parentheses (an inline link) or square brackets (a
 * reference-style link) for the part after it.
 */
module Links {
  import Text
  import Outcomes
  import Keyed

  datatype Link = Link(linkStart: int, linkEnd: int, title: string, location: string, extra: string, isReference: bool) {
    /** `Link.content`. */
    function Content(): string {
      location + extra
    }

    /** `Link.full_link`: the link as written in the line. */
    function FullLink(): string {
      if isReference then "[" + title + "][" + Content() + "]"
      else "[" + title + "](" + Content() + ")"
    }
  }

  /** The depth change `Brackets.closed` applies for one character. */
  function Delta(c: char, left: char, right: char): int {
    if c == left then 1 else if c == right then -1 else 0
  }

  /**
   * The scanner state. `State.IDLE`, `START`, `INLINE` and `REFERENCE`
   * are the four constructors; each carries only the variables that
   * are live in that state (the shared `Brackets` counters are at zero
   * whenever a state is entered, and `extra` is only ever set while
   * inline). `extra == -1` stands for `None`.
   */
  datatype Scanner =
    | Idle
    | Start(start: int, depth: int)
    | Inline(start: int, location: int, extra: int, parens: int)
    | Reference(start: int, location: int, depth: int)

  datatype Outcome = Continue(next: Scanner) | Found(link: Link)

  predicate IsExtraChar(c: char) {
    c == ' ' || c == '#' || c == '?'
  }

  /** One iteration of the loop in `find_link`, at index `i`. */
  function Step(s: string, i: nat, st: Scanner): Outcome
    requires i < |s|
  {
    var c := s[i];
    match st
    case Idle =>
      if c == '[' then Continue(Start(i, 1)) else Continue(Idle)
    case Start(start, depth) =>
      var d := depth + Delta(c, '[', ']');
      if d != 0 then Continue(Start(start, d))
      else if |s| <= i + 1 then Continue(Idle)
      else if s[i + 1] == '(' then Continue(Inline(start, i + 2, -1, 0))
      else if s[i + 1] == '[' then Continue(Reference(start, i + 2, 0))
      else Continue(Idle)
    case Inline(start, location, extra, parens) =>
      var extra' := if extra == -1 && IsExtraChar(c) then i else extra;
      var p := parens + Delta(c, '(', ')');
      if p == 0 then
        var e := if extra' == -1 then i else extra';
        Found(Link(start, i, Text.Slice(s, start + 1, location - 2), Text.Slice(s, location, e), Text.Slice(s, e, i), false))
      else Continue(Inline(start, location, extra', p))
    case Reference(start, location, depth) =>
      var d := depth + Delta(c, '[', ']');
      if d == 0 then Found(Link(start, i, Text.Slice(s, start + 1, location - 2), Text.Slice(s, location, i), "", true))
      else Continue(Reference(start, location, d))
  }

  /** The loop of `find_link` from index `i` on. */
  function FindFrom(s: string, i: nat, st: Scanner): (r: Outcomes.Option<Link>)
    ensures r.Some? ==> i <= r.value.linkEnd < |s|
    decreases |s| - i
  {
    if i >= |s| then Outcomes.None
    else
      match Step(s, i, st)
      case Found(l) => Outcomes.Some(l)
      case Continue(next) => FindFrom(s, i + 1, next)
  }

  /** `find_link(s, index)`. */
  function FindLink(s: string, index: nat): (r: Outcomes.Option<Link>)
    ensures r.Some? ==> index <= r.value.linkEnd < |s|
  {
    FindFrom(s, index, Idle)
  }

  /** `find_links(s)`: every search resumes just after the previous link. */
  function FindLinksFrom(s: string, index: nat): seq<Link>
    decreases |s| - index
  {
    match FindLink(s, index)
    case None => []
    case Some(l) => [l] + FindLinksFrom(s, l.linkEnd + 1)
  }

  function FindLinks(s: string): seq<Link> {
    FindLinksFrom(s, 0)
  }

  // Bracket balance, stated on positions of the line.

  /** Opening minus closing characters in `s[a..b]`. */
  function Net(s: string, a: int, b: int, left: char, right: char): int
    requires 0 <= a && b <= |s|
    decreases b - a
  {
    if b <= a then 0 else Net(s, a, b - 1, left, right) + Delta(s[b - 1], left, right)
  }

  /** No prefix of `s[a..b]` closes more than it opens. */
  predicate NonNeg(s: string, a: int, b: int, left: char, right: char) {
    0 <= a <= b <= |s| && forall k :: a <= k <= b ==> Net(s, a, k, left, right) >= 0
  }

  /** `s[a..b]` is balanced: it never closes more than it opened, and ends level. */
  predicate Balanced(s: string, a: int, b: int, left: char, right: char) {
    NonNeg(s, a, b, left, right) && Net(s, a, b, left, right) == 0
  }

  predicate NoExtraIn(s: string, a: int, b: int)
    requires 0 <= a && b <= |s|
  {
    forall k :: a <= k < b ==> !IsExtraChar(s[k])
  }

  /** `s[start]` opens a title closed at `location - 2`, followed by `second` at `location - 1`. */
  predicate Opening(s: string, start: int, location: int, second: char) {
    && 0 <= start && start + 1 <= location - 2 && location - 1 < |s|
    && s[start] == '[' && s[location - 2] == ']' && s[location - 1] == second
    && Balanced(s, start + 1, location - 2, '[', ']')
  }

  /** What the scanner state knows about the text before `i`. */
  predicate Valid(s: string, i: nat, st: Scanner) {
    i <= |s| &&
    match st
    case Idle => true
    case Start(start, depth) =>
      && 0 <= start < i && s[start] == '['
      && NonNeg(s, start + 1, i, '[', ']') && depth == 1 + Net(s, start + 1, i, '[', ']')
    case Inline(start, location, extra, parens) =>
      && Opening(s, start, location, '(') && location - 1 <= i
      && (i == location - 1 ==> parens == 0 && extra == -1)
      && (location <= i ==> NonNeg(s, location, i, '(', ')') && parens == 1 + Net(s, location, i, '(', ')'))
      && (extra == -1 && location <= i ==> NoExtraIn(s, location, i))
      && (extra != -1 ==> location <= extra < i && IsExtraChar(s[extra]) && NoExtraIn(s, location, extra))
    case Reference(start, location, depth) =>
      && Opening(s, start, location, '[') && location - 1 <= i
      && (i == location - 1 ==> depth == 0)
      && (location <= i ==> NonNeg(s, location, i, '[', ']') && depth == 1 + Net(s, location, i, '[', ']'))
  }

  /**
   * What a found link promises: it lies in the line and starts at a `[`,
   * `full_link` is exactly its text, the title is bracket-balanced, an
   * inline link's location stops before the first space, `#` or `?` (which
   * starts `extra`) and its content is parenthesis-balanced, and a
   * reference link's location is bracket-balanced and has no `extra`.
   */
  predicate Sound(s: string, l: Link) {
    && 0 <= l.linkStart < l.linkEnd < |s|
    && s[l.linkStart] == '['
    && l.FullLink() == s[l.linkStart..l.linkEnd + 1]
    && Balanced(s, l.linkStart + 1, l.linkStart + 1 + |l.title|, '[', ']')
    && (l.isReference ==>
          l.extra == [] && Balanced(s, l.linkEnd - |l.location|, l.linkEnd, '[', ']'))
    && (!l.isReference ==>
          && (forall k :: 0 <= k < |l.location| ==> !IsExtraChar(l.location[k]))
          && (l.extra == [] || IsExtraChar(l.extra[0]))
          && Balanced(s, l.linkEnd - |l.Content()|, l.linkEnd, '(', ')'))
  }

  lemma SliceConcat(s: string, a: int, b: int, c: int)
    requires 0 <= a <= b <= c <= |s|
    ensures s[a..b] + s[b..c] == s[a..c]
  {
  }

  /** The text of a link reassembled from its parts. */
  lemma Reassemble(s: string, start: int, location: int, end: int, mid: string, close: char)
    requires 0 <= start && start + 1 <= location - 2 && location <= end < |s|
    requires |mid| == 1
    requires s[start] == '[' && s[location - 2] == ']' && s[location - 1] == mid[0] && s[end] == close
    ensures "[" + s[start + 1..location - 2] + "]" + mid + s[location..end] + [close] == s[start..end + 1]
  {
    SliceConcat(s, start, start + 1, location - 2);
    SliceConcat(s, start, location - 2, location);
    SliceConcat(s, start, location, end);
    SliceConcat(s, start, end, end + 1);
    assert s[location - 2..location] == "]" + mid;
    assert s[start..start + 1] == "[";
    assert s[end..end + 1] == [close];
  }

  lemma StepIdleValid(s: string, i: nat)
    requires i < |s|
    ensures Step(s, i, Idle).Continue?
    ensures var n := Step(s, i, Idle).next; Valid(s, i + 1, n) && (n.Idle? || (n.Start? && n.start == i))
  {
  }

  lemma StepStartValid(s: string, i: nat, st: Scanner)
    requires i < |s| && st.Start? && Valid(s, i, st)
    ensures Step(s, i, st).Continue?
    ensures var n := Step(s, i, st).next; Valid(s, i + 1, n) && (n.Idle? || n.start == st.start)
  {
    var d := st.depth + Delta(s[i], '[', ']');
    assert Net(s, st.start + 1, i + 1, '[', ']') == Net(s, st.start + 1, i, '[', ']') + Delta(s[i], '[', ']');
    if d == 0 {
      assert s[i] == ']';
      assert Balanced(s, st.start + 1, i, '[', ']');
    }
  }

  /** An inline link's text is the stretch of the line it spans. */
  lemma InlineText(s: string, start: int, location: int, e: int, i: int)
    requires Opening(s, start, location, '(') && location <= e <= i < |s| && s[i] == ')'
    ensures var l := Link(start, i, s[start + 1..location - 2], s[location..e], s[e..i], false);
      l.Content() == s[location..i] && l.FullLink() == s[start..i + 1]
  {
    SliceConcat(s, location, e, i);
    Reassemble(s, start, location, i, "(", ')');
    assert "](" == "]" + "(";
    Regroup("[", s[start + 1..location - 2], "]", "(", s[location..i], ")");
  }

  lemma Regroup<T>(a: seq<T>, b: seq<T>, c: seq<T>, d: seq<T>, e: seq<T>, f: seq<T>)
    ensures a + b + (c + d) + e + f == a + b + c + d + e + f
  {
  }

  /** A closed inline link is sound. */
  lemma InlineSound(s: string, start: int, location: int, e: int, i: int)
    requires Opening(s, start, location, '(') && location <= e <= i < |s| && s[i] == ')'
    requires Balanced(s, location, i, '(', ')')
    requires NoExtraIn(s, location, e) && (e == i || IsExtraChar(s[e]))
    ensures Sound(s, Link(start, i, s[start + 1..location - 2], s[location..e], s[e..i], false))
  {
    var l := Link(start, i, s[start + 1..location - 2], s[location..e], s[e..i], false);
    InlineText(s, start, location, e, i);
    InlineLocation(s, location, e, i);
    SoundInlineLink(s, l, location);
  }

  /** An inline link whose text and title sit where the opening put them is sound. */
  lemma SoundInlineLink(s: string, l: Link, location: int)
    requires Opening(s, l.linkStart, location, '(') && location <= l.linkEnd < |s|
    requires !l.isReference && l.title == s[l.linkStart + 1..location - 2]
    requires Balanced(s, location, l.linkEnd, '(', ')')
    requires l.Content() == s[location..l.linkEnd] && l.FullLink() == s[l.linkStart..l.linkEnd + 1]
    requires forall k :: 0 <= k < |l.location| ==> !IsExtraChar(l.location[k])
    requires l.extra == [] || IsExtraChar(l.extra[0])
    ensures Sound(s, l)
  {
    assert l.linkStart + 1 + |l.title| == location - 2;
    assert l.linkEnd - |l.Content()| == location;
  }

  /** The location has none of ` `, `#` and `?`; the extra part starts with one. */
  lemma InlineLocation(s: string, location: int, e: int, i: int)
    requires 0 <= location <= e <= i < |s|
    requires NoExtraIn(s, location, e) && (e == i || IsExtraChar(s[e]))
    ensures forall k :: 0 <= k < |s[location..e]| ==> !IsExtraChar(s[location..e][k])
    ensures s[e..i] == [] || IsExtraChar(s[e..i][0])
  {
    forall k | 0 <= k < |s[location..e]| ensures !IsExtraChar(s[location..e][k]) {
      assert s[location..e][k] == s[location + k];
    }
  }

  /** A closed reference-style link is sound. */
  lemma ReferenceSound(s: string, start: int, location: int, i: int)
    requires Opening(s, start, location, '[') && location <= i < |s| && s[i] == ']'
    requires Balanced(s, location, i, '[', ']')
    ensures Sound(s, Link(start, i, s[start + 1..location - 2], s[location..i], "", true))
  {
    Reassemble(s, start, location, i, "[", ']');
  }

  /** One inline step keeps the invariant, or closes a sound link. */
  predicate InlineStepOk(s: string, i: nat, st: Scanner)
    requires i < |s|
  {
    match Step(s, i, st)
    case Continue(n) => Valid(s, i + 1, n) && n.Inline? && n.start == st.start
    case Found(l) => Sound(s, l) && l.linkStart == st.start && l.linkEnd == i
  }

  lemma InlineOpens(s: string, i: nat, st: Scanner)
    requires i < |s| && st.Inline? && Valid(s, i, st) && i == st.location - 1
    ensures InlineStepOk(s, i, st)
  {
    assert Step(s, i, st) == Continue(Inline(st.start, st.location, -1, 1));
    assert Net(s, st.location, i + 1, '(', ')') == 0;
  }

  lemma InlineContinues(s: string, i: nat, st: Scanner)
    requires i < |s| && st.Inline? && Valid(s, i, st) && st.location <= i
    requires st.parens + Delta(s[i], '(', ')') != 0
    ensures InlineStepOk(s, i, st)
  {
    assert Net(s, st.location, i + 1, '(', ')') == Net(s, st.location, i, '(', ')') + Delta(s[i], '(', ')');
  }

  /** The link an inline scan closes at `i`, with the extra part starting at `e`. */
  lemma InlineCloses(s: string, i: nat, start: int, location: int, extra: int, parens: int)
    requires i < |s| && Opening(s, start, location, '(') && location <= i
    requires NonNeg(s, location, i, '(', ')') && parens == 1 + Net(s, location, i, '(', ')')
    requires parens + Delta(s[i], '(', ')') == 0
    requires extra == -1 || location <= extra < i
    ensures var e := if extra == -1 then i else extra;
      && s[i] == ')' && Balanced(s, location, i, '(', ')')
      && Step(s, i, Inline(start, location, extra, parens))
         == Found(Link(start, i, s[start + 1..location - 2], s[location..e], s[e..i], false))
  {
    assert s[i] == ')';
  }

  lemma InlineFound(s: string, i: nat, st: Scanner)
    requires i < |s| && st.Inline? && Valid(s, i, st) && st.location <= i
    requires st.parens + Delta(s[i], '(', ')') == 0
    ensures InlineStepOk(s, i, st)
  {
    var Inline(start, location, extra, parens) := st;
    assert Opening(s, start, location, '(') && NonNeg(s, location, i, '(', ')') && parens == 1 + Net(s, location, i, '(', ')');
    InlineCloses(s, i, start, location, extra, parens);
    if extra == -1 {
      InlineSound(s, start, location, i, i);
    } else {
      InlineSound(s, start, location, extra, i);
    }
  }

  lemma StepInlineValid(s: string, i: nat, st: Scanner)
    requires i < |s| && st.Inline? && Valid(s, i, st)
    ensures InlineStepOk(s, i, st)
  {
    if i == st.location - 1 {
      InlineOpens(s, i, st);
    } else if st.parens + Delta(s[i], '(', ')') == 0 {
      InlineFound(s, i, st);
    } else {
      InlineContinues(s, i, st);
    }
  }

  /** One reference step keeps the invariant, or closes a sound link. */
  predicate ReferenceStepOk(s: string, i: nat, st: Scanner)
    requires i < |s|
  {
    match Step(s, i, st)
    case Continue(n) => Valid(s, i + 1, n) && n.Reference? && n.start == st.start
    case Found(l) => Sound(s, l) && l.linkStart == st.start && l.linkEnd == i
  }

  lemma ReferenceFound(s: string, i: nat, st: Scanner)
    requires i < |s| && st.Reference? && Valid(s, i, st) && st.location <= i
    requires st.depth + Delta(s[i], '[', ']') == 0
    ensures ReferenceStepOk(s, i, st)
  {
    var Reference(start, location, depth) := st;
    assert Opening(s, start, location, '[') && NonNeg(s, location, i, '[', ']') && depth == 1 + Net(s, location, i, '[', ']');
    assert Net(s, location, i + 1, '[', ']') == Net(s, location, i, '[', ']') + Delta(s[i], '[', ']');
    var l := Link(start, i, s[start + 1..location - 2], s[location..i], "", true);
    assert Step(s, i, st) == Found(l);
    ReferenceSound(s, start, location, i);
  }

  lemma StepReferenceValid(s: string, i: nat, st: Scanner)
    requires i < |s| && st.Reference? && Valid(s, i, st)
    ensures ReferenceStepOk(s, i, st)
  {
    var d := st.depth + Delta(s[i], '[', ']');
    if i == st.location - 1 {
      assert d == 1;
      assert Net(s, st.location, i + 1, '[', ']') == 0;
    } else if d == 0 {
      ReferenceFound(s, i, st);
    } else {
      assert Net(s, st.location, i + 1, '[', ']') == Net(s, st.location, i, '[', ']') + Delta(s[i], '[', ']');
    }
  }

  /** The earliest position a link found from scanner state `st` at `i` can start at. */
  function Bound(st: Scanner, i: nat): int {
    if st.Idle? then i else st.start
  }

  /** One step keeps the invariant and never moves the bound back, or closes a sound link past the bound. */
  predicate StepOk(s: string, i: nat, st: Scanner)
    requires i < |s|
  {
    match Step(s, i, st)
    case Continue(n) => Valid(s, i + 1, n) && Bound(st, i) <= Bound(n, i + 1)
    case Found(l) => Sound(s, l) && Bound(st, i) <= l.linkStart
  }

  lemma StepAdvances(s: string, i: nat, st: Scanner)
    requires i < |s| && Valid(s, i, st)
    ensures StepOk(s, i, st)
  {
    match st
    case Idle =>
      StepIdleValid(s, i);
    case Start(_, _) =>
      StepStartValid(s, i, st);
    case Inline(_, _, _, _) =>
      StepInlineValid(s, i, st);
      assert InlineStepOk(s, i, st);
    case Reference(_, _, _) =>
      StepReferenceValid(s, i, st);
      assert ReferenceStepOk(s, i, st);
  }

  /** The scanner's invariant holds throughout, so every link it returns is sound. */
  lemma {:induction false} FindFromSound(s: string, i: nat, st: Scanner)
    requires Valid(s, i, st)
    ensures var r := FindFrom(s, i, st);
      r.Some? ==> Sound(s, r.value) && Bound(st, i) <= r.value.linkStart
    decreases |s| - i
  {
    if i < |s| {
      StepAdvances(s, i, st);
      if Step(s, i, st).Continue? {
        FindFromSound(s, i + 1, Step(s, i, st).next);
      }
    }
  }

  /** Every link `find_link(s, index)` returns is sound and starts at or after `index`. */
  lemma FindLinkSound(s: string, index: nat)
    ensures var r := FindLink(s, index);
      r.Some? ==> Sound(s, r.value) && index <= r.value.linkStart
  {
    if index <= |s| {
      FindFromSound(s, index, Idle);
    }
  }

  /**
   * `find_links` returns sound links, each ending before the next one
   * starts, all at or after `index`.
   */
  lemma {:induction false} FindLinksOrdered(s: string, index: nat)
    ensures forall k :: 0 <= k < |FindLinksFrom(s, index)| ==>
      Sound(s, FindLinksFrom(s, index)[k]) && index <= FindLinksFrom(s, index)[k].linkStart
    ensures forall k :: 0 <= k < |FindLinksFrom(s, index)| - 1 ==>
      FindLinksFrom(s, index)[k].linkEnd < FindLinksFrom(s, index)[k + 1].linkStart
    decreases |s| - index
  {
    match FindLink(s, index)
    case None =>
    case Some(l) =>
      FindLinkSound(s, index);
      var next: nat := l.linkEnd + 1;
      FindLinksOrdered(s, next);
      var rest := FindLinksFrom(s, next);
      assert FindLinksFrom(s, index) == [l] + rest;
      ConsOrdered(l, rest, index, x => Sound(s, x));
  }

  /** A link put in front of later, ordered links that satisfy `ok` keeps them ordered. */
  lemma ConsOrdered(l: Link, rest: seq<Link>, index: int, ok: Link -> bool)
    requires ok(l) && index <= l.linkStart < l.linkEnd
    requires forall k :: 0 <= k < |rest| ==> ok(rest[k]) && l.linkEnd + 1 <= rest[k].linkStart
    requires forall k :: 0 <= k < |rest| - 1 ==> rest[k].linkEnd < rest[k + 1].linkStart
    ensures forall k :: 0 <= k < |[l] + rest| ==> ok(([l] + rest)[k]) && index <= ([l] + rest)[k].linkStart
    ensures forall k :: 0 <= k < |[l] + rest| - 1 ==> ([l] + rest)[k].linkEnd < ([l] + rest)[k + 1].linkStart
  {
    var ls := [l] + rest;
    forall k | 0 <= k < |ls| ensures ok(ls[k]) && index <= ls[k].linkStart {
      if k > 0 {
        assert ls[k] == rest[k - 1];
      }
    }
    forall k | 0 <= k < |ls| - 1 ensures ls[k].linkEnd < ls[k + 1].linkStart {
      assert ls[k + 1] == rest[k];
      if k > 0 {
        assert ls[k] == rest[k - 1];
      }
    }
  }

  lemma {:induction false} SkipToBracket(s: string, index: nat, start: nat)
    requires index <= start <= |s|
    requires forall k :: index <= k < start ==> s[k] != '['
    ensures FindFrom(s, index, Idle) == FindFrom(s, start, Idle)
    decreases start - index
  {
    if index < start {
      SkipToBracket(s, index + 1, start);
    }
  }

  lemma {:induction false} SkipTitle(s: string, start: nat, k: nat, j: nat)
    requires start < k <= j < |s| && s[j] == ']'
    requires NonNeg(s, start + 1, j, '[', ']') && Net(s, start + 1, j, '[', ']') == 0
    ensures FindFrom(s, k, Start(start, 1 + Net(s, start + 1, k, '[', ']')))
         == FindFrom(s, j, Start(start, 1))
    decreases j - k
  {
    if k < j {
      assert Net(s, start + 1, k + 1, '[', ']') == Net(s, start + 1, k, '[', ']') + Delta(s[k], '[', ']');
      assert Net(s, start + 1, k + 1, '[', ']') >= 0;
      SkipTitle(s, start, k + 1, j);
    }
  }

  /**
   * A `[` whose matching `]` ends the line or is followed by something other
   * than `(` or `[` starts no link: the search carries on after that `]`,
   * as if the bracketed text had not been there.
   */
  lemma UnfollowedBracket(s: string, index: nat, start: nat, j: nat)
    requires index <= start < j < |s|
    requires forall k :: index <= k < start ==> s[k] != '['
    requires s[start] == '[' && s[j] == ']' && Balanced(s, start + 1, j, '[', ']')
    requires j + 1 == |s| || (s[j + 1] != '(' && s[j + 1] != '[')
    ensures FindLink(s, index) == FindLink(s, j + 1)
  {
    SkipToBracket(s, index, start);
    assert Net(s, start + 1, start + 1, '[', ']') == 0;
    SkipTitle(s, start, start + 1, j);
  }

  /** `child(path)`: the path after its first `/` at index 1 or later, or the whole path without one. */
  function Child(path: string): (r: string)
    ensures |r| <= |path| && r == path[|path| - |r|..]
  {
    var split := Text.Find(path, "/", 1);
    Text.SliceFrom(path, split + 1)
  }

  lemma ChildCut(path: string, k: nat)
    requires 1 <= k < |path| && path[k] == '/'
    requires forall j :: 1 <= j < k ==> path[j] != '/'
    ensures Child(path) == path[k + 1..]
  {
    Text.OccursAtChar(path, '/', k);
    forall j | 1 <= j < k ensures !Text.OccursAt(path, "/", j) {
      Text.OccursAtChar(path, '/', j);
    }
    Text.FindIs(path, "/", 1, k);
  }

  lemma ChildWhole(path: string)
    requires forall j :: 1 <= j < |path| ==> path[j] != '/'
    ensures Child(path) == path
  {
    Text.FindFirst(path, "/", 1);
    var split := Text.Find(path, "/", 1);
    if split != -1 {
      Text.OccursAtChar(path, '/', split);
    }
  }

  // Reference definitions: `[name]: location`.

  /**
   * The guard shared by `find_reference` and `reference_parser.extract`,
   * as written: the position of the first `:` when the line starts with
   * `[`, the `:` follows `]` and a space follows the `:`. Reading the
   * character after a final `:` raises IndexError.
   */
  function DefinitionColonAsWritten(s: string): (r: Outcomes.Result<Outcomes.Option<nat>>)
    ensures r.Err? <==> DefinitionColonAt(s, Text.Find(s, ":", 0)) && Text.Find(s, ":", 0) + 1 == |s|
    ensures r.Ok? ==> r.value == DefinitionColon(s)
  {
    var split := Text.Find(s, ":", 0);
    if split == -1 || |s| == 0 || s[0] != '[' then Outcomes.Ok(Outcomes.None)
    else
      Text.OccursAtChar(s, ':', split);
      if s[split - 1] != ']' then Outcomes.Ok(Outcomes.None)
    else if split + 1 >= |s| then Outcomes.Err(Outcomes.IndexError)
    else if s[split + 1] != ' ' then Outcomes.Ok(Outcomes.None)
    else Outcomes.Ok(Outcomes.Some(split))
  }

  /** The line starts with `[` and the `:` at `split` follows a `]`. */
  predicate DefinitionColonAt(s: string, split: int) {
    1 <= split < |s| && s[0] == '[' && s[split - 1] == ']'
  }

  /** The guard with the missing bounds check added: a final `:` introduces no definition. */
  function DefinitionColon(s: string): (r: Outcomes.Option<nat>)
    ensures r.Some? <==> var split := Text.Find(s, ":", 0);
      DefinitionColonAt(s, split) && split + 1 < |s| && s[split + 1] == ' '
    ensures r.Some? ==> r.value == Text.Find(s, ":", 0)
  {
    var split := Text.Find(s, ":", 0);
    if split == -1 || |s| == 0 || s[0] != '[' then Outcomes.None
    else
      Text.OccursAtChar(s, ':', split);
      if s[split - 1] != ']' then Outcomes.None
    else if split + 1 >= |s| || s[split + 1] != ' ' then Outcomes.None
    else Outcomes.Some(split)
  }

  /** `find_reference(s)` as written. */
  function FindReferenceAsWritten(s: string): (r: Outcomes.Result<Outcomes.Option<(string, string)>>)
    ensures r.Err? ==> r.error == Outcomes.IndexError
    ensures r.Err? <==> DefinitionColonAsWritten(s).Err?
    ensures r.Ok? ==> r.value == FindReference(s)
  {
    var split :- DefinitionColonAsWritten(s);
    match split
    case None => Outcomes.Ok(Outcomes.None)
    case Some(k) => Outcomes.Ok(Outcomes.Some((Text.Slice(s, 1, k - 1), Text.Slice(s, k + 2, -1))))
  }

  /** The last line of a file, without a newline, that ends in `]:` stops the whole scan. */
  lemma BareColonRaises()
    ensures FindReferenceAsWritten("[a]:") == Outcomes.Err(Outcomes.IndexError)
    ensures FindReference("[a]:") == Outcomes.None
  {
    Text.OccursAtChar("[a]:", ':', 3);
    forall k | 0 <= k < 3 ensures !Text.OccursAt("[a]:", ":", k) {
      Text.OccursAtChar("[a]:", ':', k);
    }
    Text.FindIs("[a]:", ":", 0, 3);
  }

  /**
   * `find_reference(s)` with the guard corrected: the bracketed name and
   * the rest after `": "` without the line's last character (its newline).
   */
  function FindReference(s: string): (r: Outcomes.Option<(string, string)>)
    ensures r.Some? <==> DefinitionColon(s).Some?
    ensures r.Some? ==> var k := Text.Find(s, ":", 0);
      && s == "[" + r.value.0 + "]: " + s[k + 2..]
      && r.value.1 == Text.Slice(s, k + 2, |s| - 1)
  {
    match DefinitionColon(s)
    case None => Outcomes.None
    case Some(k) =>
      assert s == s[..1] + s[1..k - 1] + s[k - 1..k + 2] + s[k + 2..];
      assert s[k - 1..k + 2] == "]: " by {
        Text.OccursAtChar(s, ':', k);
      }
      Outcomes.Some((Text.Slice(s, 1, k - 1), Text.Slice(s, k + 2, -1)))
  }

  /** The entry one line contributes to `find_references`: name to (location, line number). */
  function ReferenceEntry(line: string, n: nat): (r: Outcomes.Option<(string, (string, int))>)
    ensures r.Some? <==> FindReference(line).Some?
    ensures r.Some? ==> r.value == (FindReference(line).value.0, (FindReference(line).value.1, n))
  {
    match FindReference(line)
    case None => Outcomes.None
    case Some((name, location)) => Outcomes.Some((name, (location, n)))
  }

  /** `find_reference(line)` as written, on line `n` of a file. */
  function ReferenceAt(line: string, n: nat): Outcomes.Result<Outcomes.Option<(string, string)>> {
    FindReferenceAsWritten(line)
  }

  /**
   * `find_references(file)`: name to (location, line number), numbering
   * lines from 1; a last line that ends in `]:` without a newline raises
   * IndexError for the whole file. When nothing raises, every line reads
   * as the corrected `FindReference` reads it.
   */
  function FindReferences(lines: seq<string>): (r: Outcomes.Result<map<string, (string, int)>>)
    ensures r.Err? <==> exists n :: Keyed.Fails(lines, ReferenceAt, n)
    ensures r.Err? ==> r.error == Outcomes.IndexError
    ensures r.Ok? ==> forall i :: 0 <= i < |lines| ==> FindReferenceAsWritten(lines[i]) == Outcomes.Ok(FindReference(lines[i]))
    ensures r.Ok? ==> r.value == ReferenceMap(lines)
  {
    match Keyed.FirstFailure(lines, ReferenceAt, 1)
    case Some(e) =>
      assert e == Outcomes.IndexError by {
        var n :| 1 <= n && Keyed.Fails(lines, ReferenceAt, n) && ReferenceAt(lines[n - 1], n).error == e;
      }
      Outcomes.Err(e)
    case None =>
      forall i | 0 <= i < |lines| ensures FindReferenceAsWritten(lines[i]).Ok? {
        assert !Keyed.Fails(lines, ReferenceAt, i + 1);
      }
      Outcomes.Ok(ReferenceMap(lines))
  }

  /** The references of a file none of whose lines raises. */
  function ReferenceMap(lines: seq<string>): map<string, (string, int)> {
    Keyed.Collect(lines, ReferenceEntry)
  }

  /** Line `n` (from 1) defines `name`. */
  predicate Defines(lines: seq<string>, n: int, name: string) {
    1 <= n <= |lines| && FindReference(lines[n - 1]).Some? && FindReference(lines[n - 1]).value.0 == name
  }

  /** A name is defined exactly when some line defines it. */
  lemma ReferenceMapDomain(lines: seq<string>, name: string)
    ensures name in ReferenceMap(lines) <==> exists n :: Defines(lines, n, name)
  {
    Keyed.CollectDomain(lines, ReferenceEntry, name);
    assert forall n :: Keyed.Yields(lines, ReferenceEntry, n, name) <==> Defines(lines, n, name);
  }

  /**
   * The entry for a name records the last line that defines it, and that
   * line's location.
   */
  lemma ReferenceMapLastWins(lines: seq<string>, name: string)
    requires name in ReferenceMap(lines)
    ensures var n := ReferenceMap(lines)[name].1;
      && Defines(lines, n, name)
      && ReferenceMap(lines)[name].0 == FindReference(lines[n - 1]).value.1
      && forall m :: n < m <= |lines| ==> !Defines(lines, m, name)
  {
    Keyed.CollectLast(lines, ReferenceEntry, name);
    assert forall n :: Keyed.Yields(lines, ReferenceEntry, n, name) <==> Defines(lines, n, name);
  }
}

=== FILE: onlinedata.dfy ===
/**
 * The table shaping of `wikitools/online_data.py`: rows read from a
 * spreadsheet are padded to the width of the first row, and every row
 * after the first becomes a mapping from header name to cell. Fetching
 * the rows is not part of this model: they are the input.
 */
module OnlineData {
  import opened Outcomes

  function Min(a: nat, b: nat): nat {
    if a <= b then a else b
  }

  /** `zip(header, row)`: the pairs up to the shorter of the two. */
  function Zip(header: seq<string>, row: seq<string>): (r: seq<(string, string)>)
    ensures |r| == Min(|header|, |row|)
    ensures forall j :: 0 <= j < |r| ==> r[j] == (header[j], row[j])
  {
    if |header| == 0 || |row| == 0 then []
    else [(header[0], row[0])] + Zip(header[1..], row[1..])
  }

  /** A dict built from pairs in order: a later pair with the same key replaces the value. */
  function DictOf(pairs: seq<(string, string)>): map<string, string>
    decreases |pairs|
  {
    if |pairs| == 0 then map[]
    else DictOf(pairs[..|pairs| - 1])[pairs[|pairs| - 1].0 := pairs[|pairs| - 1].1]
  }

  /** Pair `j` is the last one with key `k`. */
  predicate LastWith(pairs: seq<(string, string)>, k: string, j: int) {
    0 <= j < |pairs| && pairs[j].0 == k && forall m :: j < m < |pairs| ==> pairs[m].0 != k
  }

  /** The keys of the dict are the keys of the pairs, and each keeps the value of its last pair. */
  lemma {:induction false} DictOfLast(pairs: seq<(string, string)>, k: string)
    ensures k in DictOf(pairs) <==> exists j :: 0 <= j < |pairs| && pairs[j].0 == k
    ensures k in DictOf(pairs) ==> exists j :: LastWith(pairs, k, j) && DictOf(pairs)[k] == pairs[j].1
    decreases |pairs|
  {
    if |pairs| > 0 {
      var init := pairs[..|pairs| - 1];
      var last := |pairs| - 1;
      DictOfLast(init, k);
      if pairs[last].0 == k {
        assert LastWith(pairs, k, last);
      } else {
        if k in DictOf(pairs) {
          var j :| LastWith(init, k, j) && DictOf(init)[k] == init[j].1;
          assert LastWith(pairs, k, j);
        }
        if exists j :: 0 <= j < |pairs| && pairs[j].0 == k {
          var j :| 0 <= j < |pairs| && pairs[j].0 == k;
          assert init[j].0 == k;
        }
      }
    }
  }

  /** `{ header: value for header, value in zip(header, row) }`. */
  function RowDict(header: seq<string>, row: seq<string>): map<string, string> {
    DictOf(Zip(header, row))
  }

  /**
   * The mapping of one row holds the header names of the columns the row
   * reaches, and a name repeated in the header takes the cell of its
   * last column.
   */
  lemma RowDictCells(header: seq<string>, row: seq<string>, k: string)
    ensures k in RowDict(header, row) <==> exists j :: 0 <= j < Min(|header|, |row|) && header[j] == k
    ensures k in RowDict(header, row) ==>
      exists j :: && 0 <= j < Min(|header|, |row|) && header[j] == k && RowDict(header, row)[k] == row[j]
                  && forall m :: j < m < Min(|header|, |row|) ==> header[m] != k
  {
    var pairs := Zip(header, row);
    DictOfLast(pairs, k);
    if exists j :: 0 <= j < Min(|header|, |row|) && header[j] == k {
      var j :| 0 <= j < Min(|header|, |row|) && header[j] == k;
      assert pairs[j].0 == k;
    }
    if k in RowDict(header, row) {
      var j :| LastWith(pairs, k, j) && DictOf(pairs)[k] == pairs[j].1;
      assert header[j] == k && row[j] == pairs[j].1;
      forall m | j < m < Min(|header|, |row|) ensures header[m] != k {
        assert pairs[m].0 != k;
      }
    }
  }

  /**
   * `list_table_to_dict_table`: one mapping per row after the header row;
   * a table without rows has no header row to read.
   */
  function ListToDictTable(table: seq<seq<string>>): (r: Result<seq<map<string, string>>>)
    ensures r.Err? <==> |table| == 0
    ensures r.Err? ==> r.error == IndexError
    ensures r.Ok? ==> |r.value| == |table| - 1
    ensures r.Ok? ==> forall i :: 0 <= i < |r.value| ==> r.value[i] == RowDict(table[0], table[i + 1])
  {
    if |table| == 0 then Err(IndexError)
    else Ok(seq(|table| - 1, i requires 0 <= i < |table| - 1 => RowDict(table[0], table[i + 1])))
  }

  /** `row + [""] * (count - len(row))`: a negative count repeats nothing. */
  function PadRow(row: seq<string>, count: nat): (r: seq<string>)
    ensures |r| == if |row| < count then count else |row|
    ensures r[..|row|] == row
    ensures forall j :: |row| <= j < |r| ==> r[j] == ""
  {
    if |row| < count then row + seq(count - |row|, _ => "") else row
  }

  /** The padding step: every row padded to the width of the first; no rows means no first row. */
  function PadRows(rows: seq<seq<string>>): (r: Result<seq<seq<string>>>)
    ensures r.Err? <==> |rows| == 0
    ensures r.Err? ==> r.error == IndexError
    ensures r.Ok? ==> |r.value| == |rows| && r.value[0] == rows[0]
    ensures r.Ok? ==> forall i :: 0 <= i < |rows| ==> |r.value[i]| >= |rows[0]| && |r.value[i]| >= |rows[i]|
    ensures r.Ok? ==> forall i :: 0 <= i < |rows| ==> r.value[i][..|rows[i]|] == rows[i]
    ensures r.Ok? ==> forall i, j :: 0 <= i < |rows| && |rows[i]| <= j < |r.value[i]| ==> r.value[i][j] == ""
  {
    if |rows| == 0 then Err(IndexError)
    else
      var count := |rows[0]|;
      var padded := seq(|rows|, i requires 0 <= i < |rows| => PadRow(rows[i], count));
      assert padded[0] == rows[0][..|rows[0]|];
      Ok(padded)
  }

  /** The shaping of `get_spreadsheet_range_unchecked` after the rows are fetched. */
  function SheetTable(rows: seq<seq<string>>): Result<seq<map<string, string>>> {
    var padded :- PadRows(rows);
    ListToDictTable(padded)
  }

  /**
   * After padding, every row reaches every header column: each mapping's
   * keys are exactly the header names, and a short row's missing cells
   * read as `""`.
   */
  lemma SheetTableKeys(rows: seq<seq<string>>, i: nat, k: string)
    requires 0 < |rows| && i + 1 < |rows|
    ensures SheetTable(rows).Ok? && |SheetTable(rows).value| == |rows| - 1
    ensures k in SheetTable(rows).value[i] <==> k in rows[0]
    ensures k in SheetTable(rows).value[i] ==>
      exists j :: && 0 <= j < |rows[0]| && rows[0][j] == k
                  && SheetTable(rows).value[i][k] == (if j < |rows[i + 1]| then rows[i + 1][j] else "")
  {
    var padded := PadRows(rows).value;
    var header := padded[0];
    var row := padded[i + 1];
    assert Min(|header|, |row|) == |header|;
    RowDictCells(header, row, k);
    if k in rows[0] {
      var j :| 0 <= j < |rows[0]| && rows[0][j] == k;
      assert header[j] == k;
    }
    if k in RowDict(header, row) {
      var j :| 0 <= j < |header| && header[j] == k && RowDict(header, row)[k] == row[j];
      if j < |rows[i + 1]| {
        assert row[j] == row[..|rows[i + 1]|][j];
      }
    }
  }

  /** Without the padding, a row shorter than the header loses the names it does not reach. */
  lemma ShortRowExample()
    ensures ListToDictTable([["a", "b"], ["1"]]) == Ok([map["a" := "1"]])
    ensures SheetTable([["a", "b"], ["1"]]) == Ok([map["a" := "1", "b" := ""]])
  {
    var t := [["a", "b"], ["1"]];
    var z := Zip(t[0], t[1]);
    assert z == [("a", "1")];
    assert z[..0] == [];
    assert DictOf(z) == map["a" := "1"];
    var r := ListToDictTable(t).value;
    assert r == [r[0]];
    var padded := PadRows(t).value;
    assert padded[1] == PadRow(["1"], 2) == ["1", ""];
    assert padded == [["a", "b"], ["1", ""]];
    var z2 := Zip(padded[0], padded[1]);
    assert z2 == [("a", "1"), ("b", "")];
    assert z2[..1] == [("a", "1")];
    assert z2[..1][..0] == [];
    assert DictOf(z2) == map["a" := "1", "b" := ""];
    var r2 := ListToDictTable(padded).value;
    assert r2 == [r2[0]];
  }

  /** With a repeated header name, the later column wins. */
  lemma DuplicateHeaderExample()
    ensures ListToDictTable([["a", "a"], ["1", "2"]]) == Ok([map["a" := "2"]])
  {
    var t := [["a", "a"], ["1", "2"]];
    var z := Zip(t[0], t[1]);
    assert z == [("a", "1"), ("a", "2")];
    assert z[..1] == [("a", "1")];
    assert z[..1][..0] == [];
    assert DictOf(z[..1]) == map["a" := "1"];
    assert DictOf(z) == map["a" := "1"]["a" := "2"];
    assert map["a" := "1"]["a" := "2"] == map["a" := "2"];
    var r := ListToDictTable(t).value;
    assert r == [r[0]];
  }
}

=== FILE: originals.dfy ===
/**
 * The pure parts of the originals updater
 * (`wikitools_cli/commands/update_originals.py`): the Markdown section
 * tree that the article is parsed into, edited and printed back from;
 * the Markdown escaping of track names; the icon and link helpers; and
 * the printing of a table whose rows are mappings.
 */
module Originals {
  import opened Outcomes
  import Text
  import Tables
  import Templates

  // ---------------------------------------------------------------------
  // Joining on a separator

  /** Joining two non-empty lists of pieces puts one separator between the two joins. */
  lemma {:induction false} JoinConcat(sep: string, a: seq<string>, b: seq<string>)
    requires |a| > 0 && |b| > 0
    ensures Text.Join(sep, a + b) == Text.Join(sep, a) + sep + Text.Join(sep, b)
    decreases |a|
  {
    if |a| == 1 {
      assert (a + b)[0] == a[0] && (a + b)[1..] == b;
    } else {
      assert (a + b)[0] == a[0] && (a + b)[1..] == a[1..] + b;
      JoinConcat(sep, a[1..], b);
    }
  }

  /** The join of a run of pieces is no longer than the join of all of them, and no shorter than its first piece. */
  lemma JoinSliceShorter(sep: string, xs: seq<string>, lo: nat, hi: nat)
    requires lo < hi <= |xs|
    ensures |Text.Join(sep, xs[lo..hi])| <= |Text.Join(sep, xs)|
    ensures |xs[lo]| <= |Text.Join(sep, xs[lo..hi])|
  {
    var mid := xs[lo..hi];
    var upto := xs[..hi];
    assert mid[0] == xs[lo];
    if hi < |xs| {
      JoinConcat(sep, upto, xs[hi..]);
      assert upto + xs[hi..] == xs;
    } else {
      assert upto == xs;
    }
    assert |Text.Join(sep, upto)| <= |Text.Join(sep, xs)|;
    if 0 < lo {
      JoinConcat(sep, xs[..lo], mid);
      assert xs[..lo] + mid == upto;
    } else {
      assert mid == upto;
    }
    assert |Text.Join(sep, mid)| <= |Text.Join(sep, upto)|;
  }

  // ---------------------------------------------------------------------
  // MarkdownSection

  /** The text between two chunks of a section. */
  const Sep: string := "\n\n"

  /** A section: the chunks before its first subsection (front matter, heading, paragraphs) and its subsections. */
  datatype Section = Section(nodes: seq<string>, subsections: seq<Section>)

  /** A run `nodes[lo..hi]` of chunks. */
  datatype Range = Range(lo: nat, hi: nat)

  /** What one pass over the chunks gathers. */
  datatype Grouping = Grouping(top: seq<string>, ranges: seq<Range>)

  /** The start of a heading one level below `level`: `level + 1` hashes and a space. */
  function HeadingPrefix(level: nat): (r: string)
    ensures |r| == level + 2
  {
    Text.RepeatChar('#', level + 1) + " "
  }

  predicate IsHeading(node: string, level: nat) {
    Text.StartsWith(node, HeadingPrefix(level))
  }

  /** Every range is a non-empty run of chunks that starts at a heading. */
  predicate RangesOpenAtHeadings(nodes: seq<string>, level: nat, ranges: seq<Range>) {
    forall j :: 0 <= j < |ranges| ==> ranges[j].lo < ranges[j].hi <= |nodes| && IsHeading(nodes[ranges[j].lo], level)
  }

  /**
   * The loop of `MarkdownSection.__init__` as written, from chunk `i`: the
   * chunks before the first heading go to the top; a section runs from
   * one heading to the next, and at the last chunk the open section takes
   * that chunk and is closed. A section opened at the last chunk is never
   * closed.
   */
  function GroupAsWritten(nodes: seq<string>, level: nat, i: nat, found: bool, start: nat, g: Grouping): (r: Grouping)
    requires i <= |nodes|
    requires found && i < |nodes| ==> start < i && IsHeading(nodes[start], level)
    requires RangesOpenAtHeadings(nodes, level, g.ranges)
    ensures RangesOpenAtHeadings(nodes, level, r.ranges)
    decreases |nodes| - i
  {
    if i == |nodes| then g
    else
      var node := nodes[i];
      var heading := IsHeading(node, level);
      var last := i == |nodes| - 1;
      if heading && !found then GroupAsWritten(nodes, level, i + 1, true, i, g)
      else if found && (heading || last) then
        var closed := if last then Range(start, i + 1) else Range(start, i);
        assert forall j :: 0 <= j < |g.ranges| ==> (g.ranges + [closed])[j] == g.ranges[j];
        GroupAsWritten(nodes, level, i + 1, true, i, Grouping(g.top, g.ranges + [closed]))
      else if found then GroupAsWritten(nodes, level, i + 1, found, start, g)
      else GroupAsWritten(nodes, level, i + 1, false, start, Grouping(g.top + [node], g.ranges))
  }

  /** `ranges` cut the chunks from `from` to `to` into consecutive non-empty runs. */
  predicate Chained(ranges: seq<Range>, from: nat, to: nat)
    decreases |ranges|
  {
    if |ranges| == 0 then from == to
    else
      var last := ranges[|ranges| - 1];
      last.lo < last.hi == to && Chained(ranges[..|ranges| - 1], from, last.lo)
  }

  lemma {:induction false} ChainedWithin(ranges: seq<Range>, from: nat, to: nat)
    requires Chained(ranges, from, to)
    ensures from <= to
    ensures forall j :: 0 <= j < |ranges| ==> from <= ranges[j].lo < ranges[j].hi <= to
    decreases |ranges|
  {
    if |ranges| > 0 {
      var init := ranges[..|ranges| - 1];
      ChainedWithin(init, from, ranges[|ranges| - 1].lo);
      assert forall j :: 0 <= j < |init| ==> ranges[j] == init[j];
    }
  }

  /** Only the first chunk of a range is a heading. */
  predicate HeadingsOpen(nodes: seq<string>, level: nat, ranges: seq<Range>) {
    forall j, k :: 0 <= j < |ranges| && ranges[j].lo < k < ranges[j].hi <= |nodes| ==> !IsHeading(nodes[k], level)
  }

  /**
   * A grouping of the chunks: the top part is the chunks before the first
   * heading, and the ranges cut the rest into runs that each start at a
   * heading and hold no other.
   */
  predicate Cuts(nodes: seq<string>, level: nat, g: Grouping) {
    && |g.top| <= |nodes| && g.top == nodes[..|g.top|]
    && (forall k :: 0 <= k < |g.top| ==> !IsHeading(nodes[k], level))
    && Chained(g.ranges, |g.top|, |nodes|)
    && RangesOpenAtHeadings(nodes, level, g.ranges)
    && HeadingsOpen(nodes, level, g.ranges)
  }

  /** The state of the intended loop after `i` chunks. */
  predicate Scanned(nodes: seq<string>, level: nat, i: nat, found: bool, start: nat, g: Grouping) {
    && i <= |nodes|
    && |g.top| <= i && g.top == nodes[..|g.top|]
    && (forall k :: 0 <= k < |g.top| ==> !IsHeading(nodes[k], level))
    && RangesOpenAtHeadings(nodes, level, g.ranges)
    && HeadingsOpen(nodes, level, g.ranges)
    && (found ==> |g.top| <= start < i && IsHeading(nodes[start], level) && Chained(g.ranges, |g.top|, start)
                  && forall k :: start < k < i ==> !IsHeading(nodes[k], level))
    && (!found ==> |g.top| == i && g.ranges == [])
  }

  lemma ScanTop(nodes: seq<string>, level: nat, i: nat, start: nat, g: Grouping)
    requires Scanned(nodes, level, i, false, start, g) && i < |nodes| && !IsHeading(nodes[i], level)
    ensures Scanned(nodes, level, i + 1, false, start, Grouping(g.top + [nodes[i]], g.ranges))
  {
    assert g.top + [nodes[i]] == nodes[..i + 1];
  }

  lemma ScanOpen(nodes: seq<string>, level: nat, i: nat, start: nat, g: Grouping)
    requires Scanned(nodes, level, i, false, start, g) && i < |nodes| && IsHeading(nodes[i], level)
    ensures Scanned(nodes, level, i + 1, true, i, g)
  {
  }

  lemma ScanInside(nodes: seq<string>, level: nat, i: nat, start: nat, g: Grouping)
    requires Scanned(nodes, level, i, true, start, g) && i < |nodes| && !IsHeading(nodes[i], level)
    ensures Scanned(nodes, level, i + 1, true, start, g)
  {
  }

  /** Closing the run that ends where a new heading starts. */
  lemma ScanClose(nodes: seq<string>, level: nat, i: nat, start: nat, g: Grouping)
    requires Scanned(nodes, level, i, true, start, g) && i <= |nodes|
    ensures var g2 := Grouping(g.top, g.ranges + [Range(start, i)]);
            && Chained(g2.ranges, |g.top|, i)
            && RangesOpenAtHeadings(nodes, level, g2.ranges)
            && HeadingsOpen(nodes, level, g2.ranges)
  {
    var g2 := Grouping(g.top, g.ranges + [Range(start, i)]);
    assert g2.ranges[..|g2.ranges| - 1] == g.ranges;
    assert forall j :: 0 <= j < |g.ranges| ==> g2.ranges[j] == g.ranges[j];
  }

  lemma ScanNext(nodes: seq<string>, level: nat, i: nat, start: nat, g: Grouping)
    requires Scanned(nodes, level, i, true, start, g) && i < |nodes| && IsHeading(nodes[i], level)
    ensures Scanned(nodes, level, i + 1, true, i, Grouping(g.top, g.ranges + [Range(start, i)]))
  {
    ScanClose(nodes, level, i, start, g);
  }

  /** What the loop holds once every chunk is read: the open run, if any, is closed at the end. */
  function Finish(g: Grouping, found: bool, start: nat, n: nat): Grouping {
    if found then Grouping(g.top, g.ranges + [Range(start, n)]) else g
  }

  lemma ScanEnd(nodes: seq<string>, level: nat, found: bool, start: nat, g: Grouping)
    requires Scanned(nodes, level, |nodes|, found, start, g)
    ensures Cuts(nodes, level, Finish(g, found, start, |nodes|))
  {
    if found {
      ScanClose(nodes, level, |nodes|, start, g);
    }
  }

  /**
   * The loop as intended: a section runs from one heading to the next
   * heading or to the end of the text, so the section open at the end is
   * closed too.
   */
  function Group(nodes: seq<string>, level: nat, i: nat, found: bool, start: nat, g: Grouping): (r: Grouping)
    requires Scanned(nodes, level, i, found, start, g)
    ensures Cuts(nodes, level, r)
    decreases |nodes| - i
  {
    if i == |nodes| then
      ScanEnd(nodes, level, found, start, g);
      Finish(g, found, start, |nodes|)
    else if IsHeading(nodes[i], level) then
      if found then
        ScanNext(nodes, level, i, start, g);
        Group(nodes, level, i + 1, true, i, Grouping(g.top, g.ranges + [Range(start, i)]))
      else
        ScanOpen(nodes, level, i, start, g);
        Group(nodes, level, i + 1, true, i, g)
    else if found then
      ScanInside(nodes, level, i, start, g);
      Group(nodes, level, i + 1, true, start, g)
    else
      ScanTop(nodes, level, i, start, g);
      Group(nodes, level, i + 1, false, start, Grouping(g.top + [nodes[i]], g.ranges))
  }

  /** The grouping of a section's chunks, as written and as intended. */
  function GroupingAsWritten(nodes: seq<string>, level: nat): (r: Grouping)
    ensures RangesOpenAtHeadings(nodes, level, r.ranges)
  {
    GroupAsWritten(nodes, level, 0, false, 0, Grouping([], []))
  }

  function Grouped(nodes: seq<string>, level: nat): (r: Grouping)
    ensures Cuts(nodes, level, r)
  {
    assert Scanned(nodes, level, 0, false, 0, Grouping([], []));
    Group(nodes, level, 0, false, 0, Grouping([], []))
  }

  /** The text of a run of chunks, which a subsection is parsed from. */
  function RangeText(nodes: seq<string>, r: Range): string
    requires r.lo < r.hi <= |nodes|
  {
    Text.Join(Sep, nodes[r.lo..r.hi])
  }

  /** A subsection's text is no longer than its parent's, and holds a heading of the parent's level plus one. */
  lemma ChildShorter(s: string, level: nat, nodes: seq<string>, r: Range)
    requires Text.Join(Sep, nodes) == s
    requires r.lo < r.hi <= |nodes| && IsHeading(nodes[r.lo], level)
    ensures |RangeText(nodes, r)| <= |s| && level + 2 <= |s|
  {
    JoinSliceShorter(Sep, nodes, r.lo, r.hi);
  }

  /** `MarkdownSection(markdown_string, heading_level)` as written. */
  function ParseAsWritten(s: string, level: nat): Section
    decreases |s| + 2 - level, 1
  {
    var nodes := Text.Split(s, Sep);
    var g := GroupingAsWritten(nodes, level);
    Section(g.top, seq(|g.ranges|, j requires 0 <= j < |g.ranges| => ChildAsWritten(s, level, nodes, g.ranges[j])))
  }

  function ChildAsWritten(s: string, level: nat, nodes: seq<string>, r: Range): Section
    requires Text.Join(Sep, nodes) == s
    requires r.lo < r.hi <= |nodes| && IsHeading(nodes[r.lo], level)
    decreases |s| + 2 - level, 0
  {
    ChildShorter(s, level, nodes, r);
    ParseAsWritten(RangeText(nodes, r), level + 1)
  }

  /** `MarkdownSection(markdown_string, heading_level)` with the last section closed at the end of the text. */
  function Parse(s: string, level: nat): Section
    decreases |s| + 2 - level, 1
  {
    var nodes := Text.Split(s, Sep);
    var g := Grouped(nodes, level);
    Section(g.top, seq(|g.ranges|, j requires 0 <= j < |g.ranges| => Child(s, level, nodes, g.ranges[j])))
  }

  function Child(s: string, level: nat, nodes: seq<string>, r: Range): Section
    requires Text.Join(Sep, nodes) == s
    requires r.lo < r.hi <= |nodes| && IsHeading(nodes[r.lo], level)
    decreases |s| + 2 - level, 0
  {
    ChildShorter(s, level, nodes, r);
    Parse(RangeText(nodes, r), level + 1)
  }

  /** `str(section)`: the chunks, then the subsections, all joined with blank lines. */
  function Str(sec: Section): string
    decreases sec, 1
  {
    var texts := Texts(sec);
    Text.Join(Sep, sec.nodes)
      + (if |sec.nodes| > 0 && |sec.subsections| > 0 then Sep else "")
      + (if |sec.subsections| > 0 then Text.Join(Sep, texts) else "")
  }

  function Texts(sec: Section): (r: seq<string>)
    ensures |r| == |sec.subsections|
    decreases sec, 0
  {
    seq(|sec.subsections|, j requires 0 <= j < |sec.subsections| => Str(sec.subsections[j]))
  }

  /** Printing a section joins its chunks and its subsections' texts in one list. */
  lemma StrJoin(sec: Section)
    ensures Str(sec) == Text.Join(Sep, sec.nodes + Texts(sec))
  {
    if |sec.nodes| > 0 && |sec.subsections| > 0 {
      JoinConcat(Sep, sec.nodes, Texts(sec));
    } else if |sec.nodes| == 0 {
      assert sec.nodes + Texts(sec) == Texts(sec);
    } else {
      assert sec.nodes + Texts(sec) == sec.nodes;
    }
  }

  /** The texts of the runs a grouping cuts. */
  function RangeTexts(nodes: seq<string>, ranges: seq<Range>): (r: seq<string>)
    requires forall j :: 0 <= j < |ranges| ==> ranges[j].lo < ranges[j].hi <= |nodes|
    ensures |r| == |ranges|
  {
    seq(|ranges|, j requires 0 <= j < |ranges| => RangeText(nodes, ranges[j]))
  }

  /** Runs that end by `n` read the same in the first `n` chunks. */
  lemma RangeTextsPrefix(nodes: seq<string>, n: nat, ranges: seq<Range>)
    requires n <= |nodes|
    requires forall j :: 0 <= j < |ranges| ==> ranges[j].lo < ranges[j].hi <= n
    ensures RangeTexts(nodes[..n], ranges) == RangeTexts(nodes, ranges)
  {
    forall j | 0 <= j < |ranges| ensures nodes[..n][ranges[j].lo..ranges[j].hi] == nodes[ranges[j].lo..ranges[j].hi] {
    }
  }

  lemma RangeTextsSnoc(nodes: seq<string>, ranges: seq<Range>)
    requires |ranges| > 0
    requires forall j :: 0 <= j < |ranges| ==> ranges[j].lo < ranges[j].hi <= |nodes|
    ensures RangeTexts(nodes, ranges) == RangeTexts(nodes, ranges[..|ranges| - 1]) + [RangeText(nodes, ranges[|ranges| - 1])]
  {
  }

  /** Joining the pieces of a prefix and then the rest gives the join of all. */
  lemma JoinAt(nodes: seq<string>, lo: nat, pre: seq<string>)
    requires 0 < lo < |nodes| && |pre| > 0
    requires Text.Join(Sep, pre) == Text.Join(Sep, nodes[..lo])
    ensures Text.Join(Sep, pre + [Text.Join(Sep, nodes[lo..])]) == Text.Join(Sep, nodes)
  {
    JoinConcat(Sep, pre, [Text.Join(Sep, nodes[lo..])]);
    JoinConcat(Sep, nodes[..lo], nodes[lo..]);
    assert nodes[..lo] + nodes[lo..] == nodes;
  }

  /** Chunks cut into a top part and consecutive runs join back to the whole. */
  lemma {:induction false} JoinGroups(nodes: seq<string>, top: seq<string>, ranges: seq<Range>)
    requires |top| <= |nodes| && top == nodes[..|top|] && Chained(ranges, |top|, |nodes|)
    requires |nodes| > 0
    ensures forall j :: 0 <= j < |ranges| ==> ranges[j].lo < ranges[j].hi <= |nodes|
    ensures Text.Join(Sep, top + RangeTexts(nodes, ranges)) == Text.Join(Sep, nodes)
    decreases |ranges|
  {
    ChainedWithin(ranges, |top|, |nodes|);
    if |ranges| == 0 {
      assert top + RangeTexts(nodes, ranges) == nodes;
    } else {
      var init := ranges[..|ranges| - 1];
      var r := ranges[|ranges| - 1];
      ChainedWithin(init, |top|, r.lo);
      RangeTextsSnoc(nodes, ranges);
      var last := RangeText(nodes, r);
      assert top + RangeTexts(nodes, ranges) == (top + RangeTexts(nodes, init)) + [last];
      assert nodes[r.lo..r.hi] == nodes[r.lo..];
      if r.lo == 0 {
        assert top == [] && init == [];
        assert nodes[0..] == nodes;
      } else {
        var before := nodes[..r.lo];
        assert top == before[..|top|];
        JoinGroups(before, top, init);
        RangeTextsPrefix(nodes, r.lo, init);
        JoinAt(nodes, r.lo, top + RangeTexts(nodes, init));
      }
    }
  }

  /** Printing what was parsed gives back the text, at every level of the tree. */
  lemma {:induction false} ParseRoundTrip(s: string, level: nat)
    ensures Str(Parse(s, level)) == s
    decreases |s| + 2 - level
  {
    var nodes := Text.Split(s, Sep);
    var g := Grouped(nodes, level);
    var sec := Parse(s, level);
    forall j | 0 <= j < |g.ranges| ensures Texts(sec)[j] == RangeText(nodes, g.ranges[j]) {
      assert sec.subsections[j] == Child(s, level, nodes, g.ranges[j]);
      ChildShorter(s, level, nodes, g.ranges[j]);
      ParseRoundTrip(RangeText(nodes, g.ranges[j]), level + 1);
    }
    assert Texts(sec) == RangeTexts(nodes, g.ranges);
    StrJoin(sec);
    JoinGroups(nodes, g.top, g.ranges);
  }

  /** The chunks before the first heading of the next level stay in the section; each such heading opens a subsection. */
  lemma ParseShape(s: string, level: nat)
    ensures var nodes := Text.Split(s, Sep);
            var sec := Parse(s, level);
            && sec.nodes == nodes[..|sec.nodes|]
            && (forall k :: 0 <= k < |sec.nodes| ==> !IsHeading(nodes[k], level))
            && (|sec.nodes| < |nodes| ==> |sec.subsections| > 0)
  {
    var nodes := Text.Split(s, Sep);
    var g := Grouped(nodes, level);
    if |g.top| < |nodes| {
      assert |g.ranges| > 0;
    }
  }

  // ---------------------------------------------------------------------
  // The section that is never closed

  /** Two chunks without line breaks split apart at the blank line between them. */
  lemma SplitTwo(a: string, b: string)
    requires '\n' !in a && '\n' !in b
    ensures Text.Split(a + Sep + b, Sep) == [a, b]
  {
    var s := a + Sep + b;
    assert Text.OccursAt(s, Sep, |a|) by {
      assert s[|a|] == '\n' && s[|a| + 1] == '\n';
    }
    forall k | 0 <= k < |a| ensures !Text.OccursAt(s, Sep, k) {
      assert s[k + 0] == a[k] && a[k] in a && Sep[0] == '\n';
    }
    Text.FindIs(s, Sep, 0, |a|);
    assert s[|a| + |Sep|..] == b;
    assert !Text.Contains(b, Sep) by {
      forall k | 0 <= k <= |b| ensures !Text.OccursAt(b, Sep, k) {
        assert k < |b| ==> b[k + 0] != Sep[0];
      }
    }
    Text.FindIsContains(b, Sep);
    assert Text.Split(b, Sep) == [b];
    assert s[..|a|] == a;
    assert Text.Split(s, Sep) == [s[..|a|]] + Text.Split(s[|a| + |Sep|..], Sep);
  }

  /**
   * When the first heading of the next level is the last chunk, the loop
   * as written opens its section and never closes it, so printing the
   * parsed section drops that heading.
   */
  lemma TrailingHeadingLost(intro: string, heading: string)
    requires '\n' !in intro && '\n' !in heading
    requires !IsHeading(intro, 0) && IsHeading(heading, 0)
    ensures ParseAsWritten(intro + Sep + heading, 0) == Section([intro], [])
    ensures Str(ParseAsWritten(intro + Sep + heading, 0)) == intro
    ensures Str(Parse(intro + Sep + heading, 0)) == intro + Sep + heading
  {
    var s := intro + Sep + heading;
    SplitTwo(intro, heading);
    TrailingGrouping(intro, heading);
    assert Text.Join(Sep, [intro]) == intro;
    assert Str(Section([intro], [])) == intro;
    ParseRoundTrip(s, 0);
  }

  /** The loop as written over the two chunks: the heading opens a section that is never closed. */
  lemma TrailingGrouping(intro: string, heading: string)
    requires !IsHeading(intro, 0) && IsHeading(heading, 0)
    ensures GroupingAsWritten([intro, heading], 0) == Grouping([intro], [])
  {
    var nodes := [intro, heading];
    var g0 := Grouping([], []);
    var g1 := Grouping([intro], []);
    assert Grouping(g0.top + [intro], g0.ranges) == g1;
    assert GroupAsWritten(nodes, 0, 2, true, 1, g1) == g1;
    assert GroupAsWritten(nodes, 0, 1, false, 0, g1) == g1;
  }

  /**
   * When a later heading of the next level is the last chunk, the loop as
   * written closes the open section with that heading inside it: two
   * sections become one, though the text still prints back.
   */
  lemma TrailingHeadingMerged(first: string, second: string)
    requires '\n' !in first && '\n' !in second
    requires IsHeading(first, 0) && IsHeading(second, 0)
    ensures |ParseAsWritten(first + Sep + second, 0).subsections| == 1
    ensures |Parse(first + Sep + second, 0).subsections| == 2
  {
    SplitTwo(first, second);
    MergedGrouping(first, second);
  }

  lemma MergedGrouping(first: string, second: string)
    requires IsHeading(first, 0) && IsHeading(second, 0)
    ensures |GroupingAsWritten([first, second], 0).ranges| == 1
    ensures |Grouped([first, second], 0).ranges| == 2
  {
    MergedAsWritten(first, second);
    SplitAsIntended(first, second);
  }

  lemma MergedAsWritten(first: string, second: string)
    requires IsHeading(first, 0) && IsHeading(second, 0)
    ensures GroupingAsWritten([first, second], 0) == Grouping([], [Range(0, 2)])
  {
    var nodes := [first, second];
    var g0 := Grouping([], []);
    var g1 := Grouping([], [Range(0, 2)]);
    assert Grouping(g0.top, g0.ranges + [Range(0, 2)]) == g1;
    assert GroupAsWritten(nodes, 0, 2, true, 1, g1) == g1;
    assert GroupAsWritten(nodes, 0, 1, true, 0, g0) == g1;
  }

  lemma SplitAsIntended(first: string, second: string)
    requires IsHeading(first, 0) && IsHeading(second, 0)
    ensures Grouped([first, second], 0) == Grouping([], [Range(0, 1), Range(1, 2)])
  {
    var nodes := [first, second];
    var g := Grouped(nodes, 0);
    assert IsHeading(nodes[0], 0);
    assert |g.top| == 0;
    var n := |g.ranges|;
    assert n > 0;
    var last := g.ranges[n - 1];
    assert IsHeading(nodes[1], 0) && last.lo >= 1;
    assert last == Range(1, 2);
    var init := g.ranges[..n - 1];
    assert Chained(init, 0, 1);
    assert |init| > 0;
    var before := init[|init| - 1];
    assert before == Range(0, 1);
    assert Chained(init[..|init| - 1], 0, 0);
    assert |init[..|init| - 1]| == 0;
    assert init == [Range(0, 1)];
    assert g.ranges == init + [last];
  }

  /** For instance, an article whose only heading ends it loses the heading. */
  lemma TrailingHeadingExample()
    ensures Str(ParseAsWritten("Intro" + Sep + "# Title", 0)) == "Intro"
  {
    assert Text.RepeatChar('#', 1) == "#";
    assert HeadingPrefix(0) == "# ";
    assert "# Title"[..2] == "# " && "Intro"[..2][0] == 'I';
    TrailingHeadingLost("Intro", "# Title");
  }

  // ---------------------------------------------------------------------
  // Indexing

  /** A subscript: an `int`, or anything else. */
  datatype Key = IntKey(i: int) | OtherKey

  /** An assigned value: a section, a string, or anything else. */
  datatype Value = SectionValue(sec: Section) | TextValue(text: string) | OtherValue

  /** Python's list index: negative indices count from the end. */
  function ListIndex(i: int, n: nat): (r: Result<nat>)
    ensures r.Ok? <==> -(n as int) <= i < n
    ensures r.Ok? ==> r.value < n && (r.value == i || r.value == i + n)
    ensures r.Err? ==> r.error == IndexError
  {
    if 0 <= i < n then Ok(i) else if -(n as int) <= i < 0 then Ok(i + n) else Err(IndexError)
  }

  /** `section[key]`: a subsection, for an `int` key only. */
  function Get(sec: Section, key: Key): (r: Result<Section>)
    ensures key.OtherKey? ==> r == Err(TypeError)
    ensures key.IntKey? ==> (r.Ok? <==> -|sec.subsections| <= key.i < |sec.subsections|)
    ensures r.Ok? ==> r.value in sec.subsections
  {
    match key
    case OtherKey => Err(TypeError)
    case IntKey(i) =>
      var k :- ListIndex(i, |sec.subsections|);
      Ok(sec.subsections[k])
  }

  /**
   * `section[key] = value`: a section is stored as it is, a string is
   * parsed as a section of level 0, and any other value changes nothing.
   */
  function Set(sec: Section, key: Key, value: Value): (r: Result<Section>)
    ensures key.OtherKey? ==> r == Err(TypeError)
    ensures key.IntKey? && !value.OtherValue? ==> (r.Ok? <==> -|sec.subsections| <= key.i < |sec.subsections|)
    ensures r.Ok? ==> r.value.nodes == sec.nodes && |r.value.subsections| == |sec.subsections|
    ensures r.Ok? && value.OtherValue? ==> r.value == sec
  {
    match key
    case OtherKey => Err(TypeError)
    case IntKey(i) =>
      match value
      case OtherValue => Ok(sec)
      case SectionValue(child) =>
        var k :- ListIndex(i, |sec.subsections|);
        Ok(Section(sec.nodes, sec.subsections[k := child]))
      case TextValue(text) =>
        var k :- ListIndex(i, |sec.subsections|);
        Ok(Section(sec.nodes, sec.subsections[k := ParseAsWritten(text, 0)]))
  }

  /**
   * After a string is assigned to a subsection, the section prints, in
   * that subsection's place, the string as the written parser keeps it,
   * and everything else as before.
   */
  lemma SetText(sec: Section, i: int, text: string)
    requires -|sec.subsections| <= i < |sec.subsections|
    ensures Set(sec, IntKey(i), TextValue(text)).Ok?
    ensures var k := ListIndex(i, |sec.subsections|).value;
            Str(Set(sec, IntKey(i), TextValue(text)).value) == Text.Join(Sep, sec.nodes + Texts(sec)[k := Str(ParseAsWritten(text, 0))])
  {
    var k := ListIndex(i, |sec.subsections|).value;
    var child := ParseAsWritten(text, 0);
    var after := Section(sec.nodes, sec.subsections[k := child]);
    assert Set(sec, IntKey(i), TextValue(text)) == Ok(after);
    ReplacedText(sec, k, child, Str(child));
    StrJoin(after);
  }

  /**
   * Assigning `intro + "\n\n" + heading` with a lone trailing heading to
   * a subsection prints only the introduction there: the heading is lost.
   */
  lemma SetTextDropsTrailingHeading(sec: Section, i: int, intro: string, heading: string)
    requires -|sec.subsections| <= i < |sec.subsections|
    requires '\n' !in intro && '\n' !in heading
    requires !IsHeading(intro, 0) && IsHeading(heading, 0)
    ensures var k := ListIndex(i, |sec.subsections|).value;
            Str(Set(sec, IntKey(i), TextValue(intro + Sep + heading)).value) == Text.Join(Sep, sec.nodes + Texts(sec)[k := intro])
  {
    SetText(sec, i, intro + Sep + heading);
    TrailingHeadingLost(intro, heading);
  }

  lemma ReplacedText(sec: Section, k: nat, child: Section, text: string)
    requires k < |sec.subsections| && Str(child) == text
    ensures Texts(Section(sec.nodes, sec.subsections[k := child])) == Texts(sec)[k := text]
  {
  }

  // ---------------------------------------------------------------------
  // sanitise

  /** The characters `sanitise` puts a backslash before. */
  predicate Special(c: char) {
    c == '\\' || c == '_' || c == '~' || c == '|' || c == '<' || c == '>'
  }

  /** The chain of `replace` calls, the backslash first. */
  function EscapeChain(s: string): string {
    var s1 := Text.ReplaceChar(s, '\\', "\\\\");
    var s2 := Text.ReplaceChar(s1, '_', "\\_");
    var s3 := Text.ReplaceChar(s2, '~', "\\~");
    var s4 := Text.ReplaceChar(s3, '|', "\\|");
    var s5 := Text.ReplaceChar(s4, '<', "\\<");
    Text.ReplaceChar(s5, '>', "\\>")
  }

  /** `re.sub(r"!$", r"\!", s)`: `$` matches at the end and before a final line break. */
  function EscapeBang(s: string): (r: string)
    ensures Text.EndsWith(s, "!") ==> r == s[..|s| - 1] + "\\!"
    ensures Text.EndsWith(s, "!\n") ==> r == s[..|s| - 2] + "\\!\n"
    ensures !Text.EndsWith(s, "!") && !Text.EndsWith(s, "!\n") ==> r == s
  {
    Endings(s);
    if Text.EndsWith(s, "!") then s[..|s| - 1] + "\\!"
    else if Text.EndsWith(s, "!\n") then s[..|s| - 2] + "\\!\n"
    else s
  }

  /** `sanitise(string)`. */
  function Sanitise(s: string): string {
    EscapeBang(EscapeChain(s))
  }

  /** One character, escaped on its own. */
  function Escaped(c: char): (r: string)
    ensures |r| > 0 && r[|r| - 1] == c
  {
    if Special(c) then ['\\', c] else [c]
  }

  /** Each character escaped on its own, left to right. */
  function EscapeEach(s: string): string
    decreases |s|
  {
    if |s| == 0 then "" else Escaped(s[0]) + EscapeEach(s[1..])
  }

  lemma {:induction false} ReplaceCharConcat(a: string, b: string, c: char, repl: string)
    ensures Text.ReplaceChar(a + b, c, repl) == Text.ReplaceChar(a, c, repl) + Text.ReplaceChar(b, c, repl)
    decreases |a|
  {
    if |a| > 0 {
      assert (a + b)[0] == a[0] && (a + b)[1..] == a[1..] + b;
      ReplaceCharConcat(a[1..], b, c, repl);
    } else {
      assert a + b == b;
    }
  }

  lemma EscapeChainConcat(a: string, b: string)
    ensures EscapeChain(a + b) == EscapeChain(a) + EscapeChain(b)
  {
    ReplaceCharConcat(a, b, '\\', "\\\\");
    var a1, b1 := Text.ReplaceChar(a, '\\', "\\\\"), Text.ReplaceChar(b, '\\', "\\\\");
    ReplaceCharConcat(a1, b1, '_', "\\_");
    var a2, b2 := Text.ReplaceChar(a1, '_', "\\_"), Text.ReplaceChar(b1, '_', "\\_");
    ReplaceCharConcat(a2, b2, '~', "\\~");
    var a3, b3 := Text.ReplaceChar(a2, '~', "\\~"), Text.ReplaceChar(b2, '~', "\\~");
    ReplaceCharConcat(a3, b3, '|', "\\|");
    var a4, b4 := Text.ReplaceChar(a3, '|', "\\|"), Text.ReplaceChar(b3, '|', "\\|");
    ReplaceCharConcat(a4, b4, '<', "\\<");
    var a5, b5 := Text.ReplaceChar(a4, '<', "\\<"), Text.ReplaceChar(b4, '<', "\\<");
    ReplaceCharConcat(a5, b5, '>', "\\>");
  }

  /** `replace` on a text without the pattern leaves it as it is. */
  lemma ReplaceAbsent(s: string, c: char, repl: string)
    requires c !in s
    ensures Text.ReplaceChar(s, c, repl) == s
  {
  }

  /** `replace` on one character. */
  lemma ReplaceOne(c: char, x: char, repl: string)
    ensures Text.ReplaceChar([c], x, repl) == if c == x then repl else [c]
  {
    assert [c][1..] == [];
  }

  /** The chain of replacements after the first, applied to a text that none of them touches. */
  lemma LaterStagesKeep(t: string)
    requires '_' !in t && '~' !in t && '|' !in t && '<' !in t && '>' !in t
    ensures Text.ReplaceChar(Text.ReplaceChar(Text.ReplaceChar(Text.ReplaceChar(Text.ReplaceChar(
              t, '_', "\\_"), '~', "\\~"), '|', "\\|"), '<', "\\<"), '>', "\\>") == t
  {
  }

  /** The escape for one of `_ ~ | < >` contains no other of them. */
  lemma EscapeChainLater(c: char)
    requires c == '_' || c == '~' || c == '|' || c == '<' || c == '>'
    ensures Text.ReplaceChar(Text.ReplaceChar(Text.ReplaceChar(Text.ReplaceChar(Text.ReplaceChar(
              [c], '_', "\\_"), '~', "\\~"), '|', "\\|"), '<', "\\<"), '>', "\\>") == ['\\', c]
  {
    ReplaceOne(c, '_', "\\_");
    var s2 := Text.ReplaceChar([c], '_', "\\_");
    if c == '_' {
      LaterTail(s2, 0);
    } else {
      ReplaceOne(c, '~', "\\~");
      var s3 := Text.ReplaceChar(s2, '~', "\\~");
      if c == '~' {
        LaterTail(s3, 1);
      } else {
        ReplaceOne(c, '|', "\\|");
        var s4 := Text.ReplaceChar(s3, '|', "\\|");
        if c == '|' {
          LaterTail(s4, 2);
        } else {
          ReplaceOne(c, '<', "\\<");
          ReplaceOne(c, '>', "\\>");
        }
      }
    }
  }

  /** After its own stage, the escape of a special character passes the remaining stages unchanged. */
  lemma LaterTail(t: string, stage: nat)
    requires |t| == 2 && t[0] == '\\' && t[1] in "_~|"
    requires stage == 0 ==> t[1] == '_'
    requires stage == 1 ==> t[1] == '~'
    requires stage == 2 ==> t[1] == '|'
    requires stage <= 2
    ensures stage == 0 ==> Text.ReplaceChar(Text.ReplaceChar(Text.ReplaceChar(Text.ReplaceChar(
              t, '~', "\\~"), '|', "\\|"), '<', "\\<"), '>', "\\>") == t
    ensures stage == 1 ==> Text.ReplaceChar(Text.ReplaceChar(Text.ReplaceChar(
              t, '|', "\\|"), '<', "\\<"), '>', "\\>") == t
    ensures stage == 2 ==> Text.ReplaceChar(Text.ReplaceChar(t, '<', "\\<"), '>', "\\>") == t
  {
    assert '<' !in t && '>' !in t;
    assert stage < 2 ==> '|' !in t;
    assert stage < 1 ==> '~' !in t;
  }

  /** The backslash inserted for one special character is never replaced again. */
  lemma EscapeChainChar(c: char)
    ensures EscapeChain([c]) == Escaped(c)
  {
    ReplaceOne(c, '\\', "\\\\");
    var s1 := Text.ReplaceChar([c], '\\', "\\\\");
    if c == '\\' {
      LaterStagesKeep(s1);
    } else if Special(c) {
      EscapeChainLater(c);
    } else {
      LaterStagesKeep(s1);
    }
  }

  /** The chain of replacements escapes each character on its own. */
  lemma {:induction false} EscapeChainEach(s: string)
    ensures EscapeChain(s) == EscapeEach(s)
    decreases |s|
  {
    if |s| > 0 {
      assert s == [s[0]] + s[1..];
      EscapeChainConcat([s[0]], s[1..]);
      EscapeChainChar(s[0]);
      EscapeChainEach(s[1..]);
    }
  }

  lemma {:induction false} EscapeEachConcat(a: string, b: string)
    ensures EscapeEach(a + b) == EscapeEach(a) + EscapeEach(b)
    decreases |a|
  {
    if |a| > 0 {
      assert (a + b)[0] == a[0] && (a + b)[1..] == a[1..] + b;
      EscapeEachConcat(a[1..], b);
    } else {
      assert a + b == b;
    }
  }

  /** Removes each escaping backslash: a backslash stands for the character after it. */
  function Unescape(s: string): string
    decreases |s|
  {
    if |s| == 0 then ""
    else if s[0] == '\\' && |s| >= 2 then [s[1]] + Unescape(s[2..])
    else [s[0]] + Unescape(s[1..])
  }

  lemma {:induction false} UnescapeEach(s: string, tail: string)
    ensures Unescape(EscapeEach(s) + tail) == s + Unescape(tail)
    decreases |s|
  {
    if |s| > 0 {
      var e := Escaped(s[0]);
      assert EscapeEach(s) + tail == e + (EscapeEach(s[1..]) + tail);
      UnescapeEach(s[1..], tail);
      assert s == [s[0]] + s[1..];
    } else {
      assert EscapeEach(s) + tail == tail;
    }
  }

  /** The last character of an escaped text is the last character of the text. */
  lemma EscapeEachLast(s: string)
    requires |s| > 0
    ensures EscapeEach(s) == EscapeEach(s[..|s| - 1]) + Escaped(s[|s| - 1])
  {
    LastSplit(s);
    EscapeEachSnoc(s[..|s| - 1], s[|s| - 1]);
  }

  lemma LastSplit<T>(s: seq<T>)
    requires |s| > 0
    ensures s[..|s| - 1] + [s[|s| - 1]] == s
  {
  }

  lemma EscapeEachSnoc(p: string, c: char)
    ensures EscapeEach(p + [c]) == EscapeEach(p) + Escaped(c)
  {
    EscapeEachConcat(p, [c]);
    EscapeEachOne(c);
  }

  lemma EscapeEachOne(c: char)
    ensures EscapeEach([c]) == Escaped(c)
  {
    assert [c][1..] == [];
    assert EscapeEach([c]) == Escaped(c) + EscapeEach([]);
  }

  /** The two endings `!$` matches, by their last characters. */
  lemma Endings(e: string)
    ensures Text.EndsWith(e, "!") <==> |e| >= 1 && e[|e| - 1] == '!'
    ensures Text.EndsWith(e, "!\n") <==> |e| >= 2 && e[|e| - 2] == '!' && e[|e| - 1] == '\n'
  {
    if |e| >= 1 && e[|e| - 1] == '!' {
      assert e[|e| - 1..] == "!";
    }
    if |e| >= 2 && e[|e| - 2] == '!' && e[|e| - 1] == '\n' {
      assert e[|e| - 2..] == "!\n";
    }
    if Text.EndsWith(e, "!\n") {
      assert e[|e| - 2..][0] == '!';
    }
  }

  /** An escaped text ends with the last character of the text, and before it the one before that. */
  lemma EscapeEachEnd(s: string)
    requires |s| > 0
    ensures var e := EscapeEach(s); |e| > 0 && e[|e| - 1] == s[|s| - 1]
    ensures |s| == 1 && !Special(s[0]) ==> EscapeEach(s) == s
    ensures var e := EscapeEach(s); !Special(s[|s| - 1]) && |s| >= 2 ==> |e| >= 2 && e[|e| - 2] == s[|s| - 2]
  {
    var p := s[..|s| - 1];
    EscapeEachLast(s);
    if |s| >= 2 {
      EscapeEachLast(p);
    }
    if |s| == 1 {
      assert p == [];
    }
  }

  lemma UnescapeBang()
    ensures Unescape("\\!") == "!" && Unescape("\\!\n") == "!\n"
  {
    assert "\\!"[2..] == "";
    assert "\\!\n"[2..] == "\n";
    assert "\n"[1..] == "";
  }

  lemma SanitiseBang(s: string)
    requires Text.EndsWith(s, "!")
    ensures Unescape(Sanitise(s)) == s
  {
    var p := s[..|s| - 1];
    assert s == p + "!";
    EscapeChainEach(s);
    EscapeEachLast(s);
    assert s[..|s| - 1] == p;
    var e := EscapeEach(s);
    assert e == EscapeEach(p) + "!";
    Endings(e);
    assert e[..|e| - 1] == EscapeEach(p);
    UnescapeEach(p, "\\!");
    UnescapeBang();
  }

  lemma SanitiseBangLine(s: string)
    requires Text.EndsWith(s, "!\n")
    ensures Unescape(Sanitise(s)) == s
  {
    var q := s[..|s| - 2];
    assert s == q + "!\n";
    EscapeChainEach(s);
    EscapeEachLast(s);
    assert s[..|s| - 1] == q + "!";
    EscapeEachLast(q + "!");
    assert (q + "!")[..|q|] == q;
    var e := EscapeEach(s);
    assert Escaped('!') == "!" && Escaped('\n') == "\n";
    assert e == (EscapeEach(q) + "!") + "\n";
    assert e == EscapeEach(q) + "!\n";
    Endings(e);
    assert e[..|e| - 2] == EscapeEach(q);
    UnescapeEach(q, "\\!\n");
    UnescapeBang();
  }

  lemma SanitisePlain(s: string)
    requires !Text.EndsWith(s, "!") && !Text.EndsWith(s, "!\n")
    ensures Unescape(Sanitise(s)) == s
  {
    EscapeChainEach(s);
    var e := EscapeEach(s);
    Endings(s);
    Endings(e);
    if |s| > 0 {
      EscapeEachEnd(s);
    }
    assert EscapeBang(e) == e;
    UnescapeEach(s, "");
    assert e + "" == e && s + "" == s;
  }

  /** Removing the escaping backslashes from a sanitised text gives back the text. */
  lemma SanitiseRoundTrip(s: string)
    ensures Unescape(Sanitise(s)) == s
  {
    if Text.EndsWith(s, "!") {
      SanitiseBang(s);
    } else if Text.EndsWith(s, "!\n") {
      SanitiseBangLine(s);
    } else {
      SanitisePlain(s);
    }
  }

  /** A special character comes out behind a backslash, and so does a final `!`; any other character is kept. */
  lemma SanitiseOne(c: char)
    ensures Special(c) ==> Sanitise([c]) == ['\\', c]
    ensures c == '!' ==> Sanitise([c]) == "\\!"
    ensures !Special(c) && c != '!' ==> Sanitise([c]) == [c]
  {
    EscapeChainEach([c]);
    EscapeEachOne(c);
    Endings(Escaped(c));
  }

  // ---------------------------------------------------------------------
  // Icons and links

  /** The icon of one game mode. */
  function SingleModeIcon(mode: string): (r: string)
    ensures mode in {"osu", "taiko", "catch", "mania"} ==> r == "![](/wiki/shared/mode/" + mode + ".png)"
    ensures mode !in {"osu", "taiko", "catch", "mania"} ==> r == ""
  {
    if mode == "osu" then "![](/wiki/shared/mode/osu.png)"
    else if mode == "taiko" then "![](/wiki/shared/mode/taiko.png)"
    else if mode == "catch" then "![](/wiki/shared/mode/catch.png)"
    else if mode == "mania" then "![](/wiki/shared/mode/mania.png)"
    else ""
  }

  /** `mode_icon(mode)`: a list of modes gets the icon of each, separated by spaces. */
  function ModeIcon(mode: string): (r: string) {
    var parts := Text.Split(mode, ", ");
    if |parts| > 1 then Text.Join(" ", seq(|parts|, i requires 0 <= i < |parts| => SingleModeIcon(parts[i])))
    else SingleModeIcon(mode)
  }

  /**
   * A text that is no list names one mode, and the parts of a list hold
   * no `", "`, so the icon of each part is that of a single mode (the
   * source recurses on the parts).
   */
  lemma ModeIconParts(mode: string)
    ensures !Text.Contains(mode, ", ") ==> ModeIcon(mode) == SingleModeIcon(mode)
    ensures var parts := Text.Split(mode, ", ");
            forall i :: 0 <= i < |parts| ==> ModeIcon(parts[i]) == SingleModeIcon(parts[i])
  {
    var parts := Text.Split(mode, ", ");
    forall i | 0 <= i < |parts| ensures ModeIcon(parts[i]) == SingleModeIcon(parts[i]) {
      Text.FindIsContains(parts[i], ", ");
    }
    Text.FindIsContains(mode, ", ");
  }

  /** One rule of `link_icon`: what the link must look like, and the image and title it gets. */
  datatype LinkRule = LinkRule(prefix: string, anywhere: bool, name: string, title: string)

  /** The rules in the order they are tried. */
  const LinkRules: seq<LinkRule> := [
    LinkRule("https://osu.ppy.sh/beatmaps/artists/", false, "osu! original", "osu! original"),
    LinkRule("https://soundcloud.com/", false, "SoundCloud", "SoundCloud"),
    LinkRule("https://www.youtube.com/", false, "YouTube", "YouTube"),
    LinkRule("https://open.spotify.com/", false, "Spotify", "Spotify"),
    LinkRule("bandcamp.com", true, "Bandcamp", "Bandcamp"),
    LinkRule("https://assets.ppy.sh/", false, "Asset", "Audio file")
  ]

  predicate Applies(rule: LinkRule, link: string) {
    if rule.anywhere then Text.Contains(link, rule.prefix) else Text.StartsWith(link, rule.prefix)
  }

  /** The image file of a rule: the osu! original icon is `original.png`. */
  function ImageName(rule: LinkRule): string {
    if rule.name == "osu! original" then "original" else rule.name
  }

  /** The linked icon a rule produces. */
  function Icon(rule: LinkRule, link: string): (r: string)
    ensures |r| > 0
  {
    "[![" + rule.name + "](/wiki/shared/link/" + ImageName(rule) + ".png)](" + link + " \"" + rule.title + "\")"
  }

  /** The first rule that applies, trying them in order from `i`. */
  function FirstRule(link: string, i: nat): (r: Option<nat>)
    requires i <= |LinkRules|
    ensures r.Some? ==> i <= r.value < |LinkRules| && Applies(LinkRules[r.value], link)
    ensures r.Some? ==> forall j :: i <= j < r.value ==> !Applies(LinkRules[j], link)
    ensures r.None? ==> forall j :: i <= j < |LinkRules| ==> !Applies(LinkRules[j], link)
    decreases |LinkRules| - i
  {
    if i == |LinkRules| then None
    else if Applies(LinkRules[i], link) then Some(i)
    else FirstRule(link, i + 1)
  }

  /**
   * `link_icon(link)`: the chain of tests, as a table tried in order. The
   * first rule that applies gives the icon; no rule, no icon.
   */
  function LinkIcon(link: string): (r: string)
    ensures |r| == 0 <==> forall j :: 0 <= j < |LinkRules| ==> !Applies(LinkRules[j], link)
    ensures forall j :: (0 <= j < |LinkRules| && Applies(LinkRules[j], link) && (forall k :: 0 <= k < j ==> !Applies(LinkRules[k], link)))
                        ==> r == Icon(LinkRules[j], link)
  {
    match FirstRule(link, 0)
    case None => ""
    case Some(j) => Icon(LinkRules[j], link)
  }

  /** `link_icons(row)`: the icons of the non-empty link columns, in column order, separated by spaces. */
  const LinkColumns: seq<string> := ["SoundCloud", "YouTube", "Spotify", "Bandcamp", "Asset"]

  /** The cells of the given columns; a missing column is a KeyError. */
  function Cells(row: map<string, string>, columns: seq<string>): (r: Result<seq<string>>)
    ensures r.Ok? <==> forall i :: 0 <= i < |columns| ==> columns[i] in row
    ensures r.Err? ==> r.error == KeyError
    ensures r.Ok? ==> |r.value| == |columns| && forall i :: 0 <= i < |columns| ==> r.value[i] == row[columns[i]]
  {
    if |columns| == 0 then Ok([])
    else if columns[0] !in row then Err(KeyError)
    else
      var rest :- Cells(row, columns[1..]);
      Ok([row[columns[0]]] + rest)
  }

  /**
   * The non-empty links, in order: every non-empty link is kept, as often
   * as it occurs, and only the empty ones are dropped.
   */
  function NonEmpty(links: seq<string>): (r: seq<string>)
    ensures forall i :: 0 <= i < |r| ==> r[i] != ""
    ensures multiset(r) == multiset(links)["" := 0]
    ensures |r| + multiset(links)[""] == |links|
  {
    if |links| == 0 then []
    else
      var rest := NonEmpty(links[1..]);
      DropEmptyStep(links, rest);
      if links[0] == "" then rest else [links[0]] + rest
  }

  lemma DropEmptyStep(links: seq<string>, rest: seq<string>)
    requires |links| > 0
    ensures multiset(rest) == multiset(links[1..])["" := 0] ==>
      && (links[0] == "" ==> multiset(rest) == multiset(links)["" := 0])
      && (links[0] != "" ==> multiset([links[0]] + rest) == multiset(links)["" := 0])
    ensures |rest| + multiset(links[1..])[""] == |links| - 1 ==>
      && (links[0] == "" ==> |rest| + multiset(links)[""] == |links|)
      && (links[0] != "" ==> |[links[0]] + rest| + multiset(links)[""] == |links|)
  {
    assert links == [links[0]] + links[1..];
    assert multiset(links) == multiset{links[0]} + multiset(links[1..]);
  }

  /** Dropping the empty links of two lists one after the other keeps the order of the parts. */
  lemma {:induction false} NonEmptyAppend(a: seq<string>, b: seq<string>)
    ensures NonEmpty(a + b) == NonEmpty(a) + NonEmpty(b)
    decreases |a|
  {
    if |a| > 0 {
      assert (a + b)[1..] == a[1..] + b;
      NonEmptyAppend(a[1..], b);
    } else {
      assert a + b == b;
    }
  }

  /** A single link is kept exactly when it is non-empty. */
  lemma NonEmptyOne(link: string)
    ensures NonEmpty([link]) == if link == "" then [] else [link]
  {
    assert [link][1..] == [];
  }

  /** The icons of the given links, one per link. */
  function IconsOf(links: seq<string>): seq<string> {
    seq(|links|, i requires 0 <= i < |links| => LinkIcon(links[i]))
  }

  /**
   * `link_icons(row)`: the icons of the row's non-empty link columns,
   * SoundCloud, YouTube, Spotify, Bandcamp and Asset in that order,
   * separated by spaces; a missing column is a KeyError.
   */
  function LinkIcons(row: map<string, string>): (r: Result<string>)
    ensures r.Ok? <==> forall i :: 0 <= i < |LinkColumns| ==> LinkColumns[i] in row
    ensures r.Ok? <==> "SoundCloud" in row && "YouTube" in row && "Spotify" in row && "Bandcamp" in row && "Asset" in row
    ensures r.Err? ==> r.error == KeyError
    ensures r.Ok? ==> r.value == Text.Join(" ", IconsOf(NonEmpty(
      [row["SoundCloud"], row["YouTube"], row["Spotify"], row["Bandcamp"], row["Asset"]])))
  {
    var columns := LinkColumns;
    assert columns[0] == "SoundCloud" && columns[1] == "YouTube" && columns[2] == "Spotify" && columns[3] == "Bandcamp" && columns[4] == "Asset";
    var links :- Cells(row, columns);
    assert links == [row["SoundCloud"], row["YouTube"], row["Spotify"], row["Bandcamp"], row["Asset"]];
    Ok(Text.Join(" ", IconsOf(NonEmpty(links))))
  }

  /** A row with one link, in column `c`, gets that link's icon alone. */
  lemma LinkIconsOneColumn(row: map<string, string>, c: nat)
    requires c < |LinkColumns|
    requires forall i :: 0 <= i < |LinkColumns| ==> LinkColumns[i] in row && (row[LinkColumns[i]] == "" <==> i != c)
    ensures LinkIcons(row) == Ok(LinkIcon(row[LinkColumns[c]]))
  {
    var columns := LinkColumns;
    assert columns == ["SoundCloud", "YouTube", "Spotify", "Bandcamp", "Asset"];
    assert columns[0] in row && columns[1] in row && columns[2] in row && columns[3] in row && columns[4] in row;
    var links := [row["SoundCloud"], row["YouTube"], row["Spotify"], row["Bandcamp"], row["Asset"]];
    assert forall i :: 0 <= i < 5 ==> links[i] == row[columns[i]];
    OnlyOneKept(links, c);
    IconsOfOne(links[c]);
  }

  lemma IconsOfOne(link: string)
    ensures Text.Join(" ", IconsOf([link])) == LinkIcon(link)
  {
    assert IconsOf([link]) == [LinkIcon(link)];
  }

  /** A list whose only non-empty link is at `c` keeps that link alone. */
  lemma {:induction false} OnlyOneKept(links: seq<string>, c: nat)
    requires c < |links|
    requires forall i :: 0 <= i < |links| ==> (links[i] == "" <==> i != c)
    ensures NonEmpty(links) == [links[c]]
    decreases c
  {
    var tail := links[1..];
    assert forall i :: 0 <= i < |tail| ==> tail[i] == links[i + 1];
    if c == 0 {
      NonEmptyOfBlanks(tail);
    } else {
      OnlyOneKept(tail, c - 1);
    }
  }

  lemma {:induction false} NonEmptyOfBlanks(links: seq<string>)
    requires forall i :: 0 <= i < |links| ==> links[i] == ""
    ensures NonEmpty(links) == []
  {
    if |links| > 0 {
      NonEmptyOfBlanks(links[1..]);
    }
  }

  /** With no link in any column, there are no icons. */
  lemma NoLinksNoIcons(row: map<string, string>)
    requires forall i :: 0 <= i < |LinkColumns| ==> LinkColumns[i] in row && row[LinkColumns[i]] == ""
    ensures LinkIcons(row) == Ok("")
  {
    var links := Cells(row, LinkColumns).value;
    assert forall i :: 0 <= i < |links| ==> links[i] == "";
    NonEmptyOfBlanks(links);
  }

  /** `first(l)`: the first non-empty string, or `""`. */
  function First(l: seq<string>): (r: string)
    ensures r == "" <==> forall i :: 0 <= i < |l| ==> l[i] == ""
    ensures r != "" ==> exists i :: 0 <= i < |l| && l[i] == r && forall j :: 0 <= j < i ==> l[j] == ""
  {
    if |l| == 0 then ""
    else if l[0] != "" then l[0]
    else
      var r := First(l[1..]);
      assert forall i :: 1 <= i < |l| ==> l[1..][i - 1] == l[i];
      if r != "" then
        var i :| 0 <= i < |l[1..]| && l[1..][i] == r && forall j :: 0 <= j < i ==> l[1..][j] == "";
        assert l[i + 1] == r;
        r
      else r
  }

  /** `maybe_link(text, link, empty_when_no_link)`. */
  function MaybeLink(text: string, link: string, emptyWhenNoLink: bool): (r: string)
    ensures link == "" && emptyWhenNoLink ==> r == ""
    ensures link == "" && !emptyWhenNoLink ==> r == text
    ensures link != "" ==> r == "[" + text + "](" + link + ")"
  {
    if link == "" then (if emptyWhenNoLink then "" else text)
    else "[" + text + "](" + link + ")"
  }

  /** `footnote(fa_status)`. */
  function Footnote(status: string): (r: string)
    ensures status == "FA" ==> r == "[^fa]"
    ensures status == "FA_FEATURE" ==> r == "[^fa-feature]"
    ensures status != "FA" && status != "FA_FEATURE" ==> r == ""
  {
    if status == "FA" then "[^fa]"
    else if status == "FA_FEATURE" then "[^fa-feature]"
    else ""
  }

  // ---------------------------------------------------------------------
  // Table.print

  /** A table of the updater: rows are mappings from column name to cell. */
  datatype DictTable = DictTable(rows: seq<map<string, string>>, header: seq<string>, alignments: seq<string>)

  /** `_remove_placeholder`: a column name starting with `_` is printed blank. */
  function ShownName(name: string): (r: string)
    ensures Text.StartsWith(name, "_") <==> r == "" && name != ""
    ensures !Text.StartsWith(name, "_") ==> r == name
  {
    if Text.StartsWith(name, "_") then "" else name
  }

  /** The cells of every row, in header order; a row without a header column is a KeyError. */
  function RowCells(rows: seq<map<string, string>>, header: seq<string>): (r: Result<seq<seq<string>>>)
    ensures r.Ok? <==> forall i, c :: 0 <= i < |rows| && 0 <= c < |header| ==> header[c] in rows[i]
    ensures r.Err? ==> r.error == KeyError
    ensures r.Ok? ==> |r.value| == |rows| && forall i :: 0 <= i < |rows| ==> Cells(rows[i], header) == Ok(r.value[i])
  {
    if |rows| == 0 then Ok([])
    else
      var first :- Cells(rows[0], header);
      var rest :- RowCells(rows[1..], header);
      assert forall i :: 1 <= i < |rows| ==> rows[1..][i - 1] == rows[i];
      Ok([first] + rest)
  }

  /** The header as printed: placeholder names blanked. */
  function ShownHeader(header: seq<string>): (r: seq<string>)
    ensures |r| == |header|
    ensures forall c :: 0 <= c < |header| ==> r[c] == ShownName(header[c])
  {
    seq(|header|, c requires 0 <= c < |header| => ShownName(header[c]))
  }

  /** The table generator's table with the given cell rows under the shown header. */
  function AsListTable(t: DictTable, cells: seq<seq<string>>): (r: Tables.Table)
    ensures r.header == ShownHeader(t.header) && r.alignments == t.alignments
    ensures |r.rows| == |cells| && forall i :: 0 <= i < |cells| ==> r.rows[i].cells == cells[i]
  {
    Tables.Table(ShownHeader(t.header), t.alignments, seq(|cells|, i requires 0 <= i < |cells| => Templates.Row(cells[i], None)))
  }

  /**
   * `Table.print`: printed as the table generator prints, with the
   * placeholder names blanked and each row's cells looked up in header
   * order. The header line, the alignment line (`:--` for every column
   * while there are no alignments), then one line per row; a row without
   * a header column is a KeyError.
   */
  function PrintTable(t: DictTable): (r: Result<seq<string>>)
    ensures r.Ok? <==> forall i, c :: 0 <= i < |t.rows| && 0 <= c < |t.header| ==> t.header[c] in t.rows[i]
    ensures r.Err? ==> r.error == KeyError
    ensures r.Ok? ==> |r.value| == |t.rows| + 2
    ensures r.Ok? ==> r.value[0] == Tables.Line(ShownHeader(t.header))
    ensures r.Ok? && t.alignments == [] ==> r.value[1] == Tables.Line(seq(|t.header|, _ => ":--"))
    ensures r.Ok? && t.alignments != [] ==> r.value[1] == Tables.Line(t.alignments)
    ensures r.Ok? ==> forall i :: 0 <= i < |t.rows| ==> r.value[i + 2] == Tables.Line(Cells(t.rows[i], t.header).value)
  {
    var cells :- RowCells(t.rows, t.header);
    var lt := AsListTable(t, cells);
    assert Tables.Aligned(lt) == (if t.alignments != [] then t.alignments else seq(|t.header|, _ => ":--"));
    Ok(Tables.Print(lt))
  }

  /** A header name is printed blank exactly when it is a placeholder; the others are printed as they are. */
  lemma ShownHeaderBlanks(header: seq<string>, c: nat)
    requires c < |header|
    ensures ShownHeader(header)[c] == "" <==> header[c] == "" || header[c][0] == '_'
    ensures ShownHeader(header)[c] != "" ==> ShownHeader(header)[c] == header[c]
  {
    if header[c] != "" && header[c][0] == '_' {
      assert header[c][..1] == "_";
    }
  }
}

=== FILE: outcomes.dfy ===
/**
 * Optional values and Python-style failures.
 *
 * Every operation of the model that can raise in the original program
 * returns a `Result`; the error records which Python exception is raised.
 */
module Outcomes {

  datatype Option<T> = None | Some(value: T) {
    function UnwrapOr(default: T): T {
      match this
      case Some(v) => v
      case None => default
    }
  }

  /** The Python exception classes the modelled code can raise. */
  datatype PyError =
    | ValueError
    | IndexError
    | KeyError
    | TypeError
    | AttributeError
    | RuntimeError
    | StopIteration
    | OSError

  datatype Result<T> = Ok(value: T) | Err(error: PyError) {
    predicate IsFailure() {
      Err?
    }

    function PropagateFailure<U>(): Result<U>
      requires Err?
    {
      Err(error)
    }

    function Extract(): T
      requires Ok?
    {
      value
    }
  }
}

=== FILE: outdated.dfy ===
/**
 * The outdated-translation check of
 * `wikitools_cli/commands/check_outdated_articles.py`, and its two older
 * copies `wikitools_cli/check_outdated_articles.py` and
 * `wikitools_cli/check_expired_articles.py`.
 *
 * When an original article (`en.md`) changes, every translation in its
 * directory that the change did not touch must carry the front-matter
 * tags `outdated_translation: true` and `outdated_since: <hash>`. The
 * check lists the translations that lack them, validates the hashes of
 * the translations that were touched, and can write the tags itself.
 *
 * Git, the file system and YAML are parameters: `fm` gives the loaded
 * front matter of each file, `valid` says whether `git show <hash>`
 * succeeds, and the diffs, directory listings and the first commit of
 * the branch are inputs.
 */
module Outdated {
  import opened Outcomes
  import Text
  import FrontMatter
  import Paths
  import Glob
  import FileUtils
  import Sorting

  /** The marker tag. */
  const TranslationTag := "outdated_translation"
  /** The tag holding the commit since which the translation is behind. */
  const HashTag := "outdated_since"

  // ---------------------------------------------------------------------
  // Order

  /** `xs` is `ys` with some elements left out and the rest in their order. */
  predicate Subsequence<T(==)>(xs: seq<T>, ys: seq<T>)
    decreases |ys|
  {
    if |ys| == 0 then |xs| == 0
    else Subsequence(xs, ys[1..]) || (|xs| > 0 && xs[0] == ys[0] && Subsequence(xs[1..], ys[1..]))
  }

  lemma SubsequenceSkip<T>(xs: seq<T>, y: T, ys: seq<T>)
    requires Subsequence(xs, ys)
    ensures Subsequence(xs, [y] + ys)
  {
    assert ([y] + ys)[1..] == ys;
  }

  lemma SubsequenceTake<T>(x: T, xs: seq<T>, ys: seq<T>)
    requires Subsequence(xs, ys)
    ensures Subsequence([x] + xs, [x] + ys)
  {
    assert ([x] + ys)[1..] == ys;
    assert ([x] + xs)[1..] == xs;
  }

  /** A subsequence of a subsequence is a subsequence. */
  lemma {:induction false} SubsequenceTrans<T>(xs: seq<T>, ys: seq<T>, zs: seq<T>)
    requires Subsequence(xs, ys) && Subsequence(ys, zs)
    ensures Subsequence(xs, zs)
    decreases |zs|
  {
    if |zs| == 0 {
    } else if Subsequence(ys, zs[1..]) {
      SubsequenceTrans(xs, ys, zs[1..]);
    } else if |ys| > 0 && Subsequence(xs, ys[1..]) {
      SubsequenceTrans(xs, ys[1..], zs[1..]);
    } else if |ys| > 0 && |xs| > 0 {
      SubsequenceTrans(xs[1..], ys[1..], zs[1..]);
    }
  }

  /** Python's `a or b` on optional strings: `None` and `""` are false. */
  predicate Given(h: Option<string>) {
    h.Some? && h.value != ""
  }

  function Or(a: Option<string>, b: Option<string>): (r: Option<string>)
    ensures Given(r) <==> Given(a) || Given(b)
    ensures Given(a) ==> r == a
  {
    if Given(a) then a else b
  }

  /** Python's `set(xs)`. */
  function Members(xs: seq<string>): (r: set<string>)
    ensures forall f :: f in r <==> f in xs
  {
    set f | f in xs
  }

  // ---------------------------------------------------------------------
  // list_outdated_translations

  /**
   * The test of `list_outdated_translations`: no `outdated_since` key at
   * all (whatever its value), and no truthy `outdated_translation`.
   */
  predicate Untagged(m: FrontMatter.Mapping) {
    HashTag !in FrontMatter.Keys(m) && !FrontMatter.TruthyAt(m, TranslationTag)
  }

  /** A translation that must be outdated: the change did not touch it, and it is untagged. */
  predicate Stale(f: string, modified: set<string>, fm: string -> FrontMatter.Mapping) {
    f !in modified && Untagged(fm(f))
  }

  /**
   * `list_outdated_translations(all, modified)`: the stale translations,
   * in the order of `all`.
   */
  function ListOutdated(all: seq<string>, modified: set<string>, fm: string -> FrontMatter.Mapping): (r: seq<string>)
    ensures Subsequence(r, all)
    ensures forall f :: f in r <==> f in all && Stale(f, modified, fm)
  {
    if |all| == 0 then []
    else
      var rest := ListOutdated(all[1..], modified, fm);
      assert all == [all[0]] + all[1..];
      if Stale(all[0], modified, fm) then
        SubsequenceTake(all[0], rest, all[1..]);
        [all[0]] + rest
      else
        SubsequenceSkip(rest, all[0], all[1..]);
        rest
  }

  // ---------------------------------------------------------------------
  // outdate_translations

  /** Assignment keeps every key in its place; past the old end there is only the assigned key. */
  lemma SetPlaces(m: FrontMatter.Mapping, key: string, value: FrontMatter.Value)
    ensures |m| <= |FrontMatter.Set(m, key, value)| <= |m| + 1
    ensures forall i :: 0 <= i < |m| ==> FrontMatter.Set(m, key, value)[i].0 == m[i].0
    ensures forall i :: |m| <= i < |FrontMatter.Set(m, key, value)| ==> FrontMatter.Set(m, key, value)[i].0 == key
  {
    var r := FrontMatter.Set(m, key, value);
    if key in FrontMatter.Keys(m) {
      assert forall i :: 0 <= i < |m| ==> FrontMatter.Keys(r)[i] == FrontMatter.Keys(m)[i];
    }
  }

  /** Assignment: the key reads back its value, every other key reads as before, distinct keys stay distinct. */
  lemma SetReads(m: FrontMatter.Mapping, key: string, value: FrontMatter.Value)
    ensures FrontMatter.Get(FrontMatter.Set(m, key, value), key) == Some(value)
    ensures forall k :: k != key ==> FrontMatter.Get(FrontMatter.Set(m, key, value), k) == FrontMatter.Get(m, k)
    ensures FrontMatter.Distinct(m) ==> FrontMatter.Distinct(FrontMatter.Set(m, key, value))
  {
    FrontMatter.SetGet(m, key, value, key);
    forall k | k != key
      ensures FrontMatter.Get(FrontMatter.Set(m, key, value), k) == FrontMatter.Get(m, k)
    {
      FrontMatter.SetGet(m, key, value, k);
    }
    if FrontMatter.Distinct(m) {
      FrontMatter.SetDistinct(m, key, value);
    }
  }

  /**
   * The front matter `outdate_translations` saves: `outdated_translation`
   * set to true, then `outdated_since` set to the hash. Both read back;
   * every other key reads as before and keeps its place; a tag that was
   * missing is added at the end.
   */
  function Outdate(m: FrontMatter.Mapping, hash: string): (r: FrontMatter.Mapping)
    ensures FrontMatter.Get(r, TranslationTag) == Some(FrontMatter.Bool(true))
    ensures FrontMatter.Get(r, HashTag) == Some(FrontMatter.Str(hash))
    ensures forall k :: k != TranslationTag && k != HashTag ==> FrontMatter.Get(r, k) == FrontMatter.Get(m, k)
    ensures |m| <= |r| <= |m| + 2
    ensures forall i :: 0 <= i < |m| ==> r[i].0 == m[i].0
    ensures forall i :: |m| <= i < |r| ==> r[i].0 == TranslationTag || r[i].0 == HashTag
    ensures FrontMatter.Distinct(m) ==> FrontMatter.Distinct(r)
    ensures !Untagged(r)
  {
    var marked := FrontMatter.Set(m, TranslationTag, FrontMatter.Bool(true));
    SetPlaces(m, TranslationTag, FrontMatter.Bool(true));
    SetReads(m, TranslationTag, FrontMatter.Bool(true));
    SetPlaces(marked, HashTag, FrontMatter.Str(hash));
    SetReads(marked, HashTag, FrontMatter.Str(hash));
    FrontMatter.Set(marked, HashTag, FrontMatter.Str(hash))
  }

  /** The files `outdate_translations(*files, outdated_hash=hash)` writes, each with its new front matter. */
  function Writes(files: seq<string>, fm: string -> FrontMatter.Mapping, hash: string): (r: map<string, FrontMatter.Mapping>)
    ensures forall f :: f in r <==> f in files
    ensures forall f :: f in r ==> r[f] == Outdate(fm(f), hash)
  {
    map f | f in files :: Outdate(fm(f), hash)
  }

  /** The front matter after the writes. */
  function Apply(fm: string -> FrontMatter.Mapping, written: map<string, FrontMatter.Mapping>): string -> FrontMatter.Mapping {
    (f: string) => if f in written then written[f] else fm(f)
  }

  /**
   * After outdating, listing again finds exactly the stale translations
   * that were not written: outdating what the listing found leaves
   * nothing to outdate.
   */
  lemma ListedOnceOnly(all: seq<string>, modified: set<string>, fm: string -> FrontMatter.Mapping, files: seq<string>, hash: string)
    ensures forall f :: (f in ListOutdated(all, modified, Apply(fm, Writes(files, fm, hash)))
      <==> f in ListOutdated(all, modified, fm) && f !in files)
  {
    var after := Apply(fm, Writes(files, fm, hash));
    forall f ensures Stale(f, modified, after) <==> Stale(f, modified, fm) && f !in files {
      if f in files {
        assert after(f) == Outdate(fm(f), hash);
      }
    }
  }

  // ---------------------------------------------------------------------
  // check_commit_hashes

  /**
   * `front_matter.get("outdated_since")`: `None` both when the key is
   * missing and when its value is YAML null.
   */
  function HashOf(m: FrontMatter.Mapping): (r: Option<FrontMatter.Value>)
    ensures r.None? <==> FrontMatter.Get(m, HashTag) in {None, Some(FrontMatter.Null)}
    ensures r.Some? ==> FrontMatter.Get(m, HashTag) == Some(r.value)
  {
    match FrontMatter.Get(m, HashTag)
    case None => None
    case Some(v) => if v.Null? then None else Some(v)
  }

  /** A hash git rejects. */
  predicate BadHash(m: FrontMatter.Mapping, valid: FrontMatter.Value -> bool) {
    HashOf(m).Some? && !valid(HashOf(m).value)
  }

  /** The reference answer: the files whose hash git rejects, in order. */
  function Rejected(files: seq<string>, fm: string -> FrontMatter.Mapping, valid: FrontMatter.Value -> bool): (r: seq<string>)
    ensures Subsequence(r, files)
    ensures forall f :: f in r <==> f in files && BadHash(fm(f), valid)
  {
    if |files| == 0 then []
    else
      var rest := Rejected(files[1..], fm, valid);
      assert files == [files[0]] + files[1..];
      if BadHash(fm(files[0]), valid) then
        SubsequenceTake(files[0], rest, files[1..]);
        [files[0]] + rest
      else
        SubsequenceSkip(rest, files[0], files[1..]);
        rest
  }

  /** Some file among `files` carries hash `h`. */
  predicate Carries(files: seq<string>, fm: string -> FrontMatter.Mapping, h: FrontMatter.Value) {
    exists i :: 0 <= i < |files| && HashOf(fm(files[i])) == Some(h)
  }

  /** A list or a mapping cannot go in a Python set: looking it up in the cache raises TypeError. */
  predicate Unhashable(files: seq<string>, fm: string -> FrontMatter.Mapping) {
    exists i :: 0 <= i < |files| && HashOf(fm(files[i])).Some? && HashOf(fm(files[i])).value.Collection?
  }

  lemma CarriesCons(files: seq<string>, fm: string -> FrontMatter.Mapping, h: FrontMatter.Value)
    requires |files| > 0
    ensures Carries(files, fm, h) <==> HashOf(fm(files[0])) == Some(h) || Carries(files[1..], fm, h)
    ensures Unhashable(files, fm) <==>
      (HashOf(fm(files[0])).Some? && HashOf(fm(files[0])).value.Collection?) || Unhashable(files[1..], fm)
  {
    if Carries(files, fm, h) && HashOf(fm(files[0])) != Some(h) {
      var i :| 0 <= i < |files| && HashOf(fm(files[i])) == Some(h);
      assert files[1..][i - 1] == files[i];
    }
    if Carries(files[1..], fm, h) {
      var i :| 0 <= i < |files[1..]| && HashOf(fm(files[1..][i])) == Some(h);
      assert files[i + 1] == files[1..][i];
    }
    if Unhashable(files, fm) && !(HashOf(fm(files[0])).Some? && HashOf(fm(files[0])).value.Collection?) {
      var i :| 0 <= i < |files| && HashOf(fm(files[i])).Some? && HashOf(fm(files[i])).value.Collection?;
      assert files[1..][i - 1] == files[i];
    }
    if Unhashable(files[1..], fm) {
      var i :| 0 <= i < |files[1..]| && HashOf(fm(files[1..][i])).Some? && HashOf(fm(files[1..][i])).value.Collection?;
      assert files[i + 1] == files[1..][i];
    }
  }

  /** What `check_commit_hashes` yields, and the hashes it asked git about, in order. */
  datatype Checked = Checked(flagged: seq<string>, queried: seq<FrontMatter.Value>)

  /**
   * The loop of `check_commit_hashes` with its two caches: a hash known to
   * be good is skipped, one known to be bad flags the file at once, and
   * only a new hash is put to git. The caches never change the answer.
   */
  function CheckFrom(files: seq<string>, fm: string -> FrontMatter.Mapping, valid: FrontMatter.Value -> bool,
                     good: set<FrontMatter.Value>, bad: set<FrontMatter.Value>): (r: Result<Checked>)
    requires forall h :: h in good ==> valid(h)
    requires forall h :: h in bad ==> !valid(h)
    ensures r.Err? <==> Unhashable(files, fm)
    ensures r.Err? ==> r.error == TypeError
    ensures r.Ok? ==> r.value.flagged == Rejected(files, fm, valid)
    decreases |files|
  {
    if |files| == 0 then Ok(Checked([], []))
    else
      var f := files[0];
      var h := HashOf(fm(f));
      CarriesCons(files, fm, FrontMatter.Null);
      if h.None? then
        CheckFrom(files[1..], fm, valid, good, bad)
      else if h.value.Collection? then
        Err(TypeError)
      else if h.value in good then
        CheckFrom(files[1..], fm, valid, good, bad)
      else if h.value in bad then
        var rest :- CheckFrom(files[1..], fm, valid, good, bad);
        Ok(Checked([f] + rest.flagged, rest.queried))
      else if valid(h.value) then
        var rest :- CheckFrom(files[1..], fm, valid, good + {h.value}, bad);
        Ok(Checked(rest.flagged, [h.value] + rest.queried))
      else
        var rest :- CheckFrom(files[1..], fm, valid, good, bad + {h.value});
        Ok(Checked([f] + rest.flagged, [h.value] + rest.queried))
  }

  /** The hashes put to git are distinct, and are exactly those the files carry that neither cache knows. */
  ghost predicate QueriedOnce(queried: seq<FrontMatter.Value>, files: seq<string>, fm: string -> FrontMatter.Mapping,
                        known: set<FrontMatter.Value>) {
    && (forall i, j :: 0 <= i < j < |queried| ==> queried[i] != queried[j])
    && (forall h :: h in queried <==> h !in known && Carries(files, fm, h))
  }

  /** A first file whose hash is missing or already known adds no query. */
  lemma QueriedSkip(queried: seq<FrontMatter.Value>, files: seq<string>, fm: string -> FrontMatter.Mapping,
                    known: set<FrontMatter.Value>)
    requires |files| > 0 && QueriedOnce(queried, files[1..], fm, known)
    requires HashOf(fm(files[0])).None? || HashOf(fm(files[0])).value in known
    ensures QueriedOnce(queried, files, fm, known)
  {
    forall v ensures Carries(files, fm, v) <==> HashOf(fm(files[0])) == Some(v) || Carries(files[1..], fm, v) {
      CarriesCons(files, fm, v);
    }
  }

  /** A first file with a new hash adds that hash as the first query. */
  lemma QueriedNew(queried: seq<FrontMatter.Value>, files: seq<string>, fm: string -> FrontMatter.Mapping,
                   known: set<FrontMatter.Value>, h: FrontMatter.Value)
    requires |files| > 0 && HashOf(fm(files[0])) == Some(h) && h !in known
    requires QueriedOnce(queried, files[1..], fm, known + {h})
    ensures QueriedOnce([h] + queried, files, fm, known)
  {
    forall v ensures Carries(files, fm, v) <==> h == v || Carries(files[1..], fm, v) {
      CarriesCons(files, fm, v);
    }
    var q := [h] + queried;
    forall i, j | 0 <= i < j < |q| ensures q[i] != q[j] {
      if i == 0 {
        assert q[j] == queried[j - 1];
      }
    }
  }

  /** Git sees each hash the caches do not yet hold exactly once. */
  lemma {:induction false} CheckFromQueries(files: seq<string>, fm: string -> FrontMatter.Mapping, valid: FrontMatter.Value -> bool,
                                            good: set<FrontMatter.Value>, bad: set<FrontMatter.Value>)
    requires forall h :: h in good ==> valid(h)
    requires forall h :: h in bad ==> !valid(h)
    ensures CheckFrom(files, fm, valid, good, bad).Ok? ==>
      QueriedOnce(CheckFrom(files, fm, valid, good, bad).value.queried, files, fm, good + bad)
    decreases |files|
  {
    var r := CheckFrom(files, fm, valid, good, bad);
    if |files| > 0 && r.Ok? {
      var h := HashOf(fm(files[0]));
      if h.None? || h.value in good || h.value in bad {
        CheckFromQueries(files[1..], fm, valid, good, bad);
        QueriedSkip(r.value.queried, files, fm, good + bad);
      } else if valid(h.value) {
        CheckFromQueries(files[1..], fm, valid, good + {h.value}, bad);
        assert good + {h.value} + bad == good + bad + {h.value};
        QueriedNew(CheckFrom(files[1..], fm, valid, good + {h.value}, bad).value.queried, files, fm, good + bad, h.value);
      } else {
        CheckFromQueries(files[1..], fm, valid, good, bad + {h.value});
        assert good + (bad + {h.value}) == good + bad + {h.value};
        QueriedNew(CheckFrom(files[1..], fm, valid, good, bad + {h.value}).value.queried, files, fm, good + bad, h.value);
      }
    }
  }

  /**
   * `check_commit_hashes(files)`: the files whose hash git rejects, in
   * order; every distinct hash among the files goes to git exactly once.
   */
  function CheckHashes(files: seq<string>, fm: string -> FrontMatter.Mapping, valid: FrontMatter.Value -> bool): (r: Result<Checked>)
    ensures r.Err? <==> Unhashable(files, fm)
    ensures r.Err? ==> r.error == TypeError
    ensures r.Ok? ==> Subsequence(r.value.flagged, files)
    ensures r.Ok? ==> forall f :: f in r.value.flagged <==> f in files && BadHash(fm(f), valid)
    ensures r.Ok? ==> forall i, j :: 0 <= i < j < |r.value.queried| ==> r.value.queried[i] != r.value.queried[j]
    ensures r.Ok? ==> forall h :: h in r.value.queried <==> Carries(files, fm, h)
  {
    CheckFromQueries(files, fm, valid, {}, {});
    CheckFrom(files, fm, valid, {}, {})
  }

  // ---------------------------------------------------------------------
  // path_match and --exclude

  /** `s.removeprefix(prefix)`. */
  function RemovePrefix(s: string, prefix: string): (r: string)
    ensures Text.StartsWith(s, prefix) ==> prefix + r == s
    ensures !Text.StartsWith(s, prefix) ==> r == s
  {
    if Text.StartsWith(s, prefix) then
      assert s == s[..|prefix|] + s[|prefix|..];
      s[|prefix|..]
    else s
  }

  /**
   * One pattern against one path, as the condition of `path_match` reads
   * it: the path equals the pattern, or their common path (with `\` read
   * as `/`) is the pattern, or the pattern matches as a glob. `or` stops
   * at the first true test, so the ValueError `commonpath` raises for an
   * absolute path beside a relative one escapes only when the two differ.
   */
  function Hit(path: string, pattern: string): (r: Result<bool>)
    ensures path == pattern ==> r == Ok(true)
    ensures r.Err? <==> path != pattern && Text.StartsWith(path, "/") != Text.StartsWith(pattern, "/")
    ensures r.Err? ==> r.error == ValueError
    ensures r.Ok? && Glob.Match(path, pattern) ==> r.value
  {
    if path == pattern then Ok(true)
    else
      var common :- Paths.CommonPath(path, pattern);
      Ok(Text.ReplaceChar(common, '\\', "/") == pattern || Glob.Match(path, pattern))
  }

  /** Entry `i` is the first whose test is not plainly false. */
  predicate FirstNotFalse(patterns: seq<string>, hit: string -> Result<bool>, i: int) {
    && 0 <= i < |patterns|
    && hit(patterns[i]) != Ok(false)
    && forall j :: 0 <= j < i ==> hit(patterns[j]) == Ok(false)
  }

  /** The inner loop of `path_match`: the first pattern that hits returns true; an error escapes at once. */
  function FirstHit(patterns: seq<string>, hit: string -> Result<bool>): (r: Result<bool>)
    ensures r == Ok(false) <==> forall i :: 0 <= i < |patterns| ==> hit(patterns[i]) == Ok(false)
    ensures r != Ok(false) ==> exists i :: FirstNotFalse(patterns, hit, i) && r == hit(patterns[i])
  {
    if |patterns| == 0 then Ok(false)
    else
      var rest := FirstHit(patterns[1..], hit);
      var first := hit(patterns[0]);
      if first != Ok(false) then
        assert FirstNotFalse(patterns, hit, 0);
        first
      else
        assert forall i :: 1 <= i < |patterns| ==> patterns[i] == patterns[1..][i - 1];
        assert rest != Ok(false) ==> exists i :: FirstNotFalse(patterns, hit, i) && rest == hit(patterns[i]) by {
          if rest != Ok(false) {
            var i :| FirstNotFalse(patterns[1..], hit, i) && rest == hit(patterns[1..][i]);
            assert FirstNotFalse(patterns, hit, i + 1);
          }
        }
        rest
  }

  /**
   * `path_match(file, patterns)`: the file path is tried first, then the
   * path without its `wiki/` prefix, each against every pattern in turn.
   * It is false exactly when every test of both is plainly false.
   */
  function PathMatch(file: string, patterns: seq<string>): (r: Result<bool>)
    ensures r == Ok(false) <==> forall i :: 0 <= i < |patterns| ==>
      Hit(file, patterns[i]) == Ok(false) && Hit(RemovePrefix(file, "wiki/"), patterns[i]) == Ok(false)
    ensures r.Err? ==> r.error == ValueError
  {
    var whole := FirstHit(patterns, (p: string) => Hit(file, p));
    if whole.Err? then
      assert whole.error == ValueError by {
        var i :| FirstNotFalse(patterns, (p: string) => Hit(file, p), i) && whole == Hit(file, patterns[i]);
      }
      whole
    else if whole.value then Ok(true)
    else
      var stripped := FirstHit(patterns, (p: string) => Hit(RemovePrefix(file, "wiki/"), p));
      assert stripped.Err? ==> stripped.error == ValueError by {
        if stripped.Err? {
          var i :| FirstNotFalse(patterns, (p: string) => Hit(RemovePrefix(file, "wiki/"), p), i)
            && stripped == Hit(RemovePrefix(file, "wiki/"), patterns[i]);
        }
      }
      stripped
  }

  /** With one pattern, `path_match` is the test of the path, or failing that, of the path without `wiki/`. */
  lemma PathMatchOne(file: string, pattern: string)
    ensures PathMatch(file, [pattern]) ==
      if Hit(file, pattern) != Ok(false) then Hit(file, pattern) else Hit(RemovePrefix(file, "wiki/"), pattern)
  {
    assert [pattern][1..] == [];
    assert FirstHit([pattern], (p: string) => Hit(file, p)) == Hit(file, pattern);
    assert FirstHit([pattern], (p: string) => Hit(RemovePrefix(file, "wiki/"), p)) == Hit(RemovePrefix(file, "wiki/"), pattern);
  }

  /** Two relative paths never make `commonpath` raise; their common path joins their common leading components. */
  lemma CommonOfRelative(a: string, b: string, ca: seq<string>, cb: seq<string>)
    requires !Text.StartsWith(a, "/") && !Text.StartsWith(b, "/")
    requires Paths.Components(a) == ca && Paths.Components(b) == cb
    ensures Paths.CommonPath(a, b) == Ok(Text.Join("/", Paths.CommonPrefix(ca, cb)))
  {
    assert "" + Text.Join("/", Paths.CommonPrefix(ca, cb)) == Text.Join("/", Paths.CommonPrefix(ca, cb));
  }

  /** A literal pattern that is neither the path nor its common path with the path does not hit. */
  lemma LiteralMiss(path: string, pattern: string, common: string)
    requires path != pattern && Glob.Literal(pattern)
    requires Paths.CommonPath(path, pattern) == Ok(common)
    requires '\\' !in common && common != pattern
    ensures Hit(path, pattern) == Ok(false)
  {
    Glob.MatchLiteral(path, pattern);
  }

  /** A directory pattern hits every path beneath it, and the directory itself. */
  lemma DirectoryHit(dir: seq<string>, rest: seq<string>)
    requires Paths.AllPlain(dir) && Paths.AllPlain(rest) && dir != []
    requires '\\' !in Text.Join("/", dir)
    ensures Hit(Text.Join("/", dir + rest), Text.Join("/", dir)) == Ok(true)
  {
    if Text.Join("/", dir + rest) != Text.Join("/", dir) {
      Paths.CommonPathBeneath(dir, rest);
    }
  }

  /** A directory pattern excludes every file beneath it (and the directory itself). */
  lemma DirectoryExcludes(dir: seq<string>, rest: seq<string>)
    requires Paths.AllPlain(dir) && Paths.AllPlain(rest) && dir != []
    requires '\\' !in Text.Join("/", dir)
    ensures PathMatch(Text.Join("/", dir + rest), [Text.Join("/", dir)]) == Ok(true)
  {
    DirectoryHit(dir, rest);
    PathMatchOne(Text.Join("/", dir + rest), Text.Join("/", dir));
  }

  /** The `wiki/` prefix may be left out of a pattern: the path is tried again without it. */
  lemma WikiPrefixOptional(dir: seq<string>, rest: seq<string>)
    requires Paths.AllPlain(dir) && Paths.AllPlain(rest) && dir != []
    requires '\\' !in Text.Join("/", dir)
    ensures PathMatch("wiki/" + Text.Join("/", dir + rest), [Text.Join("/", dir)]) == Ok(true)
  {
    var inner := Text.Join("/", dir + rest);
    var path := "wiki/" + inner;
    var pattern := Text.Join("/", dir);
    Paths.JoinPlainStart(dir);
    assert path[0] == 'w' && pattern[0] != '/';
    assert Text.StartsWith(path, "wiki/");
    assert RemovePrefix(path, "wiki/") == inner;
    DirectoryHit(dir, rest);
    PathMatchOne(path, pattern);
  }

  /** `wiki` and `p` joined with `/`. */
  lemma WikiPatternJoin(p: string)
    ensures Text.Join("/", ["wiki", p]) == "wiki/" + p
  {
    assert ["wiki", p][1..] == [p];
    assert Text.Join("/", [p]) == p;
  }

  /** `wiki/` followed by a literal is literal. */
  lemma WikiPatternLiteral(p: string)
    requires Glob.Literal(p)
    ensures Glob.Literal("wiki/" + p)
  {
    assert forall x :: x in "wiki/" + p ==> x in "wiki/" || x in p;
    assert '*' !in "wiki/" && '?' !in "wiki/";
  }

  /** The components of `wiki/` followed by a plain component. */
  lemma WikiPatternComponents(p: string)
    requires Paths.Plain(p)
    ensures Paths.Components("wiki/" + p) == ["wiki", p]
  {
    assert Paths.AllPlain(["wiki", p]);
    Paths.ComponentsOfJoin(["wiki", p]);
    WikiPatternJoin(p);
  }

  /** A path that starts with `w` is relative. */
  lemma StartsWithW(s: string)
    requires |s| > 0 && s[0] == 'w'
    ensures !Text.StartsWith(s, "/")
  {
    assert s[..1][0] == 'w';
  }

  /** The path of components `wiki`, `c` and `rest` is `wiki/` followed by the path of `c` and `rest`. */
  lemma WikiPathJoin(c: string, rest: seq<string>)
    ensures Text.Join("/", ["wiki", c] + rest) == "wiki/" + Text.Join("/", [c] + rest)
  {
    assert (["wiki", c] + rest)[1..] == [c] + rest;
  }

  /** The components of that path, with and without its `wiki/` prefix; the shorter one is relative. */
  lemma WikiPathComponents(c: string, rest: seq<string>)
    requires Paths.AllPlain([c] + rest)
    ensures Paths.Components("wiki/" + Text.Join("/", [c] + rest)) == ["wiki", c] + rest
    ensures Paths.Components(Text.Join("/", [c] + rest)) == [c] + rest
    ensures !Text.StartsWith(Text.Join("/", [c] + rest), "/")
  {
    assert Paths.AllPlain(["wiki", c] + rest);
    Paths.ComponentsOfJoin(["wiki", c] + rest);
    Paths.ComponentsOfJoin([c] + rest);
    Paths.JoinPlainStart([c] + rest);
    WikiPathJoin(c, rest);
  }

  /** The common leading components of the two paths of `PartialComponentMisses`. */
  lemma PartialPrefixes(c: string, p: string, rest: seq<string>)
    requires p != c && c != "wiki"
    ensures Paths.CommonPrefix(["wiki", c] + rest, ["wiki", p]) == ["wiki"]
    ensures Paths.CommonPrefix([c] + rest, ["wiki", p]) == []
  {
    assert (["wiki", c] + rest)[1..] == [c] + rest;
    assert ["wiki", p][1..] == [p];
    assert Paths.CommonPrefix([c] + rest, [p]) == [];
  }

  /** The common paths of `PartialComponentMisses`, and that neither path is the pattern. */
  lemma PartialCommon(c: string, p: string, rest: seq<string>)
    requires Paths.AllPlain([c] + rest) && Paths.Plain(p)
    requires p != c && c != "wiki"
    ensures Paths.CommonPath("wiki/" + Text.Join("/", [c] + rest), "wiki/" + p) == Ok("wiki")
    ensures Paths.CommonPath(Text.Join("/", [c] + rest), "wiki/" + p) == Ok("")
    ensures "wiki/" + Text.Join("/", [c] + rest) != "wiki/" + p
    ensures Text.Join("/", [c] + rest) != "wiki/" + p
  {
    var inner := Text.Join("/", [c] + rest);
    var path := "wiki/" + inner;
    var pattern := "wiki/" + p;
    WikiPatternComponents(p);
    StartsWithW(pattern);
    WikiPathComponents(c, rest);
    PartialPrefixes(c, p, rest);
    StartsWithW(path);
    CommonOfRelative(path, pattern, ["wiki", c] + rest, ["wiki", p]);
    CommonOfRelative(inner, pattern, [c] + rest, ["wiki", p]);
    assert Text.Join("/", ["wiki"]) == "wiki";
    assert (["wiki", c] + rest)[1] == c && ["wiki", p][1] == p;
    assert ([c] + rest)[0] == c;
  }

  /**
   * A pattern that stops inside a component matches nothing beneath it:
   * `wiki/First_art` leaves `wiki/First_article/fr.md` alone.
   */
  lemma PartialComponentMisses(c: string, p: string, rest: seq<string>)
    requires Paths.AllPlain([c] + rest) && Paths.Plain(p) && Glob.Literal(p)
    requires p != c && c != "wiki"
    ensures PathMatch(Text.Join("/", ["wiki", c] + rest), [Text.Join("/", ["wiki", p])]) == Ok(false)
  {
    var inner := Text.Join("/", [c] + rest);
    var path := "wiki/" + inner;
    var pattern := "wiki/" + p;
    assert Text.Join("/", ["wiki", c] + rest) == path && Text.Join("/", ["wiki", p]) == pattern by {
      WikiPatternJoin(p);
      WikiPathJoin(c, rest);
    }
    assert Hit(path, pattern) == Ok(false) && Hit(inner, pattern) == Ok(false) by {
      WikiPatternLiteral(p);
      PartialCommon(c, p, rest);
      assert "wiki"[0] != pattern[4];
      LiteralMiss(path, pattern, "wiki");
      LiteralMiss(inner, pattern, "");
    }
    assert RemovePrefix(path, "wiki/") == inner by {
      assert path[..5] == "wiki/";
    }
    MissBoth(path, inner, pattern);
  }

  /** Both tests plainly false: `path_match` is false. */
  lemma MissBoth(path: string, inner: string, pattern: string)
    requires RemovePrefix(path, "wiki/") == inner
    requires Hit(path, pattern) == Ok(false) && Hit(inner, pattern) == Ok(false)
    ensures PathMatch(path, [pattern]) == Ok(false)
  {
    PathMatchOne(path, pattern);
  }

  /** `*` matches every relative path, across `/`. */
  lemma StarMatchesRelative(path: string)
    requires !Text.StartsWith(path, "/")
    ensures PathMatch(path, ["*"]) == Ok(true)
  {
    Glob.MatchStar(path);
    PathMatchOne(path, "*");
  }

  /** A relative pattern against an absolute path: `commonpath` raises ValueError, and so does `path_match`. */
  lemma AbsolutePathRaises(path: string)
    requires Text.StartsWith(path, "/")
    ensures PathMatch(path, ["*"]) == Err(ValueError)
  {
    assert path[0] == '/';
    PathMatchOne(path, "*");
  }

  // The pattern wiki/*/fr.md matches the French translation of every article, however deep.
  lemma GlobAcrossDirectories(middle: string)
    ensures PathMatch("wiki/" + middle + "/fr.md", ["wiki/*/fr.md"]) == Ok(true)
  {
    var path := "wiki/" + middle + "/fr.md";
    assert Glob.Literal("wiki/") && Glob.Literal("/fr.md");
    Glob.MatchAround("wiki/", middle, "/fr.md");
    assert "wiki/" + "*" + "/fr.md" == "wiki/*/fr.md";
    assert path[0] == 'w';
    PathMatchOne(path, "wiki/*/fr.md");
  }

  /** The translations `--exclude` keeps, and how many it skipped. */
  datatype Exclusion = Exclusion(kept: seq<string>, skipped: nat)

  /**
   * A partition loop over a test that may raise: every candidate either
   * is kept, in order, or counts as skipped; the first error escapes.
   */
  function Partition(candidates: seq<string>, test: string -> Result<bool>): (r: Result<Exclusion>)
    ensures r.Err? <==> exists i :: 0 <= i < |candidates| && test(candidates[i]).Err?
    ensures r.Err? ==> exists i :: 0 <= i < |candidates| && test(candidates[i]) == Err(r.error)
    ensures r.Ok? ==> |r.value.kept| + r.value.skipped == |candidates|
    ensures r.Ok? ==> Subsequence(r.value.kept, candidates)
    ensures r.Ok? ==> forall f :: f in r.value.kept <==> f in candidates && test(f) == Ok(false)
  {
    if |candidates| == 0 then Ok(Exclusion([], 0))
    else
      var m := test(candidates[0]);
      assert candidates == [candidates[0]] + candidates[1..];
      assert forall i :: 1 <= i < |candidates| ==> candidates[i] == candidates[1..][i - 1];
      if m.Err? then Err(m.error)
      else
        var rest :- Partition(candidates[1..], test);
        if m.value then
          SubsequenceSkip(rest.kept, candidates[0], candidates[1..]);
          Ok(Exclusion(rest.kept, rest.skipped + 1))
        else
          SubsequenceTake(candidates[0], rest.kept, candidates[1..]);
          Ok(Exclusion([candidates[0]] + rest.kept, rest.skipped))
  }

  /**
   * The `--exclude` loop of `main`: the candidates `path_match` rejects
   * are kept in order, the others counted as skipped; the ValueError of
   * `commonpath` escapes.
   */
  function Exclude(candidates: seq<string>, patterns: seq<string>): (r: Result<Exclusion>)
    ensures r.Err? <==> exists i :: 0 <= i < |candidates| && PathMatch(candidates[i], patterns).Err?
    ensures r.Err? ==> r.error == ValueError
    ensures r.Ok? ==> |r.value.kept| + r.value.skipped == |candidates|
    ensures r.Ok? ==> Subsequence(r.value.kept, candidates)
    ensures r.Ok? ==> forall f :: f in r.value.kept <==> f in candidates && PathMatch(f, patterns) == Ok(false)
  {
    Partition(candidates, (f: string) => PathMatch(f, patterns))
  }

  /** Without `--exclude` every candidate is kept. */
  lemma {:induction false} NoPatternsKeepAll(candidates: seq<string>)
    ensures Exclude(candidates, []) == Ok(Exclusion(candidates, 0))
  {
    if |candidates| > 0 {
      NoPatternsKeepAll(candidates[1..]);
      assert [candidates[0]] + candidates[1..] == candidates;
    }
  }

  // ---------------------------------------------------------------------
  // main

  /**
   * What `main` learns from git and the file system: the changed wiki
   * files and the changed originals since the base commit, every
   * translation (for `--all`), the directory listings, each file's front
   * matter, the hashes `git show` accepts, and the first commit of the
   * branch (`get_first_branch_commit`, `None` when there is none).
   */
  datatype Repository = Repository(
    changed: seq<string>,
    changedOriginals: seq<string>,
    everyTranslation: seq<string>,
    listing: string -> seq<string>,
    fm: string -> FrontMatter.Mapping,
    valid: FrontMatter.Value -> bool,
    firstBranchCommit: Option<string>)

  /** The options `main` reads: `--outdated-since`, `--all`, `--autofix`, and the brace-expanded `--exclude` masks. */
  datatype Options = Options(outdatedSince: Option<string>, all: bool, autofix: bool, exclude: seq<string>)

  /** The exit code, the flagged files, the files to outdate, the hash suggested or written, and the files written. */
  datatype Report = Report(
    exitCode: nat,
    badHashes: seq<string>,
    toOutdate: seq<string>,
    hash: Option<string>,
    written: map<string, FrontMatter.Mapping>)

  /** `filter(is_translation, changed)`: the changed translations, in order. */
  function ModifiedTranslations(changed: seq<string>): (r: seq<string>)
    ensures Subsequence(r, changed)
    ensures forall f :: f in r <==> f in changed && FileUtils.IsTranslation(f)
  {
    if |changed| == 0 then []
    else
      var rest := ModifiedTranslations(changed[1..]);
      assert changed == [changed[0]] + changed[1..];
      if FileUtils.IsTranslation(changed[0]) then
        SubsequenceTake(changed[0], rest, changed[1..]);
        [changed[0]] + rest
      else
        SubsequenceSkip(rest, changed[0], changed[1..]);
        rest
  }

  /** `os.path.dirname` of each path. */
  function Dirnames(paths: seq<string>): (r: seq<string>)
    ensures |r| == |paths|
    ensures forall i :: 0 <= i < |paths| ==> r[i] == Paths.Dirname(paths[i])
  {
    seq(|paths|, i requires 0 <= i < |paths| => Paths.Dirname(paths[i]))
  }

  /** `list_all_translations(sorted(dirname(f) for f in changed originals))`. */
  function Candidates(originals: seq<string>, listing: string -> seq<string>): seq<string> {
    FileUtils.ListAllTranslations(Sorting.SortStrings(Dirnames(originals)), listing)
  }

  /** The files whose hashes are validated: every translation with `--all`, else the changed translations. */
  function Validated(repo: Repository, opts: Options): seq<string> {
    if opts.all then repo.everyTranslation else ModifiedTranslations(repo.changed)
  }

  /** The translations `list_outdated_translations` skips as modified: none with `--all`. */
  function Modified(repo: Repository, opts: Options): set<string> {
    if opts.all then {} else Members(ModifiedTranslations(repo.changed))
  }

  /**
   * The exit-code rule of `main`, on its three facts: whether some hash
   * is bad, whether translations are left to outdate, and whether
   * `--autofix` has a hash to write.
   */
  function ExitCode(badHashes: bool, toOutdate: bool, autofix: bool, hashResolved: bool): (code: nat)
    ensures code <= 1
  {
    var code := if badHashes then 1 else 0;
    if !toOutdate then code
    else if autofix && hashResolved then code
    else 1
  }

  /** The exit code is 1 exactly for bad hashes, or for translations left to outdate without a successful autofix. */
  lemma ExitCodeCases(badHashes: bool, toOutdate: bool, autofix: bool, hashResolved: bool)
    ensures ExitCode(badHashes, toOutdate, autofix, hashResolved) == 1 <==>
      badHashes || (toOutdate && (!autofix || !hashResolved))
    ensures ExitCode(badHashes, toOutdate, autofix, hashResolved) == 0 <==>
      !badHashes && (!toOutdate || (autofix && hashResolved))
  {
  }

  /**
   * The end of `main`, once the hashes are checked and the translations
   * to outdate are known: the hash is `--outdated-since` or the first
   * commit of the branch, whichever is given first; with `--autofix` and
   * a hash, only the listed translations are written, each with both
   * tags, and otherwise listed translations fail the run.
   */
  function Decide(bad: seq<string>, todo: seq<string>, since: Option<string>, firstBranchCommit: Option<string>,
                  autofix: bool, fm: string -> FrontMatter.Mapping): (r: Report)
    ensures r.badHashes == bad && r.toOutdate == todo
    ensures r.exitCode == ExitCode(|bad| > 0, |todo| > 0, autofix, Given(since) || Given(firstBranchCommit))
    ensures forall f :: f in r.written <==> f in todo && autofix && Given(r.hash)
    ensures forall f :: f in r.written ==> Given(r.hash) && r.written[f] == Outdate(fm(f), r.hash.value)
    ensures Given(since) && (|bad| > 0 || |todo| > 0) ==> r.hash == since
    ensures |bad| == 0 && |todo| == 0 ==> r.hash == None
  {
    var hash := if |bad| > 0 then Or(since, firstBranchCommit) else None;
    var code := if |bad| > 0 then 1 else 0;
    if |todo| == 0 then
      Report(code, bad, [], hash, map[])
    else
      var resolved := Or(Or(hash, since), firstBranchCommit);
      assert Given(resolved) <==> Given(since) || Given(firstBranchCommit);
      if autofix && Given(resolved) then
        Report(code, bad, todo, resolved, Writes(todo, fm, resolved.value))
      else
        Report(1, bad, todo, resolved, map[])
  }

  /** The translations left to outdate: the listing with the `--exclude` masks applied. */
  function ToOutdate(repo: Repository, opts: Options): (r: Result<Exclusion>)
    ensures r.Err? ==> r.error == ValueError
    ensures r.Ok? ==> Subsequence(r.value.kept, Candidates(repo.changedOriginals, repo.listing))
    ensures r.Ok? ==> forall f :: f in r.value.kept <==>
      && f in Candidates(repo.changedOriginals, repo.listing)
      && Stale(f, Modified(repo, opts), repo.fm)
      && PathMatch(f, opts.exclude) == Ok(false)
  {
    var all := Candidates(repo.changedOriginals, repo.listing);
    var listed := ListOutdated(all, Modified(repo, opts), repo.fm);
    var r := Exclude(listed, opts.exclude);
    assert r.Ok? ==> Subsequence(r.value.kept, all) by {
      if r.Ok? {
        SubsequenceTrans(r.value.kept, listed, all);
      }
    }
    r
  }

  /**
   * `main` of `check_outdated_articles.py`: validate the hashes, list the
   * translations to outdate, drop the excluded ones, then either write
   * the tags or report them.
   */
  function Run(repo: Repository, opts: Options): (r: Result<Report>)
    ensures r.Err? ==> r.error == TypeError || r.error == ValueError
    ensures r.Err? && r.error == TypeError <==> Unhashable(Validated(repo, opts), repo.fm)
    ensures r.Ok? ==> forall f :: f in r.value.badHashes <==> f in Validated(repo, opts) && BadHash(repo.fm(f), repo.valid)
    ensures r.Ok? ==> ToOutdate(repo, opts).Ok? && r.value.toOutdate == ToOutdate(repo, opts).value.kept
    ensures r.Ok? ==> r.value.exitCode == ExitCode(|r.value.badHashes| > 0, |r.value.toOutdate| > 0, opts.autofix,
                                                   Given(opts.outdatedSince) || Given(repo.firstBranchCommit))
    ensures r.Ok? ==> forall f :: f in r.value.written <==> f in r.value.toOutdate && opts.autofix && Given(r.value.hash)
    ensures r.Ok? ==> forall f :: f in r.value.written ==>
      Given(r.value.hash) && r.value.written[f] == Outdate(repo.fm(f), r.value.hash.value)
    ensures r.Ok? && Given(opts.outdatedSince) && (|r.value.badHashes| > 0 || |r.value.toOutdate| > 0) ==>
      r.value.hash == opts.outdatedSince
  {
    var checked :- CheckHashes(Validated(repo, opts), repo.fm, repo.valid);
    var todo :- ToOutdate(repo, opts);
    Ok(Decide(checked.flagged, todo.kept, opts.outdatedSince, repo.firstBranchCommit, opts.autofix, repo.fm))
  }

  /** The run fails with 1 exactly for bad hashes, or for translations left to outdate that the autofix does not write. */
  lemma RunExitCode(repo: Repository, opts: Options)
    requires Run(repo, opts).Ok?
    ensures var r := Run(repo, opts).value;
      && r.exitCode <= 1
      && (r.exitCode == 1 <==>
          |r.badHashes| > 0 || (|r.toOutdate| > 0 && (!opts.autofix || !(Given(opts.outdatedSince) || Given(repo.firstBranchCommit)))))
  {
    var r := Run(repo, opts).value;
    ExitCodeCases(|r.badHashes| > 0, |r.toOutdate| > 0, opts.autofix, Given(opts.outdatedSince) || Given(repo.firstBranchCommit));
  }

  /** Whatever `Decide` writes is exactly the outdated front matter of the listed translations. */
  lemma DecideWrites(bad: seq<string>, todo: seq<string>, since: Option<string>, firstBranchCommit: Option<string>,
                     autofix: bool, fm: string -> FrontMatter.Mapping)
    requires |Decide(bad, todo, since, firstBranchCommit, autofix, fm).written| > 0
    ensures var r := Decide(bad, todo, since, firstBranchCommit, autofix, fm);
      Given(r.hash) && r.written == Writes(todo, fm, r.hash.value)
  {
    var r := Decide(bad, todo, since, firstBranchCommit, autofix, fm);
    var hash := if |bad| > 0 then Or(since, firstBranchCommit) else None;
    var resolved := Or(Or(hash, since), firstBranchCommit);
    assert |todo| > 0 && autofix && Given(resolved);
    assert r.hash == resolved;
  }

  /** With the autofix written, listing again finds nothing but the excluded translations. */
  lemma AutofixSettles(repo: Repository, opts: Options)
    requires Run(repo, opts).Ok?
    requires |Run(repo, opts).value.written| > 0
    ensures forall f :: (f in ListOutdated(Candidates(repo.changedOriginals, repo.listing), Modified(repo, opts),
                                          Apply(repo.fm, Run(repo, opts).value.written))
      ==> PathMatch(f, opts.exclude) != Ok(false))
  {
    var checked := CheckHashes(Validated(repo, opts), repo.fm, repo.valid).value;
    var todo := ToOutdate(repo, opts).value;
    var r := Run(repo, opts).value;
    assert r == Decide(checked.flagged, todo.kept, opts.outdatedSince, repo.firstBranchCommit, opts.autofix, repo.fm);
    DecideWrites(checked.flagged, todo.kept, opts.outdatedSince, repo.firstBranchCommit, opts.autofix, repo.fm);
    ListedOnceOnly(Candidates(repo.changedOriginals, repo.listing), Modified(repo, opts), repo.fm, todo.kept, r.hash.value);
  }

  // ---------------------------------------------------------------------
  // The older scripts

  /** What the older scripts report: the hash is a plain string there. */
  datatype LegacyReport = LegacyReport(
    exitCode: nat,
    badHashes: seq<string>,
    toOutdate: seq<string>,
    hash: string,
    written: map<string, FrontMatter.Mapping>)

  /**
   * `main` of `wikitools_cli/check_outdated_articles.py` and of
   * `wikitools_cli/check_expired_articles.py`, after the modified
   * translations and the candidates are listed: the same listing rule
   * and hash cache, no `--exclude` and no `--all`; the hash is
   * `--outdated-since` when non-empty, else the base commit, so it is
   * always there (possibly empty); the autofix writes it unconditionally.
   */
  function LegacyRun(modified: seq<string>, candidates: seq<string>, fm: string -> FrontMatter.Mapping,
                     valid: FrontMatter.Value -> bool, outdatedSince: string, baseCommit: string,
                     autofix: bool): (r: Result<LegacyReport>)
    ensures r.Err? <==> Unhashable(modified, fm)
    ensures r.Ok? ==> forall f :: f in r.value.badHashes <==> f in modified && BadHash(fm(f), valid)
    ensures r.Ok? ==> Subsequence(r.value.toOutdate, candidates)
    ensures r.Ok? ==> forall f :: f in r.value.toOutdate <==> f in candidates && Stale(f, Members(modified), fm)
    ensures r.Ok? ==> r.value.hash == (if outdatedSince != "" then outdatedSince else baseCommit)
    ensures r.Ok? ==> r.value.exitCode <= 1
    ensures r.Ok? ==> (r.value.exitCode == 1 <==> |r.value.badHashes| > 0 || (|r.value.toOutdate| > 0 && !autofix))
    ensures r.Ok? ==> forall f :: f in r.value.written <==> autofix && f in r.value.toOutdate
    ensures r.Ok? ==> forall f :: f in r.value.written ==> r.value.written[f] == Outdate(fm(f), r.value.hash)
  {
    var checked :- CheckHashes(modified, fm, valid);
    var bad := checked.flagged;
    var hash := if outdatedSince != "" then outdatedSince else baseCommit;
    var code := if |bad| > 0 then 1 else 0;
    var todo := ListOutdated(candidates, Members(modified), fm);
    if |todo| == 0 then Ok(LegacyReport(code, bad, [], hash, map[]))
    else if autofix then Ok(LegacyReport(code, bad, todo, hash, Writes(todo, fm, hash)))
    else Ok(LegacyReport(1, bad, todo, hash, map[]))
  }

  /** The older outdater: the changed translations, and the translations `list_all_translations` finds. */
  function OutdaterRun(changed: seq<string>, changedOriginals: seq<string>, listing: string -> seq<string>,
                       fm: string -> FrontMatter.Mapping, valid: FrontMatter.Value -> bool,
                       outdatedSince: string, baseCommit: string, autofix: bool): Result<LegacyReport> {
    LegacyRun(ModifiedTranslations(changed), Candidates(changedOriginals, listing), fm, valid, outdatedSince, baseCommit, autofix)
  }

  /** The file names the expirer's `list_translations` keeps: not `en.md`, and `??.md` or `??-??.md`. */
  predicate ExpirerName(filename: string) {
    filename != "en.md" && (Glob.Match(filename, "??.md") || Glob.Match(filename, "??-??.md"))
  }

  /** The names of one listing the expirer keeps, in order. */
  function ExpirerNames(names: seq<string>): (r: seq<string>)
    ensures Subsequence(r, names)
    ensures forall f :: f in r <==> f in names && ExpirerName(f)
  {
    if |names| == 0 then []
    else
      var rest := ExpirerNames(names[1..]);
      assert names == [names[0]] + names[1..];
      if ExpirerName(names[0]) then
        SubsequenceTake(names[0], rest, names[1..]);
        [names[0]] + rest
      else
        SubsequenceSkip(rest, names[0], names[1..]);
        rest
  }

  /** `os.path.join(d, name)` for each name. */
  function JoinEach(d: string, names: seq<string>): (r: seq<string>)
    ensures |r| == |names|
    ensures forall i :: 0 <= i < |names| ==> r[i] == Paths.Join2(d, names[i])
  {
    seq(|names|, i requires 0 <= i < |names| => Paths.Join2(d, names[i]))
  }

  /** Below a directory named without a trailing `/`, each joined path splits back into the directory and its name. */
  lemma JoinEachSplitsBack(d: string, names: seq<string>, i: nat)
    requires d != "" && d[|d| - 1] != '/' && i < |names| && '/' !in names[i]
    ensures Paths.Dirname(JoinEach(d, names)[i]) == d
    ensures Paths.Basename(JoinEach(d, names)[i]) == names[i]
  {
    if names[i] != "" {
      assert names[i][..1][0] == names[i][0];
    }
    Paths.DirnameBasename(d, names[i]);
  }

  /** One directory's part of the expirer's listing. */
  function ExpirerDir(d: string, listing: string -> seq<string>): seq<string> {
    JoinEach(d, ExpirerNames(Sorting.SortStrings(listing(d))))
  }

  /**
   * `list_translations(dirs)` of the expirer: for each directory in
   * turn, its kept file names in sorted order, joined to the directory.
   */
  function ExpirerTranslations(dirs: seq<string>, listing: string -> seq<string>): seq<string> {
    FileUtils.Concat(dirs, (d: string) => ExpirerDir(d, listing))
  }

  /** A path the expirer lists is a kept name of some directory's listing, joined to that directory, and each such path is listed. */
  lemma ExpirerTranslationsMembers(dirs: seq<string>, listing: string -> seq<string>, p: string)
    ensures p in ExpirerTranslations(dirs, listing) <==>
      exists i, f :: 0 <= i < |dirs| && f in listing(dirs[i]) && ExpirerName(f) && p == Paths.Join2(dirs[i], f)
  {
    var part := (d: string) => ExpirerDir(d, listing);
    if p in ExpirerTranslations(dirs, listing) {
      var i :| 0 <= i < |dirs| && p in part(dirs[i]);
      var names := ExpirerNames(Sorting.SortStrings(listing(dirs[i])));
      var k :| 0 <= k < |names| && p == JoinEach(dirs[i], names)[k];
      assert names[k] in names;
      SortedMembers(listing(dirs[i]), names[k]);
    }
    if i, f :| 0 <= i < |dirs| && f in listing(dirs[i]) && ExpirerName(f) && p == Paths.Join2(dirs[i], f) {
      var names := ExpirerNames(Sorting.SortStrings(listing(dirs[i])));
      SortedMembers(listing(dirs[i]), f);
      var k :| 0 <= k < |names| && names[k] == f;
      assert JoinEach(dirs[i], names)[k] == p;
      assert p in part(dirs[i]);
    }
  }

  /** Sorting keeps the names of a listing. */
  lemma SortedMembers(listing: seq<string>, f: string)
    ensures f in Sorting.SortStrings(listing) <==> f in listing
  {
    var sorted := Sorting.SortStrings(listing);
    assert f in sorted <==> f in multiset(sorted);
    assert f in listing <==> f in multiset(listing);
  }

  /** Every name the expirer keeps is a translation name; a three-letter language code is a translation it drops. */
  lemma ExpirerNamesAreTranslations(f: string)
    requires '/' !in f && ExpirerName(f)
    ensures FileUtils.IsTranslation(f)
  {
    assert Paths.Basename(f) == f;
  }

  /** `xyz.md` is a translation to `file_utils`, but not to the expirer's `list_translations`. */
  lemma ExpirerDropsThreeLetterCodes(code: string)
    requires |code| == 3 && '/' !in code
    ensures FileUtils.IsTranslation(code + ".md")
    ensures !ExpirerName(code + ".md")
  {
    var f := code + ".md";
    assert '/' !in f by {
      assert forall x :: x in f ==> x in code || x in ".md";
    }
    assert Paths.Basename(f) == f;
    assert f[3..] == ".md";
    FileUtils.MaskThree(f);
    FileUtils.MaskTwo(f);
    FileUtils.MaskRegion(f);
    assert f != "en.md";
  }

  /** The expirer: the changed files as given (the diff already leaves out `en.md`), and its own listing. */
  function ExpirerRun(changed: seq<string>, changedOriginals: seq<string>, listing: string -> seq<string>,
                      fm: string -> FrontMatter.Mapping, valid: FrontMatter.Value -> bool,
                      outdatedSince: string, baseCommit: string, autofix: bool): Result<LegacyReport> {
    LegacyRun(changed, ExpirerTranslations(Sorting.SortStrings(Dirnames(changedOriginals)), listing), fm, valid,
              outdatedSince, baseCommit, autofix)
  }
}

=== FILE: paths.dfy ===
/**
 * POSIX paths as strings (Python's `posixpath` and
 * `pathlib.PurePosixPath`), taken apart into their `/`-separated
 * components.
 */
module Paths {
  import Text
  import Outcomes

  /** The `/`-separated pieces of a path, empty ones included. */
  function Pieces(p: string): (r: seq<string>)
    ensures |r| >= 1
    ensures forall i :: 0 <= i < |r| ==> '/' !in r[i]
    ensures Text.Join("/", r) == p
  {
    var r := Text.Split(p, "/");
    assert forall i :: 0 <= i < |r| ==> '/' !in r[i] by {
      forall i | 0 <= i < |r| ensures '/' !in r[i] {
        Text.ContainsChar(r[i], '/');
      }
    }
    r
  }

  /** A component as normalisation keeps it: not empty, not `.`, without `/`. */
  predicate Plain(c: string) {
    c != "" && c != "." && '/' !in c
  }

  predicate AllPlain(cs: seq<string>) {
    forall i :: 0 <= i < |cs| ==> Plain(cs[i])
  }

  lemma AllPlainConcat(xs: seq<string>, ys: seq<string>)
    requires AllPlain(xs) && AllPlain(ys)
    ensures AllPlain(xs + ys)
  {
    forall i | 0 <= i < |xs + ys| ensures Plain((xs + ys)[i]) {
      if i >= |xs| {
        assert (xs + ys)[i] == ys[i - |xs|];
      }
    }
  }

  /** The pieces other than the empty ones and `.`. */
  function Keep(pieces: seq<string>): (r: seq<string>)
    requires forall i :: 0 <= i < |pieces| ==> '/' !in pieces[i]
    ensures AllPlain(r)
    ensures AllPlain(pieces) ==> r == pieces
  {
    if |pieces| == 0 then []
    else (if Plain(pieces[0]) then [pieces[0]] else []) + Keep(pieces[1..])
  }

  lemma {:induction false} KeepConcat(xs: seq<string>, ys: seq<string>)
    requires forall i :: 0 <= i < |xs| ==> '/' !in xs[i]
    requires forall i :: 0 <= i < |ys| ==> '/' !in ys[i]
    ensures Keep(xs + ys) == Keep(xs) + Keep(ys)
    decreases |xs|
  {
    if |xs| > 0 {
      assert (xs + ys)[1..] == xs[1..] + ys;
      KeepConcat(xs[1..], ys);
    } else {
      assert xs + ys == ys;
    }
  }

  /** The components of a path: its pieces other than the empty ones and `.`. */
  function Components(p: string): (r: seq<string>)
    ensures AllPlain(r)
  {
    Keep(Pieces(p))
  }

  /** Joining with `/` and splitting again gives the pieces back. */
  lemma PiecesOfJoin(cs: seq<string>)
    requires |cs| >= 1 && forall i :: 0 <= i < |cs| ==> '/' !in cs[i]
    ensures Pieces(Text.Join("/", cs)) == cs
  {
    Text.SplitJoinChar(cs, '/');
  }

  /** A leading `/` adds an empty first piece. */
  lemma PiecesOfSlash(x: string)
    ensures Pieces("/" + x) == [""] + Pieces(x)
  {
    Text.SplitChar("/" + x, '/', "", x);
  }

  lemma PiecesOfEmpty()
    ensures Pieces("") == [""]
  {
    Text.SplitCharNone("", '/');
  }

  /** The components of two paths joined by `/` are those of the first, then those of the second. */
  lemma ComponentsConcat(a: string, b: string)
    ensures Components(a + "/" + b) == Components(a) + Components(b)
  {
    Text.SplitConcatChar(a, b, '/');
    assert a + "/" + b == a + ['/'] + b;
    KeepConcat(Pieces(a), Pieces(b));
  }

  /** Plain components survive a round trip through `/`-joining. */
  lemma ComponentsOfJoin(cs: seq<string>)
    requires AllPlain(cs)
    ensures Components(Text.Join("/", cs)) == cs
    ensures Components("/" + Text.Join("/", cs)) == cs
  {
    if cs == [] {
      PiecesOfEmpty();
    } else {
      PiecesOfJoin(cs);
    }
    PiecesOfSlash(Text.Join("/", cs));
  }

  lemma {:induction false} JoinConcat(xs: seq<string>, ys: seq<string>)
    requires |xs| >= 1 && |ys| >= 1
    ensures Text.Join("/", xs + ys) == Text.Join("/", xs) + "/" + Text.Join("/", ys)
    decreases |xs|
  {
    if |xs| == 1 {
      assert (xs + ys)[1..] == ys;
    } else {
      assert (xs + ys)[1..] == xs[1..] + ys;
      JoinConcat(xs[1..], ys);
    }
  }

  /** A join of plain components neither is empty nor starts with `/`. */
  lemma JoinPlainStart(cs: seq<string>)
    requires |cs| >= 1 && AllPlain(cs)
    ensures Text.Join("/", cs) != "" && Text.Join("/", cs)[0] == cs[0][0] && cs[0][0] != '/'
  {
    assert cs[0][0] in cs[0];
  }

  // ---------------------------------------------------------------------
  // os.path.normpath

  /** `normpath` keeps two leading slashes, and reduces one or three and more to one. */
  function InitialSlashes(p: string): (r: nat)
    ensures r <= 2
    ensures r > 0 <==> Text.StartsWith(p, "/")
  {
    if !Text.StartsWith(p, "/") then 0
    else if Text.StartsWith(p, "//") && !Text.StartsWith(p, "///") then 2
    else 1
  }

  /** A normalised component list: plain components, `..` only in a leading run and never in an absolute path. */
  predicate Normal(cs: seq<string>, absolute: bool) {
    && AllPlain(cs)
    && (forall i, j :: 0 <= i < j < |cs| && cs[j] == ".." ==> cs[i] == "..")
    && (absolute ==> ".." !in cs)
  }

  /** How `normpath` takes in one more piece: `..` removes the last component when it can. */
  function Push(acc: seq<string>, piece: string, absolute: bool): seq<string> {
    if piece == "" || piece == "." then acc
    else if piece != ".." || (!absolute && |acc| == 0) || (|acc| > 0 && acc[|acc| - 1] == "..") then acc + [piece]
    else if |acc| > 0 then acc[..|acc| - 1]
    else acc
  }

  lemma PushNormal(acc: seq<string>, piece: string, absolute: bool)
    requires Normal(acc, absolute) && '/' !in piece
    ensures Normal(Push(acc, piece, absolute), absolute)
  {
    var r := Push(acc, piece, absolute);
    if piece == ".." && r == acc + [piece] {
      forall i | 0 <= i < |acc| ensures acc[i] == ".." {
        if |acc| > 0 {
          assert acc[|acc| - 1] == "..";
        }
      }
    }
  }

  /** The components `normpath` keeps after taking in `pieces` one by one. */
  function Apply(acc: seq<string>, pieces: seq<string>, absolute: bool): (r: seq<string>)
    requires Normal(acc, absolute)
    requires forall i :: 0 <= i < |pieces| ==> '/' !in pieces[i]
    ensures Normal(r, absolute)
    decreases |pieces|
  {
    if |pieces| == 0 then acc
    else
      PushNormal(acc, pieces[0], absolute);
      Apply(Push(acc, pieces[0], absolute), pieces[1..], absolute)
  }

  /** A normal list is taken in unchanged. */
  lemma {:induction false} ApplyNormal(acc: seq<string>, cs: seq<string>, absolute: bool)
    requires Normal(acc + cs, absolute)
    requires forall i :: 0 <= i < |cs| ==> '/' !in cs[i]
    ensures Normal(acc, absolute)
    ensures Apply(acc, cs, absolute) == acc + cs
    decreases |cs|
  {
    assert acc == (acc + cs)[..|acc|];
    if |cs| > 0 {
      assert (acc + cs)[|acc|] == cs[0];
      if cs[0] == ".." {
        forall i | 0 <= i < |acc| ensures acc[i] == ".." {
          assert (acc + cs)[i] == acc[i];
        }
      }
      assert Push(acc, cs[0], absolute) == acc + [cs[0]];
      assert acc + cs == (acc + [cs[0]]) + cs[1..];
      ApplyNormal(acc + [cs[0]], cs[1..], absolute);
    }
  }

  /** Without `..`, taking pieces in only drops the empty ones and `.`. */
  lemma {:induction false} ApplyNoParent(acc: seq<string>, pieces: seq<string>, absolute: bool)
    requires Normal(acc, absolute) && ".." !in acc
    requires forall i :: 0 <= i < |pieces| ==> '/' !in pieces[i]
    requires ".." !in pieces
    ensures Apply(acc, pieces, absolute) == acc + Keep(pieces)
    decreases |pieces|
  {
    if |pieces| > 0 {
      PushNormal(acc, pieces[0], absolute);
      var kept := if Plain(pieces[0]) then [pieces[0]] else [];
      PushNoParent(acc, pieces[0], absolute);
      var next := Push(acc, pieces[0], absolute);
      assert ".." !in pieces[1..] by {
        assert forall c :: c in pieces[1..] ==> c in pieces;
      }
      ApplyNoParent(next, pieces[1..], absolute);
      ApplyCons(acc, pieces, absolute);
      KeepCons(pieces);
      ConcatAssoc(acc, kept, Keep(pieces[1..]));
    }
  }

  lemma ApplyCons(acc: seq<string>, pieces: seq<string>, absolute: bool)
    requires Normal(acc, absolute) && |pieces| > 0
    requires forall i :: 0 <= i < |pieces| ==> '/' !in pieces[i]
    requires Normal(Push(acc, pieces[0], absolute), absolute)
    ensures Apply(acc, pieces, absolute) == Apply(Push(acc, pieces[0], absolute), pieces[1..], absolute)
  {
  }

  lemma KeepCons(pieces: seq<string>)
    requires |pieces| > 0 && forall i :: 0 <= i < |pieces| ==> '/' !in pieces[i]
    ensures Keep(pieces) == (if Plain(pieces[0]) then [pieces[0]] else []) + Keep(pieces[1..])
  {
  }

  /** A piece other than `..` is appended when it is plain, and dropped otherwise. */
  lemma PushNoParent(acc: seq<string>, piece: string, absolute: bool)
    requires ".." !in acc && piece != ".." && '/' !in piece
    ensures Push(acc, piece, absolute) == acc + (if Plain(piece) then [piece] else [])
    ensures ".." !in Push(acc, piece, absolute)
  {
    if !Plain(piece) {
      assert acc + [] == acc;
    }
  }

  /** The leading slashes `normpath` keeps. */
  function Slashes(n: nat): string {
    Text.RepeatChar('/', n)
  }

  /**
   * `os.path.normpath(p)`: repeated and trailing slashes and `.` are
   * dropped, `..` cancels the component before it, and an empty result
   * is `.`.
   */
  function Normpath(p: string): (r: string)
    ensures r != ""
  {
    if p == "" then "."
    else
      var n := InitialSlashes(p);
      var path := Slashes(n) + Text.Join("/", Apply([], Pieces(p), n > 0));
      if path == "" then "." else path
  }

  lemma SlashesUpToTwo()
    ensures Slashes(0) == "" && Slashes(1) == "/" && Slashes(2) == "//"
  {
    assert Slashes(1) == ['/'] + Slashes(0);
    assert Slashes(2) == ['/'] + Slashes(1);
  }

  /** The pieces of a join of plain components: the components, or one empty piece for none. */
  function JoinedPieces(cs: seq<string>): (r: seq<string>)
    requires AllPlain(cs)
    ensures forall i :: 0 <= i < |r| ==> '/' !in r[i]
    ensures cs != [] ==> r == cs
  {
    if cs == [] then [""] else cs
  }

  lemma PiecesOfPlain(cs: seq<string>)
    requires AllPlain(cs)
    ensures Pieces(Text.Join("/", cs)) == JoinedPieces(cs)
    ensures cs != [] ==> Text.Join("/", cs) != "" && Text.Join("/", cs)[0] != '/'
  {
    if cs == [] {
      PiecesOfEmpty();
    } else {
      PiecesOfJoin(cs);
      JoinPlainStart(cs);
    }
  }

  lemma UnslashedPieces(cs: seq<string>)
    requires AllPlain(cs) && cs != []
    ensures InitialSlashes(Text.Join("/", cs)) == 0
    ensures Pieces(Text.Join("/", cs)) == cs
  {
    PiecesOfPlain(cs);
  }

  lemma SlashedPieces(cs: seq<string>)
    requires AllPlain(cs)
    ensures InitialSlashes("/" + Text.Join("/", cs)) == 1
    ensures Pieces("/" + Text.Join("/", cs)) == [""] + JoinedPieces(cs)
  {
    var j := Text.Join("/", cs);
    PiecesOfPlain(cs);
    PiecesOfSlash(j);
    if cs != [] {
      assert ("/" + j)[1] == j[0];
    }
  }

  lemma DoubleSlashedPieces(cs: seq<string>)
    requires AllPlain(cs)
    ensures InitialSlashes("//" + Text.Join("/", cs)) == 2
    ensures Pieces("//" + Text.Join("/", cs)) == ["", ""] + JoinedPieces(cs)
  {
    var j := Text.Join("/", cs);
    PiecesOfPlain(cs);
    assert "//" + j == "/" + ("/" + j);
    PiecesOfSlash(j);
    PiecesOfSlash("/" + j);
    if cs != [] {
      assert ("//" + j)[2] == j[0];
    }
  }

  /** An empty piece changes nothing. */
  lemma ApplyEmptyPiece(rest: seq<string>, absolute: bool)
    requires forall i :: 0 <= i < |rest| ==> '/' !in rest[i]
    ensures Apply([], [""] + rest, absolute) == Apply([], rest, absolute)
  {
    assert ([""] + rest)[1..] == rest;
  }

  /** Plain components are taken in unchanged. */
  lemma ApplyJoined(cs: seq<string>, absolute: bool)
    requires Normal(cs, absolute)
    ensures Apply([], JoinedPieces(cs), absolute) == cs
  {
    assert [] + cs == cs;
    ApplyNormal([], cs, absolute);
  }

  /** What `normpath` makes of `n` slashes and plain components. */
  lemma NormpathOfNormal(n: nat, cs: seq<string>)
    requires n <= 2 && Normal(cs, n > 0) && (n > 0 || cs != [])
    ensures Normpath(Slashes(n) + Text.Join("/", cs)) == Slashes(n) + Text.Join("/", cs)
  {
    if n == 0 {
      NormpathUnslashed(n, cs);
    } else if n == 1 {
      NormpathSlashed(n, cs);
    } else {
      NormpathDoubleSlashed(n, cs);
    }
  }

  lemma NormpathUnslashed(n: nat, cs: seq<string>)
    requires Normal(cs, false) && cs != []
    requires n == 0
    ensures Normpath(Slashes(n) + Text.Join("/", cs)) == Slashes(n) + Text.Join("/", cs)
  {
    var j := Text.Join("/", cs);
    SlashesUpToTwo();
    ApplyJoined(cs, false);
    UnslashedPieces(cs);
    PiecesOfPlain(cs);
    assert Slashes(0) + j == j;
    NormpathVia(j, 0, cs, cs);
  }

  lemma NormpathSlashed(n: nat, cs: seq<string>)
    requires Normal(cs, true)
    requires n == 1
    ensures Normpath(Slashes(n) + Text.Join("/", cs)) == Slashes(n) + Text.Join("/", cs)
  {
    var j := Text.Join("/", cs);
    SlashesUpToTwo();
    ApplyJoined(cs, true);
    SlashedPieces(cs);
    ApplyEmptyPiece(JoinedPieces(cs), true);
    NormpathVia("/" + j, 1, [""] + JoinedPieces(cs), cs);
  }

  lemma NormpathDoubleSlashed(n: nat, cs: seq<string>)
    requires Normal(cs, true)
    requires n == 2
    ensures Normpath(Slashes(n) + Text.Join("/", cs)) == Slashes(n) + Text.Join("/", cs)
  {
    var j := Text.Join("/", cs);
    SlashesUpToTwo();
    ApplyJoined(cs, true);
    DoubleSlashedPieces(cs);
    ApplyEmptyPiece(JoinedPieces(cs), true);
    ApplyEmptyPiece([""] + JoinedPieces(cs), true);
    assert ["", ""] + JoinedPieces(cs) == [""] + ([""] + JoinedPieces(cs));
    NormpathVia("//" + j, 2, ["", ""] + JoinedPieces(cs), cs);
  }

  /** `normpath` of a path whose leading slashes, pieces and kept components are known. */
  lemma NormpathVia(p: string, n: nat, pieces: seq<string>, cs: seq<string>)
    requires p != "" && InitialSlashes(p) == n && Pieces(p) == pieces
    requires Apply([], pieces, n > 0) == cs
    requires Slashes(n) + Text.Join("/", cs) != ""
    ensures Normpath(p) == Slashes(n) + Text.Join("/", cs)
  {
  }

  /** Normalising a normalised path changes nothing. */
  lemma NormpathIdempotent(p: string)
    ensures Normpath(Normpath(p)) == Normpath(p)
  {
    var r := Normpath(p);
    if p != "" {
      var n := InitialSlashes(p);
      var cs := Apply([], Pieces(p), n > 0);
      if Slashes(n) + Text.Join("/", cs) != "" {
        SlashesUpToTwo();
        NormpathOfNormal(n, cs);
        return;
      }
    }
    assert r == ".";
    Text.SplitCharNone(".", '/');
    assert Pieces(".") == ["."];
  }

  /** A path of plain components, possibly behind one `/`, is already normal. */
  lemma NormpathPlain(absolute: bool, cs: seq<string>)
    requires AllPlain(cs) && ".." !in cs && (absolute || cs != [])
    ensures Normpath((if absolute then "/" else "") + Text.Join("/", cs)) == (if absolute then "/" else "") + Text.Join("/", cs)
  {
    var n := if absolute then 1 else 0;
    SlashesUpToTwo();
    NormpathOfNormal(n, cs);
  }

  // ---------------------------------------------------------------------
  // os.path.basename and os.path.dirname

  /** `os.path.basename(p)`: the text after the last `/`. */
  function Basename(p: string): (r: string)
    ensures '/' !in r
    ensures Text.EndsWith(p, r)
    ensures '/' !in p ==> r == p
  {
    var i := Text.LastIndex(p, '/');
    assert p[i + 1..] == p[|p| - |p[i + 1..]|..];
    p[i + 1..]
  }

  predicate AllSlashes(s: string) {
    forall i :: 0 <= i < |s| ==> s[i] == '/'
  }

  /** `s.rstrip("/")`. */
  function RStripSlashes(s: string): (r: string)
    ensures |r| <= |s| && r == s[..|r|]
    ensures r == "" || r[|r| - 1] != '/'
    ensures AllSlashes(s[|r|..])
    ensures s == "" || s[|s| - 1] != '/' ==> r == s
  {
    if |s| == 0 || s[|s| - 1] != '/' then s
    else RStripSlashes(s[..|s| - 1])
  }

  /** `os.path.dirname(p)`: the text up to the last `/`, trailing slashes removed unless that leaves nothing. */
  function Dirname(p: string): (r: string)
    ensures '/' !in p <==> r == ""
  {
    var head := p[..Text.LastIndex(p, '/') + 1];
    if head != "" && !AllSlashes(head) then
      var r := RStripSlashes(head);
      r
    else
      assert '/' in p ==> head != "" by {
        if '/' in p {
          assert head[|head| - 1] == '/';
        }
      }
      head
  }

  /** A directory and a file name joined with `/` come apart again. */
  lemma DirnameBasename(d: string, f: string)
    requires d != "" && d[|d| - 1] != '/' && '/' !in f
    ensures Dirname(d + "/" + f) == d
    ensures Basename(d + "/" + f) == f
  {
    var p := d + "/" + f;
    assert p[|d|] == '/' && p[|d| + 1..] == f;
    assert Text.LastIndex(p, '/') == |d|;
    var head := p[..|d| + 1];
    assert head == d + "/";
    assert head[|head| - 2] != '/';
    assert RStripSlashes(head) == d;
  }

  // ---------------------------------------------------------------------
  // os.path.commonpath and os.path.relpath

  /** The longest common prefix of two component lists. */
  function CommonPrefix(xs: seq<string>, ys: seq<string>): (r: seq<string>)
    ensures r <= xs && r <= ys
    ensures |r| < |xs| && |r| < |ys| ==> xs[|r|] != ys[|r|]
  {
    if |xs| == 0 || |ys| == 0 || xs[0] != ys[0] then []
    else [xs[0]] + CommonPrefix(xs[1..], ys[1..])
  }

  /** A list that is a prefix of both is the common prefix, when the other extends it. */
  lemma CommonPrefixOfExtension(xs: seq<string>, ys: seq<string>)
    ensures CommonPrefix(xs, xs + ys) == xs
    ensures CommonPrefix(xs + ys, xs) == xs
  {
  }

  /**
   * `os.path.commonpath((a, b))`: the components the two paths share from
   * the start; mixing an absolute and a relative path raises ValueError.
   */
  function CommonPath(a: string, b: string): (r: Outcomes.Result<string>)
    ensures r.Err? <==> Text.StartsWith(a, "/") != Text.StartsWith(b, "/")
    ensures r.Err? ==> r.error == Outcomes.ValueError
  {
    var absolute := Text.StartsWith(a, "/");
    if absolute != Text.StartsWith(b, "/") then Outcomes.Err(Outcomes.ValueError)
    else Outcomes.Ok((if absolute then "/" else "") + Text.Join("/", CommonPrefix(Components(a), Components(b))))
  }

  /** The common path of a path and a directory above it is that directory. */
  lemma CommonPathBeneath(dir: seq<string>, rest: seq<string>)
    requires AllPlain(dir) && AllPlain(rest) && dir != []
    ensures CommonPath(Text.Join("/", dir + rest), Text.Join("/", dir)) == Outcomes.Ok(Text.Join("/", dir))
  {
    var a := Text.Join("/", dir + rest);
    var b := Text.Join("/", dir);
    AllPlainConcat(dir, rest);
    ComponentsOfJoin(dir + rest);
    ComponentsOfJoin(dir);
    JoinPlainStart(dir + rest);
    JoinPlainStart(dir);
    assert !Text.StartsWith(a, "/") && !Text.StartsWith(b, "/");
    CommonPrefixOfExtension(dir, rest);
    assert CommonPrefix(Components(a), Components(b)) == dir;
    assert CommonPath(a, b) == Outcomes.Ok("" + b);
    assert "" + b == b;
  }

  /** `os.path.join(a, b)` for two pieces. */
  function Join2(a: string, b: string): (r: string)
    ensures Text.StartsWith(b, "/") ==> r == b
  {
    if Text.StartsWith(b, "/") then b
    else if a == "" || a[|a| - 1] == '/' then a + b
    else a + "/" + b
  }

  /** `os.path.abspath(p)` when the working directory is `cwd`. */
  function Abspath(p: string, cwd: string): string {
    Normpath(Join2(cwd, p))
  }

  /** The non-empty pieces of a path. */
  function NonEmpty(pieces: seq<string>): (r: seq<string>)
    ensures forall i :: 0 <= i < |r| ==> r[i] != ""
    ensures (forall i :: 0 <= i < |pieces| ==> pieces[i] != "") ==> r == pieces
  {
    if |pieces| == 0 then []
    else (if pieces[0] != "" then [pieces[0]] else []) + NonEmpty(pieces[1..])
  }

  /** `[s] * n`. */
  function Repeat(s: string, n: nat): (r: seq<string>)
    ensures |r| == n
    ensures forall i :: 0 <= i < n ==> r[i] == s
  {
    if n == 0 then [] else [s] + Repeat(s, n - 1)
  }

  /**
   * `os.path.relpath(path, start)` with working directory `cwd`: up from
   * `start` to the components the two share, then down to `path`; an
   * empty `path` raises ValueError.
   */
  function RelPath(path: string, start: string, cwd: string): (r: Outcomes.Result<string>)
    ensures r.Err? <==> path == ""
  {
    if path == "" then Outcomes.Err(Outcomes.ValueError)
    else
      var startList := NonEmpty(Pieces(Abspath(start, cwd)));
      var pathList := NonEmpty(Pieces(Abspath(path, cwd)));
      var i := |CommonPrefix(startList, pathList)|;
      var rel := Repeat("..", |startList| - i) + pathList[i..];
      Outcomes.Ok(if rel == [] then "." else Text.Join("/", rel))
  }

  /** An absolute working directory, as `os.getcwd()` gives it: `/` and plain components. */
  predicate WorkingDirectory(cwd: string, parts: seq<string>) {
    AllPlain(parts) && ".." !in parts && cwd == "/" + Text.Join("/", parts)
  }

  /** A relative path of plain components made absolute. */
  lemma {:induction false} JoinPlainEnd(cs: seq<string>)
    requires |cs| >= 1 && AllPlain(cs)
    ensures Text.Join("/", cs) != "" && Text.Join("/", cs)[|Text.Join("/", cs)| - 1] != '/'
    decreases |cs|
  {
    var last := cs[0];
    assert last[|last| - 1] in last;
    if |cs| > 1 {
      JoinPlainEnd(cs[1..]);
    }
  }

  /** `os.path.join(cwd, p)` for a relative path of plain components. */
  lemma JoinWorkingDirectory(cwd: string, parts: seq<string>, cs: seq<string>)
    requires WorkingDirectory(cwd, parts) && AllPlain(cs) && cs != []
    ensures Join2(cwd, Text.Join("/", cs)) == "/" + Text.Join("/", parts + cs)
  {
    var p := Text.Join("/", cs);
    JoinPlainStart(cs);
    assert !Text.StartsWith(p, "/");
    if parts == [] {
      assert parts + cs == cs;
      assert cwd == "/";
    } else {
      JoinPlainEnd(parts);
      JoinConcat(parts, cs);
      assert cwd[|cwd| - 1] == Text.Join("/", parts)[|Text.Join("/", parts)| - 1];
    }
  }

  /** A relative path of plain components without `..`, made absolute. */
  lemma AbspathPlain(cwd: string, parts: seq<string>, cs: seq<string>)
    requires WorkingDirectory(cwd, parts) && AllPlain(cs) && ".." !in cs && cs != []
    ensures AllPlain(parts + cs) && ".." !in parts + cs
    ensures NonEmpty(Pieces(Abspath(Text.Join("/", cs), cwd))) == parts + cs
  {
    var all := parts + cs;
    AllPlainConcat(parts, cs);
    assert ".." !in all;
    JoinWorkingDirectory(cwd, parts, cs);
    NormpathPlain(true, all);
    var j := Text.Join("/", all);
    assert Abspath(Text.Join("/", cs), cwd) == "/" + j;
    PiecesOfSlash(j);
    PiecesOfJoin(all);
    assert NonEmpty([""] + all) == NonEmpty(all);
  }

  /** `relpath` once both paths are known as absolute component lists, the first extending the second. */
  lemma RelPathOfExtension(path: string, start: string, cwd: string, startList: seq<string>, rest: seq<string>)
    requires path != ""
    requires NonEmpty(Pieces(Abspath(start, cwd))) == startList
    requires NonEmpty(Pieces(Abspath(path, cwd))) == startList + rest
    requires rest != [] ==> Text.Join("/", rest) != ""
    ensures RelPath(path, start, cwd) == Outcomes.Ok(if rest == [] then "." else Text.Join("/", rest))
  {
    CommonPrefixOfExtension(startList, rest);
    assert (startList + rest)[|startList|..] == rest;
    assert Repeat("..", 0) + rest == rest;
  }

  /**
   * The path of a directory below `start`, relative to `start`: the
   * components below it, or `.` for `start` itself.
   */
  lemma RelPathBeneath(cwd: string, parts: seq<string>, base: seq<string>, rest: seq<string>)
    requires WorkingDirectory(cwd, parts)
    requires AllPlain(base) && AllPlain(rest) && base != []
    requires ".." !in base && ".." !in rest
    ensures RelPath(Text.Join("/", base + rest), Text.Join("/", base), cwd)
      == Outcomes.Ok(if rest == [] then "." else Text.Join("/", rest))
  {
    BothAbsolute(cwd, parts, base, rest);
    RelPathOfExtension(Text.Join("/", base + rest), Text.Join("/", base), cwd, parts + base, rest);
  }

  lemma BothAbsolute(cwd: string, parts: seq<string>, base: seq<string>, rest: seq<string>)
    requires WorkingDirectory(cwd, parts)
    requires AllPlain(base) && AllPlain(rest) && base != []
    requires ".." !in base && ".." !in rest
    ensures Text.Join("/", base + rest) != ""
    ensures NonEmpty(Pieces(Abspath(Text.Join("/", base), cwd))) == parts + base
    ensures NonEmpty(Pieces(Abspath(Text.Join("/", base + rest), cwd))) == (parts + base) + rest
    ensures rest != [] ==> Text.Join("/", rest) != ""
  {
    var whole := base + rest;
    AllPlainConcat(base, rest);
    assert ".." !in whole;
    JoinPlainStart(whole);
    AbspathPlain(cwd, parts, base);
    AbspathPlain(cwd, parts, whole);
    ConcatAssoc(parts, base, rest);
    if rest != [] {
      JoinPlainStart(rest);
    }
  }

  lemma ConcatAssoc(a: seq<string>, b: seq<string>, c: seq<string>)
    ensures a + (b + c) == (a + b) + c
  {
  }

  // ---------------------------------------------------------------------
  // pathlib.PurePosixPath

  /** A `pathlib.PurePosixPath`: whether it is absolute, and its components. */
  datatype PurePath = PurePath(absolute: bool, parts: seq<string>)

  /** `PurePosixPath(s)`: repeated slashes and `.` components disappear, `..` stays. */
  function ParsePath(s: string): (r: PurePath)
    ensures AllPlain(r.parts)
    ensures r.absolute <==> Text.StartsWith(s, "/")
  {
    PurePath(Text.StartsWith(s, "/"), Components(s))
  }

  /** `p.as_posix()`: `.` for the empty relative path. */
  function AsPosix(p: PurePath): string {
    if !p.absolute && p.parts == [] then "."
    else (if p.absolute then "/" else "") + Text.Join("/", p.parts)
  }

  /** Writing a path out and reading it again gives it back. */
  lemma ParseAsPosix(p: PurePath)
    requires AllPlain(p.parts)
    ensures ParsePath(AsPosix(p)) == p
  {
    ComponentsOfJoin(p.parts);
    var j := Text.Join("/", p.parts);
    if p.absolute {
      assert AsPosix(p) == "/" + j;
    } else if p.parts == [] {
      Text.SplitCharNone(".", '/');
      assert Components(".") == [];
    } else {
      JoinPlainStart(p.parts);
      assert AsPosix(p) == j;
    }
  }

  /** `p / name`: an absolute `name` replaces `p`. */
  function Child(p: PurePath, name: string): (r: PurePath)
    ensures !Text.StartsWith(name, "/") ==> r == PurePath(p.absolute, p.parts + Components(name))
  {
    var q := ParsePath(name);
    if q.absolute then q else PurePath(p.absolute, p.parts + q.parts)
  }

  /** `p.relative_to(base)`: the components after `base`'s, or ValueError when `base` is not a prefix. */
  function RelativeTo(p: PurePath, base: PurePath): (r: Outcomes.Result<PurePath>)
    ensures r.Ok? <==> p.absolute == base.absolute && base.parts <= p.parts
    ensures r.Ok? ==> !r.value.absolute && base.parts + r.value.parts == p.parts
    ensures r.Err? ==> r.error == Outcomes.ValueError
  {
    if p.absolute == base.absolute && base.parts <= p.parts then
      assert base.parts + p.parts[|base.parts|..] == p.parts;
      Outcomes.Ok(PurePath(false, p.parts[|base.parts|..]))
    else Outcomes.Err(Outcomes.ValueError)
  }

  /** `p.name`: the last component, or the empty text when there is none. */
  function Name(p: PurePath): (r: string)
    ensures AllPlain(p.parts) ==> (r == "" <==> p.parts == [])
    ensures AllPlain(p.parts) && p.parts != [] ==> Plain(r)
  {
    if p.parts == [] then "" else p.parts[|p.parts| - 1]
  }

  /** `p.parent`: the path without its last component; a path without components is its own parent. */
  function Parent(p: PurePath): (r: PurePath)
    ensures r.absolute == p.absolute
    ensures p.parts != [] ==> r.parts + [Name(p)] == p.parts
    ensures p.parts == [] ==> r == p
  {
    if p.parts == [] then p else PurePath(p.absolute, p.parts[..|p.parts| - 1])
  }

  /** A plain name is one component. */
  lemma ComponentsOfPlain(name: string)
    requires Plain(name)
    ensures Components(name) == [name]
  {
    Text.SplitCharNone(name, '/');
  }

  /** `(p / name).parent == p` and `(p / name).name == name` for a plain name. */
  lemma ChildParentName(p: PurePath, name: string)
    requires Plain(name)
    ensures Parent(Child(p, name)) == p
    ensures Name(Child(p, name)) == name
  {
    ComponentsOfPlain(name);
    assert !Text.StartsWith(name, "/") by {
      assert name[0] in name;
    }
    assert Child(p, name).parts == p.parts + [name];
    assert (p.parts + [name])[..|p.parts|] == p.parts;
  }
}

=== FILE: redirects.dfy ===
/**
 * Redirects (wikitools/redirect_parser.py): `wiki/redirect.yaml` is read
 * line by line rather than as YAML, so that every redirect keeps its line
 * number. A line `"source": "destination"` maps the text between its first
 * pair of double quotes to the text between its second pair.
 */
module Redirects {
  import Text
  import Outcomes
  import Keyed

  /** Source, as written in the file (lookups lower-case the link, not the keys), to (destination, line number). */
  type Redirects = map<string, (string, int)>

  const Quote: string := "\""

  /** The redirect one line defines: pieces 1 and 3 of the line split on `"`, when there are that many. */
  function Entry(line: string, n: nat): (r: Outcomes.Option<(string, (string, int))>)
    ensures r.Some? <==> |Text.Split(line, Quote)| >= 4
    ensures r.Some? ==> r.value.1.1 == n
  {
    var pieces := Text.Split(line, Quote);
    if |pieces| >= 4 then Outcomes.Some((pieces[1], (pieces[3], n))) else Outcomes.None
  }

  /** `load_redirects(path)` over the file's lines: lines without four quotes are skipped, and a later line for a source wins. */
  function LoadRedirects(lines: seq<string>): Redirects {
    Keyed.Collect(lines, Entry)
  }

  lemma SplitQuoted(a: string, key: string, b: string, dest: string, rest: string)
    requires '"' !in a && '"' !in key && '"' !in b && '"' !in dest
    ensures Text.Split(a + Quote + key + Quote + b + Quote + dest + Quote + rest, Quote)
      == [a, key, b, dest] + Text.Split(rest, Quote)
  {
    var q := '"';
    var s4 := dest + [q] + rest;
    var s3 := b + [q] + s4;
    var s2 := key + [q] + s3;
    var s1 := a + [q] + s2;
    assert [q] == Quote;
    assert s2 == key + Quote + b + Quote + dest + Quote + rest;
    assert s1 == a + Quote + key + Quote + b + Quote + dest + Quote + rest;
    Text.SplitChar(s4, q, dest, rest);
    Text.SplitChar(s3, q, b, s4);
    Text.SplitChar(s2, q, key, s3);
    Text.SplitChar(s1, q, a, s2);
  }

  /**
   * A line `"key": "destination"`, with anything before the first quote,
   * between the pairs and after the last, is the redirect from `key` to
   * `destination`.
   */
  lemma EntryOfQuotedLine(a: string, key: string, b: string, dest: string, rest: string, n: nat)
    requires '"' !in a && '"' !in key && '"' !in b && '"' !in dest
    ensures Entry(a + Quote + key + Quote + b + Quote + dest + Quote + rest, n)
      == Outcomes.Some((key, (dest, n)))
  {
    SplitQuoted(a, key, b, dest, rest);
  }

  /** A line without double quotes defines nothing. */
  lemma EntryNeedsQuotes(line: string, n: nat)
    requires '"' !in line
    ensures Entry(line, n).None?
  {
    Text.SplitCharNone(line, '"');
  }

  /** Line `n` (from 1) defines a redirect from `source`. */
  predicate Defines(lines: seq<string>, n: int, source: string) {
    Keyed.Yields(lines, Entry, n, source)
  }

  /** A source is redirected exactly when some line defines it, and its line number is in range. */
  lemma LoadRedirectsDomain(lines: seq<string>, source: string)
    ensures source in LoadRedirects(lines) <==> exists n :: Defines(lines, n, source)
    ensures source in LoadRedirects(lines) ==> 1 <= LoadRedirects(lines)[source].1 <= |lines|
  {
    Keyed.CollectDomain(lines, Entry, source);
    if source in LoadRedirects(lines) {
      LoadRedirectsLastWins(lines, source);
    }
  }

  /** The redirect kept for a source is the one on the last line that defines it. */
  lemma LoadRedirectsLastWins(lines: seq<string>, source: string)
    requires source in LoadRedirects(lines)
    ensures var n := LoadRedirects(lines)[source].1;
      && Defines(lines, n, source)
      && LoadRedirects(lines)[source] == Entry(lines[n - 1], n).value.1
      && forall m :: n < m <= |lines| ==> !Defines(lines, m, source)
  {
    Keyed.CollectLast(lines, Entry, source);
  }

  /** The outcome of `check_redirect`: whether the link resolves, and the note shown when it does not. */
  datatype Check = Check(ok: bool, note: string)

  /**
   * `check_redirect(redirects, link)`: the link is looked up in lower
   * case; it resolves when its destination exists under `wiki/`.
   * `existing` is the set of paths present on disk.
   */
  function CheckRedirect(redirects: Redirects, link: string, existing: set<string>): (r: Check)
    ensures r.ok <==> Text.Lower(link) in redirects && "wiki/" + redirects[Text.Lower(link)].0 in existing
    ensures r.ok ==> r.note == ""
    ensures Text.Lower(link) !in redirects ==> r.note == "Note: \"" + link + "\" was not found"
  {
    var linkLower := Text.Lower(link);
    if linkLower !in redirects then Check(false, "Note: \"" + link + "\" was not found")
    else
      var (destination, lineNo) := redirects[linkLower];
      if "wiki/" + destination !in existing then
        Check(false, "Note: Broken redirect (redirect.yaml:" + Text.IntToString(lineNo) + ": " + linkLower + " --> " + destination + ")")
      else Check(true, "")
  }

  /** Links that differ only in the case of ASCII letters resolve alike. */
  lemma CheckRedirectIgnoresCase(redirects: Redirects, a: string, b: string, existing: set<string>)
    requires Text.Lower(a) == Text.Lower(b)
    ensures CheckRedirect(redirects, a, existing).ok == CheckRedirect(redirects, b, existing).ok
  {
  }

  /** A source with an upper-case ASCII letter can never be reached: every lookup is in lower case. */
  lemma UpperCaseSourceUnreachable(redirects: Redirects, source: string, link: string, existing: set<string>)
    requires exists i :: 0 <= i < |source| && 'A' <= source[i] <= 'Z'
    requires redirects.Keys == {source}
    ensures !CheckRedirect(redirects, link, existing).ok
  {
  }
}

=== FILE: references.dfy ===
/**
 * Reference definitions, the second half of a reference-style link
 * (wikitools/reference_parser.py): a line `[name]: location "alt text"`.
 */
module References {
  import Text
  import Outcomes
  import Urls
  import Links
  import Keyed

  datatype Reference = Reference(lineno: nat, name: string, rawLocation: string, parsedLocation: Urls.Url, altText: string)
  {
    /** A definition starts its line. */
    function Start(): int {
      0
    }

    /** One past the last character of the definition as it is written out. */
    function End(): (r: int)
      ensures r == |Render(name, rawLocation, altText)|
    {
      |name| + 4 + |rawLocation| + (if altText != "" then 3 + |altText| else 0)
    }
  }

  /** A definition written out: the alternative text, when there is one, in double quotes after a space. */
  function Render(name: string, location: string, alt: string): string {
    "[" + name + "]: " + location + Quoted(alt)
  }

  /** The alternative text as it follows the location. */
  function Quoted(alt: string): string {
    if alt == "" then "" else " \"" + alt + "\""
  }

  /**
   * What follows `": "`: up to the first space the location, after it the
   * alternative text without its first and last character (its quotes).
   */
  function LocationAndAlt(rest: string): (r: (string, string))
    ensures ' ' !in r.0
    ensures ' ' !in rest ==> r == (rest, "")
    ensures ' ' in rest ==> exists a :: rest == r.0 + " " + a && r.1 == Text.Slice(a, 1, -1)
  {
    Text.ContainsChar(rest, ' ');
    match Text.SplitOnce(rest, " ")
    case None => (rest, "")
    case Some((location, alt)) =>
      Text.ContainsChar(location, ' ');
      (location, Text.Slice(alt, 1, -1))
  }

  /** The reference a line defines, once the `:` at `k` is known to introduce one. */
  function Build(s: string, lineno: nat, k: nat): Outcomes.Result<Outcomes.Option<Reference>> {
    var (location, alt) := LocationAndAlt(Text.SliceFrom(s, k + 2));
    var parsed :- Urls.Parse(location);
    Outcomes.Ok(Outcomes.Some(Reference(lineno, Text.Slice(s, 1, k - 1), location, parsed, alt)))
  }

  /** `extract(s, lineno)` as written: IndexError when the line ends right after `]:`. */
  function ExtractAsWritten(s: string, lineno: nat): (r: Outcomes.Result<Outcomes.Option<Reference>>)
    ensures r == Outcomes.Err(Outcomes.IndexError) <==> Links.DefinitionColonAsWritten(s).Err?
    ensures r != Outcomes.Err(Outcomes.IndexError) ==> r == Extract(s, lineno)
  {
    var colon :- Links.DefinitionColonAsWritten(s);
    match colon
    case None => Outcomes.Ok(Outcomes.None)
    case Some(k) => Build(s, lineno, k)
  }

  /**
   * `extract(s, lineno)` with the guard corrected: a line yields a
   * reference exactly when it has the shape of a definition; the only
   * error left is a location `urlparse` refuses.
   */
  function Extract(s: string, lineno: nat): (r: Outcomes.Result<Outcomes.Option<Reference>>)
    ensures r.Ok? && r.value.None? <==> Links.DefinitionColon(s).None?
    ensures r.Err? ==> r.error == Outcomes.ValueError
    ensures r.Ok? && r.value.Some? ==> var k := Text.Find(s, ":", 0);
      && r.value.value.lineno == lineno
      && s == "[" + r.value.value.name + "]: " + s[k + 2..]
      && (r.value.value.rawLocation, r.value.value.altText) == LocationAndAlt(s[k + 2..])
      && ' ' !in r.value.value.rawLocation
      && Urls.Parse(r.value.value.rawLocation) == Outcomes.Ok(r.value.value.parsedLocation)
  {
    match Links.DefinitionColon(s)
    case None => Outcomes.Ok(Outcomes.None)
    case Some(k) =>
      assert s == "[" + Text.Slice(s, 1, k - 1) + "]: " + s[k + 2..] by {
        assert s == s[..1] + s[1..k - 1] + s[k - 1..k + 2] + s[k + 2..];
        Text.OccursAtChar(s, ':', k);
        assert s[k - 1..k + 2] == "]: ";
      }
      Build(s, lineno, k)
  }

  /** A line that ends in `]:` makes the written version raise. */
  lemma BareDefinitionRaises()
    ensures ExtractAsWritten("[a]:", 1) == Outcomes.Err(Outcomes.IndexError)
    ensures Extract("[a]:", 1) == Outcomes.Ok(Outcomes.None)
  {
    Links.BareColonRaises();
  }

  lemma FirstColon(name: string, rest: string)
    requires ':' !in name
    ensures Text.Find("[" + name + "]: " + rest, ":", 0) == |name| + 2
  {
    var s := "[" + name + "]: " + rest;
    Text.OccursAtChar(s, ':', |name| + 2);
    forall k | 0 <= k < |name| + 2 ensures !Text.OccursAt(s, ":", k) {
      Text.OccursAtChar(s, ':', k);
      if 1 <= k <= |name| {
        assert s[k] == name[k - 1];
      }
    }
    Text.FindIs(s, ":", 0, |name| + 2);
  }

  lemma RenderedRest(location: string, alt: string)
    requires ' ' !in location
    ensures LocationAndAlt(location + Quoted(alt)) == (location, alt)
  {
    var rest := location + Quoted(alt);
    if alt == "" {
      assert rest == location;
    } else {
      var a := "\"" + alt + "\"";
      assert rest == location + [' '] + a;
      Text.SplitOnceChar(rest, ' ', location, a);
      assert Text.SplitOnce(rest, " ") == Outcomes.Some((location, a));
      assert a[1..|a| - 1] == alt;
      assert Text.Slice(a, 1, -1) == alt;
    }
  }

  /** The `:` of a written-out definition introduces it. */
  lemma RenderedColon(name: string, tail: string)
    requires ':' !in name
    ensures Links.DefinitionColon("[" + name + "]: " + tail) == Outcomes.Some(|name| + 2)
  {
    var s := "[" + name + "]: " + tail;
    FirstColon(name, tail);
    var k := |name| + 2;
    assert s[0] == '[' && s[k - 1] == ']' && s[k + 1] == ' ';
  }

  lemma RenderedPieces(name: string, location: string, alt: string)
    ensures Text.SliceFrom(Render(name, location, alt), |name| + 4) == location + Quoted(alt)
    ensures Text.Slice(Render(name, location, alt), 1, |name| + 1) == name
  {
    var s := Render(name, location, alt);
    var head := "[" + name + "]: ";
    var tail := location + Quoted(alt);
    assert s == head + tail;
    assert |head| == |name| + 4;
    assert s[|head|..] == tail;
    assert head[1..|name| + 1] == name;
    assert s[1..|name| + 1] == head[1..|name| + 1];
  }

  lemma BuildRendered(name: string, location: string, alt: string, lineno: nat)
    requires ' ' !in location
    requires Urls.Parse(location).Ok?
    ensures Build(Render(name, location, alt), lineno, |name| + 2)
      == Outcomes.Ok(Outcomes.Some(Reference(lineno, name, location, Urls.Parse(location).value, alt)))
  {
    RenderedPieces(name, location, alt);
    RenderedRest(location, alt);
  }

  /**
   * Writing a definition out and extracting it again gives back its name,
   * location and alternative text, when the name has no `:` and the
   * location no space.
   */
  lemma ExtractRender(name: string, location: string, alt: string, lineno: nat)
    requires ':' !in name && ' ' !in location
    requires Urls.Parse(location).Ok?
    ensures Extract(Render(name, location, alt), lineno)
      == Outcomes.Ok(Outcomes.Some(Reference(lineno, name, location, Urls.Parse(location).value, alt)))
  {
    var s := Render(name, location, alt);
    RenderedColon(name, location + Quoted(alt));
    RenderIs(name, location, alt);
    ExtractAt(s, lineno, |name| + 2);
    BuildRendered(name, location, alt, lineno);
  }

  lemma RenderIs(name: string, location: string, alt: string)
    ensures Render(name, location, alt) == "[" + name + "]: " + (location + Quoted(alt))
  {
  }

  /** Once the colon is known, extraction is building the reference. */
  lemma ExtractAt(s: string, lineno: nat, k: nat)
    requires Links.DefinitionColon(s) == Outcomes.Some(k)
    ensures Extract(s, lineno) == Build(s, lineno, k)
  {
  }

  /** The entry one line contributes to `extract_all`, when its extraction succeeds. */
  function Entry(line: string, n: nat): (r: Outcomes.Option<(string, Reference)>)
    ensures r.Some? ==> r.value.0 == r.value.1.name && r.value.1.lineno == n
  {
    match Extract(line, n)
    case Ok(Some(ref)) => Outcomes.Some((ref.name, ref))
    case _ => Outcomes.None
  }

  /** A line contributes an entry exactly when it yields a definition, and the entry is that definition. */
  lemma EntryIsExtract(line: string, n: nat)
    ensures Entry(line, n).Some? <==> Extract(line, n).Ok? && Extract(line, n).value.Some?
    ensures Entry(line, n).Some? ==> Extract(line, n) == Outcomes.Ok(Outcomes.Some(Entry(line, n).value.1))
  {
  }

  /** `extract(line, n)` as written, on line `n` of a text. */
  function ExtractLine(line: string, n: nat): Outcomes.Result<Outcomes.Option<Reference>> {
    ExtractAsWritten(line, n)
  }

  /**
   * `extract_all(text)` over the text's lines: the first raising line
   * raises for the whole text (IndexError for a line ending in `]:`,
   * ValueError for a location `urlparse` refuses); otherwise name to
   * definition, numbering lines from 1, a later definition replacing an
   * earlier one. When nothing raises, every line reads as the corrected
   * `Extract` reads it, so the definitions are those of `Definitions`.
   */
  function ExtractAll(lines: seq<string>): (r: Outcomes.Result<map<string, Reference>>)
    ensures r.Ok? ==> forall i :: 0 <= i < |lines| ==> ExtractAsWritten(lines[i], i + 1) == Extract(lines[i], i + 1)
    ensures r.Ok? ==> r.value == Definitions(lines)
    ensures r.Err? <==> exists n :: Keyed.Fails(lines, ExtractLine, n)
    ensures r.Err? ==> r.error == Outcomes.IndexError || r.error == Outcomes.ValueError
    ensures r.Err? ==> exists n :: (&& Keyed.Fails(lines, ExtractLine, n) && ExtractAsWritten(lines[n - 1], n).error == r.error
                                   && forall j :: 1 <= j < n ==> !Keyed.Fails(lines, ExtractLine, j))
  {
    match Keyed.FirstFailure(lines, ExtractLine, 1)
    case Some(e) =>
      assert e == Outcomes.IndexError || e == Outcomes.ValueError by {
        var n :| 1 <= n && Keyed.Fails(lines, ExtractLine, n) && ExtractLine(lines[n - 1], n).error == e;
      }
      Outcomes.Err(e)
    case None =>
      forall i | 0 <= i < |lines| ensures ExtractAsWritten(lines[i], i + 1).Ok? {
        assert !Keyed.Fails(lines, ExtractLine, i + 1);
      }
      Outcomes.Ok(Definitions(lines))
  }

  /** The definitions of a text none of whose lines raises. */
  function Definitions(lines: seq<string>): map<string, Reference> {
    Keyed.Collect(lines, Entry)
  }

  /** Line `n` (from 1) defines `name`. */
  predicate Defines(lines: seq<string>, n: int, name: string) {
    Keyed.Yields(lines, Entry, n, name)
  }

  /** A name has a definition exactly when some line defines it. */
  lemma DefinitionsDomain(lines: seq<string>, name: string)
    ensures name in Definitions(lines) <==> exists n :: Defines(lines, n, name)
  {
    assert Definitions(lines) == Keyed.Collect(lines, Entry);
    assert forall n :: Keyed.Yields(lines, Entry, n, name) <==> Defines(lines, n, name);
    Keyed.CollectDomain(lines, Entry, name);
  }

  /**
   * The definition kept for a name is the one on the last line that
   * defines it (and, by `Entry`, carries that line's number).
   */
  lemma DefinitionsLastWins(lines: seq<string>, name: string)
    requires name in Definitions(lines)
    ensures exists n :: (&& Defines(lines, n, name)
                        && Definitions(lines)[name] == Entry(lines[n - 1], n).value.1
                        && forall m :: n < m <= |lines| ==> !Defines(lines, m, name))
  {
    assert Definitions(lines) == Keyed.Collect(lines, Entry);
    assert forall n :: Keyed.Yields(lines, Entry, n, name) <==> Defines(lines, n, name);
    Keyed.CollectLast(lines, Entry, name);
  }
}

=== FILE: sorting.dfy ===
/**
 * Python's `sorted`: a stable sort, also stable when `reverse=True` (equal
 * elements keep their original order in both directions). Modelled once as
 * an insertion sort parameterised by a strict weak order, and used for
 * table rows, split groups, directory listings, code blocks and
 * identifiers.
 */
module Sorting {
  import Text

  /** `lt` is irreflexive, transitive and its complement is transitive. */
  ghost predicate StrictWeakOrder<T(!new)>(lt: (T, T) -> bool) {
    && (forall a :: !lt(a, a))
    && (forall a, b, c :: lt(a, b) && lt(b, c) ==> lt(a, c))
    && (forall a, b, c :: !lt(a, b) && !lt(b, c) ==> !lt(a, c))
  }

  ghost predicate Sorted<T>(xs: seq<T>, lt: (T, T) -> bool) {
    forall i, j :: 0 <= i < j < |xs| ==> !lt(xs[j], xs[i])
  }

  /** Inserts `x` in front of every element that is not smaller than it. */
  function Insert<T>(x: T, ys: seq<T>, lt: (T, T) -> bool): (r: seq<T>)
    ensures multiset(r) == multiset([x] + ys)
    ensures |r| == |ys| + 1
  {
    if |ys| == 0 || !lt(ys[0], x) then [x] + ys
    else
      assert ys == [ys[0]] + ys[1..];
      [ys[0]] + Insert(x, ys[1..], lt)
  }

  /** The stable sort; `Sorted` and `Stable` below state what it achieves. */
  function Sort<T>(xs: seq<T>, lt: (T, T) -> bool): (r: seq<T>)
    ensures multiset(r) == multiset(xs)
    ensures |r| == |xs|
  {
    if |xs| == 0 then []
    else
      assert xs == [xs[0]] + xs[1..];
      Insert(xs[0], Sort(xs[1..], lt), lt)
  }

  lemma {:induction false} InsertSorted<T(!new)>(x: T, ys: seq<T>, lt: (T, T) -> bool)
    requires StrictWeakOrder(lt)
    requires Sorted(ys, lt)
    ensures Sorted(Insert(x, ys, lt), lt)
  {
    if |ys| == 0 || !lt(ys[0], x) {
    } else {
      var rest := Insert(x, ys[1..], lt);
      InsertSorted(x, ys[1..], lt);
      forall e | e in multiset(rest) ensures !lt(e, ys[0]) {
        assert e in multiset([x] + ys[1..]);
        if e == x {
        } else {
          assert e in ys[1..];
        }
      }
      var r := [ys[0]] + rest;
      forall i, j | 0 <= i < j < |r| ensures !lt(r[j], r[i]) {
        if i == 0 {
          assert r[j] in multiset(rest);
        }
      }
    }
  }

  /** The result of `Sort` is sorted. */
  lemma {:induction false} SortSorted<T(!new)>(xs: seq<T>, lt: (T, T) -> bool)
    requires StrictWeakOrder(lt)
    ensures Sorted(Sort(xs, lt), lt)
  {
    if |xs| > 0 {
      SortSorted(xs[1..], lt);
      InsertSorted(xs[0], Sort(xs[1..], lt), lt);
    }
  }

  /** Neither element is smaller than the other. */
  predicate Equivalent<T>(a: T, b: T, lt: (T, T) -> bool) {
    !lt(a, b) && !lt(b, a)
  }

  /** The elements of `xs` equivalent to `e`, in their order in `xs`. */
  function ClassOf<T>(xs: seq<T>, e: T, lt: (T, T) -> bool): seq<T> {
    if |xs| == 0 then []
    else (if Equivalent(xs[0], e, lt) then [xs[0]] else []) + ClassOf(xs[1..], e, lt)
  }

  lemma {:induction false} InsertStable<T(!new)>(x: T, ys: seq<T>, e: T, lt: (T, T) -> bool)
    requires StrictWeakOrder(lt)
    ensures ClassOf(Insert(x, ys, lt), e, lt)
         == (if Equivalent(x, e, lt) then [x] else []) + ClassOf(ys, e, lt)
  {
    if |ys| == 0 || !lt(ys[0], x) {
      ClassOfCons(x, ys, e, lt);
    } else {
      InsertStable(x, ys[1..], e, lt);
      ClassOfCons(ys[0], Insert(x, ys[1..], lt), e, lt);
      ClassOfCons(ys[0], ys[1..], e, lt);
      assert [ys[0]] + ys[1..] == ys;
      if Equivalent(x, e, lt) {
        SmallerNotEquivalent(ys[0], x, e, lt);
      }
    }
  }

  lemma ClassOfCons<T>(x: T, rest: seq<T>, e: T, lt: (T, T) -> bool)
    ensures ClassOf([x] + rest, e, lt) == (if Equivalent(x, e, lt) then [x] else []) + ClassOf(rest, e, lt)
  {
    assert ([x] + rest)[1..] == rest;
  }

  /** What is strictly smaller than an element is not equivalent to anything equivalent to it. */
  lemma SmallerNotEquivalent<T(!new)>(a: T, x: T, e: T, lt: (T, T) -> bool)
    requires StrictWeakOrder(lt) && lt(a, x) && Equivalent(x, e, lt)
    ensures !Equivalent(a, e, lt)
  {
  }

  /**
   * Stability: the elements equivalent to any given one appear in the
   * sorted result in the same order as in the input.
   */
  lemma {:induction false} SortStable<T(!new)>(xs: seq<T>, e: T, lt: (T, T) -> bool)
    requires StrictWeakOrder(lt)
    ensures ClassOf(Sort(xs, lt), e, lt) == ClassOf(xs, e, lt)
  {
    if |xs| > 0 {
      SortStable(xs[1..], e, lt);
      InsertStable(xs[0], Sort(xs[1..], lt), e, lt);
    }
  }

  /** Python's `reverse=True`: every comparison is reversed. */
  function Flip<T>(lt: (T, T) -> bool): (T, T) -> bool {
    (a: T, b: T) => lt(b, a)
  }

  lemma FlipStrictWeakOrder<T(!new)>(lt: (T, T) -> bool)
    requires StrictWeakOrder(lt)
    ensures StrictWeakOrder(Flip(lt))
  {
  }

  /** Python's order on strings: code point by code point, a proper prefix first. */
  function StringLess(): (string, string) -> bool {
    (a: string, b: string) => Text.LexLess(a, b)
  }

  lemma StringLessStrictWeakOrder()
    ensures StrictWeakOrder(StringLess())
  {
    forall a: string {
      Text.LexLessIrreflexive(a);
    }
    forall a: string, b: string, c: string | Text.LexLess(a, b) && Text.LexLess(b, c)
      ensures Text.LexLess(a, c)
    {
      Text.LexLessTransitive(a, b, c);
    }
    forall a: string, b: string, c: string | !Text.LexLess(a, b) && !Text.LexLess(b, c)
      ensures !Text.LexLess(a, c)
    {
      Text.LexLessTotal(a, b);
      Text.LexLessTotal(b, c);
      Text.LexLessIrreflexive(a);
      if Text.LexLess(a, c) {
        if b == a {
        } else if b == c {
        } else {
          Text.LexLessTransitive(c, b, a);
          Text.LexLessTransitive(a, c, a);
        }
      }
    }
  }

  /** Comparison by a string key, as `sorted(..., key=key)` does. */
  function By<T>(key: T -> string): (T, T) -> bool {
    (a: T, b: T) => Text.LexLess(key(a), key(b))
  }

  lemma ByStrictWeakOrder<T(!new)>(key: T -> string)
    ensures StrictWeakOrder(By(key))
  {
    StringLessStrictWeakOrder();
    assert forall a: string, b: string :: StringLess()(a, b) == Text.LexLess(a, b);
  }

  /** `sorted(xs, key=key, reverse=descending)`. */
  function SortBy<T>(xs: seq<T>, key: T -> string, descending: bool): (r: seq<T>)
    ensures multiset(r) == multiset(xs)
  {
    Sort(xs, if descending then Flip(By(key)) else By(key))
  }

  /** `SortBy` orders by key (ascending or descending) and keeps elements of equal key in input order. */
  lemma SortByOrdered<T(!new)>(xs: seq<T>, key: T -> string, descending: bool, e: T)
    ensures var r := SortBy(xs, key, descending);
      && (forall i, j :: 0 <= i < j < |r| ==>
            if descending then !Text.LexLess(key(r[i]), key(r[j])) else !Text.LexLess(key(r[j]), key(r[i])))
      && ClassOf(r, e, if descending then Flip(By(key)) else By(key))
         == ClassOf(xs, e, if descending then Flip(By(key)) else By(key))
  {
    ByStrictWeakOrder(key);
    var lt := if descending then Flip(By(key)) else By(key);
    if descending {
      FlipStrictWeakOrder(By(key));
    }
    SortSorted(xs, lt);
    SortStable(xs, e, lt);
  }

  /** `sorted(names)` for strings. */
  function SortStrings(names: seq<string>): (r: seq<string>)
    ensures multiset(r) == multiset(names)
  {
    Sort(names, StringLess())
  }

  /** Sorted strings come in ascending order. */
  lemma SortStringsAscending(names: seq<string>)
    ensures forall i, j :: 0 <= i < j < |SortStrings(names)| ==> !Text.LexLess(SortStrings(names)[j], SortStrings(names)[i])
  {
    StringLessStrictWeakOrder();
    SortSorted(names, StringLess());
  }
}

=== FILE: tables.dfy ===
/**
 * The `Table` of the table generator: a header, an alignment row and data
 * rows, with filtering, column selection, sorting, and plain and padded
 * Markdown printing. Printing yields the printed lines without their
 * line breaks; reading the CSV file is left to the caller, who passes
 * its records.
 */
module Tables {
  import Text
  import Sorting
  import Templates
  import opened Outcomes

  /** A table: header names, the alignment row (empty while unset) and the data rows. */
  datatype Table = Table(header: seq<string>, alignments: seq<string>, rows: seq<Templates.Row>)

  function Max(a: int, b: int): int {
    if a < b then b else a
  }

  function Min(a: int, b: int): int {
    if a < b then a else b
  }

  /**
   * `Table(csv_file, header, alignments)`. `csv` holds the file's records
   * when a file is given: the first is the header, and every later record
   * becomes a row under that header. A non-empty `header` argument then
   * replaces the table's header but not the rows' one; non-empty
   * `alignments` become the alignment row. An empty file raises
   * StopIteration at `next(reader)`.
   */
  function New(csv: Option<seq<seq<string>>>, header: seq<string>, alignments: seq<Templates.Alignment>): (r: Result<Table>)
    ensures r.Err? <==> csv == Some([])
    ensures r.Err? ==> r.error == StopIteration
    ensures r.Ok? ==> r.value.header == (if header != [] then header else if csv.Some? then csv.value[0] else [])
    ensures r.Ok? ==> |r.value.alignments| == |alignments|
    ensures r.Ok? ==> forall i :: 0 <= i < |alignments| ==> r.value.alignments[i] == Templates.MarkdownAlignment(alignments[i])
    ensures r.Ok? && csv.None? ==> r.value.rows == []
    ensures r.Ok? && csv.Some? ==> |r.value.rows| == |csv.value| - 1
    ensures r.Ok? && csv.Some? ==> forall i :: 0 <= i < |r.value.rows| ==> r.value.rows[i].cells == csv.value[i + 1]
    ensures r.Ok? && csv.Some? && csv.value[0] != [] ==> forall i :: 0 <= i < |r.value.rows| ==> r.value.rows[i].header == Some(csv.value[0])
  {
    if csv == Some([]) then Err(StopIteration)
    else
      var fileHeader := if csv.Some? then csv.value[0] else [];
      var records := if csv.Some? then csv.value[1..] else [];
      var rows := seq(|records|, i requires 0 <= i < |records| => Templates.MakeRow(records[i], fileHeader));
      var aligns := seq(|alignments|, i requires 0 <= i < |alignments| => Templates.MarkdownAlignment(alignments[i]));
      Ok(Table(if header != [] then header else fileHeader, aligns, rows))
  }

  /**
   * The module whose enum class a `SortOrder` or `Alignment` member belongs
   * to. template_generator.py and table_generator.py each define both
   * enums, and Python compares Enum members by identity: members of the
   * two classes are never equal, whatever their values.
   */
  datatype Origin = TemplateGenerator | TableGenerator

  /**
   * table_generator's `markdown_string_from_alignment`: its cases are its
   * own module's members, so a member of the other class matches none and
   * the function falls off its end, returning None.
   */
  function MarkdownOf(origin: Origin, a: Templates.Alignment): (r: Option<string>)
    ensures origin == TableGenerator ==> r == Some(Templates.MarkdownAlignment(a))
    ensures origin == TemplateGenerator ==> r == None
  {
    if (origin, a) == (TableGenerator, Templates.Centre) then Some(":-:")
    else if (origin, a) == (TableGenerator, Templates.Left) then Some(":--")
    else if (origin, a) == (TableGenerator, Templates.Right) then Some("--:")
    else None
  }

  /** `order == SortOrder.DESCENDING` inside `Table.sort`: true only for table_generator's own DESCENDING. */
  predicate Reverses(origin: Origin, order: Templates.SortOrder) {
    (origin, order) == (TableGenerator, Templates.Descending)
  }

  /** The alignment row in use: the table's own, or `:--` for every column while it is empty. */
  function Aligned(t: Table): (r: seq<string>)
    ensures t.alignments != [] ==> r == t.alignments
    ensures t.alignments == [] ==> |r| == |t.header| && forall i :: 0 <= i < |r| ==> r[i] == ":--"
  {
    if t.alignments != [] then t.alignments else seq(|t.header|, _ => ":--")
  }

  // ---------------------------------------------------------------------
  // print

  /** One printed line: `| c1 | c2 | … |`. */
  function Line(cells: seq<string>): string {
    "| " + Text.Join(" | ", cells) + " |"
  }

  /** `print`: the header line, the alignment line, then one line per row. */
  function Print(t: Table): (r: seq<string>)
    ensures |r| == |t.rows| + 2
    ensures r[0] == Line(t.header) && r[1] == Line(Aligned(t))
    ensures forall i :: 0 <= i < |t.rows| ==> r[i + 2] == Line(t.rows[i].cells)
  {
    [Line(t.header), Line(Aligned(t))] + seq(|t.rows|, i requires 0 <= i < |t.rows| => Line(t.rows[i].cells))
  }

  /** A cell that survives printing: no `|`, and no whitespace at either end. */
  predicate Plain(cell: string) {
    && '|' !in cell
    && (cell == "" || (!Text.IsWhitespace(cell[0]) && !Text.IsWhitespace(cell[|cell| - 1])))
  }

  /** Reads a printed line back: the stripped text between consecutive pipes. */
  function ReadLine(line: string): seq<string> {
    var pieces := Text.Split(line, "|");
    if |pieces| < 2 then [] else Templates.StripAll(pieces[1..|pieces| - 1])
  }

  function Padded(cells: seq<string>): (r: seq<string>)
    ensures |r| == |cells|
    ensures forall i :: 0 <= i < |cells| ==> r[i] == " " + cells[i] + " "
  {
    seq(|cells|, i requires 0 <= i < |cells| => " " + cells[i] + " ")
  }

  lemma {:induction false} JoinPadded(cells: seq<string>)
    requires |cells| >= 1
    ensures " " + Text.Join(" | ", cells) + " " == Text.Join("|", Padded(cells))
    decreases |cells|
  {
    if |cells| > 1 {
      JoinPadded(cells[1..]);
      assert Padded(cells)[1..] == Padded(cells[1..]);
      var j := Text.Join(" | ", cells[1..]);
      assert " " + (cells[0] + " | " + j) + " " == (" " + cells[0] + " ") + "|" + (" " + j + " ");
    }
  }

  lemma {:induction false} JoinAppend(sep: string, xs: seq<string>, y: string)
    requires |xs| >= 1
    ensures Text.Join(sep, xs + [y]) == Text.Join(sep, xs) + sep + y
    decreases |xs|
  {
    if |xs| > 1 {
      assert (xs + [y])[1..] == xs[1..] + [y];
      JoinAppend(sep, xs[1..], y);
    } else {
      assert (xs + [y])[1..] == [y];
    }
  }

  lemma StripPlain(c: string)
    requires Plain(c)
    ensures Text.Strip(" " + c + " ") == c
  {
    if c == "" {
      assert " " + c + " " == "  ";
      assert Text.LStrip("  "[1..]) == "";
    } else {
      Templates.StripPadded(c);
    }
  }

  /** Printing a line and reading it back gives its cells again, whenever every cell is plain. */
  lemma ReadPrinted(cells: seq<string>)
    requires |cells| >= 1
    requires forall i :: 0 <= i < |cells| ==> Plain(cells[i])
    ensures ReadLine(Line(cells)) == cells
  {
    var p := Padded(cells);
    JoinPadded(cells);
    var xs := [""] + p + [""];
    JoinAppend("|", [""] + p, "");
    assert ([""] + p)[1..] == p;
    assert Text.Join("|", [""] + p) == "" + "|" + Text.Join("|", p);
    assert Line(cells) == Text.Join("|", xs);
    forall i | 0 <= i < |xs| ensures '|' !in xs[i] {
      if 0 < i < |xs| - 1 {
        assert xs[i] == " " + cells[i - 1] + " ";
      }
    }
    Text.SplitJoinChar(xs, '|');
    assert xs[1..|xs| - 1] == p;
    forall i | 0 <= i < |cells| ensures Text.Strip(p[i]) == cells[i] {
      StripPlain(cells[i]);
    }
  }

  // ---------------------------------------------------------------------
  // print_pretty

  function Spaces(n: int): string {
    Text.RepeatChar(' ', n)
  }

  /** `str.center`'s left margin: half the padding, one more when both the padding and the width are odd. */
  function CentreLeft(marg: nat, width: nat): (r: nat)
    ensures r <= marg
  {
    marg / 2 + (if marg % 2 == 1 && width % 2 == 1 then 1 else 0)
  }

  /**
   * `_justify`: `ljust` for `:--`, `center` for `:-:`, `rjust` for `--:`.
   * Any other alignment reaches `raise NotImplemented`, which raises
   * TypeError because `NotImplemented` is not an exception.
   */
  function Justify(s: string, length: nat, alignment: string): (r: Result<string>)
    ensures r.Err? <==> alignment !in [":--", ":-:", "--:"]
    ensures r.Err? ==> r.error == TypeError
    ensures r.Ok? ==> |r.value| == Max(|s|, length)
    ensures r.Ok? ==> exists left: nat, right: nat ::
      && r.value == Spaces(left) + s + Spaces(right)
      && (alignment == ":--" ==> left == 0)
      && (alignment == "--:" ==> right == 0)
      && (alignment == ":-:" ==> left <= right + 1 && right <= left + 1)
  {
    var marg := if length > |s| then length - |s| else 0;
    if alignment == ":--" then
      assert s + Spaces(marg) == Spaces(0) + s + Spaces(marg);
      Ok(s + Spaces(marg))
    else if alignment == ":-:" then
      var left := CentreLeft(marg, length);
      Ok(Spaces(left) + s + Spaces(marg - left))
    else if alignment == "--:" then
      assert Spaces(marg) + s == Spaces(marg) + s + Spaces(0);
      Ok(Spaces(marg) + s)
    else Err(TypeError)
  }

  lemma LStripSpaces(n: nat, w: string)
    requires w == "" || !Text.IsWhitespace(w[0])
    ensures Text.LStrip(Spaces(n) + w) == w
  {
    LStripWhitespace(Spaces(n), w);
  }

  lemma {:induction false} LStripWhitespace(p: string, w: string)
    requires Text.AllWhitespace(p)
    requires w == "" || !Text.IsWhitespace(w[0])
    ensures Text.LStrip(p + w) == w
    decreases |p|
  {
    if |p| > 0 {
      var t := p + w;
      assert t[0] == p[0] && t[1..] == p[1..] + w;
      LStripWhitespace(p[1..], w);
    } else {
      assert p + w == w;
    }
  }

  lemma RStripSpaces(w: string, n: nat)
    requires w == "" || !Text.IsWhitespace(w[|w| - 1])
    ensures Text.RStrip(w + Spaces(n)) == w
    decreases n
  {
    if n > 0 {
      assert (w + Spaces(n))[..|w + Spaces(n)| - 1] == w + Spaces(n - 1);
      RStripSpaces(w, n - 1);
    } else {
      assert w + Spaces(n) == w;
    }
  }

  /** Stripping a justified cell gives the cell back. */
  lemma JustifyStrip(s: string, length: nat, alignment: string)
    requires Plain(s)
    requires Justify(s, length, alignment).Ok?
    ensures Text.Strip(Justify(s, length, alignment).value) == s
  {
    var left: nat, right: nat :| Justify(s, length, alignment).value == Spaces(left) + s + Spaces(right);
    StripPadding(s, left, right);
  }

  lemma StripPadding(s: string, left: nat, right: nat)
    requires Plain(s)
    ensures Text.Strip(Spaces(left) + s + Spaces(right)) == s
  {
    var x := Spaces(left) + s + Spaces(right);
    if s == "" {
      assert x == Spaces(left + right) + "";
      LStripSpaces(left + right, "");
      StripIs(x, "", "");
    } else {
      assert x == Spaces(left) + (s + Spaces(right));
      LStripSpaces(left, s + Spaces(right));
      RStripSpaces(s, right);
      StripIs(x, s + Spaces(right), s);
    }
  }

  lemma StripIs(x: string, y: string, z: string)
    requires Text.LStrip(x) == y && Text.RStrip(y) == z
    ensures Text.Strip(x) == z
  {
  }

  /** `_expand_alignment`: the first character, the second repeated `length - 2` times, the third. */
  function ExpandAlignment(a: string, length: int): (r: Result<string>)
    ensures r.Ok? <==> |a| >= 3
    ensures r.Err? ==> r.error == IndexError
    ensures r.Ok? ==> |r.value| == Max(length, 2)
    ensures r.Ok? ==> r.value[0] == a[0] && r.value[|r.value| - 1] == a[2]
    ensures r.Ok? ==> forall i :: 0 < i < |r.value| - 1 ==> r.value[i] == a[1]
  {
    if |a| < 3 then Err(IndexError)
    else Ok([a[0]] + Text.RepeatChar(a[1], length - 2) + [a[2]])
  }

  /**
   * The width of column `c` over the header and the rows: its longest
   * cell, but at least 3. A line without column `c` raises IndexError.
   */
  function ColumnWidth(lines: seq<seq<string>>, c: nat): (r: Result<nat>)
    ensures r.Ok? <==> forall i :: 0 <= i < |lines| ==> c < |lines[i]|
    ensures r.Err? ==> r.error == IndexError
    ensures r.Ok? ==> r.value >= 3 && forall i :: 0 <= i < |lines| ==> |lines[i][c]| <= r.value
    ensures r.Ok? ==> r.value == 3 || exists i :: 0 <= i < |lines| && |lines[i][c]| == r.value
  {
    if |lines| == 0 then Ok(3)
    else if c >= |lines[0]| then Err(IndexError)
    else match ColumnWidth(lines[1..], c)
      case Err(e) => Err(e)
      case Ok(w) =>
        assert forall i :: 1 <= i < |lines| ==> lines[i] == lines[1..][i - 1];
        Ok(Max(w, |lines[0][c]|))
  }

  /** The widths of columns `c`, `c + 1`, …, `n - 1`. */
  function WidthsFrom(lines: seq<seq<string>>, c: nat, n: nat): (r: Result<seq<nat>>)
    requires c <= n
    ensures r.Ok? <==> forall k :: c <= k < n ==> ColumnWidth(lines, k).Ok?
    ensures r.Err? ==> r.error == IndexError
    ensures r.Ok? ==> |r.value| == n - c && forall j :: 0 <= j < n - c ==> r.value[j] == ColumnWidth(lines, c + j).value
    decreases n - c
  {
    if c == n then Ok([])
    else match ColumnWidth(lines, c)
      case Err(e) =>
        assert !ColumnWidth(lines, c).Ok?;
        Err(e)
      case Ok(w) =>
        match WidthsFrom(lines, c + 1, n)
        case Err(e) =>
          assert exists k :: c + 1 <= k < n && ColumnWidth(lines, k).Err?;
          Err(e)
        case Ok(ws) =>
          assert forall j :: 1 <= j < n - c ==> ([w] + ws)[j] == ws[j - 1];
          Ok([w] + ws)
  }

  /** The header followed by every row's cells. */
  function Grid(t: Table): (r: seq<seq<string>>)
    ensures |r| == |t.rows| + 1 && r[0] == t.header
    ensures forall i :: 0 <= i < |t.rows| ==> r[i + 1] == t.rows[i].cells
  {
    [t.header] + seq(|t.rows|, i requires 0 <= i < |t.rows| => t.rows[i].cells)
  }

  /** The column widths of `print_pretty`, one per header column. */
  function Widths(t: Table): (r: Result<seq<nat>>)
    ensures r.Ok? <==> forall i :: 0 <= i < |t.rows| ==> |t.header| <= |t.rows[i].cells|
    ensures r.Ok? ==> |r.value| == |t.header|
  {
    WidthsFits(t);
    WidthsFrom(Grid(t), 0, |t.header|)
  }

  lemma WidthsFits(t: Table)
    ensures WidthsFrom(Grid(t), 0, |t.header|).Ok? <==> forall i :: 0 <= i < |t.rows| ==> |t.header| <= |t.rows[i].cells|
  {
    var g := Grid(t);
    if forall i :: 0 <= i < |t.rows| ==> |t.header| <= |t.rows[i].cells| {
      forall k | 0 <= k < |t.header| ensures ColumnWidth(g, k).Ok? {
        forall j | 0 <= j < |g| ensures k < |g[j]| {
          if j > 0 {
            assert g[j] == t.rows[j - 1].cells;
          }
        }
      }
    } else {
      var i :| 0 <= i < |t.rows| && |t.rows[i].cells| < |t.header|;
      assert g[i + 1] == t.rows[i].cells;
      assert ColumnWidth(g, |t.rows[i].cells|).Err?;
    }
  }

  /** Every column is at least 3 wide and as wide as each of its cells. */
  lemma WidthsCover(t: Table, k: nat)
    requires Widths(t).Ok? && k < |t.header|
    ensures Widths(t).value[k] >= 3 && |t.header[k]| <= Widths(t).value[k]
    ensures forall i :: 0 <= i < |t.rows| ==> |t.rows[i].cells[k]| <= Widths(t).value[k]
  {
    var g := Grid(t);
    assert Widths(t).value[k] == ColumnWidth(g, 0 + k).value;
    forall i | 0 <= i < |t.rows| ensures |t.rows[i].cells[k]| <= Widths(t).value[k] {
      assert g[i + 1] == t.rows[i].cells;
    }
  }

  /** The justified cells of one line, zipped with the widths and alignments (the shortest decides). */
  function JustifyAll(cells: seq<string>, widths: seq<nat>, aligns: seq<string>): (r: Result<seq<string>>)
    ensures r.Ok? <==> forall k :: 0 <= k < Min(|cells|, Min(|widths|, |aligns|)) ==> aligns[k] in [":--", ":-:", "--:"]
    ensures r.Err? ==> r.error == TypeError
    ensures r.Ok? ==> |r.value| == Min(|cells|, Min(|widths|, |aligns|))
    ensures r.Ok? ==> forall k :: 0 <= k < |r.value| ==> r.value[k] == Justify(cells[k], widths[k], aligns[k]).value
    decreases |cells|
  {
    if |cells| == 0 || |widths| == 0 || |aligns| == 0 then Ok([])
    else match Justify(cells[0], widths[0], aligns[0])
      case Err(e) => Err(e)
      case Ok(j) =>
        match JustifyAll(cells[1..], widths[1..], aligns[1..])
        case Err(e) => Err(e)
        case Ok(rest) => Ok([j] + rest)
  }

  /** The alignment line's cells, zipped with the widths. */
  function ExpandAll(aligns: seq<string>, widths: seq<nat>): (r: Result<seq<string>>)
    ensures r.Ok? <==> forall k :: 0 <= k < Min(|aligns|, |widths|) ==> |aligns[k]| >= 3
    ensures r.Err? ==> r.error == IndexError
    ensures r.Ok? ==> |r.value| == Min(|aligns|, |widths|)
    ensures r.Ok? ==> forall k :: 0 <= k < |r.value| ==> r.value[k] == ExpandAlignment(aligns[k], widths[k]).value
    decreases |aligns|
  {
    if |aligns| == 0 || |widths| == 0 then Ok([])
    else match ExpandAlignment(aligns[0], widths[0])
      case Err(e) => Err(e)
      case Ok(x) =>
        match ExpandAll(aligns[1..], widths[1..])
        case Err(e) => Err(e)
        case Ok(rest) => Ok([x] + rest)
  }

  /** The justified lines of the rows, in order; the first failure is raised. */
  function JustifyRows(rows: seq<Templates.Row>, widths: seq<nat>, aligns: seq<string>): (r: Result<seq<string>>)
    ensures r.Ok? <==> forall i :: 0 <= i < |rows| ==> JustifyAll(rows[i].cells, widths, aligns).Ok?
    ensures r.Ok? ==> |r.value| == |rows|
    ensures r.Ok? ==> forall i :: 0 <= i < |rows| ==> r.value[i] == Line(JustifyAll(rows[i].cells, widths, aligns).value)
    decreases |rows|
  {
    if |rows| == 0 then Ok([])
    else
      assert forall i :: 1 <= i < |rows| ==> rows[i] == rows[1..][i - 1];
      match JustifyAll(rows[0].cells, widths, aligns)
      case Err(e) => Err(e)
      case Ok(cells) =>
        match JustifyRows(rows[1..], widths, aligns)
        case Err(e) => Err(e)
        case Ok(rest) => Ok([Line(cells)] + rest)
  }

  /**
   * `print_pretty`: every column padded to its width, the alignment
   * line stretched to it. Widths fail with IndexError on a row shorter
   * than the header; an alignment other than the three Markdown ones
   * fails with TypeError before anything is printed.
   */
  function PrintPretty(t: Table): (r: Result<seq<string>>)
    ensures r.Ok? ==> |r.value| == |t.rows| + 2
  {
    var aligns := Aligned(t);
    var widths :- Widths(t);
    var head :- JustifyAll(t.header, widths, aligns);
    var arow :- ExpandAll(aligns, widths);
    var body :- JustifyRows(t.rows, widths, aligns);
    Ok([Line(head), Line(arow)] + body)
  }

  /** Cells whose lengths are the leading widths. */
  predicate Shaped(pieces: seq<string>, widths: seq<nat>) {
    |pieces| <= |widths| && forall k :: 0 <= k < |pieces| ==> |pieces[k]| == widths[k]
  }

  lemma {:induction false} JoinSameLengths(sep: string, xs: seq<string>, ys: seq<string>)
    requires |xs| == |ys|
    requires forall k :: 0 <= k < |xs| ==> |xs[k]| == |ys[k]|
    ensures |Text.Join(sep, xs)| == |Text.Join(sep, ys)|
    decreases |xs|
  {
    if |xs| > 1 {
      JoinSameLengths(sep, xs[1..], ys[1..]);
    }
  }

  /** A line of shaped cells is as long as the line of blanks of those widths. */
  lemma ShapedLength(pieces: seq<string>, widths: seq<nat>)
    requires Shaped(pieces, widths)
    ensures |Line(pieces)| == |Line(seq(|pieces|, k requires 0 <= k < |pieces| => Spaces(widths[k])))|
  {
    JoinSameLengths(" | ", pieces, seq(|pieces|, k requires 0 <= k < |pieces| => Spaces(widths[k])));
  }

  /** Justified cells of a line no wider than the widths take exactly the widths. */
  lemma JustifiedShaped(cells: seq<string>, widths: seq<nat>, aligns: seq<string>)
    requires JustifyAll(cells, widths, aligns).Ok?
    requires forall k :: 0 <= k < Min(|cells|, |widths|) ==> |cells[k]| <= widths[k]
    ensures Shaped(JustifyAll(cells, widths, aligns).value, widths)
  {
  }

  /** The stretched alignment cells take exactly the widths, all of which are at least 2. */
  lemma ExpandedShaped(aligns: seq<string>, widths: seq<nat>)
    requires ExpandAll(aligns, widths).Ok?
    requires forall k :: 0 <= k < |widths| ==> widths[k] >= 2
    ensures Shaped(ExpandAll(aligns, widths).value, widths)
  {
  }

  /** The length of a line of blank cells of the first `m` widths. */
  function BlankLength(widths: seq<nat>, m: nat): nat
    requires m <= |widths|
  {
    |Line(seq(m, k requires 0 <= k < m => Spaces(widths[k])))|
  }

  /** A line of `m` shaped cells is as long as the blank line of the first `m` widths. */
  lemma ShapedLine(pieces: seq<string>, widths: seq<nat>, m: nat)
    requires Shaped(pieces, widths) && |pieces| == m
    ensures |Line(pieces)| == BlankLength(widths, m)
  {
    ShapedLength(pieces, widths);
  }

  /** A justified line of cells, each no wider than its column, has the blank line's length. */
  lemma JustifiedLine(cells: seq<string>, widths: seq<nat>, aligns: seq<string>, m: nat)
    requires JustifyAll(cells, widths, aligns).Ok?
    requires |cells| >= |widths| && m == Min(|widths|, |aligns|)
    requires forall k :: 0 <= k < |widths| ==> |cells[k]| <= widths[k]
    ensures |Line(JustifyAll(cells, widths, aligns).value)| == BlankLength(widths, m)
  {
    JustifiedShaped(cells, widths, aligns);
    ShapedLine(JustifyAll(cells, widths, aligns).value, widths, m);
  }

  /** The justified header and row lines, and the alignment line, have the blank line's length. */
  lemma PrettyHead(t: Table, widths: seq<nat>, aligns: seq<string>)
    requires Widths(t) == Ok(widths) && aligns == Aligned(t)
    requires JustifyAll(t.header, widths, aligns).Ok?
    ensures |Line(JustifyAll(t.header, widths, aligns).value)| == BlankLength(widths, Min(|t.header|, |aligns|))
  {
    forall k | 0 <= k < |t.header| ensures |t.header[k]| <= widths[k] {
      WidthsCover(t, k);
    }
    JustifiedLine(t.header, widths, aligns, Min(|t.header|, |aligns|));
  }

  lemma PrettyRow(t: Table, widths: seq<nat>, aligns: seq<string>, i: nat)
    requires Widths(t) == Ok(widths) && aligns == Aligned(t) && i < |t.rows|
    requires JustifyAll(t.rows[i].cells, widths, aligns).Ok?
    ensures |Line(JustifyAll(t.rows[i].cells, widths, aligns).value)| == BlankLength(widths, Min(|t.header|, |aligns|))
  {
    var cells := t.rows[i].cells;
    assert |cells| >= |widths|;
    forall k | 0 <= k < |widths| ensures |cells[k]| <= widths[k] {
      WidthsCover(t, k);
    }
    JustifiedLine(cells, widths, aligns, Min(|t.header|, |aligns|));
  }

  lemma PrettyAlignments(t: Table, widths: seq<nat>, aligns: seq<string>)
    requires Widths(t) == Ok(widths) && aligns == Aligned(t)
    requires ExpandAll(aligns, widths).Ok?
    ensures |Line(ExpandAll(aligns, widths).value)| == BlankLength(widths, Min(|t.header|, |aligns|))
  {
    forall k | 0 <= k < |t.header| ensures widths[k] >= 2 {
      WidthsCover(t, k);
    }
    ExpandedShaped(aligns, widths);
    ShapedLine(ExpandAll(aligns, widths).value, widths, Min(|t.header|, |aligns|));
  }

  /** Every line `print_pretty` prints has the same length: the columns line up. */
  lemma PrettyLinesLineUp(t: Table)
    requires PrintPretty(t).Ok?
    ensures forall i, j :: 0 <= i < j < |PrintPretty(t).value| ==> |PrintPretty(t).value[i]| == |PrintPretty(t).value[j]|
  {
    var aligns := Aligned(t);
    var widths := Widths(t).value;
    var n := BlankLength(widths, Min(|t.header|, |aligns|));
    PrettyHead(t, widths, aligns);
    PrettyAlignments(t, widths, aligns);
    var body := JustifyRows(t.rows, widths, aligns).value;
    forall i | 0 <= i < |t.rows| ensures |body[i]| == n {
      PrettyRow(t, widths, aligns, i);
    }
    var r := PrintPretty(t).value;
    assert r == [Line(JustifyAll(t.header, widths, aligns).value), Line(ExpandAll(aligns, widths).value)] + body;
    assert forall i :: 0 <= i < |r| ==> |r[i]| == n;
  }

  // ---------------------------------------------------------------------
  // filter

  /** What `filter` sees of `filter_.apply(row)`: the truth value of the evaluated filter. */
  function Satisfies(f: Templates.Tree, row: Templates.Row): Result<bool> {
    match Templates.Eval(f, row)
    case Ok(v) => Ok(Templates.Truthy(v))
    case Err(e) => Err(e)
  }

  /** `list(filter(test, xs))`: the elements `test` accepts, in order; the first failing test raises. */
  function KeepWith<T(!new)>(xs: seq<T>, test: T -> Result<bool>): (r: Result<seq<T>>)
    ensures r.Ok? <==> forall i :: 0 <= i < |xs| ==> test(xs[i]).Ok?
    ensures r.Ok? ==> |r.value| <= |xs|
    decreases |xs|
  {
    if |xs| == 0 then Ok([])
    else
      assert forall i :: 1 <= i < |xs| ==> xs[i] == xs[1..][i - 1];
      match test(xs[0])
      case Err(e) => Err(e)
      case Ok(b) =>
        match KeepWith(xs[1..], test)
        case Err(e) => Err(e)
        case Ok(rest) => Ok((if b then [xs[0]] else []) + rest)
  }

  /** An element is kept exactly when it occurs and passes the test. */
  lemma {:induction false} KeepMembers<T(!new)>(xs: seq<T>, test: T -> Result<bool>)
    requires KeepWith(xs, test).Ok?
    ensures forall x :: x in KeepWith(xs, test).value <==> x in xs && test(x) == Ok(true)
    decreases |xs|
  {
    if |xs| > 0 {
      KeepMembers(xs[1..], test);
      assert forall x :: x in xs <==> x == xs[0] || x in xs[1..];
    }
  }

  /** Filtering a concatenation filters each part in turn: the kept elements keep their order. */
  lemma {:induction false} KeepAppend<T(!new)>(a: seq<T>, b: seq<T>, test: T -> Result<bool>)
    ensures KeepWith(a + b, test) ==
      if KeepWith(a, test).Err? then KeepWith(a, test)
      else if KeepWith(b, test).Err? then KeepWith(b, test)
      else Ok(KeepWith(a, test).value + KeepWith(b, test).value)
    decreases |a|
  {
    if |a| == 0 {
      assert a + b == b;
      assert KeepWith(a, test) == Ok([]);
      if KeepWith(b, test).Ok? {
        assert [] + KeepWith(b, test).value == KeepWith(b, test).value;
      }
    } else {
      var ab := a + b;
      assert ab[0] == a[0] && ab[1..] == a[1..] + b;
      KeepAppend(a[1..], b, test);
      match test(a[0])
      case Err(e) =>
        assert KeepWith(ab, test) == Err(e) == KeepWith(a, test);
      case Ok(bit) =>
        var h := if bit then [a[0]] else [];
        match KeepWith(a[1..], test)
        case Err(e) =>
          assert KeepWith(a, test) == Err(e);
        case Ok(ra) =>
          assert KeepWith(a, test) == Ok(h + ra);
          match KeepWith(b, test)
          case Err(e) =>
          case Ok(rb) =>
            assert KeepWith(ab, test) == Ok(h + (ra + rb));
            assert h + (ra + rb) == (h + ra) + rb;
    }
  }

  /** Filtering what a filter kept keeps all of it. */
  lemma {:induction false} KeepIdempotent<T(!new)>(xs: seq<T>, test: T -> Result<bool>)
    requires KeepWith(xs, test).Ok?
    ensures KeepWith(KeepWith(xs, test).value, test) == KeepWith(xs, test)
    decreases |xs|
  {
    if |xs| > 0 {
      KeepIdempotent(xs[1..], test);
      var rest := KeepWith(xs[1..], test).value;
      if test(xs[0]) == Ok(true) {
        assert KeepWith(xs, test).value == [xs[0]] + rest;
        KeepAppend([xs[0]], rest, test);
        assert [xs[0]][1..] == [];
        assert KeepWith([xs[0]], test) == Ok([xs[0]]);
      } else {
        assert KeepWith(xs, test).value == rest;
      }
    }
  }

  /** The rows a filter tree accepts. */
  function Keep(rows: seq<Templates.Row>, f: Templates.Tree): (r: Result<seq<Templates.Row>>)
    ensures r.Ok? <==> forall i :: 0 <= i < |rows| ==> Satisfies(f, rows[i]).Ok?
    ensures r.Ok? ==> forall x :: x in r.value <==> x in rows && Satisfies(f, x) == Ok(true)
  {
    var test := (row: Templates.Row) => Satisfies(f, row);
    if KeepWith(rows, test).Ok? then KeepMembers(rows, test); KeepWith(rows, test)
    else KeepWith(rows, test)
  }

  /** `filter`: the accepted rows in their order, with the alignment row defaulted. */
  function Filter(t: Table, f: Templates.Tree): (r: Result<Table>)
    ensures r.Ok? <==> Keep(t.rows, f).Ok?
    ensures r.Ok? ==> r.value == Table(t.header, Aligned(t), Keep(t.rows, f).value)
  {
    var rows :- Keep(t.rows, f);
    Ok(Table(t.header, Aligned(t), rows))
  }

  // ---------------------------------------------------------------------
  // columns

  /** `[header.index(name) for name in names]`; a missing name raises ValueError. */
  function Indices(header: seq<string>, names: seq<string>): (r: Result<seq<nat>>)
    ensures r.Ok? <==> forall j :: 0 <= j < |names| ==> names[j] in header
    ensures r.Err? ==> r.error == ValueError
    ensures r.Ok? ==> |r.value| == |names|
    ensures r.Ok? ==> forall j :: 0 <= j < |names| ==>
      r.value[j] < |header| && header[r.value[j]] == names[j] && names[j] !in header[..r.value[j]]
    decreases |names|
  {
    if |names| == 0 then Ok([])
    else
      var i := Text.IndexOf(header, names[0]);
      if i == -1 then Err(ValueError)
      else match Indices(header, names[1..])
        case Err(e) => Err(e)
        case Ok(rest) =>
          assert forall j :: 1 <= j < |names| ==> names[j] == names[1..][j - 1] && ([i as nat] + rest)[j] == rest[j - 1];
          Ok([i as nat] + rest)
  }

  /** `[xs[i] for i in idx]`; an index past the end raises IndexError. */
  function Pick(xs: seq<string>, idx: seq<nat>): (r: Result<seq<string>>)
    ensures r.Ok? <==> forall j :: 0 <= j < |idx| ==> idx[j] < |xs|
    ensures r.Err? ==> r.error == IndexError
    ensures r.Ok? ==> |r.value| == |idx| && forall j :: 0 <= j < |idx| ==> r.value[j] == xs[idx[j]]
  {
    if forall j :: 0 <= j < |idx| ==> idx[j] < |xs| then
      Ok(seq(|idx|, j requires 0 <= j < |idx| => xs[idx[j]]))
    else Err(IndexError)
  }

  /** Every row cut down to the chosen columns, under the new header. */
  function PickRows(rows: seq<Templates.Row>, idx: seq<nat>, header: seq<string>): (r: Result<seq<Templates.Row>>)
    ensures r.Ok? <==> forall i :: 0 <= i < |rows| ==> Pick(rows[i].cells, idx).Ok?
    ensures r.Err? ==> r.error == IndexError
    ensures r.Ok? ==> |r.value| == |rows|
    ensures r.Ok? ==> forall i :: 0 <= i < |rows| ==> r.value[i] == Templates.MakeRow(Pick(rows[i].cells, idx).value, header)
  {
    if forall i :: 0 <= i < |rows| ==> Pick(rows[i].cells, idx).Ok? then
      Ok(seq(|rows|, i requires 0 <= i < |rows| => Templates.MakeRow(Pick(rows[i].cells, idx).value, header)))
    else Err(IndexError)
  }

  /**
   * `columns(names)`: the header becomes `names`, and the alignment row
   * and every row keep the cells of the first header column of each
   * name. A name the header lacks raises ValueError; an alignment row
   * or a row too short for a chosen column raises IndexError.
   */
  function Columns(t: Table, names: seq<string>): (r: Result<Table>)
    ensures r.Err? <==> (
      || Indices(t.header, names).Err?
      || Pick(Aligned(t), Indices(t.header, names).value).Err?
      || PickRows(t.rows, Indices(t.header, names).value, names).Err?)
    ensures (exists j :: 0 <= j < |names| && names[j] !in t.header) ==> r == Err(ValueError)
    ensures r.Ok? ==> r.value.header == names && |r.value.alignments| == |names| && |r.value.rows| == |t.rows|
    ensures r.Ok? ==> forall i :: 0 <= i < |t.rows| ==>
      r.value.rows[i].header == (if names == [] then None else Some(names))
  {
    var idx :- Indices(t.header, names);
    var aligns :- Pick(Aligned(t), idx);
    var rows :- PickRows(t.rows, idx, names);
    Ok(Table(names, aligns, rows))
  }

  /**
   * Looking a chosen column up by name in a projected row finds the cell
   * the original row holds under that name, provided the row was read
   * under the table's header.
   */
  lemma GetAfterColumns(t: Table, names: seq<string>, i: nat, j: nat)
    requires Columns(t, names).Ok? && i < |t.rows| && j < |names|
    requires t.rows[i].header == Some(t.header)
    ensures Templates.Get(Columns(t, names).value.rows[i], names[j]) == Templates.Get(t.rows[i], names[j])
  {
    var idx := Indices(t.header, names).value;
    var row := Columns(t, names).value.rows[i];
    assert row == Templates.MakeRow(Pick(t.rows[i].cells, idx).value, names);
    var first := Text.IndexOf(names, names[j]);
    Text.IndexOfAt(t.header, names[j], idx[j]);
    Text.IndexOfAt(t.header, names[first], idx[first]);
  }

  // ---------------------------------------------------------------------
  // sort

  /** The lowered `key` cell of a row, `sort`'s key; only used once every lookup succeeds. */
  function RowKey(key: string): Templates.Row -> string {
    row => match Templates.Get(row, key)
      case Ok(v) => Text.Lower(v)
      case Err(_) => ""
  }

  /** The first row whose key lookup fails. */
  function FirstFailing(rows: seq<Templates.Row>, key: string): (r: Templates.Row)
    requires exists i :: 0 <= i < |rows| && Templates.Get(rows[i], key).Err?
    ensures r in rows && Templates.Get(r, key).Err?
  {
    if Templates.Get(rows[0], key).Err? then rows[0]
    else
      assert exists i :: 0 <= i < |rows[1..]| && Templates.Get(rows[1..][i], key).Err? by {
        var i :| 0 <= i < |rows| && Templates.Get(rows[i], key).Err?;
        assert rows[1..][i - 1] == rows[i];
      }
      FirstFailing(rows[1..], key)
  }

  /**
   * `sort(key, order)`: rows ordered by their lowered `key` cell, stably,
   * and stably also when descending. The keys are computed first, so a
   * row whose lookup fails raises before anything moves.
   */
  function Sort(t: Table, key: string, order: Templates.SortOrder): (r: Result<Table>)
    ensures r.Ok? <==> forall i :: 0 <= i < |t.rows| ==> Templates.Get(t.rows[i], key).Ok?
    ensures r.Ok? ==> r.value.header == t.header && r.value.alignments == t.alignments
    ensures r.Ok? ==> multiset(r.value.rows) == multiset(t.rows)
  {
    if forall i :: 0 <= i < |t.rows| ==> Templates.Get(t.rows[i], key).Ok? then
      Ok(Table(t.header, t.alignments, Sorting.SortBy(t.rows, RowKey(key), order == Templates.Descending)))
    else Err(Templates.Get(FirstFailing(t.rows, key), key).error)
  }

  /** Sorted rows come in order of their lowered key, ascending or descending. */
  lemma SortOrdersRows(t: Table, key: string, order: Templates.SortOrder)
    requires Sort(t, key, order).Ok?
    ensures var rows := Sort(t, key, order).value.rows;
      forall i, j :: 0 <= i < j < |rows| ==>
        if order == Templates.Descending then !Text.LexLess(RowKey(key)(rows[i]), RowKey(key)(rows[j]))
        else !Text.LexLess(RowKey(key)(rows[j]), RowKey(key)(rows[i]))
  {
    if |t.rows| > 0 {
      Sorting.SortByOrdered(t.rows, RowKey(key), order == Templates.Descending, t.rows[0]);
    }
  }

  /** Rows with equal keys keep their relative order, in both directions. */
  lemma SortStable(t: Table, key: string, order: Templates.SortOrder, e: Templates.Row)
    requires Sort(t, key, order).Ok?
    ensures var lt := if order == Templates.Descending then Sorting.Flip(Sorting.By(RowKey(key))) else Sorting.By(RowKey(key));
      Sorting.ClassOf(Sort(t, key, order).value.rows, e, lt) == Sorting.ClassOf(t.rows, e, lt)
  {
    Sorting.SortByOrdered(t.rows, RowKey(key), order == Templates.Descending, e);
  }
}

=== FILE: templates.dfy ===
/**
 * The table-template language of wikitools/template_generator.py, whose
 * text wikitools/table_generator.py repeats: format strings with
 * `<<action: A | B>>` tags evaluated against a table row, and filter
 * expressions over `is`, `is not`, `has`, `has not`, `and` and `or`. The
 * row is wikitools/table_row.py's `TableRow`.
 */
module Templates {
  import Text
  import opened Outcomes

  // ---------------------------------------------------------------------
  // Icons, actions and the string converters

  /** The Markdown image of a wiki icon. */
  const IconPrefix: string := "![](/wiki/shared/icon/"

  function IconImage(name: string): (r: string)
    ensures Text.StartsWith(r, IconPrefix)
  {
    Text.PrefixOfConcat(IconPrefix, name + ".png)");
    IconPrefix + (name + ".png)")
  }

  const ModeNames: seq<string> := ["osu!", "osu!taiko", "osu!catch", "osu!mania"]

  /** `mode_icon(mode)`: the icon of one of the four game modes, or `""`. */
  function ModeIcon(mode: string): (r: string)
    ensures r != "" <==> mode in ModeNames
    ensures r != "" ==> Text.StartsWith(r, IconPrefix)
  {
    if mode == "osu!" then IconImage("osu")
    else if mode == "osu!taiko" then IconImage("taiko")
    else if mode == "osu!catch" then IconImage("catch")
    else if mode == "osu!mania" then IconImage("mania")
    else ""
  }

  /** Which icon a link gets: the first host family the link mentions, in the order the source tests them. */
  function LinkIconName(link: string): (r: Option<string>)
    ensures r.None? <==> !KnownHost(link)
  {
    if Text.Contains(link, "osu.ppy.sh") || Text.Contains(link, "assets.ppy.sh") then Some("osu")
    else if Text.Contains(link, "soundcloud.com") then Some("soundcloud")
    else if Text.Contains(link, "youtube.com") || Text.Contains(link, "youtu.be") then Some("youtube")
    else if Text.Contains(link, "spotify.com") then Some("spotify")
    else if Text.Contains(link, "bandcamp.com") then Some("bandcamp")
    else None
  }

  predicate KnownHost(link: string) {
    || Text.Contains(link, "osu.ppy.sh") || Text.Contains(link, "assets.ppy.sh")
    || Text.Contains(link, "soundcloud.com")
    || Text.Contains(link, "youtube.com") || Text.Contains(link, "youtu.be")
    || Text.Contains(link, "spotify.com")
    || Text.Contains(link, "bandcamp.com")
  }

  /** `icon_link(link)`: an icon linking to `link`, or `""` when no known host appears in it. */
  function IconLink(link: string): (r: string)
    ensures r == "" <==> !KnownHost(link)
    ensures r != "" ==> Text.EndsWith(r, "](" + link + ")") && Text.StartsWith(r, "[" + IconPrefix)
  {
    match LinkIconName(link)
    case None => ""
    case Some(name) => LinkedIcon(name, link)
  }

  /** `[![](/wiki/shared/icon/name.png)](link)`. */
  function LinkedIcon(name: string, link: string): (r: string)
    ensures Text.EndsWith(r, "](" + link + ")") && Text.StartsWith(r, "[" + IconPrefix)
  {
    var image := "[" + IconImage(name);
    Text.PrefixCons("[", IconImage(name), IconPrefix);
    Text.PrefixExtend(image, "[" + IconPrefix, "](" + link + ")");
    Text.SuffixOfConcat(image, "](" + link + ")");
    image + ("](" + link + ")")
  }

  datatype Action = ModeIconAction | IconLinkAction

  /** `action_from_string`. */
  function ActionFromString(s: string): (r: Option<Action>)
    ensures r == Some(ModeIconAction) <==> s == "mode icon"
    ensures r == Some(IconLinkAction) <==> s == "icon link"
  {
    if s == "mode icon" then Some(ModeIconAction)
    else if s == "icon link" then Some(IconLinkAction)
    else None
  }

  function Run(action: Action, value: string): string {
    match action
    case ModeIconAction => ModeIcon(value)
    case IconLinkAction => IconLink(value)
  }

  datatype Alignment = Centre | Left | Right

  /** `alignment_from_string`. */
  function AlignmentFromString(s: string): (r: Option<Alignment>)
    ensures r.Some? <==> s in ["left", "right", "centre"]
  {
    if s == "left" then Some(Left)
    else if s == "right" then Some(Right)
    else if s == "centre" then Some(Centre)
    else None
  }

  /** `markdown_string_from_alignment`. */
  function MarkdownAlignment(a: Alignment): (r: string)
    ensures |r| == 3 && '-' in r
  {
    match a
    case Centre => ":-:"
    case Left => ":--"
    case Right => "--:"
  }

  function AlignmentName(a: Alignment): string {
    match a
    case Centre => "centre"
    case Left => "left"
    case Right => "right"
  }

  /** Every alignment has a name that reads back as it, and distinct alignments print differently in Markdown. */
  lemma AlignmentRoundTrip(a: Alignment, b: Alignment)
    ensures AlignmentFromString(AlignmentName(a)) == Some(a)
    ensures a != b ==> MarkdownAlignment(a) != MarkdownAlignment(b)
  {
    if a != b {
      assert MarkdownAlignment(a)[0] != MarkdownAlignment(b)[0] || MarkdownAlignment(a)[2] != MarkdownAlignment(b)[2];
    }
  }

  datatype SortOrder = Ascending | Descending

  /** `sort_order_from_string`. */
  function SortOrderFromString(s: string): (r: Option<SortOrder>)
    ensures r == Some(Ascending) <==> s == "ascending"
    ensures r == Some(Descending) <==> s == "descending"
  {
    if s == "ascending" then Some(Ascending)
    else if s == "descending" then Some(Descending)
    else None
  }

  // ---------------------------------------------------------------------
  // TableRow

  /** A `TableRow`: its cells, and the header it was given if that was non-empty. */
  datatype Row = Row(cells: seq<string>, header: Option<seq<string>>)

  /** `TableRow(row, header)`: the header attribute is set only for a non-empty header. */
  function MakeRow(cells: seq<string>, header: seq<string>): (r: Row)
    ensures r.cells == cells
    ensures r.header.Some? <==> header != []
    ensures r.header.Some? ==> r.header.value == header
  {
    Row(cells, if header == [] then None else Some(header))
  }

  /**
   * `get(key)`: the cell under the first header entry equal to `key`.
   * Without a header attribute it fails with AttributeError, with a key
   * the header lacks with ValueError, and under a header entry past the
   * row's end with IndexError.
   */
  function Get(row: Row, key: string): (r: Result<string>)
    ensures row.header.None? ==> r == Err(AttributeError)
    ensures row.header.Some? && key !in row.header.value ==> r == Err(ValueError)
    ensures row.header.Some? && key in row.header.value ==>
      (r.Ok? <==> Text.IndexOf(row.header.value, key) < |row.cells|) && (r.Err? ==> r.error == IndexError)
    ensures r.Ok? ==> exists i :: FirstCell(row, key, i) && r.value == row.cells[i]
  {
    match row.header
    case None => Err(AttributeError)
    case Some(header) =>
      var i := Text.IndexOf(header, key);
      if i == -1 then Err(ValueError)
      else if i < |row.cells| then Ok(row.cells[i])
      else Err(IndexError)
  }

  /** Cell `i` lies under the first header entry equal to `key`. */
  predicate FirstCell(row: Row, key: string, i: int) {
    && row.header.Some? && 0 <= i < |row.cells| && i < |row.header.value|
    && row.header.value[i] == key && key !in row.header.value[..i]
  }

  // ---------------------------------------------------------------------
  // Format strings

  datatype Piece = Literal(text: string) | Tag(columns: seq<string>, action: Option<Action>)

  /** A tag starts at `left` (`<<`, the first at or after `start`) and ends at `right` (`>>`, the first after it). */
  predicate TagAt(s: string, start: nat, left: nat, right: nat) {
    && start <= left && left + 2 <= right
    && Text.OccursAt(s, "<<", left) && Text.OccursAt(s, ">>", right)
    && (forall k :: start <= k < left ==> !Text.OccursAt(s, "<<", k))
    && (forall k :: left + 2 <= k < right ==> !Text.OccursAt(s, ">>", k))
  }

  /** `left` is the first `<<` at or after `start`. */
  predicate FirstOpen(s: string, start: nat, left: nat) {
    start <= left && Text.OccursAt(s, "<<", left) && forall k :: start <= k < left ==> !Text.OccursAt(s, "<<", k)
  }

  /** No tag starts at or after `start`: either there is no `<<`, or no `>>` follows the first one. */
  ghost predicate NoTagFrom(s: string, start: nat) {
    || (forall k :: start <= k ==> !Text.OccursAt(s, "<<", k))
    || (exists left: nat :: FirstOpen(s, start, left) && forall k :: left + 2 <= k ==> !Text.OccursAt(s, ">>", k))
  }

  /** Where a tag's `<<` and its `>>` start. */
  datatype Span = Span(left: nat, right: nat)

  /** A found tag lies inside `s`, its `>>` after its `<<`. */
  predicate Fits(s: string, tag: Option<Span>) {
    tag.Some? ==> tag.value.left + 2 <= tag.value.right && tag.value.right + 2 <= |s|
  }

  /** `_find_tag(s, start)`. */
  function FindTag(s: string, start: nat): (r: Option<Span>)
    ensures r.Some? ==> start <= r.value.left && Fits(s, r)
  {
    var left := Text.Find(s, "<<", start);
    if left == -1 then None
    else
      var right := Text.Find(s, ">>", left + 2);
      if right == -1 then None else Some(Span(left, right))
  }

  /** `_find_tag` returns the first `<<` at or after `start` and the first `>>` after it, or None when there is no such pair. */
  lemma FindTagFinds(s: string, start: nat)
    ensures FindTag(s, start).Some? ==> TagAt(s, start, FindTag(s, start).value.left, FindTag(s, start).value.right)
    ensures FindTag(s, start).None? ==> NoTagFrom(s, start)
  {
    var left := Text.Find(s, "<<", start);
    Text.FindFirst(s, "<<", start);
    if left != -1 {
      Text.FindFirst(s, ">>", left + 2);
      assert FirstOpen(s, start, left);
    }
  }

  /** The columns of a tag: the `|`-separated pieces, stripped. */
  function Columns(rest: string): (r: seq<string>)
    ensures |r| == |Text.Split(rest, "|")|
    ensures forall i :: 0 <= i < |r| ==> r[i] == Text.Strip(Text.Split(rest, "|")[i])
  {
    StripAll(Text.Split(rest, "|"))
  }

  function StripAll(xs: seq<string>): (r: seq<string>)
    ensures |r| == |xs|
    ensures forall i :: 0 <= i < |r| ==> r[i] == Text.Strip(xs[i])
  {
    seq(|xs|, i requires 0 <= i < |xs| => Text.Strip(xs[i]))
  }

  /**
   * The tag for the text between `<<` and `>>`: with no `:` every piece
   * is a column; with one `:` the stripped text before it names the action;
   * with more the tag is malformed.
   */
  function TagOf(inner: string): (r: Option<Piece>)
    ensures r.Some? ==> r.value.Tag? && |r.value.columns| >= 1
  {
    var split := Text.Split(inner, ":");
    if |split| > 2 then None
    else if |split| == 2 then Some(Tag(Columns(split[1]), ActionFromString(Text.Strip(split[0]))))
    else Some(Tag(Columns(split[0]), None))
  }

  /** Without `:`, every piece is a column and there is no action. */
  lemma TagWithoutAction(inner: string)
    requires ':' !in inner
    ensures TagOf(inner) == Some(Tag(Columns(inner), None))
  {
    Text.SplitCharNone(inner, ':');
  }

  /** With one `:`, the stripped text before it selects the action and the text after it holds the columns. */
  lemma TagWithAction(a: string, b: string)
    requires ':' !in a && ':' !in b
    ensures TagOf(a + ":" + b) == Some(Tag(Columns(b), ActionFromString(Text.Strip(a))))
  {
    Text.SplitChar(a + ":" + b, ':', a, b);
    Text.SplitCharNone(b, ':');
  }

  /** With two `:` or more, the tag is malformed. */
  lemma TagMalformed(a: string, b: string, c: string)
    ensures TagOf(a + ":" + b + ":" + c).None?
  {
    var inner := a + ":" + b + ":" + c;
    assert inner == a + [':'] + (b + [':'] + c);
    Text.SplitConcatChar(a, b + [':'] + c, ':');
    Text.SplitConcatChar(b, c, ':');
  }

  /** The literal piece for a run of text, which is kept only when non-empty. */
  function LiteralOf(text: string): (r: seq<Piece>)
    ensures |r| <= 1
  {
    if |text| == 0 then [] else [Literal(text)]
  }

  predicate NoEmptyLiteral(pieces: seq<Piece>) {
    forall i :: 0 <= i < |pieces| && pieces[i].Literal? ==> |pieces[i].text| > 0
  }

  /**
   * One round of the loop: the text before a tag and the tag, ahead of
   * what the rest of the text parses to; a malformed tag drops both.
   */
  function Emit(before: string, tag: Option<Piece>, tail: seq<Piece>): (r: seq<Piece>)
    requires tag.Some? ==> tag.value.Tag?
    requires NoEmptyLiteral(tail)
    ensures NoEmptyLiteral(r)
  {
    match tag
    case None => tail
    case Some(t) => LiteralOf(before) + [t] + tail
  }

  /**
   * `Format(s)`: the literal pieces and tags of a format string, in order.
   * The loop of `Format.__init__` searches from the end of the last tag
   * on; searching the remaining text instead finds the same tags.
   */
  function ParseFormat(s: string): (r: seq<Piece>)
    ensures NoEmptyLiteral(r)
  {
    ParseWith(s, FirstTag, TagOf)
  }

  /** The first tag of a text. */
  function FirstTag(s: string): (r: Option<Span>)
    ensures Fits(s, r)
  {
    FindTag(s, 0)
  }

  /** `find` only reports tags that lie inside the text. */
  ghost predicate FindsFitting(find: string -> Option<Span>) {
    forall x :: Fits(x, find(x))
  }

  /** `read` only yields tags, never literal pieces. */
  ghost predicate ReadsTags(read: string -> Option<Piece>) {
    forall x :: read(x).Some? ==> read(x).value.Tag?
  }

  /**
   * The loop of `Format.__init__`, given how the first tag of a text is
   * found (`find`) and how the text between `<<` and `>>` is read (`read`).
   */
  function ParseWith(s: string, find: string -> Option<Span>, read: string -> Option<Piece>): (r: seq<Piece>)
    requires FindsFitting(find) && ReadsTags(read)
    ensures NoEmptyLiteral(r)
    decreases |s|
  {
    var tag := find(s);
    assert Fits(s, tag);
    match tag
    case None => LiteralOf(s)
    case Some(span) =>
      var inner := s[span.left + 2..span.right];
      assert read(inner).Some? ==> read(inner).value.Tag?;
      Emit(s[..span.left], read(inner), ParseWith(s[span.right + 2..], find, read))
  }

  /** One round of the loop. */
  lemma ParseWithStep(s: string, find: string -> Option<Span>, read: string -> Option<Piece>, span: Span)
    requires FindsFitting(find) && ReadsTags(read)
    requires find(s) == Some(span) && Fits(s, find(s))
    ensures ParseWith(s, find, read) == Emit(s[..span.left], read(s[span.left + 2..span.right]), ParseWith(s[span.right + 2..], find, read))
  {
  }

  /** A `<<` inside `s` before `n + 1` lies inside `s[..n + 1]`. */
  lemma OccursBefore(s: string, pat: string, n: nat, k: int)
    requires |pat| == 2 && n < |s| && 0 <= k < n && Text.OccursAt(s, pat, k)
    ensures Text.OccursAt(s[..n + 1], pat, k)
  {
  }

  /** An occurrence inside a stretch of `s` equal to `u` is an occurrence in `u`. */
  lemma OccursWithin(s: string, from: nat, u: string, pat: string, k: nat)
    requires from + |u| <= |s| && s[from..from + |u|] == u
    requires from <= k && k + |pat| <= from + |u| && Text.OccursAt(s, pat, k)
    ensures Text.Contains(u, pat)
  {
    forall j | 0 <= j < |pat| ensures u[k - from + j] == pat[j] {
      assert u[k - from + j] == s[k + j];
    }
    assert Text.OccursAt(u, pat, k - from);
  }

  /** A text with no `<<` is one literal piece (none when empty). */
  lemma ParsePlain(s: string)
    requires !Text.Contains(s, "<<")
    ensures ParseFormat(s) == LiteralOf(s)
  {
    Text.FindIsContains(s, "<<");
  }

  /**
   * A tag after text without `<<`: the text before it is a literal piece,
   * the tag follows, and parsing resumes after `>>`; a malformed tag drops
   * itself and the text before it.
   */
  lemma ParseTag(a: string, inner: string, b: string)
    requires !Text.Contains(a + "<", "<<")
    requires !Text.Contains(inner + ">", ">>")
    ensures ParseFormat(a + "<<" + inner + ">>" + b) == Emit(a, TagOf(inner), ParseFormat(b))
  {
    var s := a + "<<" + inner + ">>" + b;
    FindFirstTag(a, inner, b);
    TagParts(a, inner, b);
    ParseFormatStep(s, Span(|a|, |a| + 2 + |inner|), a, inner, b);
  }

  lemma TagParts(a: string, inner: string, b: string)
    ensures var s := a + "<<" + inner + ">>" + b;
      && s[..|a|] == a && s[|a| + 2..|a| + 2 + |inner|] == inner && s[|a| + 4 + |inner|..] == b
      && s[..|a| + 1] == a + "<" && s[|a| + 2..|a| + 3 + |inner|] == inner + ">"
      && s[|a|..|a| + 2] == "<<" && s[|a| + 2 + |inner|..|a| + 4 + |inner|] == ">>"
  {
    var s := a + "<<" + inner + ">>" + b;
    assert s[..|a|] == a;
    assert s[|a| + 2..|a| + 2 + |inner|] == inner;
    assert s[|a| + 4 + |inner|..] == b;
    assert s[..|a| + 1] == a + "<";
    assert s[|a| + 2..|a| + 3 + |inner|] == inner + ">";
    assert s[|a|..|a| + 2] == "<<";
    assert s[|a| + 2 + |inner|..|a| + 4 + |inner|] == ">>";
  }

  /** One round of the parsing loop. */
  lemma ParseFormatStep(s: string, span: Span, before: string, inner: string, rest: string)
    requires FindTag(s, 0) == Some(span)
    requires before == s[..span.left] && inner == s[span.left + 2..span.right] && rest == s[span.right + 2..]
    ensures ParseFormat(s) == Emit(before, TagOf(inner), ParseFormat(rest))
  {
    ParseWithStep(s, FirstTag, TagOf, span);
  }

  /** The tag of `a + "<<" + inner + ">>" + b` is the one around `inner`. */
  lemma FindFirstTag(a: string, inner: string, b: string)
    requires !Text.Contains(a + "<", "<<")
    requires !Text.Contains(inner + ">", ">>")
    ensures FindTag(a + "<<" + inner + ">>" + b, 0) == Some(Span(|a|, |a| + 2 + |inner|))
  {
    var s := a + "<<" + inner + ">>" + b;
    var left := |a|;
    var right := |a| + 2 + |inner|;
    TagParts(a, inner, b);
    Text.OccursAtSlice(s, "<<", left);
    Text.OccursAtSlice(s, ">>", right);
    FindAfter(s, "<<", 0, a + "<", left);
    FindAfter(s, ">>", left + 2, inner + ">", right);
  }

  /**
   * `find` from `from` returns `at` when `pat` occurs there and the text
   * `u` from `from` on, which covers every earlier start, lacks `pat`.
   */
  lemma FindAfter(s: string, pat: string, from: nat, u: string, at: nat)
    requires from <= at && Text.OccursAt(s, pat, at)
    requires from + |u| <= |s| && s[from..from + |u|] == u && !Text.Contains(u, pat)
    requires at + |pat| <= from + |u| + 1
    ensures Text.Find(s, pat, from) == at
  {
    forall k | from <= k < at && Text.OccursAt(s, pat, k) ensures false {
      OccursWithin(s, from, u, pat, k);
    }
    Text.FindIs(s, pat, from, at);
  }

  /** Text from a `<<` with no `>>` after it stays literal. */
  lemma ParseUnclosed(a: string, b: string)
    requires !Text.Contains(a + "<", "<<")
    requires !Text.Contains(b, ">>")
    ensures ParseFormat(a + "<<" + b) == [Literal(a + "<<" + b)]
  {
    var s := a + "<<" + b;
    var left := |a|;
    assert s[..left + 1] == a + "<";
    forall k | 0 <= k < left ensures !Text.OccursAt(s, "<<", k) {
      if Text.OccursAt(s, "<<", k) {
        OccursBefore(s, "<<", left, k);
      }
    }
    assert Text.OccursAt(s, "<<", left);
    Text.FindIs(s, "<<", 0, left);
    assert s[left + 2..] == b;
    forall k | left + 2 <= k && Text.OccursAt(s, ">>", k) ensures false {
      Text.OccursShift(s, left + 2, ">>", k - left - 2);
    }
  }

  // ---------------------------------------------------------------------
  // Applying a format to a row

  /**
   * The first non-empty value among `columns` (`next(filter(None, ...))`),
   * reading columns lazily; a failing `get` propagates its error.
   */
  function FirstValue(row: Row, columns: seq<string>): (r: Result<Option<string>>)
    ensures r == Ok(None) <==> forall i :: 0 <= i < |columns| ==> Blank(Get(row, columns[i]))
    ensures r.Ok? && r.value.Some? ==> |r.value.value| > 0
    ensures r.Ok? && r.value.Some? ==> exists i :: BlankBefore(row, columns, i) && Get(row, columns[i]) == Ok(r.value.value)
    ensures r.Err? ==> exists i :: BlankBefore(row, columns, i) && Get(row, columns[i]) == Err(r.error)
  {
    if |columns| == 0 then Ok(None)
    else
      match Get(row, columns[0])
      case Err(e) => Err(e)
      case Ok(v) =>
        if |v| > 0 then Ok(Some(v))
        else
          var r := FirstValue(row, columns[1..]);
          assert forall i :: 0 <= i < |columns| - 1 ==> columns[1..][i] == columns[i + 1];
          r
  }

  /** Column `i` exists and every column before it reads as `""`. */
  predicate BlankBefore(row: Row, columns: seq<string>, i: int) {
    0 <= i < |columns| && forall j :: 0 <= j < i ==> Blank(Get(row, columns[j]))
  }

  /** A cell read that succeeded with the empty string. */
  predicate Blank(r: Result<string>) {
    r.Ok? && |r.value| == 0
  }

  /** What a tag evaluates to: the action applied to the first non-empty value, or `""`. */
  function Entry(action: Option<Action>, value: Option<string>): string {
    match value
    case None => ""
    case Some(v) =>
      match action
      case None => v
      case Some(a) => Run(a, v)
  }

  /** The number of entries a format evaluates to: one per literal character and one per tag. */
  function Width(pieces: seq<Piece>): nat {
    if |pieces| == 0 then 0
    else (match pieces[0] case Literal(t) => |t| case Tag(_, _) => 1) + Width(pieces[1..])
  }

  predicate TagsReadable(pieces: seq<Piece>, row: Row) {
    forall i :: 0 <= i < |pieces| && pieces[i].Tag? ==> FirstValue(row, pieces[i].columns).Ok?
  }

  /** The `evaluated` list of `apply`, before pruning. */
  function Evaluate(pieces: seq<Piece>, row: Row): (r: Result<seq<string>>)
    ensures r.Ok? <==> TagsReadable(pieces, row)
    ensures r.Ok? ==> |r.value| == Width(pieces)
  {
    if |pieces| == 0 then Ok([])
    else
      assert forall i :: 1 <= i < |pieces| ==> pieces[1..][i - 1] == pieces[i];
      match pieces[0]
      case Literal(t) =>
        var rest :- Evaluate(pieces[1..], row);
        Ok(Text.Chars(t) + rest)
      case Tag(columns, action) =>
        var v :- FirstValue(row, columns);
        var rest :- Evaluate(pieces[1..], row);
        Ok([Entry(action, v)] + rest)
  }

  /** `_prune_spaces`, at one position, deciding from the unpruned list. */
  function PruneAt(ev: seq<string>, i: nat): string
    requires i < |ev|
  {
    if Text.IsSpace(ev[i]) then
      var emptyBefore := i != 0 && ev[i - 1] == "";
      var emptyAfter := i != |ev| - 1 && ev[i + 1] == "";
      if emptyBefore || emptyAfter then "" else ev[i]
    else if ev[i] == "" then
      var spaceBefore := i != 0 && Text.IsSpace(ev[i - 1]);
      var spaceAfter := i != |ev| - 1 && Text.IsSpace(ev[i + 1]);
      if spaceBefore && spaceAfter then " " else ""
    else ev[i]
  }

  /**
   * `_prune_spaces(evaluated)`: whitespace next to an empty entry is
   * blanked, an empty entry between two whitespace entries becomes one
   * space, and everything else is kept.
   */
  function PruneSpaces(ev: seq<string>): (r: seq<string>)
    ensures |r| == |ev|
    ensures forall i :: 0 <= i < |ev| && !Text.IsSpace(ev[i]) && ev[i] != "" ==> r[i] == ev[i]
    ensures forall i :: 0 <= i < |ev| && Text.IsSpace(ev[i]) ==>
      r[i] == (if (i > 0 && ev[i - 1] == "") || (i + 1 < |ev| && ev[i + 1] == "") then "" else ev[i])
    ensures forall i :: 0 <= i < |ev| && ev[i] == "" ==>
      r[i] == (if 0 < i < |ev| - 1 && Text.IsSpace(ev[i - 1]) && Text.IsSpace(ev[i + 1]) then " " else "")
  {
    seq(|ev|, i requires 0 <= i < |ev| => PruneAt(ev, i))
  }

  /** Without empty entries, pruning changes nothing. */
  lemma PruneNoEmpty(ev: seq<string>)
    requires forall i :: 0 <= i < |ev| ==> ev[i] != ""
    ensures PruneSpaces(ev) == ev
  {
  }

  /** Pruning decides from the unpruned list: blanked spaces still make the empty entries between them a space. */
  lemma PruneReadsOriginal()
    ensures PruneSpaces([" ", "", " ", "", " "]) == ["", " ", "", " ", ""]
  {
    var ev := [" ", "", " ", "", " "];
    assert Text.IsSpace(ev[0]) && Text.IsSpace(ev[2]) && Text.IsSpace(ev[4]);
    assert !Text.IsSpace(ev[1]) && !Text.IsSpace(ev[3]);
  }

  /** `Format.apply(row)`: evaluate, prune spaces and join. */
  function Apply(pieces: seq<Piece>, row: Row): (r: Result<string>)
    ensures r.Ok? <==> TagsReadable(pieces, row)
  {
    var ev :- Evaluate(pieces, row);
    Ok(Text.Concat(PruneSpaces(ev)))
  }

  predicate AllLiteral(pieces: seq<Piece>) {
    forall i :: 0 <= i < |pieces| ==> pieces[i].Literal?
  }

  function Texts(pieces: seq<Piece>): string
    requires AllLiteral(pieces)
  {
    if |pieces| == 0 then "" else pieces[0].text + Texts(pieces[1..])
  }

  lemma {:induction false} EvaluateLiterals(pieces: seq<Piece>, row: Row)
    requires AllLiteral(pieces)
    ensures Evaluate(pieces, row).Ok?
    ensures forall i :: 0 <= i < |Evaluate(pieces, row).value| ==> Evaluate(pieces, row).value[i] != ""
    ensures Text.Concat(Evaluate(pieces, row).value) == Texts(pieces)
    decreases |pieces|
  {
    if |pieces| > 0 {
      EvaluateLiterals(pieces[1..], row);
      Text.ConcatAppend(Text.Chars(pieces[0].text), Evaluate(pieces[1..], row).value);
      Text.ConcatChars(pieces[0].text);
    }
  }

  /** A format without tags reproduces its literal text: literal spaces are never pruned. */
  lemma ApplyLiterals(pieces: seq<Piece>, row: Row)
    requires AllLiteral(pieces)
    ensures Apply(pieces, row) == Ok(Texts(pieces))
  {
    EvaluateLiterals(pieces, row);
    PruneNoEmpty(Evaluate(pieces, row).value);
  }

  /** Applying the format of a text without `<<` gives the text back. */
  lemma ApplyPlain(s: string, row: Row)
    requires !Text.Contains(s, "<<")
    ensures Apply(ParseFormat(s), row) == Ok(s)
  {
    ParsePlain(s);
    ApplyLiterals(LiteralOf(s), row);
    var p := LiteralOf(s);
    if s != "" {
      assert p == [Literal(s)] && p[1..] == [];
      assert Texts(p[1..]) == "";
      assert Texts(p) == s + "" == s;
    }
  }

  /** `<<A>> <<B>>` with an empty `A` and `B` = `x` gives `x`: the space between an empty value and a value is pruned. */
  lemma ApplyDropsSpace()
    ensures Apply([Tag(["A"], None), Literal(" "), Tag(["B"], None)], Row(["", "x"], Some(["A", "B"]))) == Ok("x")
  {
    EvaluateDropsSpace();
    var pruned := PruneSpaces(["", " ", "x"]);
    PruneDropsSpace();
    assert pruned[1..][1..] == ["x"] && ["x"][1..] == [];
    assert Text.Concat(pruned) == "x";
  }

  lemma EvaluateDropsSpace()
    ensures Evaluate([Tag(["A"], None), Literal(" "), Tag(["B"], None)], Row(["", "x"], Some(["A", "B"]))) == Ok(["", " ", "x"])
  {
    var row := Row(["", "x"], Some(["A", "B"]));
    assert Text.IndexOf(["A", "B"], "A") == 0;
    assert Text.IndexOf(["A", "B"], "B") == 1;
    assert FirstValue(row, ["A"]) == Ok(None);
    assert FirstValue(row, ["B"]) == Ok(Some("x"));
    var ev := ["", " ", "x"];
    var pieces := [Tag(["A"], None), Literal(" "), Tag(["B"], None)];
    assert pieces[2..] == [Tag(["B"], None)] && pieces[2..][1..] == [];
    assert Entry(None, Some("x")) == "x" && Entry(None, None) == "";
    var e2 := Evaluate(pieces[2..], row);
    assert e2.Ok? && |e2.value| == 1 && e2.value[0] == "x";
    assert e2.value == ["x"];
    assert pieces[1..][1..] == pieces[2..];
    assert Text.Chars(" ") == [" "];
    var e1 := Evaluate(pieces[1..], row);
    assert e1 == Ok([" "] + e2.value);
    assert e1.value == [" ", "x"];
    var e0 := Evaluate(pieces, row);
    assert e0 == Ok([""] + e1.value);
    assert e0.value == ev;
  }

  lemma PruneDropsSpace()
    ensures PruneSpaces(["", " ", "x"]) == ["", "", "x"]
  {
    var ev := ["", " ", "x"];
    assert Text.IsSpace(ev[1]);
    assert ev[2][0] == 'x' && !Text.IsWhitespace('x');
  }

  // ---------------------------------------------------------------------
  // Filters

  datatype Op = Is | IsNot | Has | HasNot | And | Or

  function OpName(op: Op): string {
    match op
    case Is => "is"
    case IsNot => "is not"
    case Has => "has"
    case HasNot => "has not"
    case And => "and"
    case Or => "or"
  }

  /** The order in which `_build_ast` looks for operators: the loosest-binding first. */
  function OpOfRank(k: nat): (op: Op)
    requires k < 6
  {
    [Or, And, Has, HasNot, Is, IsNot][k]
  }

  /** How tightly a token binds as an operator; 6 for a token that is no operator. */
  function TokenRank(t: string): (r: nat)
    ensures r <= 6
    ensures r < 6 ==> OpName(OpOfRank(r)) == t
  {
    if t == "or" then 0
    else if t == "and" then 1
    else if t == "has" then 2
    else if t == "has not" then 3
    else if t == "is" then 4
    else if t == "is not" then 5
    else 6
  }

  function Rank(op: Op): (r: nat)
    ensures r < 6 && OpOfRank(r) == op
  {
    match op
    case Or => 0
    case And => 1
    case Has => 2
    case HasNot => 3
    case Is => 4
    case IsNot => 5
  }

  lemma TokenRankOfName(op: Op)
    ensures TokenRank(OpName(op)) == Rank(op)
  {
  }

  /** The separator the tokenizer splits on for an operator: its name between single spaces. */
  function Separator(op: Op): string {
    " " + OpName(op) + " "
  }

  /** The alternatives of the split pattern, in the pattern's order. */
  const SplitOps: seq<Op> := [IsNot, Is, HasNot, Has, And, Or]

  /** The separators of the split pattern, in the pattern's order. */
  function SplitSeparators(): (r: seq<string>)
    ensures |r| == |SplitOps|
    ensures forall j :: 0 <= j < |r| ==> r[j] == Separator(SplitOps[j]) && |r[j]| > 0
  {
    seq(|SplitOps|, j requires 0 <= j < |SplitOps| => Separator(SplitOps[j]))
  }

  /** Every separator is at least one character long, so the scan moves on. */
  predicate NonEmptyAll(seps: seq<string>) {
    forall w :: w in seps ==> |w| > 0
  }

  /** The first alternative among `seps` that matches at `i`. */
  function MatchAt(s: string, i: nat, seps: seq<string>): (r: Option<string>)
    ensures r.Some? ==> r.value in seps && Text.OccursAt(s, r.value, i)
    ensures r.None? ==> forall w :: w in seps ==> !Text.OccursAt(s, w, i)
  {
    if |seps| == 0 then None
    else if Text.OccursAt(s, seps[0], i) then Some(seps[0])
    else MatchAt(s, i, seps[1..])
  }

  /**
   * `re.split` on an alternation of `seps` with the separators captured,
   * from a piece beginning at `start` with the scan at `i`: pieces of text
   * alternate with the separators matched, each taken at the leftmost
   * position where one matches, the earliest alternative first.
   */
  function RawSplit(s: string, start: nat, i: nat, seps: seq<string>): (r: seq<string>)
    requires start <= i <= |s| && NonEmptyAll(seps)
    ensures |r| % 2 == 1
    decreases |s| - i
  {
    if i == |s| then [s[start..]]
    else
      match MatchAt(s, i, seps)
      case None => RawSplit(s, start, i + 1, seps)
      case Some(sep) => [s[start..i], sep] + RawSplit(s, i + |sep|, i + |sep|, seps)
  }

  /** The odd pieces of the split are separators. */
  lemma {:induction false} RawSplitSeparators(s: string, start: nat, i: nat, seps: seq<string>)
    requires start <= i <= |s| && NonEmptyAll(seps)
    ensures forall k :: 0 <= k < |RawSplit(s, start, i, seps)| && k % 2 == 1 ==> RawSplit(s, start, i, seps)[k] in seps
    decreases |s| - i
  {
    if i < |s| {
      match MatchAt(s, i, seps)
      case None => RawSplitSeparators(s, start, i + 1, seps);
      case Some(sep) =>
        var rest := RawSplit(s, i + |sep|, i + |sep|, seps);
        RawSplitSeparators(s, i + |sep|, i + |sep|, seps);
        var r := [s[start..i], sep] + rest;
        assert RawSplit(s, start, i, seps) == r;
        forall k | 0 <= k < |r| && k % 2 == 1 ensures r[k] in seps {
          if k > 1 {
            assert r[k] == rest[k - 2];
          }
        }
    }
  }

  /** Nothing is lost by the split: its pieces and separators concatenate back to the text. */
  lemma {:induction false} RawSplitConcat(s: string, start: nat, i: nat, seps: seq<string>)
    requires start <= i <= |s| && NonEmptyAll(seps)
    ensures Text.Concat(RawSplit(s, start, i, seps)) == s[start..]
    decreases |s| - i
  {
    if i < |s| {
      match MatchAt(s, i, seps)
      case None => RawSplitConcat(s, start, i + 1, seps);
      case Some(sep) =>
        var rest := RawSplit(s, i + |sep|, i + |sep|, seps);
        RawSplitConcat(s, i + |sep|, i + |sep|, seps);
        assert RawSplit(s, start, i, seps) == [s[start..i], sep] + rest;
        Text.ConcatTwo(s[start..i], sep, rest);
        Text.OccursAtSlice(s, sep, i);
        Text.SliceThree(s, start, i, i + |sep|);
    }
  }

  /** The filter's tokens: the split pieces and separators, stripped. */
  function Tokens(s: string): (r: seq<string>)
    ensures |r| % 2 == 1
    ensures forall k :: 0 <= k < |r| && k % 2 == 1 ==> TokenRank(r[k]) < 6
  {
    var seps := SplitSeparators();
    var raw := RawSplit(s, 0, 0, seps);
    RawSplitSeparators(s, 0, 0, seps);
    forall k | 0 <= k < |raw| && k % 2 == 1 ensures TokenRank(Text.Strip(raw[k])) < 6 {
      var j :| 0 <= j < |seps| && seps[j] == raw[k];
      StripSeparator(SplitOps[j]);
      TokenRankOfName(SplitOps[j]);
    }
    StripAll(raw)
  }

  /** Stripping a separator gives the operator's name. */
  lemma StripSeparator(op: Op)
    ensures Text.Strip(Separator(op)) == OpName(op)
  {
    var w := OpName(op);
    assert w[0] in "ihao" && w[|w| - 1] in "sotdr";
    StripPadded(w);
  }

  lemma StripPadded(w: string)
    requires |w| > 0 && !Text.IsWhitespace(w[0]) && !Text.IsWhitespace(w[|w| - 1])
    ensures Text.Strip(" " + w + " ") == w
  {
    var s := " " + w + " ";
    assert s[1..] == w + " ";
    assert (w + " ")[0] == w[0];
    assert Text.LStrip(s) == w + " ";
    assert (w + " ")[..|w|] == w;
    assert Text.RStrip(w + " ") == w;
  }

  /** The raw split reassembles the filter text. */
  lemma TokensFromText(s: string)
    ensures Text.Concat(RawSplit(s, 0, 0, SplitSeparators())) == s
    ensures Tokens(s) == StripAll(RawSplit(s, 0, 0, SplitSeparators()))
  {
    RawSplitConcat(s, 0, 0, SplitSeparators());
  }

  /** A filter tree: a format string at the leaves, an operator at the nodes. */
  datatype Tree = Leaf(format: string) | Node(op: Op, left: Tree, right: Tree)

  /**
   * `_build_ast` from the operator of rank `k` on: split at the first
   * token naming it, or try the next operator; with none left, the first
   * token is the leaf, and there is none in an empty tuple.
   */
  function SplitAt(tokens: seq<string>, k: nat): (r: Result<Tree>)
    requires k <= 6
    ensures r.Err? ==> r.error == IndexError
    decreases |tokens|, 6 - k
  {
    if k == 6 then
      if |tokens| == 0 then Err(IndexError) else Ok(Leaf(tokens[0]))
    else
      var i := Text.IndexOf(tokens, OpName(OpOfRank(k)));
      if i == -1 then SplitAt(tokens, k + 1)
      else
        var left :- BuildAst(tokens[..i]);
        var right :- BuildAst(tokens[i + 1..]);
        Ok(Node(OpOfRank(k), left, right))
  }

  /** `_build_ast(tokens)`. */
  function BuildAst(tokens: seq<string>): (r: Result<Tree>)
    ensures r.Err? ==> r.error == IndexError
    decreases |tokens|, 7
  {
    SplitAt(tokens, 0)
  }

  /** `Filter(s)`: the tree of the filter text; one without an operator is rejected with ValueError. */
  function Filter(s: string): (r: Result<Tree>)
    ensures r.Ok? ==> r.value.Node? && BuildAst(Tokens(s)) == r
    ensures r.Err? ==> r.error in {IndexError, ValueError}
  {
    var tree :- BuildAst(Tokens(s));
    if tree.Leaf? then Err(ValueError) else Ok(tree)
  }

  /** Operators looser than rank `m` do not occur among the tokens. */
  predicate NoneBelow(tokens: seq<string>, m: nat) {
    forall t :: 0 <= t < |tokens| ==> TokenRank(tokens[t]) >= m
  }

  /** Operators that do not occur are skipped. */
  lemma {:induction false} SkipAbsent(tokens: seq<string>, k: nat, m: nat)
    requires k <= m <= 6 && NoneBelow(tokens, m)
    ensures SplitAt(tokens, k) == SplitAt(tokens, m)
    decreases m - k
  {
    if k < m {
      var name := OpName(OpOfRank(k));
      if name in tokens {
        var t :| 0 <= t < |tokens| && tokens[t] == name;
        TokenRankOfName(OpOfRank(k));
      }
      SkipAbsent(tokens, k + 1, m);
    }
  }

  /**
   * Precedence and right nesting: below an operator, a left operand is a
   * leaf or binds strictly tighter, and a right operand a leaf or at least
   * as tightly.
   */
  predicate Ordered(t: Tree) {
    match t
    case Leaf(_) => true
    case Node(op, l, r) =>
      && Ordered(l) && Ordered(r)
      && (l.Node? ==> Rank(l.op) > Rank(op))
      && (r.Node? ==> Rank(r.op) >= Rank(op))
  }

  /**
   * Splitting at the first token naming the operator of rank `k`, when
   * nothing looser occurs: the left operands hold nothing as loose as it,
   * the right operands nothing looser.
   */
  lemma OperandsAround(tokens: seq<string>, k: nat, i: nat)
    requires k < 6 && NoneBelow(tokens, k)
    requires i == Text.IndexOf(tokens, OpName(OpOfRank(k)))
    ensures NoneBelow(tokens[..i], k + 1) && NoneBelow(tokens[i + 1..], k)
  {
    forall t | 0 <= t < i ensures TokenRank(tokens[..i][t]) >= k + 1 {
      assert tokens[..i][t] == tokens[t];
    }
    var after := tokens[i + 1..];
    forall t | 0 <= t < |after| ensures TokenRank(after[t]) >= k {
      assert after[t] == tokens[i + 1 + t];
    }
  }

  /** With no operator of rank `k` left, splitting moves on to the next one. */
  lemma AbsentRank(tokens: seq<string>, k: nat)
    requires k < 6 && NoneBelow(tokens, k)
    requires Text.IndexOf(tokens, OpName(OpOfRank(k))) == -1
    ensures NoneBelow(tokens, k + 1)
  {
    forall t | 0 <= t < |tokens| ensures TokenRank(tokens[t]) >= k + 1 {
      assert tokens[t] in tokens;
    }
  }

  lemma {:induction false} SplitAtOrdered(tokens: seq<string>, k: nat)
    requires k <= 6 && NoneBelow(tokens, k)
    ensures SplitAt(tokens, k).Ok? ==>
      Ordered(SplitAt(tokens, k).value) && (SplitAt(tokens, k).value.Node? ==> Rank(SplitAt(tokens, k).value.op) >= k)
    decreases |tokens|, 6 - k, 1
  {
    if k < 6 {
      var i := Text.IndexOf(tokens, OpName(OpOfRank(k)));
      if i == -1 {
        AbsentRank(tokens, k);
        SplitAtOrdered(tokens, k + 1);
      } else {
        SplitAtOrderedAt(tokens, k, i);
      }
    }
  }

  /** `SplitAtOrdered` for a split at the operator at `i`. */
  lemma {:induction false} SplitAtOrderedAt(tokens: seq<string>, k: nat, i: nat)
    requires k < 6 && NoneBelow(tokens, k)
    requires i == Text.IndexOf(tokens, OpName(OpOfRank(k)))
    ensures SplitAt(tokens, k).Ok? ==>
      Ordered(SplitAt(tokens, k).value) && Rank(SplitAt(tokens, k).value.op) >= k
    decreases |tokens|, 6 - k, 0
  {
    assert Rank(OpOfRank(k)) == k;
    OperandsAround(tokens, k, i);
    SkipAbsent(tokens[..i], 0, k + 1);
    SkipAbsent(tokens[i + 1..], 0, k);
    SplitAtOrdered(tokens[..i], k + 1);
    SplitAtOrdered(tokens[i + 1..], k);
  }

  /** Every tree `_build_ast` builds respects precedence and nests chains to the right. */
  lemma BuildAstOrdered(tokens: seq<string>)
    ensures BuildAst(tokens).Ok? ==> Ordered(BuildAst(tokens).value)
  {
    SplitAtOrdered(tokens, 0);
  }

  /** The tokens a tree was built from. */
  function Flatten(t: Tree): (r: seq<string>)
    ensures |r| % 2 == 1
  {
    match t
    case Leaf(f) => [f]
    case Node(op, l, r) => Flatten(l) + [OpName(op)] + Flatten(r)
  }

  /** Operands and operators alternate: operators exactly at the odd positions. */
  predicate Alternating(tokens: seq<string>) {
    && |tokens| % 2 == 1
    && forall t :: 0 <= t < |tokens| ==> (t % 2 == 1 <==> TokenRank(tokens[t]) < 6)
  }

  /** The operands on either side of an operator position alternate too. */
  lemma AlternatingAround(tokens: seq<string>, i: nat)
    requires Alternating(tokens) && i < |tokens| && TokenRank(tokens[i]) < 6
    ensures Alternating(tokens[..i]) && Alternating(tokens[i + 1..])
  {
    forall t | 0 <= t < i ensures (t % 2 == 1 <==> TokenRank(tokens[..i][t]) < 6) {
      assert tokens[..i][t] == tokens[t];
    }
    var after := tokens[i + 1..];
    forall t | 0 <= t < |after| ensures (t % 2 == 1 <==> TokenRank(after[t]) < 6) {
      assert after[t] == tokens[i + 1 + t];
    }
  }

  /** With no operator in alternating tokens, there is one operand. */
  lemma SingleOperand(tokens: seq<string>)
    requires Alternating(tokens) && NoneBelow(tokens, 6)
    ensures |tokens| == 1
  {
    if |tokens| > 1 {
      SecondIsOperator(tokens);
    }
  }

  lemma SecondIsOperator(tokens: seq<string>)
    requires Alternating(tokens) && |tokens| > 1
    ensures !NoneBelow(tokens, 6)
  {
    assert TokenRank(tokens[1]) < 6;
  }

  lemma {:induction false} SplitAtFlatten(tokens: seq<string>, k: nat)
    requires k <= 6 && Alternating(tokens) && NoneBelow(tokens, k)
    ensures SplitAt(tokens, k).Ok? && Flatten(SplitAt(tokens, k).value) == tokens
    decreases |tokens|, 6 - k, 1
  {
    if k == 6 {
      SingleOperand(tokens);
    } else {
      var i := Text.IndexOf(tokens, OpName(OpOfRank(k)));
      if i == -1 {
        AbsentRank(tokens, k);
        SplitAtFlatten(tokens, k + 1);
      } else {
        SplitAtFlattenAt(tokens, k, i);
      }
    }
  }

  /** `SplitAtFlatten` for a split at the operator at `i`. */
  lemma {:induction false} SplitAtFlattenAt(tokens: seq<string>, k: nat, i: nat)
    requires k < 6 && Alternating(tokens) && NoneBelow(tokens, k)
    requires i == Text.IndexOf(tokens, OpName(OpOfRank(k)))
    ensures SplitAt(tokens, k).Ok? && Flatten(SplitAt(tokens, k).value) == tokens
    decreases |tokens|, 6 - k, 0
  {
    TokenRankOfName(OpOfRank(k));
    OperandsAround(tokens, k, i);
    AlternatingAround(tokens, i);
    SkipAbsent(tokens[..i], 0, k + 1);
    SkipAbsent(tokens[i + 1..], 0, k);
    SplitAtFlatten(tokens[..i], k + 1);
    SplitAtFlatten(tokens[i + 1..], k);
    FlattenNode(tokens, k, i);
  }

  /** When both operands of the operator at `i` build back to their tokens, so does the split. */
  lemma FlattenNode(tokens: seq<string>, k: nat, i: nat)
    requires k < 6 && i == Text.IndexOf(tokens, OpName(OpOfRank(k)))
    requires BuildAst(tokens[..i]).Ok? && Flatten(BuildAst(tokens[..i]).value) == tokens[..i]
    requires BuildAst(tokens[i + 1..]).Ok? && Flatten(BuildAst(tokens[i + 1..]).value) == tokens[i + 1..]
    ensures SplitAt(tokens, k).Ok? && Flatten(SplitAt(tokens, k).value) == tokens
  {
    assert tokens == tokens[..i] + [OpName(OpOfRank(k))] + tokens[i + 1..];
  }

  /**
   * Operands alternating with operators build a tree, and the tree lists
   * them back in order: `_build_ast` loses no token.
   */
  lemma BuildAstFlatten(tokens: seq<string>)
    requires Alternating(tokens)
    ensures BuildAst(tokens).Ok? && Flatten(BuildAst(tokens).value) == tokens
  {
    SplitAtFlatten(tokens, 0);
  }

  /** When no operand of the filter text reads as an operator, the filter parses iff the text has an operator. */
  lemma FilterParses(s: string)
    requires forall k :: 0 <= k < |Tokens(s)| && k % 2 == 0 ==> TokenRank(Tokens(s)[k]) == 6
    ensures Filter(s).Ok? <==> |Tokens(s)| > 1
    ensures Filter(s).Ok? ==> Flatten(Filter(s).value) == Tokens(s) && Ordered(Filter(s).value)
  {
    var tokens := Tokens(s);
    assert Alternating(tokens);
    BuildAstFlatten(tokens);
    BuildAstOrdered(tokens);
  }

  /** A filter value: a string from a format, or a truth value from an operator. */
  datatype Value = StrVal(s: string) | BoolVal(b: bool)

  /** Python truthiness. */
  predicate Truthy(v: Value) {
    match v
    case StrVal(s) => s != ""
    case BoolVal(b) => b
  }

  /**
   * The operator functions: `==`, `!=`, `b in a`, `b not in a`, and
   * Python's value-returning `and`/`or`. `in` with a truth value on
   * either side is a TypeError.
   */
  function ApplyOp(op: Op, a: Value, b: Value): (r: Result<Value>)
    ensures r.Err? <==> (op == Has || op == HasNot) && !(a.StrVal? && b.StrVal?)
    ensures r.Err? ==> r.error == TypeError
  {
    match op
    case Is => Ok(BoolVal(a == b))
    case IsNot => Ok(BoolVal(a != b))
    case Has => if a.StrVal? && b.StrVal? then Ok(BoolVal(Text.Contains(a.s, b.s))) else Err(TypeError)
    case HasNot => if a.StrVal? && b.StrVal? then Ok(BoolVal(!Text.Contains(a.s, b.s))) else Err(TypeError)
    case And => Ok(if Truthy(a) then b else a)
    case Or => Ok(if Truthy(a) then a else b)
  }

  /** `_evaluate`: leaves are formats applied to the row; both operands are always evaluated, left first. */
  function Eval(t: Tree, row: Row): (r: Result<Value>)
  {
    match t
    case Leaf(f) =>
      var v :- Apply(ParseFormat(f), row);
      Ok(StrVal(v))
    case Node(op, l, r) =>
      var a :- Eval(l, row);
      var b :- Eval(r, row);
      ApplyOp(op, a, b)
  }

  /**
   * What a node means: `and`/`or` are conjunction and disjunction of
   * truthiness, `is`/`is not` compare, `has` tests for a substring; and
   * since both operands are evaluated, an error on either side is the
   * node's error, the left one first.
   */
  lemma EvalNode(op: Op, l: Tree, r: Tree, row: Row)
    ensures Eval(l, row).Err? ==> Eval(Node(op, l, r), row) == Err(Eval(l, row).error)
    ensures Eval(l, row).Ok? && Eval(r, row).Err? ==> Eval(Node(op, l, r), row) == Err(Eval(r, row).error)
    ensures Eval(l, row).Ok? && Eval(r, row).Ok? ==>
      var a := Eval(l, row).value;
      var b := Eval(r, row).value;
      var v := Eval(Node(op, l, r), row);
      && (op == And ==> v.Ok? && (Truthy(v.value) <==> Truthy(a) && Truthy(b)))
      && (op == Or ==> v.Ok? && (Truthy(v.value) <==> Truthy(a) || Truthy(b)))
      && (op == Is ==> v == Ok(BoolVal(a == b)))
      && (op == IsNot ==> v == Ok(BoolVal(a != b)))
      && (op == Has && a.StrVal? && b.StrVal? ==> v == Ok(BoolVal(Text.Contains(a.s, b.s))))
      && (op == HasNot && a.StrVal? && b.StrVal? ==> v == Ok(BoolVal(!Text.Contains(a.s, b.s))))
  {
  }

  /** A leaf is the format's text for that row. */
  lemma EvalLeaf(f: string, row: Row)
    requires !Text.Contains(f, "<<")
    ensures Eval(Leaf(f), row) == Ok(StrVal(f))
  {
    ApplyPlain(f, row);
  }
}

=== FILE: text.dfy ===
/**
 * Python string operations the wiki tools rely on, on `string` (a
 * sequence of code points): `find`, `in`, `startswith`, `split`, `join`,
 * `strip`, `isspace`, `lower`, slicing with negative indices, `*` on
 * strings, code-point ordering and decimal rendering of integers.
 */
module Text {
  import Outcomes

  /** `pat` occurs in `s` starting at index `k`. */
  predicate OccursAt(s: string, pat: string, k: int) {
    0 <= k && k + |pat| <= |s| && forall j :: 0 <= j < |pat| ==> s[k + j] == pat[j]
  }

  lemma OccursAtSlice(s: string, pat: string, k: int)
    requires 0 <= k && k + |pat| <= |s|
    ensures OccursAt(s, pat, k) <==> s[k..k + |pat|] == pat
  {
    if OccursAt(s, pat, k) {
      assert s[k..k + |pat|] == pat;
    }
  }

  /** A one-character pattern occurs where that character is. */
  lemma OccursAtChar(s: string, c: char, k: int)
    ensures OccursAt(s, [c], k) <==> 0 <= k < |s| && s[k] == c
  {
    if 0 <= k < |s| && s[k] == c {
      assert s[k + 0] == [c][0];
    }
    if OccursAt(s, [c], k) {
      assert s[k + 0] == [c][0];
    }
  }

  /** Python's `pat in s`. */
  predicate Contains(s: string, pat: string) {
    exists k | 0 <= k <= |s| :: OccursAt(s, pat, k)
  }

  lemma ContainsChar(s: string, c: char)
    ensures Contains(s, [c]) <==> c in s
  {
    if c in s {
      var k :| 0 <= k < |s| && s[k] == c;
      OccursAtChar(s, c, k);
    }
    if Contains(s, [c]) {
      var k :| 0 <= k <= |s| && OccursAt(s, [c], k);
      OccursAtChar(s, c, k);
    }
  }

  predicate StartsWith(s: string, prefix: string) {
    |prefix| <= |s| && s[..|prefix|] == prefix
  }

  predicate EndsWith(s: string, suffix: string) {
    |suffix| <= |s| && s[|s| - |suffix|..] == suffix
  }

  lemma PrefixOfConcat(x: string, y: string)
    ensures StartsWith(x + y, x)
  {
    assert (x + y)[..|x|] == x;
  }

  lemma SuffixOfConcat(x: string, y: string)
    ensures EndsWith(x + y, y)
  {
    assert (x + y)[|x + y| - |y|..] == y;
  }

  /** A prefix of `s` is a prefix of anything `s` begins. */
  lemma PrefixExtend(s: string, p: string, y: string)
    requires StartsWith(s, p)
    ensures StartsWith(s + y, p)
  {
    assert (s + y)[..|p|] == s[..|p|];
  }

  /** Putting the same text in front keeps a prefix a prefix. */
  lemma PrefixCons(c: string, s: string, p: string)
    requires StartsWith(s, p)
    ensures StartsWith(c + s, c + p)
  {
    assert (c + s)[..|c + p|] == c + s[..|p|];
  }

  /** Python's `s.find(pat, from)`: the first occurrence at or after `from`, or -1. */
  function Find(s: string, pat: string, from: nat): (r: int)
    ensures r == -1 || (from <= r && OccursAt(s, pat, r))
    decreases |s| - from
  {
    if from + |pat| > |s| then -1
    else if OccursAt(s, pat, from) then from
    else Find(s, pat, from + 1)
  }

  /** `find` returns the first occurrence: there is none before it, and none at all when it returns -1. */
  lemma {:induction false} FindFirst(s: string, pat: string, from: nat)
    ensures var r := Find(s, pat, from);
      && (r == -1 ==> forall k :: from <= k ==> !OccursAt(s, pat, k))
      && (r != -1 ==> forall k :: from <= k < r ==> !OccursAt(s, pat, k))
    decreases |s| - from
  {
    if from + |pat| > |s| {
    } else if OccursAt(s, pat, from) {
    } else {
      FindFirst(s, pat, from + 1);
    }
  }

  /** The first occurrence at or after `from` is what `find` returns. */
  lemma {:induction false} FindIs(s: string, pat: string, from: nat, r: nat)
    requires from <= r && OccursAt(s, pat, r)
    requires forall k :: from <= k < r ==> !OccursAt(s, pat, k)
    ensures Find(s, pat, from) == r
    decreases r - from
  {
    if from < r {
      assert !OccursAt(s, pat, from);
      FindIs(s, pat, from + 1, r);
    }
  }

  lemma FindIsContains(s: string, pat: string)
    ensures Contains(s, pat) <==> Find(s, pat, 0) != -1
  {
    FindFirst(s, pat, 0);
    if Find(s, pat, 0) != -1 {
      assert OccursAt(s, pat, Find(s, pat, 0));
    }
  }

  /** An occurrence inside a prefix of `s` is an occurrence in `s`. */
  lemma OccursInPrefix(s: string, n: nat, pat: string, k: int)
    requires n <= |s|
    requires OccursAt(s[..n], pat, k)
    ensures OccursAt(s, pat, k)
  {
  }

  /** An occurrence inside a suffix of `s` is an occurrence in `s`, shifted. */
  lemma OccursInSuffix(s: string, n: nat, pat: string, k: int)
    requires n <= |s|
    requires OccursAt(s[n..], pat, k)
    ensures OccursAt(s, pat, k + n)
  {
    forall j | 0 <= j < |pat| ensures s[k + n + j] == pat[j] {
      assert s[n..][k + j] == pat[j];
    }
  }

  lemma OccursShift(s: string, n: nat, pat: string, k: int)
    requires n <= |s| && 0 <= k
    requires OccursAt(s, pat, k + n)
    ensures OccursAt(s[n..], pat, k)
  {
    forall j | 0 <= j < |pat| ensures s[n..][k + j] == pat[j] {
      assert s[k + n + j] == pat[j];
    }
  }

  /** `t` is the part of `s` from index `n` on. */
  predicate SuffixAt(s: string, t: string, n: nat) {
    n + |t| == |s| && forall i :: 0 <= i < |t| ==> t[i] == s[n + i]
  }

  lemma SuffixAtSlice(s: string, n: nat)
    requires n <= |s|
    ensures SuffixAt(s, s[n..], n)
  {
  }

  /** `find` on a suffix is `find` on the whole string, shifted. */
  lemma {:induction false} FindSuffix(s: string, t: string, n: nat, pat: string, from: nat)
    requires SuffixAt(s, t, n)
    ensures Find(t, pat, from) == -1 ==> Find(s, pat, n + from) == -1
    ensures Find(t, pat, from) != -1 ==> Find(s, pat, n + from) == Find(t, pat, from) + n
    decreases |s| - from
  {
    if from + n + |pat| > |s| {
    } else {
      assert OccursAt(t, pat, from) <==> OccursAt(s, pat, from + n) by {
        if OccursAt(s, pat, from + n) {
          forall j | 0 <= j < |pat| ensures t[from + j] == pat[j] {
            assert s[from + n + j] == pat[j];
          }
        }
      }
      if !OccursAt(s, pat, from + n) {
        FindSuffix(s, t, n, pat, from + 1);
      }
    }
  }

  /** Python's `s.split(sep)` for a non-empty separator. */
  function Split(s: string, sep: string): (r: seq<string>)
    requires |sep| > 0
    ensures |r| >= 1
    ensures Join(sep, r) == s
    ensures forall i :: 0 <= i < |r| ==> !Contains(r[i], sep)
    decreases |s|
  {
    var i := Find(s, sep, 0);
    if i == -1 then
      assert !Contains(s, sep) by { FindIsContains(s, sep); }
      [s]
    else
      var rest := Split(s[i + |sep|..], sep);
      assert !Contains(s[..i], sep) by {
        FindFirst(s, sep, 0);
        forall k | OccursAt(s[..i], sep, k) ensures false {
          OccursInPrefix(s, i, sep, k);
        }
      }
      assert s == s[..i] + sep + s[i + |sep|..];
      [s[..i]] + rest
  }

  /** Python's `sep.join(xs)`. */
  function Join(sep: string, xs: seq<string>): string {
    if |xs| == 0 then ""
    else if |xs| == 1 then xs[0]
    else xs[0] + sep + Join(sep, xs[1..])
  }

  /** `"".join(xs)`. */
  function Concat(xs: seq<string>): string {
    if |xs| == 0 then "" else xs[0] + Concat(xs[1..])
  }

  lemma {:induction false} ConcatAppend(xs: seq<string>, ys: seq<string>)
    ensures Concat(xs + ys) == Concat(xs) + Concat(ys)
    decreases |xs|
  {
    if |xs| > 0 {
      assert (xs + ys)[1..] == xs[1..] + ys;
      ConcatAppend(xs[1..], ys);
    } else {
      assert xs + ys == ys;
    }
  }

  lemma ConcatTwo(x: string, y: string, rest: seq<string>)
    ensures Concat([x, y] + rest) == x + (y + Concat(rest))
  {
    assert ([x, y] + rest)[1..] == [y] + rest;
    assert ([y] + rest)[1..] == rest;
  }

  /** `list(s)`: one entry per character. */
  function Chars(s: string): (r: seq<string>)
    ensures |r| == |s|
    ensures forall i :: 0 <= i < |s| ==> r[i] == [s[i]]
  {
    seq(|s|, i requires 0 <= i < |s| => [s[i]])
  }

  lemma {:induction false} ConcatChars(s: string)
    ensures Concat(Chars(s)) == s
    decreases |s|
  {
    if |s| > 0 {
      assert Chars(s)[1..] == Chars(s[1..]);
      ConcatChars(s[1..]);
      assert s == [s[0]] + s[1..];
    }
  }

  /** Python's `s.split(sep, 1)`: the text before and after the first separator. */
  function SplitOnce(s: string, sep: string): (r: Outcomes.Option<(string, string)>)
    requires |sep| > 0
    ensures r.None? <==> !Contains(s, sep)
    ensures r.Some? ==> s == r.value.0 + sep + r.value.1 && !Contains(r.value.0, sep)
  {
    var i := Find(s, sep, 0);
    FindIsContains(s, sep);
    if i == -1 then Outcomes.None
    else
      assert s == s[..i] + sep + s[i + |sep|..];
      assert !Contains(s[..i], sep) by {
        FindFirst(s, sep, 0);
        forall k | OccursAt(s[..i], sep, k) ensures false {
          OccursInPrefix(s, i, sep, k);
        }
      }
      Outcomes.Some((s[..i], s[i + |sep|..]))
  }

  /** A one-character pattern is found first where it first occurs. */
  lemma FindFirstChar(s: string, c: char, before: string)
    requires c !in before && |before| < |s| && s[..|before|] == before && s[|before|] == c
    ensures Find(s, [c], 0) == |before|
  {
    OccursAtChar(s, c, |before|);
    forall k | 0 <= k < |before| ensures !OccursAt(s, [c], k) {
      OccursAtChar(s, c, k);
      assert s[k] == before[k];
    }
    FindIs(s, [c], 0, |before|);
  }

  /** Splitting once on a one-character separator cuts at its first occurrence. */
  lemma SplitOnceChar(s: string, c: char, before: string, after: string)
    requires c !in before && s == before + [c] + after
    ensures SplitOnce(s, [c]) == Outcomes.Some((before, after))
  {
    FindFirstChar(s, c, before);
    assert s[|before| + 1..] == after;
  }

  /** Splitting on a one-character separator: the first piece runs up to its first occurrence. */
  lemma SplitChar(s: string, c: char, before: string, after: string)
    requires c !in before && s == before + [c] + after
    ensures Split(s, [c]) == [before] + Split(after, [c])
  {
    FindFirstChar(s, c, before);
    assert s[|before| + 1..] == after;
  }

  /** A text without the separator is one piece. */
  lemma SplitCharNone(s: string, c: char)
    requires c !in s
    ensures Split(s, [c]) == [s]
  {
    ContainsChar(s, c);
    FindIsContains(s, [c]);
  }

  /** Python's `s.rfind(c)`. */
  function LastIndex(s: string, c: char): (r: int)
    ensures r == -1 <==> c !in s
    ensures r != -1 ==> 0 <= r < |s| && s[r] == c && c !in s[r + 1..]
  {
    if |s| == 0 then -1
    else if s[|s| - 1] == c then |s| - 1
    else
      var r := LastIndex(s[..|s| - 1], c);
      assert s == s[..|s| - 1] + [s[|s| - 1]];
      if r != -1 then
        assert s[r + 1..] == s[..|s| - 1][r + 1..] + [s[|s| - 1]];
        r
      else r
  }

  /** Splitting on a one-character separator distributes over a separator between two texts. */
  lemma {:induction false} SplitConcatChar(a: string, b: string, c: char)
    ensures Split(a + [c] + b, [c]) == Split(a, [c]) + Split(b, [c])
    decreases |a|
  {
    ContainsChar(a, c);
    match SplitOnce(a, [c])
    case None =>
      SplitCharNone(a, c);
      SplitChar(a + [c] + b, c, a, b);
    case Some((before, after)) =>
      ContainsChar(before, c);
      SplitConcatChar(after, b, c);
      SplitConcatCharAt(a, b, c, before, after);
  }

  /** The step of `SplitConcatChar` when `a` holds the separator, cut at its first occurrence. */
  lemma SplitConcatCharAt(a: string, b: string, c: char, before: string, after: string)
    requires c !in before && a == before + [c] + after
    requires Split(after + [c] + b, [c]) == Split(after, [c]) + Split(b, [c])
    ensures Split(a + [c] + b, [c]) == Split(a, [c]) + Split(b, [c])
  {
    SplitCharCons(a, b, c, before, after);
    SplitChar(a, c, before, after);
    ConsAssoc(before, Split(after, [c]), Split(b, [c]));
  }

  lemma WrapAssoc<T>(a: seq<T>, b: seq<T>, c: seq<T>)
    ensures a + (b + c + []) == a + b + c
  {
  }

  lemma ConsAssoc<T>(x: T, l: seq<T>, r: seq<T>)
    ensures [x] + (l + r) == [x] + l + r
  {
  }

  lemma SplitCharCons(a: string, b: string, c: char, before: string, after: string)
    requires c !in before && a == before + [c] + after
    ensures Split(a + [c] + b, [c]) == [before] + Split(after + [c] + b, [c])
  {
    var x := after + [c] + b;
    assert a + [c] + b == before + [c] + x;
    SplitChar(a + [c] + b, c, before, x);
  }

  /** Splitting on a one-character separator undoes joining pieces that do not contain it. */
  lemma {:induction false} SplitJoinChar(xs: seq<string>, c: char)
    requires |xs| >= 1
    requires forall i :: 0 <= i < |xs| ==> c !in xs[i]
    ensures Split(Join([c], xs), [c]) == xs
    decreases |xs|
  {
    if |xs| == 1 {
      SplitCharNone(xs[0], c);
    } else {
      SplitJoinChar(xs[1..], c);
      SplitChar(Join([c], xs), c, xs[0], Join([c], xs[1..]));
    }
  }

  /** Python's `str.isspace` on one character, restricted to ASCII. */
  predicate IsWhitespace(c: char) {
    c == ' ' || c == '\t' || c == '\n' || c == '\r' || c == '\U{000B}' || c == '\U{000C}'
    || c == '\U{001C}' || c == '\U{001D}' || c == '\U{001E}' || c == '\U{001F}'
  }

  /** Python's `s.isspace()`: non-empty and all whitespace. */
  predicate IsSpace(s: string) {
    |s| > 0 && forall i :: 0 <= i < |s| ==> IsWhitespace(s[i])
  }

  predicate AllWhitespace(s: string) {
    forall i :: 0 <= i < |s| ==> IsWhitespace(s[i])
  }

  function LStrip(s: string): (r: string)
    ensures |r| <= |s| && r == s[|s| - |r|..]
    ensures AllWhitespace(s[..|s| - |r|])
    ensures r == "" || !IsWhitespace(r[0])
  {
    if |s| > 0 && IsWhitespace(s[0]) then
      var r := LStrip(s[1..]);
      assert s[1..][..|s| - 1 - |r|] == s[1..|s| - |r|];
      r
    else s
  }

  function RStrip(s: string): (r: string)
    ensures |r| <= |s| && r == s[..|r|]
    ensures AllWhitespace(s[|r|..])
    ensures r == "" || !IsWhitespace(r[|r| - 1])
  {
    if |s| > 0 && IsWhitespace(s[|s| - 1]) then
      var r := RStrip(s[..|s| - 1]);
      assert s[|r|..] == s[..|s| - 1][|r|..] + [s[|s| - 1]];
      r
    else s
  }

  /** Python's `s.strip()`. */
  function Strip(s: string): (r: string)
    ensures |r| == 0 || (!IsWhitespace(r[0]) && !IsWhitespace(r[|r| - 1]))
    ensures exists i, j :: 0 <= i <= j <= |s| && r == s[i..j] && AllWhitespace(s[..i]) && AllWhitespace(s[j..])
  {
    var l := LStrip(s);
    var r := RStrip(l);
    DropTake(s, |s| - |l|, |r|);
    DropDrop(s, |s| - |l|, |r|);
    r
  }

  lemma DropTake<T>(s: seq<T>, a: nat, b: nat)
    requires a + b <= |s|
    ensures s[a..][..b] == s[a..a + b]
  {
  }

  lemma DropDrop<T>(s: seq<T>, a: nat, b: nat)
    requires a + b <= |s|
    ensures s[a..][b..] == s[a + b..]
  {
  }

  /** A suffix cut in three. */
  lemma SliceThree<T>(s: seq<T>, a: nat, b: nat, c: nat)
    requires a <= b <= c <= |s|
    ensures s[a..] == s[a..b] + (s[b..c] + s[c..])
  {
  }

  lemma StripOfStripped(s: string)
    requires s == "" || (!IsWhitespace(s[0]) && !IsWhitespace(s[|s| - 1]))
    ensures Strip(s) == s
  {
  }

  function LowerChar(c: char): (r: char)
    ensures 'A' <= c <= 'Z' ==> 'a' <= r <= 'z'
    ensures !('A' <= c <= 'Z') ==> r == c
  {
    if 'A' <= c <= 'Z' then (c as int + 32) as char else c
  }

  /** Python's `s.lower()`, restricted to ASCII letters. */
  function Lower(s: string): (r: string)
    ensures |r| == |s|
    ensures forall i :: 0 <= i < |s| ==> r[i] == LowerChar(s[i])
  {
    seq(|s|, i requires 0 <= i < |s| => LowerChar(s[i]))
  }

  lemma LowerIdempotent(s: string)
    ensures Lower(Lower(s)) == Lower(s)
  {
  }

  /** Python's `s.replace(c, repl)` for a one-character pattern. */
  function ReplaceChar(s: string, c: char, repl: string): (r: string)
    ensures c !in s ==> r == s
    ensures !Contains(repl, [c]) ==> c !in r
  {
    if |s| == 0 then ""
    else
      var rest := ReplaceChar(s[1..], c, repl);
      var head := if s[0] == c then repl else [s[0]];
      assert !Contains(repl, [c]) ==> c !in head by {
        ContainsChar(repl, c);
      }
      head + rest
  }

  /** Python's `c * n` for a one-character string `c`. */
  function RepeatChar(c: char, n: int): (r: string)
    ensures |r| == (if n <= 0 then 0 else n)
    ensures forall i :: 0 <= i < |r| ==> r[i] == c
  {
    if n <= 0 then "" else [c] + RepeatChar(c, n - 1)
  }

  /** Python's normalisation of a slice bound against a length. */
  function SliceBound(i: int, n: nat): (r: nat)
    ensures r <= n
    ensures 0 <= i <= n ==> r == i
  {
    if i < 0 then (if i + n < 0 then 0 else i + n)
    else if i > n then n
    else i
  }

  /** Python's `s[lo:hi]` with negative and out-of-range bounds. */
  function Slice(s: string, lo: int, hi: int): (r: string)
    ensures 0 <= lo <= hi <= |s| ==> r == s[lo..hi]
    ensures |r| <= |s|
  {
    var a := SliceBound(lo, |s|);
    var b := SliceBound(hi, |s|);
    if a >= b then "" else s[a..b]
  }

  /** Python's `s[lo:]`. */
  function SliceFrom(s: string, lo: int): (r: string)
    ensures 0 <= lo <= |s| ==> r == s[lo..]
  {
    Slice(s, lo, |s|)
  }

  /** Python's `s[i]`: a negative index counts from the end; out of range raises IndexError. */
  function CharAt(s: string, i: int): (r: Outcomes.Result<char>)
    ensures r.Ok? <==> -|s| <= i < |s|
    ensures 0 <= i < |s| ==> r == Outcomes.Ok(s[i])
    ensures -|s| <= i < 0 ==> r == Outcomes.Ok(s[|s| + i])
  {
    if 0 <= i < |s| then Outcomes.Ok(s[i])
    else if -|s| <= i < 0 then Outcomes.Ok(s[|s| + i])
    else Outcomes.Err(Outcomes.IndexError)
  }

  /** Python's `<` on strings: code-point lexicographic order. */
  predicate LexLess(a: string, b: string)
    decreases |a|
  {
    if |a| == 0 then |b| > 0
    else if |b| == 0 then false
    else if a[0] != b[0] then a[0] < b[0]
    else LexLess(a[1..], b[1..])
  }

  lemma {:induction false} LexLessIrreflexive(a: string)
    ensures !LexLess(a, a)
    decreases |a|
  {
    if |a| > 0 {
      LexLessIrreflexive(a[1..]);
    }
  }

  lemma {:induction false} LexLessTransitive(a: string, b: string, c: string)
    requires LexLess(a, b) && LexLess(b, c)
    ensures LexLess(a, c)
    decreases |a|
  {
    if |a| > 0 && a[0] == b[0] && b[0] == c[0] {
      LexLessTransitive(a[1..], b[1..], c[1..]);
    }
  }

  lemma {:induction false} LexLessTotal(a: string, b: string)
    ensures a == b || LexLess(a, b) || LexLess(b, a)
    decreases |a|
  {
    if |a| > 0 && |b| > 0 && a[0] == b[0] {
      LexLessTotal(a[1..], b[1..]);
      if a[1..] == b[1..] {
        assert a == [a[0]] + a[1..] && b == [b[0]] + b[1..];
      }
    }
  }

  function DigitChar(d: nat): (c: char)
    requires d < 10
    ensures '0' <= c <= '9'
  {
    ('0' as int + d) as char
  }

  /** Python's `str(n)` for a natural number. */
  function NatToString(n: nat): (r: string)
    ensures |r| >= 1
    ensures forall i :: 0 <= i < |r| ==> '0' <= r[i] <= '9'
    decreases n
  {
    if n < 10 then [DigitChar(n)] else NatToString(n / 10) + [DigitChar(n % 10)]
  }

  /** The value of a string of decimal digits. */
  function DigitsValue(s: string): nat
    requires forall i :: 0 <= i < |s| ==> '0' <= s[i] <= '9'
  {
    if |s| == 0 then 0 else DigitsValue(s[..|s| - 1]) * 10 + (s[|s| - 1] as int - '0' as int)
  }

  /** Rendering a number and reading the digits back gives the number: `str` is injective on numbers. */
  lemma {:induction false} NatToStringRoundTrip(n: nat)
    ensures DigitsValue(NatToString(n)) == n
    decreases n
  {
    if n >= 10 {
      NatToStringRoundTrip(n / 10);
      var s := NatToString(n);
      assert s[..|s| - 1] == NatToString(n / 10);
    }
  }

  lemma NatToStringInjective(m: nat, n: nat)
    requires NatToString(m) == NatToString(n)
    ensures m == n
  {
    NatToStringRoundTrip(m);
    NatToStringRoundTrip(n);
  }

  /** Python's `str(n)` for an integer. */
  function IntToString(n: int): (r: string)
    ensures n >= 0 ==> r == NatToString(n)
    ensures n < 0 ==> r == "-" + NatToString(-n)
  {
    if n >= 0 then NatToString(n) else "-" + NatToString(-n)
  }

  /** Python's `xs.index(x)`, or -1 for the ValueError case. */
  function IndexOf<T(==)>(xs: seq<T>, x: T): (r: int)
    ensures r == -1 <==> x !in xs
    ensures r != -1 ==> 0 <= r < |xs| && xs[r] == x && x !in xs[..r]
  {
    if |xs| == 0 then -1
    else if xs[0] == x then 0
    else
      var r := IndexOf(xs[1..], x);
      if r == -1 then -1
      else
        assert xs[..r + 1] == [xs[0]] + xs[1..][..r];
        r + 1
  }

  /** The first position holding `x` is the one `IndexOf` finds. */
  lemma {:induction false} IndexOfAt<T>(xs: seq<T>, x: T, a: nat)
    requires a < |xs| && xs[a] == x && x !in xs[..a]
    ensures IndexOf(xs, x) == a
    decreases a
  {
    if a > 0 {
      assert xs[..a][0] == xs[0];
      assert xs[1..][..a - 1] == xs[..a][1..];
      IndexOfAt(xs[1..], x, a - 1);
    }
  }
}

=== FILE: urls.dfy ===
/**
 * `urllib.parse.urlparse`, the part of the standard library the link
 * tools lean on to tell external links, site paths and fragments apart.
 *
 * A URL is first cleaned (leading control characters and spaces dropped,
 * tabs and line breaks removed), then cut into the pieces it is made of:
 * `scheme:`, `//netloc`, the path, `;params`, `?query` and `#fragment`.
 * `Parts` keeps those pieces with a marker for each delimiter that was
 * present, so that gluing them back gives the cleaned URL again; `Url` is
 * what `urlparse` returns, where an absent piece is the empty string.
 */
module Urls {
  import Text
  import Outcomes

  datatype Url = Url(scheme: string, netloc: string, path: string, params: string, query: string, fragment: string)

  datatype Parts = Parts(
    scheme: Outcomes.Option<string>,
    netloc: Outcomes.Option<string>,
    path: string,
    params: Outcomes.Option<string>,
    query: Outcomes.Option<string>,
    fragment: Outcomes.Option<string>)

  /** A piece together with its delimiters, or nothing when it is absent. */
  function Wrap(piece: Outcomes.Option<string>, before: string, after: string): string {
    match piece
    case None => ""
    case Some(x) => before + x + after
  }

  function Unsplit(p: Parts): string {
    Wrap(p.scheme, "", ":") + (Wrap(p.netloc, "//", "") + UnsplitTail(p.path, p.params, p.query, p.fragment))
  }

  function UnsplitTail(path: string, params: Outcomes.Option<string>, query: Outcomes.Option<string>, fragment: Outcomes.Option<string>): string {
    path + Wrap(params, ";", "") + Wrap(query, "?", "") + Wrap(fragment, "#", "")
  }

  // Cleaning.

  /** The characters `urlsplit` strips from the front: C0 controls and space. */
  predicate IsC0OrSpace(c: char) {
    c <= ' '
  }

  function LStripC0(s: string): (r: string)
    ensures |r| <= |s| && r == s[|s| - |r|..]
    ensures forall k :: 0 <= k < |s| - |r| ==> IsC0OrSpace(s[k])
    ensures |r| == 0 || !IsC0OrSpace(r[0])
  {
    if |s| > 0 && IsC0OrSpace(s[0]) then
      var r := LStripC0(s[1..]);
      Text.DropDrop(s, 1, |s| - 1 - |r|);
      r
    else s
  }

  /** No tabs or line breaks, which `urlsplit` deletes wherever they are. */
  predicate Safe(s: string) {
    '\t' !in s && '\r' !in s && '\n' !in s
  }

  function RemoveUnsafe(s: string): (r: string)
    ensures Safe(r)
    ensures Safe(s) ==> r == s
    ensures |r| <= |s|
  {
    if |s| == 0 then ""
    else (if s[0] in "\t\r\n" then "" else [s[0]]) + RemoveUnsafe(s[1..])
  }

  function Clean(url: string): (r: string)
    ensures Safe(r)
    ensures (|url| == 0 || !IsC0OrSpace(url[0])) && Safe(url) ==> r == url
  {
    RemoveUnsafe(LStripC0(url))
  }

  // The scheme.

  predicate IsAsciiLetter(c: char) {
    'a' <= c <= 'z' || 'A' <= c <= 'Z'
  }

  /** `urllib.parse.scheme_chars`. */
  predicate IsSchemeChar(c: char) {
    IsAsciiLetter(c) || '0' <= c <= '9' || c == '+' || c == '-' || c == '.'
  }

  predicate IsScheme(s: string) {
    |s| > 0 && IsAsciiLetter(s[0]) && forall k :: 0 <= k < |s| ==> IsSchemeChar(s[k])
  }

  /** A scheme is what comes before the first `:`, when it has the shape of one. */
  function SplitScheme(url: string): (r: (Outcomes.Option<string>, string))
    ensures Wrap(r.0, "", ":") + r.1 == url
    ensures r.0.Some? ==> IsScheme(r.0.value)
    ensures r.0.Some? <==> var i := Text.Find(url, ":", 0); i > 0 && IsScheme(url[..i])
  {
    var i := Text.Find(url, ":", 0);
    if i > 0 && IsScheme(url[..i]) then
      Text.OccursAtChar(url, ':', i);
      assert url == url[..i] + ":" + url[i + 1..];
      (Outcomes.Some(url[..i]), url[i + 1..])
    else (Outcomes.None, url)
  }

  // The network location.

  predicate EndsNetloc(c: char) {
    c == '/' || c == '?' || c == '#'
  }

  /** The first `/`, `?` or `#` at or after `from`, or the end of the text. */
  function NetlocEnd(url: string, from: nat): (r: nat)
    requires from <= |url|
    ensures from <= r <= |url|
    ensures forall k :: from <= k < r ==> !EndsNetloc(url[k])
    ensures r < |url| ==> EndsNetloc(url[r])
    decreases |url| - from
  {
    if from == |url| || EndsNetloc(url[from]) then from else NetlocEnd(url, from + 1)
  }

  /** After `//`, the network location runs up to the next `/`, `?` or `#`. */
  function SplitNetloc(url: string): (r: (Outcomes.Option<string>, string))
    ensures Wrap(r.0, "//", "") + r.1 == url
    ensures r.0.Some? <==> Text.StartsWith(url, "//")
    ensures r.0.Some? ==> forall k :: 0 <= k < |r.0.value| ==> !EndsNetloc(r.0.value[k])
    ensures r.0.Some? ==> r.1 == "" || EndsNetloc(r.1[0])
  {
    if Text.StartsWith(url, "//") then
      var e := NetlocEnd(url, 2);
      assert url == "//" + url[2..e] + url[e..];
      (Outcomes.Some(url[2..e]), url[e..])
    else (Outcomes.None, url)
  }

  // Fragment, query and params.

  /** `s.split(sep, 1)` when `sep in s`: the text before the first `sep` and after it. */
  function SplitAt(s: string, sep: char): (r: (string, Outcomes.Option<string>))
    ensures r.0 + Wrap(r.1, [sep], "") == s
    ensures sep !in r.0
    ensures r.1.Some? <==> sep in s
  {
    Text.ContainsChar(s, sep);
    match Text.SplitOnce(s, [sep])
    case None => (s, Outcomes.None)
    case Some((before, after)) =>
      Text.ContainsChar(before, sep);
      Text.WrapAssoc(before, [sep], after);
      (before, Outcomes.Some(after))
  }

  /** `SplitAt` cuts at the first separator. */
  lemma SplitAtFirst(s: string, sep: char, before: string, after: string)
    requires sep !in before && s == before + [sep] + after
    ensures SplitAt(s, sep) == (before, Outcomes.Some(after))
  {
    Text.SplitOnceChar(s, sep, before, after);
  }

  lemma SuffixLacks(s: string, c: char, a: nat, b: nat)
    requires a <= b <= |s| && c !in s[a..]
    ensures c !in s[b..]
  {
    assert s[a..] == s[a..b] + s[b..];
  }

  /** Schemes whose paths may carry `;params` (`urllib.parse.uses_params`). */
  const UsesParams: set<string> := {
    "", "ftp", "hdl", "prospero", "http", "imap", "https", "shttp", "rtsp",
    "rtsps", "rtspu", "sip", "sips", "mms", "sftp", "tel"
  }

  /** The `;` at `i`, at or after the path's last `/`, cuts it into path and params. */
  lemma ParamsCut(path: string, from: nat, i: nat)
    requires from <= i < |path| && path[i] == ';'
    requires '/' !in path[from..] || (path[from] == '/' && '/' !in path[from + 1..])
    ensures path[..i] + Wrap(Outcomes.Some(path[i + 1..]), ";", "") == path
    ensures '/' !in path[i + 1..]
  {
    assert path == path[..i] + ";" + path[i + 1..];
    if '/' !in path[from..] {
      SuffixLacks(path, '/', from, i + 1);
    } else {
      SuffixLacks(path, '/', from + 1, i + 1);
    }
  }

  /** Where the search for the `;` of the params starts: the path's last `/`, or its start. */
  function ParamsFrom(path: string): (r: nat)
    ensures r <= |path|
    ensures '/' !in path[r..] || (path[r] == '/' && '/' !in path[r + 1..])
  {
    var slash := Text.LastIndex(path, '/');
    if slash == -1 then
      assert path[0..] == path;
      0
    else slash
  }

  /** Params start at the first `;` after the path's last `/`. */
  function SplitParams(path: string): (r: (string, Outcomes.Option<string>))
    ensures r.0 + Wrap(r.1, ";", "") == path
    ensures r.1.Some? ==> '/' !in r.1.value
    ensures ';' !in path ==> r == (path, Outcomes.None)
  {
    var i := Text.Find(path, ";", ParamsFrom(path));
    if i == -1 then (path, Outcomes.None)
    else
      Text.OccursAtChar(path, ';', i);
      ParamsCut(path, ParamsFrom(path), i);
      (path[..i], Outcomes.Some(path[i + 1..]))
  }

  /** After the network location: `path;params?query#fragment`. */
  function SplitTail(s: string, withParams: bool): (r: (string, Outcomes.Option<string>, Outcomes.Option<string>, Outcomes.Option<string>))
    ensures UnsplitTail(r.0, r.1, r.2, r.3) == s
    ensures '?' !in r.0 && '#' !in r.0
    ensures r.1.Some? ==> '?' !in r.1.value && '#' !in r.1.value
    ensures r.2.Some? ==> '#' !in r.2.value
    ensures !withParams ==> r.1.None?
  {
    var (beforeFragment, fragment) := SplitAt(s, '#');
    var (beforeQuery, query) := SplitAt(beforeFragment, '?');
    var (path, params) := if withParams then SplitParams(beforeQuery) else (beforeQuery, Outcomes.None);
    assert path + Wrap(params, ";", "") == beforeQuery;
    (path, params, query, fragment)
  }

  function SchemeName(scheme: Outcomes.Option<string>): string {
    Text.Lower(scheme.UnwrapOr(""))
  }

  /** The pieces of a cleaned URL, in the order `urlsplit` and `urlparse` take them off. */
  function SplitParts(url: string): (r: Parts)
    ensures Unsplit(r) == url
    ensures r.scheme.Some? ==> IsScheme(r.scheme.value)
    ensures r.netloc.Some? ==> forall k :: 0 <= k < |r.netloc.value| ==> !EndsNetloc(r.netloc.value[k])
    ensures '?' !in r.path && '#' !in r.path
    ensures r.params.Some? ==> '?' !in r.params.value && '#' !in r.params.value
    ensures r.query.Some? ==> '#' !in r.query.value
    ensures SchemeName(r.scheme) !in UsesParams ==> r.params.None?
  {
    var (scheme, afterScheme) := SplitScheme(url);
    var (netloc, afterNetloc) := SplitNetloc(afterScheme);
    var (path, params, query, fragment) := SplitTail(afterNetloc, SchemeName(scheme) in UsesParams);
    Parts(scheme, netloc, path, params, query, fragment)
  }

  /** A network location with a `[` but no `]`, or the other way round, is refused. */
  predicate BracketsUnbalanced(netloc: string) {
    ('[' in netloc) != (']' in netloc)
  }

  /** `urlparse(url)`: the pieces of the cleaned URL. */
  function Parse(url: string): Outcomes.Result<Url> {
    FromParts(SplitParts(Clean(url)))
  }

  /**
   * The result `urlparse` builds from the split pieces: absent pieces read
   * as `""` and the scheme is lower-cased; ValueError("Invalid IPv6 URL")
   * when the brackets of the network location do not pair up.
   */
  function FromParts(p: Parts): (r: Outcomes.Result<Url>)
    ensures r.Err? <==> BracketsUnbalanced(p.netloc.UnwrapOr(""))
    ensures r.Err? ==> r.error == Outcomes.ValueError
    ensures r.Ok? ==> r.value.path == p.path && r.value.netloc == p.netloc.UnwrapOr("") && r.value.fragment == p.fragment.UnwrapOr("")
  {
    var netloc := p.netloc.UnwrapOr("");
    if BracketsUnbalanced(netloc) then Outcomes.Err(Outcomes.ValueError)
    else Outcomes.Ok(Url(SchemeName(p.scheme), netloc, p.path, p.params.UnwrapOr(""), p.query.UnwrapOr(""), p.fragment.UnwrapOr("")))
  }

  /** What `urlparse` makes of a URL is what it makes of its pieces. */
  lemma ParseOfParts(url: string, p: Parts)
    requires SplitParts(Clean(url)) == p
    ensures Parse(url) == FromParts(p)
  {
  }

  /** No `#`, `?` or `;`: a text that stands for itself in a site path. */
  predicate Plain(s: string) {
    '#' !in s && '?' !in s && ';' !in s
  }

  lemma SplitTailPlain(path: string, fragment: Outcomes.Option<string>, withParams: bool)
    requires Plain(path)
    ensures SplitTail(path + Wrap(fragment, "#", ""), withParams) == (path, Outcomes.None, Outcomes.None, fragment)
  {
    if fragment.Some? {
      SplitAtFirst(path + Wrap(fragment, "#", ""), '#', path, fragment.value);
    } else {
      assert path + Wrap(fragment, "#", "") == path;
    }
  }

  lemma NoScheme(url: string)
    requires |url| > 0 && url[0] == '/'
    ensures SplitScheme(url) == (Outcomes.None, url)
  {
    var i := Text.Find(url, ":", 0);
    if i > 0 {
      assert url[..i][0] == '/';
    }
  }

  lemma NoNetloc(url: string)
    requires !Text.StartsWith(url, "//")
    ensures SplitNetloc(url) == (Outcomes.None, url)
  {
  }

  lemma SitePathStart(path: string, tail: string)
    requires |path| > 0 && path[0] == '/' && !Text.StartsWith(path, "//") && '#' !in path
    requires tail == "" || tail[0] == '#'
    ensures !Text.StartsWith(path + tail, "//")
  {
    var url := path + tail;
    if |url| >= 2 {
      if |path| >= 2 {
        assert url[..2] == path[..2];
      } else {
        assert url[..2][1] == '#';
      }
    }
  }

  lemma SplitPartsSitePath(path: string, fragment: Outcomes.Option<string>)
    requires |path| > 0 && path[0] == '/' && !Text.StartsWith(path, "//") && Plain(path)
    ensures SplitParts(path + Wrap(fragment, "#", ""))
      == Parts(Outcomes.None, Outcomes.None, path, Outcomes.None, Outcomes.None, fragment)
  {
    var url := path + Wrap(fragment, "#", "");
    assert url[0] == '/';
    NoScheme(url);
    SitePathStart(path, Wrap(fragment, "#", ""));
    NoNetloc(url);
    assert SchemeName(Outcomes.None) == "" by {
      assert Text.Lower("") == "";
    }
    SplitTailPlain(path, fragment, true);
  }

  /**
   * A site path such as `/wiki/Article` with an optional fragment parses
   * to that path and fragment, with no scheme and no network location.
   */
  lemma ParseSitePath(path: string, fragment: Outcomes.Option<string>)
    requires |path| > 0 && path[0] == '/' && !Text.StartsWith(path, "//") && Plain(path) && Safe(path)
    requires fragment.Some? ==> Safe(fragment.value)
    ensures Parse(path + Wrap(fragment, "#", "")) == Outcomes.Ok(Url("", "", path, "", "", fragment.UnwrapOr("")))
  {
    var url := path + Wrap(fragment, "#", "");
    var p := Parts(Outcomes.None, Outcomes.None, path, Outcomes.None, Outcomes.None, fragment);
    CleanSitePath(path, fragment);
    SplitPartsSitePath(path, fragment);
    ParseOfParts(url, p);
    assert SchemeName(Outcomes.None) == "" by {
      assert Text.Lower("") == "";
    }
  }

  lemma CleanSitePath(path: string, fragment: Outcomes.Option<string>)
    requires |path| > 0 && path[0] == '/' && Safe(path)
    requires fragment.Some? ==> Safe(fragment.value)
    ensures Clean(path + Wrap(fragment, "#", "")) == path + Wrap(fragment, "#", "")
  {
    var url := path + Wrap(fragment, "#", "");
    assert url[0] == '/';
    assert Safe(url);
  }
}

=== FILE: yamlrules.dfy ===
/**
 * The front-matter rules added to the YAML linter (wikitools/yaml_rules.py):
 * a stack of open mappings and sequences kept per rule, and three rules
 * that look at one token at a time with its neighbours. The tokens come
 * from the YAML scanner, which is not part of this model: a token is its
 * kind and its start mark.
 */
module YamlRules {
  import opened Outcomes
  import Text

  /** A position in the linted text, counted from 0 as the scanner does. */
  datatype Mark = Mark(line: nat, column: nat)

  /** The token kinds the rules tell apart; every other kind is `OtherToken`. */
  datatype Kind =
    | BlockMappingStart
    | FlowMappingStart
    | BlockSequenceStart
    | FlowSequenceStart
    | BlockEnd
    | FlowMappingEnd
    | FlowSequenceEnd
    | KeyToken
    | ValueToken
    | Scalar(value: string)
    | OtherToken

  datatype Token = Token(kind: Kind, start: Mark)

  /** One open collection on the stack. */
  datatype Frame = MappingFrame | SequenceFrame

  /** `_State`: the open collections, innermost last. */
  type State = seq<Frame>

  datatype Rule = NestedStructure | TopLevel | AllowedTags

  /** What a rule reports; `Message` gives its text. */
  datatype Issue = NestedIssue | TopLevelIssue | UnknownTag(name: string)

  /** A reported problem: 1-based line and column, what is wrong and the rule that says so; its level is `Level`. */
  datatype Problem = Problem(line: nat, column: nat, issue: Issue, rule: Rule)

  /** `ALLOWED_FRONT_MATTER_TAGS`. */
  const AllowedNames: set<string> := {
    "needs_cleanup", "layout", "legal", "outdated", "outdated_since", "outdated_translation", "stub", "tags",
    "translate_from", "date", "layout", "title", "tumblr_url"
  }

  /** A name whose length or first letter differs from every member's is new. */
  lemma AddName(s: set<string>, y: string)
    requires forall x :: x in s ==> |x| != |y| || (0 < |x| && 0 < |y| && x[0] != y[0])
    ensures |s + {y}| == |s| + 1
  {
    assert y !in s;
  }

  /** Two sets of names split by length add up. */
  lemma SplitByLength(a: set<string>, b: set<string>, n: nat)
    requires forall x :: x in a ==> |x| <= n
    requires forall y :: y in b ==> |y| > n
    ensures |a + b| == |a| + |b|
    ensures forall x :: x in a + b ==> |x| <= n || |x| > n
  {
    assert a * b == {};
  }

  /** The allowed names of at most five letters. */
  lemma ShortCount()
    ensures |ShortNames| == 5
    ensures forall x :: x in ShortNames ==> |x| <= 5
  {
    var s1: set<string> := {"stub"};
    AddName(s1, "tags");
    AddName(s1 + {"tags"}, "date");
    AddName(s1 + {"tags"} + {"date"}, "legal");
    AddName(s1 + {"tags"} + {"date"} + {"legal"}, "title");
    assert ShortNames == s1 + {"tags"} + {"date"} + {"legal"} + {"title"};
  }

  lemma MidCount()
    ensures |MidNames| == 3
    ensures forall x :: x in MidNames ==> 5 < |x| <= 10
  {
    var s1: set<string> := {"layout"};
    AddName(s1, "outdated");
    AddName(s1 + {"outdated"}, "tumblr_url");
    assert MidNames == s1 + {"outdated"} + {"tumblr_url"};
  }

  lemma LongCount()
    ensures |LongNames| == 4
    ensures forall x :: x in LongNames ==> |x| > 10
  {
    var s1: set<string> := {"needs_cleanup"};
    AddName(s1, "outdated_since");
    AddName(s1 + {"outdated_since"}, "translate_from");
    AddName(s1 + {"outdated_since"} + {"translate_from"}, "outdated_translation");
    assert LongNames == s1 + {"outdated_since"} + {"translate_from"} + {"outdated_translation"};
  }

  /** The allowed names grouped by length, which tells the groups apart. */
  const ShortNames: set<string> := {"stub", "tags", "date", "legal", "title"}
  const MidNames: set<string> := {"layout", "outdated", "tumblr_url"}
  const LongNames: set<string> := {"needs_cleanup", "outdated_since", "translate_from", "outdated_translation"}

  /** The three groups make up the allowed set; the repeated `layout` counts once. */
  lemma Grouped()
    ensures AllowedNames == ShortNames + MidNames + LongNames
  {
  }

  /** Groups of distinct names that differ in length add up. */
  lemma ThreeGroups(a: set<string>, b: set<string>, c: set<string>)
    requires |a| == 5 && |b| == 3 && |c| == 4
    requires forall x :: x in a ==> |x| <= 5
    requires forall x :: x in b ==> 5 < |x| <= 10
    requires forall x :: x in c ==> |x| > 10
    ensures |a + b + c| == 12
  {
    SplitByLength(a, b, 5);
    SplitByLength(a + b, c, 10);
  }

  /** The allowed set holds exactly twelve distinct names. */
  lemma AllowedCount()
    ensures |AllowedNames| == 12
  {
    ShortCount();
    MidCount();
    LongCount();
    Grouped();
    ThreeGroups(ShortNames, MidNames, LongNames);
  }

  /** Every problem of these rules is an error. */
  const Level: string := "error"

  function Id(rule: Rule): string {
    match rule
    case NestedStructure => "osu-wiki-nested-structure"
    case TopLevel => "osu-wiki-top-level"
    case AllowedTags => "osu-wiki-allowed-tags"
  }

  predicate StartsMapping(k: Kind) {
    k.BlockMappingStart? || k.FlowMappingStart?
  }

  predicate StartsSequence(k: Kind) {
    k.BlockSequenceStart? || k.FlowSequenceStart?
  }

  predicate EndsNested(k: Kind) {
    k.BlockEnd? || k.FlowMappingEnd? || k.FlowSequenceEnd?
  }

  predicate InsideMapping(st: State) {
    |st| > 0 && st[|st| - 1] == MappingFrame
  }

  predicate InsideSequence(st: State) {
    |st| > 0 && st[|st| - 1] == SequenceFrame
  }

  /**
   * How a token moves the stack once it has been checked: a mapping or
   * sequence start pushes, an end pops, and popping an empty stack does
   * nothing.
   */
  function Update(st: State, t: Token): (r: State)
    ensures StartsMapping(t.kind) ==> r == st + [MappingFrame]
    ensures StartsSequence(t.kind) ==> r == st + [SequenceFrame]
    ensures EndsNested(t.kind) ==> (|st| == 0 ==> r == []) && (|st| > 0 ==> r == st[..|st| - 1])
    ensures !StartsMapping(t.kind) && !StartsSequence(t.kind) && !EndsNested(t.kind) ==> r == st
  {
    if StartsMapping(t.kind) then st + [MappingFrame]
    else if StartsSequence(t.kind) then st + [SequenceFrame]
    else if EndsNested(t.kind) then (if |st| > 0 then st[..|st| - 1] else st)
    else st
  }

  /** A start followed by an end leaves the stack as it was. */
  lemma OpenThenClose(st: State, open: Token, close: Token)
    requires StartsMapping(open.kind) || StartsSequence(open.kind)
    requires EndsNested(close.kind)
    ensures Update(Update(st, open), close) == st
  {
    var pushed := Update(st, open);
    assert pushed[..|pushed| - 1] == st;
  }

  /** `_make_problem`: the position of the given token, counted from 1; there is no position without a token. */
  function MakeProblem(rule: Rule, at: Option<Token>, issue: Issue): (r: Result<Problem>)
    ensures at.None? <==> r.Err?
    ensures at.None? ==> r.error == AttributeError
    ensures at.Some? ==> r.value.line == at.value.start.line + 1 && r.value.column == at.value.start.column + 1
    ensures at.Some? ==> r.value.rule == rule && r.value.issue == issue
  {
    match at
    case None => Err(AttributeError)
    case Some(t) => Ok(Problem(t.start.line + 1, t.start.column + 1, issue, rule))
  }

  /** `_is_mapping_key`: a scalar between a key token and a value token. */
  predicate IsMappingKey(prev: Option<Token>, t: Token, next: Option<Token>) {
    && prev.Some? && prev.value.kind.KeyToken?
    && t.kind.Scalar?
    && next.Some? && next.value.kind.ValueToken?
  }

  function Message(issue: Issue): string {
    match issue
    case NestedIssue => "bad front matter: lists or dictionaries cannot contain other similarly complex objects"
    case TopLevelIssue => "bad front matter: the top level must be a dictionary, not a list"
    case UnknownTag(name) => "bad front matter: " + Repr(name) + " is not in the list of allowed tags"
  }

  // `{value!r}`: Python's `repr` of a string.

  /** The quote `repr` picks: `"` when the string holds `'` and no `"`, else `'`. */
  function ReprQuote(s: string): (q: char)
    ensures q == '"' <==> '\'' in s && '"' !in s
    ensures q == '"' || q == '\''
  {
    if '\'' in s && '"' !in s then '"' else '\''
  }

  function HexDigit(d: nat): char
    requires d < 16
  {
    "0123456789abcdef"[d]
  }

  /** A character that `repr` writes as itself. */
  predicate Printable(c: char) {
    ' ' <= c && c as int != 0x7f
  }

  /** One character inside the quotes: the chosen quote and `\` get a backslash, controls an escape. */
  function ReprChar(c: char, q: char): (r: string)
    ensures Printable(c) && c != q && c != '\\' ==> r == [c]
    ensures r != [q]
  {
    if c == q || c == '\\' then ['\\', c]
    else if c == '\n' then "\\n"
    else if c == '\r' then "\\r"
    else if c == '\t' then "\\t"
    else if !Printable(c) then "\\x" + [HexDigit(c as int / 16), HexDigit(c as int % 16)]
    else [c]
  }

  function ReprBody(s: string, q: char): string {
    if |s| == 0 then "" else ReprChar(s[0], q) + ReprBody(s[1..], q)
  }

  /** `repr(s)`: the escaped string between the chosen quotes. */
  function Repr(s: string): (r: string)
    ensures |r| >= 2 && r[0] == ReprQuote(s) && r[|r| - 1] == ReprQuote(s)
  {
    var q := ReprQuote(s);
    [q] + ReprBody(s, q) + [q]
  }

  /** A string without quotes, backslashes or control characters is written as it is, between single quotes. */
  lemma {:induction false} ReprPlain(s: string)
    requires forall i :: 0 <= i < |s| ==> Printable(s[i]) && s[i] != '\'' && s[i] != '"' && s[i] != '\\'
    ensures Repr(s) == "'" + s + "'"
  {
    PlainBody(s, '\'');
  }

  lemma {:induction false} PlainBody(s: string, q: char)
    requires forall i :: 0 <= i < |s| ==> Printable(s[i]) && s[i] != q && s[i] != '\\'
    ensures ReprBody(s, q) == s
  {
    if |s| > 0 {
      PlainBody(s[1..], q);
      assert s == [s[0]] + s[1..];
    }
  }

  /** A tag holding an apostrophe and no double quote is shown as it is between double quotes. */
  lemma ReprApostrophe(s: string)
    requires forall i :: 0 <= i < |s| ==> Printable(s[i]) && s[i] != '"' && s[i] != '\\'
    requires '\'' in s
    ensures Repr(s) == "\"" + s + "\""
  {
    assert '"' !in s;
    PlainBody(s, '"');
  }

  /** A tag holding both quotes is shown between single quotes, with its single quote escaped. */
  lemma ReprQuoteChoice()
    ensures Repr("it's") == "\"it's\""
    ensures Repr("'\"") == "'\\'\"'"
  {
    ReprApostrophe("it's");
    var s := "'\"";
    assert '"' in s;
    assert ReprQuote(s) == '\'';
    assert ReprBody(s[1..][1..], '\'') == "";
    assert ReprBody(s[1..], '\'') == "\"";
    assert ReprBody(s, '\'') == "\\'\"";
  }

  /** `_JunkMatcher.match_file`: every file but a `.md` file is ignored by the rules. */
  predicate Ignored(path: string) {
    !Text.EndsWith(path, ".md")
  }

  /** Articles are linted and nothing else is. */
  lemma OnlyArticlesLinted(stem: string, path: string)
    ensures !Ignored(stem + ".md")
    ensures !Ignored(path) ==> |path| >= 3 && path[|path| - 3..] == ".md"
  {
    assert (stem + ".md")[|stem|..] == ".md";
  }

  /** The condition `NestedStructureRule` flags. */
  predicate NestedFlags(st: State, k: Kind) {
    var allowed := InsideMapping(st) && StartsSequence(k);
    (InsideMapping(st) || InsideSequence(st)) && (StartsMapping(k) || StartsSequence(k)) && !allowed
  }

  /** The condition `TopLevelRule` flags. */
  predicate TopLevelFlags(st: State, k: Kind) {
    StartsSequence(k) && |st| == 0
  }

  /** `NestedStructureRule.inner_check`: reported at the next token, which must exist. */
  function NestedCheck(st: State, t: Token, next: Option<Token>): (r: Result<Option<Problem>>)
    ensures r.Err? || r.value.Some? <==>
      |st| > 0 && (StartsMapping(t.kind) || StartsSequence(t.kind)) && !(st[|st| - 1] == MappingFrame && StartsSequence(t.kind))
    ensures r.Err? ==> next.None? && r.error == AttributeError
    ensures r.Ok? && r.value.Some? ==>
      next.Some? && r.value.value == Problem(next.value.start.line + 1, next.value.start.column + 1, NestedIssue, NestedStructure)
  {
    if NestedFlags(st, t.kind) then
      var p :- MakeProblem(NestedStructure, next, NestedIssue);
      Ok(Some(p))
    else Ok(None)
  }

  /** `TopLevelRule.inner_check`: a sequence opened on an empty stack, reported at the next token. */
  function TopLevelCheck(st: State, t: Token, next: Option<Token>): (r: Result<Option<Problem>>)
    ensures r.Err? || r.value.Some? <==> StartsSequence(t.kind) && st == []
    ensures r.Err? ==> next.None? && r.error == AttributeError
    ensures r.Ok? && r.value.Some? ==>
      next.Some? && r.value.value == Problem(next.value.start.line + 1, next.value.start.column + 1, TopLevelIssue, TopLevel)
  {
    if TopLevelFlags(st, t.kind) then
      var p :- MakeProblem(TopLevel, next, TopLevelIssue);
      Ok(Some(p))
    else Ok(None)
  }

  /** `AllowedTagsRule.inner_check`: a key that is not an allowed tag, reported at the key itself. */
  function TagCheck(prev: Option<Token>, t: Token, next: Option<Token>): (r: Option<Problem>)
    ensures r.Some? <==> IsMappingKey(prev, t, next) && t.kind.value !in AllowedNames
    ensures r.Some? ==> r.value == Problem(t.start.line + 1, t.start.column + 1, UnknownTag(t.kind.value), AllowedTags)
  {
    if IsMappingKey(prev, t, next) && t.kind.value !in AllowedNames then
      Some(MakeProblem(AllowedTags, Some(t), UnknownTag(t.kind.value)).value)
    else None
  }

  /** `inner_check` of the given rule. */
  function InnerCheck(rule: Rule, st: State, prev: Option<Token>, t: Token, next: Option<Token>): Result<Option<Problem>> {
    match rule
    case NestedStructure => NestedCheck(st, t, next)
    case TopLevel => TopLevelCheck(st, t, next)
    case AllowedTags => Ok(TagCheck(prev, t, next))
  }

  function Prev(tokens: seq<Token>, i: nat): Option<Token>
    requires i < |tokens|
  {
    if i == 0 then None else Some(tokens[i - 1])
  }

  function Next(tokens: seq<Token>, i: nat): Option<Token>
    requires i < |tokens|
  {
    if i + 1 < |tokens| then Some(tokens[i + 1]) else None
  }

  function Found(p: Option<Problem>): seq<Problem> {
    if p.Some? then [p.value] else []
  }

  /**
   * `check` over the token stream from token `i`, with the stack `st`:
   * each token is checked against the stack as it stands before the
   * token, and only then moves the stack.
   */
  function RunFrom(rule: Rule, tokens: seq<Token>, i: nat, st: State): Result<seq<Problem>>
    decreases |tokens| - i
  {
    if i >= |tokens| then Ok([])
    else
      var p :- InnerCheck(rule, st, Prev(tokens, i), tokens[i], Next(tokens, i));
      var rest :- RunFrom(rule, tokens, i + 1, Update(st, tokens[i]));
      Ok(Found(p) + rest)
  }

  /** One rule over a whole token stream, starting from an empty stack. */
  function Run(rule: Rule, tokens: seq<Token>): Result<seq<Problem>> {
    RunFrom(rule, tokens, 0, [])
  }

  /** The stack after the first `i` tokens. */
  function StateAt(tokens: seq<Token>, i: nat): State
    requires i <= |tokens|
  {
    if i == 0 then [] else Update(StateAt(tokens, i - 1), tokens[i - 1])
  }

  /** The problems from token `i` on, each token judged against the stack its predecessors left. */
  function Reference(rule: Rule, tokens: seq<Token>, i: nat): Result<seq<Problem>>
    requires i <= |tokens|
    decreases |tokens| - i
  {
    if i == |tokens| then Ok([])
    else
      var p :- InnerCheck(rule, StateAt(tokens, i), Prev(tokens, i), tokens[i], Next(tokens, i));
      var rest :- Reference(rule, tokens, i + 1);
      Ok(Found(p) + rest)
  }

  /** Threading the stack through the loop is the same as rebuilding it from the tokens read so far. */
  lemma {:induction false} RunFromIsReference(rule: Rule, tokens: seq<Token>, i: nat)
    requires i <= |tokens|
    ensures RunFrom(rule, tokens, i, StateAt(tokens, i)) == Reference(rule, tokens, i)
    decreases |tokens| - i
  {
    if i < |tokens| {
      RunFromIsReference(rule, tokens, i + 1);
    }
  }

  /** A whole run checks every token against the stack of the tokens before it. */
  lemma RunIsReference(rule: Rule, tokens: seq<Token>)
    ensures Run(rule, tokens) == Reference(rule, tokens, 0)
  {
    RunFromIsReference(rule, tokens, 0);
  }

  /**
   * The three rules, each run over the whole token stream in turn: the
   * nesting rule's problems, then the top-level rule's, then the tag
   * rule's, each in token order; the first rule to raise decides the
   * error. yamllint itself interleaves the rules token by token and orders
   * the problems by position; that driver is not part of this model.
   */
  function CheckAll(tokens: seq<Token>): Result<seq<Problem>> {
    var nested :- Run(NestedStructure, tokens);
    var top :- Run(TopLevel, tokens);
    var tags :- Run(AllowedTags, tokens);
    Ok(nested + top + tags)
  }

  // ---------------------------------------------------------------------
  // Examples

  function At(kind: Kind, line: nat, column: nat): Token {
    Token(kind, Mark(line, column))
  }

  /** One step of the loop: the token's own problem, then the problems of the rest. */
  lemma RunStep(rule: Rule, tokens: seq<Token>, i: nat, st: State, p: Option<Problem>, rest: seq<Problem>)
    requires i < |tokens|
    requires InnerCheck(rule, st, Prev(tokens, i), tokens[i], Next(tokens, i)) == Ok(p)
    requires RunFrom(rule, tokens, i + 1, Update(st, tokens[i])) == Ok(rest)
    ensures RunFrom(rule, tokens, i, st) == Ok(Found(p) + rest)
  {
  }

  /** The end of the stream adds nothing. */
  lemma RunEnd(rule: Rule, tokens: seq<Token>, st: State)
    ensures RunFrom(rule, tokens, |tokens|, st) == Ok([])
  {
  }

  /** No allowed tag is seven letters long. */
  lemma SevenLetters(name: string)
    requires |name| == 7
    ensures name !in AllowedNames
  {
  }

  /** The tokens of a one-key mapping. */
  function OneKey(name: string): seq<Token> {
    [At(BlockMappingStart, 1, 0), At(KeyToken, 1, 0), At(Scalar(name), 1, 0), At(ValueToken, 1, |name|)]
  }

  /** The key and its value token, with the mapping open. */
  lemma OneKeyAfterStart(name: string, p: Option<Problem>)
    requires p == TagCheck(Some(OneKey(name)[1]), OneKey(name)[2], Some(OneKey(name)[3]))
    ensures RunFrom(AllowedTags, OneKey(name), 1, [MappingFrame]) == Ok(Found(p))
  {
    var ts := OneKey(name);
    var m := [MappingFrame];
    assert Found(None) + [] == [];
    RunEnd(AllowedTags, ts, m);
    RunStep(AllowedTags, ts, 3, m, None, []);
    RunStep(AllowedTags, ts, 2, m, p, []);
    assert Found(p) + [] == Found(p);
    RunStep(AllowedTags, ts, 1, m, None, Found(p));
    assert Found(None) + Found(p) == Found(p);
  }

  /**
   * A key of the top mapping (on the line after `---`) is reported at the
   * key, line 2 column 1, exactly when it is not an allowed tag.
   */
  lemma OneKeyReported(name: string)
    ensures name !in AllowedNames ==> Run(AllowedTags, OneKey(name)) == Ok([Problem(2, 1, UnknownTag(name), AllowedTags)])
    ensures name in AllowedNames ==> Run(AllowedTags, OneKey(name)) == Ok([])
  {
    var ts := OneKey(name);
    var p := TagCheck(Some(ts[1]), ts[2], Some(ts[3]));
    OneKeyAfterStart(name, p);
    assert Update([], ts[0]) == [MappingFrame];
    assert Found(None) + Found(p) == Found(p);
    RunStep(AllowedTags, ts, 0, [], None, Found(p));
  }

  /** `outdate` is reported; `tags` is not. */
  lemma UnknownTagExample()
    ensures Run(AllowedTags, OneKey("outdate")) == Ok([Problem(2, 1, UnknownTag("outdate"), AllowedTags)])
    ensures Run(AllowedTags, OneKey("tags")) == Ok([])
  {
    SevenLetters("outdate");
    OneKeyReported("outdate");
    OneKeyReported("tags");
  }

  /** A mapping as the value of a key in the top mapping is reported at the token after its start. */
  lemma NestedMappingExample(ts: seq<Token>)
    requires ts == [At(BlockMappingStart, 1, 0), At(BlockMappingStart, 2, 2), At(KeyToken, 2, 2)]
    ensures Run(NestedStructure, ts) == Ok([Problem(3, 3, NestedIssue, NestedStructure)])
  {
    var m := [MappingFrame];
    var bad := Problem(3, 3, NestedIssue, NestedStructure);
    RunEnd(NestedStructure, ts, m + m);
    assert Found(None) + [] == [];
    RunStep(NestedStructure, ts, 2, m + m, None, []);
    assert Update(m, ts[1]) == m + m;
    RunStep(NestedStructure, ts, 1, m, Some(bad), []);
    assert Found(Some(bad)) + [] == [bad];
    assert Found(None) + [bad] == [bad];
    assert Update([], ts[0]) == m;
    RunStep(NestedStructure, ts, 0, [], None, [bad]);
  }

  /** A list as the value of a key is allowed. */
  lemma ListInMappingExample(ts: seq<Token>)
    requires ts == [At(BlockMappingStart, 1, 0), At(FlowSequenceStart, 1, 6), At(FlowSequenceEnd, 1, 8)]
    ensures Run(NestedStructure, ts) == Ok([])
  {
    var m := [MappingFrame];
    RunEnd(NestedStructure, ts, m);
    RunStep(NestedStructure, ts, 2, m + [SequenceFrame], None, []);
    assert Found(None) + [] == [];
    RunStep(NestedStructure, ts, 1, m, None, []);
    assert Update([], ts[0]) == m;
    RunStep(NestedStructure, ts, 0, [], None, []);
  }

  /** A list at the top is reported at the token after its start. */
  lemma TopLevelListExample(ts: seq<Token>)
    requires ts == [At(BlockSequenceStart, 1, 0), At(OtherToken, 1, 0)]
    ensures Run(TopLevel, ts) == Ok([Problem(2, 1, TopLevelIssue, TopLevel)])
  {
    var bad := Problem(2, 1, TopLevelIssue, TopLevel);
    RunEnd(TopLevel, ts, [SequenceFrame]);
    assert Found(None) + [] == [];
    RunStep(TopLevel, ts, 1, [SequenceFrame], None, []);
    assert Update([], ts[0]) == [SequenceFrame];
    RunStep(TopLevel, ts, 0, [], Some(bad), []);
    assert Found(Some(bad)) + [] == [bad];
  }
}
